=== FILE: README.md ===
# cbtree: a B+tree with a per-node lookup cache, and its instrumentation

This project models the in-kernel B+tree "cbtree" in Dafny, together with the
two small instrumentation units that ship with it. It proves properties of the
model.

- **The tree engine** (`cbtree_base.c`, `cbtree_base.h`).
  - Keys are arrays of `keylen` machine words, compared word 0 first.
  - Every node is one block of `NODESIZE` bytes. It holds up to `no_pairs`
    slots of (key, value), sorted by descending key, and then three
    cache-control words.
  - A leaf maps keys to non-NULL values. An internal node maps separators to
    children: the child in a slot holds keys at or above its separator and
    below the separator of the slot before it.
  - The model covers lookup, update, `cbtree_last` and `cbtree_get_prev`,
    the `cbtree_for_each_safe` iteration, insert (with node splits and root
    growth), remove (with merge, `rebalance` and shrink), `cbtree_merge` of
    two trees, the visitors and `cbtree_init`.
  - The tree is an immutable datatype (`Leaf` or `Index` of slot sequences).
    The node pool is a count `avail` of nodes the pool can still supply.
- **The node cache** (`cbtree_cache.c`, and its use in `merge`, `rebalance`
  and `cbtree_shrink`).
  - Each node owns a ring of four slot records. Each record points at a
    node and holds a copy of a key.
  - A node counts how many slot records point at it. A node that leaves the
    tree while still cached is marked deleted. The last slot to let go of it
    frees it.
  - The model is a heap of node records and slot records with exact
    reference counting. It checks which frees are safe: no freed node is
    still pointed at, and no node is freed twice.
- **`ds_monitoring.c`**: a table of visit counters keyed by a client-defined
  index, with a running total, and the report that prints each counter's
  share of the total.
- **`calclock.c`**: `separate_num`, which prints a 64-bit number with
  thousands separators, and the arithmetic of `__ktprint`. That arithmetic
  is a running maximum, a percentage in hundredths, and a per-CPU share.

Each operation is stated twice:

- as the code does it;
- against an independent reading: the map from keys to values that the
  leaves denote, the reference counts, the decimal digits of a number.

Where the code as written departs from what it evidently means, both
readings are in the model (see "Findings").

## Model

| member | source | states |
|---|---|---|
| Keys.Longcmp | cbtree_base.c:117-128 | The three-way compare of two n-word keys returns 0 exactly when the keys are equal, and otherwise says which key comes first, word 0 deciding first. |
| Keys.LongcmpOrder | cbtree_base.c:117-128 | When every word is below 2^64, the compare agrees with the numeric order of the keys read as base-2^64 numbers with word 0 most significant. |
| Keys.KeyValInjective | cbtree_base.c:117-128 | Two well-formed keys of the same length that denote the same number are the same key, so numeric order is a total order on keys. |
| Keys.CacheLongcmp | cbtree_cache.c:82-91 | The cache's key compare returns 0 exactly when the first n words of the two keys agree. |
| Keys.KeyZero | cbtree_base.c:248-257 | `keyzero` holds exactly when every word of the key is 0. |
| Keys.KeyZeroVal | cbtree_base.c:248-257 | `keyzero` holds exactly of the keys whose value is zero. |
| Keys.DecKeyValue | cbtree_base.c:149-160 | `dec_key` of a non-zero key is the key one smaller. The zero key wraps around to the all-ones key. |
| Keys.KeyValMax | cbtree_base.c:149-160 | No n-word key exceeds the all-ones key. |
| Geometry.NodeSize | cbtree_base.h:213 | `NODESIZE` is at least 128 bytes and at least one L1 cache line. |
| Geometry.GeometryOverflowAsWritten | cbtree_base.c:58-77 | With a 128-byte node and 8-byte words, the geometry as written puts the deleted flag of a one-word-key node at word 16 of a 16-word block, past its end. It also starts the cache region of a 128-bit-key node at word 20. |
| Geometry.FixedGeo | cbtree_base.c:58-77 | In the corrected geometry the key region has exactly `keylen` words for each pair, and `no_pairs` is the largest number of pairs whose keys and values fit in the block beside the three cache words: one pair more would not fit. |
| Geometry.FixedGeometryFits | cbtree_base.c:112 | In the corrected geometry, the cache region that `cbtree_node_alloc` hands to `initQueue` and its count and deleted words lie inside the node block. |
| Geometry.StandardGeometries | cbtree_base.c:58-77 | The three standard geometries leave room for at least four pairs per node, for 4- and 8-byte words, both as written and corrected. A split therefore leaves two entries on each side. |
| Nodes.GetPos | cbtree_base.c:412-422 | `getpos` returns the first slot from i on whose key is at most k, or the slot count when there is none. Every slot before it holds a larger key. |
| Nodes.GetPosBounds | cbtree_base.c:412-422 | Numerically, every key before the slot `getpos` returns is greater than k, and the key there is at most k. |
| Nodes.GetFill | cbtree_base.c:424-432 | `getfill` returns the first slot from `start` on with a NULL value, or the slot count. Every slot in between has a value. |
| Nodes.FillOfWellFilled | cbtree_base.c:424-432 | On a node whose used slots form a prefix, `getfill` from any used slot finds the number of used slots. |
| Nodes.Layout | cbtree_base.c:184-188 | A node's slot array is its used prefix followed by cleared slots (zero key, NULL value), padded to `no_pairs`. |
| Nodes.InsertSlots | cbtree_base.c:553-558 | The shift-and-insert loop yields the used slots with the pair inserted at `pos`. The slots before `pos` are kept and the later ones move up one. |
| Nodes.RemoveSlots | cbtree_base.c:698-702 | The remove-and-shift loop yields the used slots with slot `pos` removed. The last formerly used slot is cleared. |
| Nodes.SplitSlots | cbtree_base.c:536-547 | The split loop gives the new node the first fill/2 pairs. The rest slide to the front of the old node and every vacated slot is cleared. Together the two halves are the original pairs. |
| Nodes.MergeSlots | cbtree_base.c:583-587 | The merge loop appends the right node's pairs after the left node's pairs. |
| Nodes.InsertKeepsDescending | cbtree_base.c:553-558 | Inserting a key not yet stored at the slot `getpos` picks keeps the keys strictly descending. |
| Nodes.LeafRemoveZeroKeyLosesEntry | cbtree_base.c:690-702 | As written, removing the absent zero key from the leaf {5 -> 7} returns NULL and still clears the entry for 5. |
| Nodes.LeafRemoveEmptyOverrunAsWritten | cbtree_base.c:690-700 | As written, after 5 is removed from the leaf {5 -> 7}, removing the zero key matches cleared slot 0 of the now empty leaf. `clearpair` of slot fill - 1 = -1 then zeroes the word in front of the node block. |
| Nodes.EmptyNodeOverrun | cbtree_base.c:690-700 | As written, in any node with no used slot the zero key matches slot 0, NULL comes back, and the clear of slot -1 zeroes `keylen` words in front of the block. |
| Nodes.LeafRemove | cbtree_base.c:690-702 | The leaf step of removal, with the match test confined to used slots. A hit removes exactly that slot and returns its value. A miss changes nothing and returns NULL. |
| Nodes.LeafRemoveHit | cbtree_base.c:690-702 | When the key sits at used slot `pos`, the later used slots move down one and the freed last slot is cleared. |
| Nodes.LeafRemoveMiss | cbtree_base.c:690-702 | When `getpos` stops on a different key or past the used slots, no used slot of a descending leaf holds the key. |
| BTree.Route | cbtree_base.c:443-456 | One level of `find_level` takes the first slot whose separator is at most k. When there is none, it lowers the last separator to k and takes that slot, so a non-empty node always yields a child. |
| BTree.RouteValid | cbtree_base.c:443-456 | The `find_level` step keeps a well-formed node well formed and keeps its leaf entries. The slot it takes is the one whose key range holds k. |
| BTree.Lower | cbtree_base.c:437-460 | `find_level` down to the leaves keeps the tree well formed and its leaf entries unchanged, and leaves every node on the path able to route k. It rewrites only separators, so the tree keeps exactly the nodes it had. |
| BTree.LowerRouted | cbtree_base.c:437-460 | `find_level` on a path that already leads to k lowers no separator and leaves the tree as it is. |
| BTree.LastKeyMin | cbtree_base.c:474-476 | The key in the last used slot of a node is the smallest key stored below it. `cbtree_grow` uses it as the separator of the old root. |
| Search.ScanAllSlots | cbtree_base.c:326-329 | The leaf scan over all `no_pairs` slots, unused ones included, returns what a scan of the used slots returns. A cleared slot matching the zero key holds NULL, which is the not-found answer. |
| Search.LookupInFinds | cbtree_base.c:315-330 | On a well-formed tree the descent finds the value the leaf map holds under k, and NULL exactly when k is not stored. |
| Search.Lookup | cbtree_base.c:315-330 | `cbtree_lookup` returns the value the tree's map holds under k, or NULL when k is absent or the tree is empty. |
| Search.UpdateInSpec | cbtree_base.c:333-349 | The update descent changes the value of the one entry whose key is k and nothing else, and finds nothing exactly when k is not stored. |
| Search.Update | cbtree_base.c:333-349 | `cbtree_update` as meant returns 0 and maps k to the new value when k is stored, leaving every other key as it was. Otherwise it returns -ENOENT with the tree unchanged. As written, an absent zero key can match an unused slot (see Findings). |
| Search.UpdateZeroKeyAsWritten | cbtree_base.c:343-348 | As written, updating the absent zero key of a one-entry leaf returns 0 and writes the value into the first unused slot, so the leaf gains an entry. The corrected update returns -ENOENT. |
| Search.LeafUpdateAgrees | cbtree_base.c:343-348 | For every key but zero, the all-slot scan as written updates exactly what the corrected leaf update does. |
| Search.Last | cbtree_base.c:223-237 | `cbtree_last` as meant returns the value and key of the entry with the largest key. On an empty tree it returns NULL and leaves the caller's key unchanged. As written, an emptied height-1 leaf zeroes the caller's key (see Findings). |
| Search.LastAgrees | cbtree_base.c:223-237 | On a non-empty tree, the engine's walk down slot 0 returns the entry with the largest key. |
| Search.LastEmptyLeafAsWritten | cbtree_base.c:229-236 | A height-1 tree whose leaf was emptied: as written, `cbtree_last` returns NULL but overwrites the caller's key with the zero key. |
| Insertion.SplitAdd | cbtree_base.c:522-548 | Adding a pair at `pos` of a full node splits it into two halves that, taken together, are the pairs with the new one inserted at `pos`. The first half holds about half of them and ends with the old node's middle pair. |
| Insertion.InsertRecSpec | cbtree_base.c:501-561 | Inserting a new key below a well-formed, routed node gives one well-formed node or two halves fenced by a split key. The result holds exactly the old entries plus the new pair. |
| Insertion.PathLenHeight | cbtree_base.c:437-460 | In a well-formed tree of height h, every search path has h nodes. |
| Insertion.Splits | cbtree_base.c:522-548 | The pool nodes one insert takes are one per split node on the path. The whole path splits exactly when the outcome is a split. |
| Insertion.Need | cbtree_base.c:462-482 | An insert into an empty tree needs at least one node, and no insert needs more than the height plus one. |
| Insertion.Insert | cbtree_base.c:563-569 | `cbtree_insert` of a new key returns -ENOMEM exactly when the pool cannot supply the nodes it needs, and then leaves the map and height alone. Otherwise it returns 0 and the map gains exactly the new pair. The height grows by one exactly when every node on the path splits. The head invariant holds either way. |
| Insertion.FailedInsertNeed | cbtree_base.c:563-569 | After an insert that failed for want of nodes, the tree needs exactly as many nodes for the same pair as before. |
| Insertion.InsertRecNodes | cbtree_base.c:522-548 | Each split on the path takes one node from the pool, and the node goes into the tree. A changed node grows by the splits below it. The two halves of a split node hold its old nodes plus those splits plus one. |
| Insertion.InsertNodes | cbtree_base.c:462-569 | A successful insert grows the tree by exactly the nodes it takes from the pool (`Need`), the new root included. A failed insert leaves the node count unchanged. |
| Insertion.FirstLeaf | cbtree_base.c:462-482 | The first insert into an empty tree grows a height-1 root leaf holding the pair alone. |
| Insertion.InsertRoot | cbtree_base.c:462-482 | The node the root becomes, or the new root over its two halves, is a well-formed root holding the old contents and the new pair. |
| Insertion.RootSplit | cbtree_base.c:462-482 | A new root over two split halves is well formed, with two children, and holds the entries of both. |
| Removal.WithoutMap | cbtree_base.c:676-712 | Dropping the entries with key k drops k from the map and nothing else. |
| Removal.MergeValid | cbtree_base.c:574-590 | Two nodes of one level whose keys a bound separates, and whose pairs fit one node, merge into a well-formed node holding the keys of both. |
| Removal.DropKid | cbtree_base.c:617-622 | Dropping a child's slot keeps the remaining slots well formed and brings in no key. |
| Removal.RebalanceOk | cbtree_base.c:610-674 | `rebalance` keeps the parent's slots well formed and brings in no key, whichever way it goes: dropping an empty child, merging with a neighbour when the pairs fit, or leaving the node underfull. |
| Removal.RemoveRecSpec | cbtree_base.c:676-712 | Removal below a well-formed node on the path of k keeps it well formed. Only the entry with key k leaves it, and its value comes back, or NULL when there was none. |
| Removal.ShrinkOk | cbtree_base.c:484-499 | The single child that replaces the root is a well-formed node one level lower. |
| Removal.CollapseOk | cbtree_base.c:484-499 | Shrinking while the root is internal with one child ends in a root that is a leaf or has two children, so the head invariant holds. |
| Removal.Remove | cbtree_base.c:714-721 | `cbtree_remove` as meant returns the value stored under k, or NULL when absent. The map loses k and nothing else, and the head invariant holds afterwards. As written, removing an absent zero key can clear another entry (see Findings). The model repeats the root shrink (see Left out). |
| Removal.RemoveLeavesLoneChild | cbtree_base.c:704-708 | As written, removing 5 shrinks the root once. On a height-3 tree whose root has two single-child children, that leaves a root with a single child, which breaks the head invariant. `Valid` admits this tree, but `rebalance` would have merged the two children, so this is not a state `cbtree_remove` reaches (see Left out). |
| Removal.RemoveLeavesEmptyRoot | cbtree_base.c:704-708 | As written, removing 12 from that single-child root leaves a non-NULL root with no entries at height 2, from which `find_level` cannot descend. The starting root only follows from a tree outside the neighbour invariant (see Left out). |
| Removal.RemoveCollapsesRoot | cbtree_base.c:704-708 | On the same tree, the removal that repeats the shrink leaves the remaining entry in a root leaf. |
| Ordered.DescendSpec | cbtree_base.c:377-401 | Each descent of `cbtree_get_prev` either hits the largest entry at or below x, or misses. A miss reports the deepest separator to retry from, with nothing stored between it and x. |
| Ordered.PrevFrom | cbtree_base.c:372-408 | The retry loop returns the entry with the largest key strictly below x, or nothing when there is no smaller key. |
| Ordered.GetPrev | cbtree_base.c:360-409 | `cbtree_get_prev` as meant returns the entry with the largest key strictly below `key`, with that key. When no smaller key is stored, it returns NULL and `key` is unchanged. As written, a zero retry separator wraps around (see Findings). |
| Ordered.PrevContents | cbtree_base.c:360-409 | The retry loop's answer, read on the tree's map, is the predecessor of the key. |
| Ordered.GetPrevWrapAsWritten | cbtree_base.c:372-375 | A tree holding 12, 11 and 5 whose last separator is the zero key: asked for the entry below 3, the engine as written wraps the zero separator to the all-ones key and returns 12. The corrected one returns NULL. |
| Ordered.ForEachCyclesAsWritten | cbtree_base.h:220-223 | On the same tree, `cbtree_get_prev` as written steps from 12 to 11, from 11 to 5, and from 5 back to 12, so `cbtree_for_each_safel` never ends. |
| Ordered.ForEachSafe | cbtree_base.h:220-223 | The `cbtree_last` then `cbtree_get_prev` loop as meant visits every stored entry exactly once, largest key first, with non-NULL values. Its visits denote the tree's map. As written, the wrap of a zero separator in `cbtree_get_prev` can make the loop cycle for ever (see Findings). |
| Ordered.FirstEntry | cbtree_base.c:223-237 | What `cbtree_last` promises on a map is the first entry of the descending run of leaves. |
| Ordered.NextEntry | cbtree_base.c:360-409 | What `cbtree_get_prev` promises from the key of entry n is entry n + 1, or NULL past the last entry. |
| WholeTree.MoveKeeps | cbtree_base.c:741-754 | One round of the merge loop moves the victim's largest entry to the target. It keeps the union of the two maps and their disjointness. |
| WholeTree.Drain | cbtree_base.c:741-757 | Draining keeps both trees well formed and disjoint, with the same union. It returns 0 or -ENOMEM. On 0 the victim is empty. On -ENOMEM the victim still holds entries, and the nodes left in the pool are fewer than inserting its largest entry into the target needs. The nodes left in the pool are `avail` less exactly the nodes the target has grown by, so a failure cannot be reported while the pool still holds what the next insert needs. |
| WholeTree.MergeTrees | cbtree_base.c:724-758 | `cbtree_merge` of disjoint trees: on 0 the target holds the union and the victim is empty. An empty target takes the victim's root and height and uses no node. On -ENOMEM no entry is lost and the victim is not empty. The nodes left in the pool are what it started with less exactly the nodes the target gained, and they are fewer than the next insert needs. So failure comes only from allocation. |
| WholeTree.ForEach | cbtree_base.c:761-787 | When no leaf value is NULL, `__cbtree_for_each` calls the callback once per leaf entry in slot order, numbering the calls on from the count. The count returned is the count plus the calls made. |
| WholeTree.Visitor | cbtree_base.c:833-848 | `cbtree_visitor` returns the number of stored keys and visits every entry in order, numbered from 0. Without a callback no call is observed. |
| WholeTree.GrimVisitor | cbtree_base.c:851-867 | `cbtree_grim_visitor` makes the same calls and count, and leaves the head as the empty tree. |
| WholeTree.VisitorMatchesIteration | cbtree_base.c:833-848 | The visitor and `cbtree_for_each_safe` as meant see the same entries in the same order, with strictly decreasing keys. As written, the iteration can cycle instead (see Findings). |
| WholeTree.RemoveTwice | cbtree_base.c:714-721 | A second removal of the same key returns NULL and changes nothing. |
| WholeTree.InsertThenRemove | cbtree_base.c:563-569 | A successful insert of a new key, then its removal, gives back the inserted value and the original map. |
| WholeTree.ContentsWf | cbtree_base.c:315-330 | Every key a well-formed tree stores has the tree's key length and maps to a non-NULL value. |
| WholeTree.Init | cbtree_base.c:203-212 | `cbtree_init` as meant: an empty, well-formed tree. It returns 0 exactly when the pool was created, and -ENOMEM otherwise. |
| WholeTree.InitAsWritten | cbtree_base.c:203-212 | As written, `cbtree_init` returns a non-zero code whether or not the pool was created. |
| NodeCache.Release | cbtree_cache.c:123-129 | Letting go of a slot frees the node only when this was its last reference and it is marked deleted. Otherwise the count drops by one. |
| NodeCache.ReleaseKeepsUndeleted | cbtree_cache.c:123-129 | Releasing never frees a node that is not marked deleted. |
| NodeCache.DropSafe | cbtree_cache.c:120-133 | Letting go of one slot keeps every count equal to the number of slots pointing at the node. It frees only a deleted node no slot points at any more. |
| NodeCache.SetCache | cbtree_cache.c:50-65 | `setcache` as meant points the head slot at `n` with a copy of the key and leaves every other slot and the heads alone. `n` gains one reference unless the slot already held it. The node the slot held is freed exactly when this was its last reference and it is marked deleted. As written, the key copy never runs and an empty head slot's NULL node is dereferenced (see Findings). |
| NodeCache.SetCacheSafe | cbtree_cache.c:50-65 | `setcache` keeps the protocol sound: the counts stay right, every ring keeps its four slots, and no node it frees is still pointed at or freed twice. |
| NodeCache.FreeQueue | cbtree_cache.c:112-133 | `freeQueue` as meant: every slot of the ring lets go of its node, the ring and its slots go away, and no other slot changes. |
| NodeCache.SettleSafe | cbtree_base.c:600-605 | After `freeQueue`, a node no slot counts is freed, and one still cached is only marked deleted. Either way the counts stay right. |
| NodeCache.RetireCounted | cbtree_base.c:596-605 | Retiring the node `merge` emptied keeps the counts right. The node is freed exactly when no slot outside its own ring pointed at it, and is otherwise left marked deleted. |
| NodeCache.RetireSafe | cbtree_base.c:596-605 | Retiring keeps the protocol sound: no node freed is still pointed at, none is freed twice, and every other ring stays whole. |
| NodeCache.Alloc | cbtree_base.c:98-115 | `cbtree_node_alloc` with `initQueue` as meant makes a zeroed node with count and deleted words 0 and a ring of four empty slots headed at slot 0. As written, `initQueue` makes the ring's head a key buffer and stores past its end (see Findings). |
| NodeCache.AllocSafe | cbtree_base.c:98-115 | The new ring keeps the protocol sound and keeps every existing slot as it was. |
| NodeCache.ProbeCovers | cbtree_cache.c:98-106 | Four steps from any head visit every position of a ring. |
| NodeCache.FindNode | cbtree_cache.c:93-110 | `findNode` as meant changes no count and no slot. A hit is a live, undeleted node cached in the ring under exactly the key: the head moves to that slot, and no slot probed before it was a hit. A miss means no slot of the ring holds such a node, and the head moves one slot on. |
| NodeCache.FindNodeSafe | cbtree_cache.c:93-110 | A probe keeps the protocol sound. |
| NodeCache.FindAtHead | cbtree_cache.c:98-106 | A hit on the head slot is found at once and moves nothing. |
| NodeCache.SetCacheThenFind | cbtree_cache.c:93-110 | A node `setcache` has just cached under a key is what `findNode` next finds for that key, and the probe changes nothing. |
| CacheAsWritten.FreshRingSetCacheAsWritten | cbtree_cache.c:52-59 | On a ring `cbtree_node_alloc` has just made, `setcache` as written dereferences the NULL node of its head slot. The corrected `setcache` caches the node, and `findNode` finds it. |
| CacheAsWritten.StaleKeyAsWritten | cbtree_cache.c:62-64 | The key-copy loop as written never runs, so an overwritten slot keeps the old key and is no hit for the new one. |
| CacheAsWritten.HitMissedAsWritten | cbtree_cache.c:98-109 | A hit on the head slot: the corrected probe returns the node at once, while the probe as written runs four iterations and returns NULL. |
| CacheAsWritten.WrongNodeAsWritten | cbtree_cache.c:102-103 | As written, a live node cached under another key is returned for `key`, although no slot holds it under `key`. |
| CacheAsWritten.DeletedFreedAsWritten | cbtree_cache.c:99-100 | As written, a deleted node in the head slot is freed four times over while a slot still holds it. |
| CacheAsWritten.TeardownUseAfterFreeAsWritten | cbtree_cache.c:120-133 | The loop of `freeQueue` as written reads the head record after freeing it. |
| CacheAsWritten.TeardownSafe | cbtree_cache.c:120-133 | The corrected loop reads no record after freeing it, and frees all four. |
| CacheAsWritten.FreshRingFreeQueueAsWritten | cbtree_cache.c:123-128 | `merge` on a node whose ring still has an empty slot dereferences NULL in `freeQueue` as written. |
| CacheAsWritten.RetireEmptyLeaksAsWritten | cbtree_base.c:626-635 | When no other ring caches the emptied child, the `fill == 0` branch as written frees the NULL `right` and leaks the child: it stays live, unmarked and ringless, with no slot left to free it. |
| CacheAsWritten.ShrinkDanglingAsWritten | cbtree_base.c:497-498 | When another ring caches the old root, `cbtree_shrink` as written frees it while that slot still points at it. The corrected retirement only marks it deleted. |
| CacheAsWritten.InitQueueOverflowAsWritten | cbtree_cache.c:32-43 | As written, the second iteration of `initQueue` already stores past the end of the first two-word key buffer, and the ring's head is that buffer, not a slot record. |
| CacheAsWritten.InitQueueInBounds | cbtree_cache.c:13-48 | As meant, every store of `initQueue` lands inside its block, and the head is the first slot record. |
| Monitor.Find | ds_monitoring.c:46-64 | Without `get_index` nothing changes. Otherwise the total gains one and the index joins the table. An existing element gains one count. A new one has count 1 and keeps the name exactly when `get_name` is set. Every other element is unchanged. |
| Monitor.Insert | ds_monitoring.c:16-39 | A new element sits under its own index with count 1. It has a copy of the name when `get_name` is set and NULL otherwise. |
| Monitor.FindKeepsInv | ds_monitoring.c:46-64 | Starting from `DS_MONITORING_INIT`, every find keeps each element under its own index with a positive count, and keeps the total equal to the sum of all counts. |
| Monitor.PercentExact | ds_monitoring.c:84 | While `count * 100` fits in 64 bits the percentage is the truncated quotient, at most 100 when the count is within the total. |
| Monitor.AscendingSorted | ds_monitoring.c:81 | `xa_for_each` lists exactly the stored indices, each once, in strictly increasing order. |
| Monitor.Print | ds_monitoring.c:69-87 | `print_ds_monitoring` prints nothing when the total is zero or there is no `print_elem`. Otherwise it prints one line per element. |
| Monitor.PrintPercentBounded | ds_monitoring.c:81-85 | Under the table invariant, every printed percentage is the element's truncated share of the total and lies in 0..100. |
| Monitor.PrintListsAll | ds_monitoring.c:81-85 | The printed lines name every recorded index once, in increasing order, each with its own name and count. |
| CalcLock.DigitVal | calclock.c:16 | The value of a digit character is the inverse of the character of a digit. |
| CalcLock.Decimal | calclock.c:16 | `%llu` prints at least one character, all of them decimal digits. |
| CalcLock.DecimalValue | calclock.c:16 | `%llu` round-trips: its digits denote the number, and there is no leading zero. |
| CalcLock.WordDigits | calclock.c:16-17 | An `unsigned long long` has at most 20 decimal digits. |
| CalcLock.StripGroup | calclock.c:19-29 | Deleting the commas from the grouped digits gives back the digits. |
| CalcLock.SeparatedStrip | calclock.c:10-39 | Deleting the commas from the separated form of a number gives exactly its `%llu` form. |
| CalcLock.GroupLength | calclock.c:19-29 | The grouped form of d digits has one comma per complete group of three beyond the first digit: d + (d - 1) / 3 characters. |
| CalcLock.GroupCommas | calclock.c:19-29 | Counted from the right, every fourth character is a comma and every other one a digit. Neither the first nor the last character is a comma. |
| CalcLock.SeparatedFits | calclock.c:12-13 | A 64-bit number needs at most 26 characters, well within the 100-character buffers. |
| CalcLock.ReverseGroups | calclock.c:19-29 | The first loop, with its `cur++` step back after a comma, builds exactly the reversal of the grouped digits. |
| CalcLock.CopyBack | calclock.c:31-34 | The second loop copies the scratch buffer back to front, undoing the reversal. |
| CalcLock.SeparateNum | calclock.c:10-39 | `separate_num` leaves the separated form of the number in the caller's buffer, followed by the NUL, in at most 27 characters. |
| CalcLock.TotalIsMax | calclock.c:45-48 | The static total is the running maximum of 1 and every time reported: at least each of them and equal to one of them. |
| CalcLock.PercentageNoOverflow | calclock.c:49 | The percentage as written agrees with the exact one while `time * 10000` fits in a signed 64-bit `ktime_t`. |
| CalcLock.PercentageRange | calclock.c:47-49 | After the update, a non-negative time's exact percentage lies in 0..10000, that is 0.00% to 100.00%. |
| CalcLock.PercentageAtMax | calclock.c:47-49 | A time at or past the old total becomes the new total and prints exactly 10000, that is 100.00%. |
| CalcLock.PercentageOverflowAsWritten | calclock.c:49 | A new maximum of 2^62 ns prints 0.00% as written, where the exact percentage is 100.00%. |
| CalcLock.PerThread | calclock.c:59 | The per-CPU figure truncates toward zero and is cast to unsigned. For a non-negative time it is the time divided by the CPU count. |
| CalcLock.KtPrint | calclock.c:41-61 | `__ktprint` updates the running total. The percentage splits into a whole part and two decimals that read back as it. The count and the time are printed separated. |
| CalcLock.KtPrintPerThread | calclock.c:57-59 | For a non-negative time the per-CPU figure is each online CPU's truncated share. |
| CalcLock.Pad2Value | calclock.c:60 | `%.2d` of a number below 100 prints exactly two digits, which read back as the number. |
| CalcLock.PercentTextValue | calclock.c:60 | The printed ` (w.ff%)` reads back as the number of hundredths it was made from, with the point and the percent sign in their places. |

## Left out

- `cbtree_lookup_node` (cbtree_base.c:259-313) as written is not modelled.
  - It descends one level too far: at height 1 it takes a leaf value as a
    node.
  - It calls `findNode` with the wrong number of arguments and calls
    `setcache` on the child.
  - Lookup and update are modelled as the linear descent these functions
    evidently mean, and the node cache is modelled on its own.
- `findNode` (cbtree_cache.c:93-110) does not compile as written: it has a
  misspelled type, an extra `;` in the `for` header, and an undeclared
  `arr_len`.
  - The model takes the key length for `n` and reads the rest as the loop
    evidently means.
- The mempool, `kmem_cache` and `kmalloc` plumbing is not modelled, and
  neither is `cbtree_alloc`/`cbtree_free` (cbtree_base.c:84-96).
  - The pool is a count of nodes it can still supply. Allocation failure in
    `initQueue` and `insert_ds_monitoring` is not modelled.
- Memory layout is modelled only where it matters. The node block is a
  datatype, and only the geometry arithmetic and the `initQueue` stores are
  modelled as word offsets.
- The size of the ring slot's key buffer is not modelled. `initQueue`
  allocates two words for it (cbtree_cache.c:34) whatever the key length,
  so a key of more than two words (`cbtree_geo128` on 32-bit, four words)
  would not fit it. The model's slots hold the whole key. The tree itself
  is modelled for every key length; the on-stack buffers of `MAX_KEYLEN`
  (`2 * LONG_PER_U64` words, cbtree_base.c:80) fit every standard geometry.
- The visitor adaptors `cvisitorl/32/64/128` and `empty` (cbtree_base.c:789-830)
  are not modelled: the callback is the sequence of calls it receives.
- The node frees of `__cbtree_for_each`'s reap pass and `cbtree_destroy`
  are not modelled. `GrimVisitor` states only the empty head left behind.
- `BUG_ON` checks are not modelled: the model's requires keep them from
  firing.
- No concurrency: the atomics of `ds_monitoring.c` and the tree's lack of
  locking are modelled as sequential steps.
- `printk` output is modelled only as the values it would print.
  - Not modelled: the depth indentation and function name of `__ktprint`
    (calclock.c:51-55), and the `DM_DEBUG` traces.
- Not modelled: `cbtree-type.h`, `cbtree-128.h`, `btree_cache.c`,
  `bplus_module.c`, `btree_profiling.c`, `cbtree_test.c` and
  `delete_ds_monitoring` (ds_monitoring.c:93-110), which only frees.
- Monitor.Find: counts are unbounded. The wrap of the 64-bit counters after
  2^64 finds is not modelled.
- Monitor.PrintPercentBounded: proved only while every `count * 100` fits in
  64 bits. `Percent` does model the wrap of the product. The conversion of
  the quotient to `int` is not modelled; it is exact whenever the lemma
  applies.
- CalcLock.KtPrint: takes the percentage with the exact product. The
  overflowing product of line 49 is `PercentageAsWritten`, shown apart in
  `PercentageOverflowAsWritten`. The text of a negative time is not stated.
- NodeCache.FreeQueue: it releases the ring's slots in order 0..3. The loop
  as written starts from the slot after the head; only the order in which
  nodes are freed differs.
- NodeCache.FindNode: frees nothing. The as-written free of a deleted node
  in the probe is shown by `DeletedFreedAsWritten`.
- Removal.Remove: shrinks the root for as long as it is internal with one
  child, where `cbtree_remove` (cbtree_base.c:704-708) shrinks it once.
  `Valid` leaves out the source's invariant that no two neighbouring nodes
  could be merged (cbtree_base.c:667-672). Under that invariant one shrink
  suffices, and the repetition lets the head invariant follow from `Valid`
  alone.
- Removal.RemoveLeavesLoneChild: starts from `LoneTree`, which `Valid`
  admits but the neighbour invariant rules out. It shows why the model
  repeats the shrink, not a failure `cbtree_remove` reaches.
- Removal.RemoveLeavesEmptyRoot: starts from the single-child root that only
  `LoneTree` leads to, so it shows no reachable state either.
- Nodes.LeafRemoveAsWritten: when `getpos` returns `no_pairs` (the key is
  smaller than every key of a full leaf), `keycmp` reads the first words of
  the value region as a key. The model treats that as a miss. A match
  there would return the first cache word and clear the last entry.
- WholeTree.Drain: the nodes the victim's removals free are not given back
  to the pool count `avail`, so the model may run short sooner than the
  allocator would.
- Insertion.Insert: requires the key not to be stored yet. `cbtree_insert`
  documents that duplicates are the caller's bug (it would store a second
  entry), and the model does not state what happens then.

## Findings

| source | as written | input that shows it | evidently intended | confidence | as-written member | corrected member |
|---|---|---|---|---|---|---|
| cbtree_base.c:58-77 | `CACHE_LENTH` (3) is subtracted from `NODESIZE` in bytes, and `cbtree_node_alloc` places the cache region at `keylen * no_pairs + no_longs` | 128-byte node, 8-byte words: the one-word geometry's deleted flag is word 16 of a 16-word block | subtract three words, and place the cache after `no_longs + no_pairs` words | not executed | Geometry.GeometryOverflowAsWritten | Geometry.FixedGeometryFits |
| cbtree_base.c:690-702 | the exact-match test reads the slot `getpos` returns even when it is unused | remove the absent zero key from the leaf {5 -> 7} | an unused slot is a miss | not executed | Nodes.LeafRemoveZeroKeyLosesEntry | Nodes.LeafRemove |
| cbtree_base.c:690-700 | with `fill == 0`, `clearpair(geo, node, fill - 1)` clears slot -1, the `keylen` words in front of the node block | insert 5 into an empty tree of one-word keys, remove 5, then remove the zero key | an empty leaf is a miss and nothing is written | not executed | Nodes.LeafRemoveEmptyOverrunAsWritten | Nodes.LeafRemove |
| cbtree_base.c:343-348 | the update scan runs over all `no_pairs` slots, unused ones included | update the absent zero key in a leaf holding only 5 | -ENOENT, tree unchanged | not executed | Search.UpdateZeroKeyAsWritten | Search.Update |
| cbtree_base.c:229-236 | `cbtree_last` copies slot 0's key into the caller's key before testing for NULL | height-1 tree whose leaf was emptied, caller's key 7 | NULL with the key unchanged | not executed | Search.LastEmptyLeafAsWritten | Search.Last |
| cbtree_base.c:372-375 | a zero retry separator is decremented and wraps to the all-ones key, so the predecessor search can return a larger key and `cbtree_for_each_safel` (cbtree_base.h:220-223) cycles 12, 11, 5, 12, … for ever | leaves {12, 11} and {5} under separators 10 and 0, predecessor of 3 (and the iteration from 12) | NULL: no key below 3, and an iteration that ends after 5 | not executed | Ordered.GetPrevWrapAsWritten | Ordered.GetPrev |
| cbtree_base.h:220-223 | `cbtree_for_each_safel` steps with `cbtree_get_prev`, whose wrap of a zero separator leads back to the largest key | leaves {12, 11} and {5} under separators 10 and 0, iterating from 12 | visit 12, 11, 5 and stop | not executed | Ordered.ForEachCyclesAsWritten | Ordered.ForEachSafe |
| cbtree_base.c:203-212 | the `return -ENOMEM` is not braced with the message | pool created | return 0 | not executed | WholeTree.InitFailsAsWritten | WholeTree.Init |
| cbtree_cache.c:52-59 | the NULL test looks at the slot pointer, not at the node it holds | first `setcache` on a new ring | skip the release when the slot holds no node | not executed | CacheAsWritten.FreshRingSetCacheAsWritten | NodeCache.SetCacheSafe |
| cbtree_cache.c:62-64 | `for(i = 0; i++; i < key_len)` never runs its body | overwrite a slot that held key 1 with key 2 | copy every key word | not executed | CacheAsWritten.StaleKeyAsWritten | NodeCache.SetCacheThenFind |
| cbtree_cache.c:98-106 | `current` never advances, and a hit is taken when the keys differ | the head slot holds the node under the key sought | probe the four slots, return the node cached under the key | not executed | CacheAsWritten.WrongNodeAsWritten | NodeCache.FindNode |
| cbtree_cache.c:99-100 | the probe frees a deleted node it finds without touching the count | a deleted node in the head slot | leave freeing to the last release | not executed | CacheAsWritten.DeletedFreedAsWritten | NodeCache.FindNodeSafe |
| cbtree_cache.c:120-133 | the first pass frees the head record `first` (lines 131-132); on the last pass `current` is `first` again and lines 125-128 read `current->node` from the freed record | any ring | read nothing after freeing it | not executed | CacheAsWritten.TeardownUseAfterFreeAsWritten | CacheAsWritten.TeardownSafe |
| cbtree_cache.c:123-128 | the NULL test looks at the slot pointer, not at the node it holds | `merge` on a node whose ring has an empty slot | skip empty slots | not executed | CacheAsWritten.FreshRingFreeQueueAsWritten | NodeCache.FreeQueue |
| cbtree_base.c:630-631 | the `fill == 0` branch frees `right`, which is NULL there, instead of the child | empty a child that no other ring caches | free the child | not executed | CacheAsWritten.RetireEmptyLeaksAsWritten | NodeCache.RetireSafe |
| cbtree_base.c:497-498 | `cbtree_shrink` frees the old root whatever its count | another ring caches the old root | free only an uncounted node, otherwise mark it deleted | not executed | CacheAsWritten.ShrinkDanglingAsWritten | NodeCache.RetireSafe |
| cbtree_cache.c:34 | `current->key = current = kmalloc(2 words)` makes the key buffer the current record | the second iteration of `initQueue` | allocate the key buffer into `key` only | not executed | CacheAsWritten.InitQueueOverflowAsWritten | CacheAsWritten.InitQueueInBounds |
| calclock.c:49 | `time * 10000` overflows the signed 64-bit `ktime_t` | a new maximum time of 2^62 ns | 100.00% | not executed | CalcLock.PercentageOverflowAsWritten | CalcLock.PercentageAtMax |

=== FILE: cache.dfy ===
/** The node cache of the cbtree. Every node carries, after its keys and
    values, a pointer to a ring of four (node, key) slots, a reference-count
    word and a deleted word. A slot that caches a node holds one reference
    to it. A node taken out of the tree while some slot still caches it is
    only marked deleted; the slot that lets go of it last frees it.
    The module models those rules as a state machine over an arena of
    nodes, each step returning the nodes it frees in the order it frees them. */
module NodeCache {
  import opened Keys
  import opened Nodes
  import opened Options

  /** The address of a tree node; `NULL` is 0. */
  type Ref = nat

  /** Slots in every node's ring. */
  const SLOTS: nat := 4

  /** The two words after the ring pointer: cache-base + 1 (count) and cache-base + 2 (deleted). */
  datatype Meta = Meta(count: nat, deleted: nat)

  /** Slot `index` of the ring owned by node `owner`. */
  datatype SlotId = SlotId(owner: Ref, index: nat)

  /** A slot's node pointer and its key buffer. */
  datatype Entry = Entry(node: Ref, key: Key)

  /** The live nodes with their counter words, every ring slot, and the
      head position of each ring. */
  datatype Cache = Cache(meta: map<Ref, Meta>, slots: map<SlotId, Entry>, heads: map<Ref, nat>)

  /** `count -= 1` on an unsigned word. */
  function Dec(x: nat): (r: nat)
    ensures x > 0 ==> r + 1 == x
    ensures x == 0 ==> r == WORD - 1
  {
    if x == 0 then WORD - 1 else x - 1
  }

  /** The slots that point at `n`. */
  ghost function Holding(slots: map<SlotId, Entry>, n: Ref): set<SlotId> {
    set s | s in slots && slots[s].node == n
  }

  /** The reference counts are right: no slot points at a freed node, every
      live node's count is the number of slots pointing at it, and a node
      marked deleted is still cached somewhere. */
  ghost predicate Counted(meta: map<Ref, Meta>, slots: map<SlotId, Entry>) {
    && NULL !in meta
    && (forall s :: s in slots && slots[s].node != NULL ==> slots[s].node in meta)
    && (forall n :: n in meta ==> meta[n].count == |Holding(slots, n)|)
    && (forall n :: n in meta ==> meta[n].deleted <= 1)
    && (forall n :: n in meta && meta[n].deleted == 1 ==> meta[n].count >= 1)
  }

  /** Every ring belongs to a live node still in the tree and has its four
      slots; no other slot exists; and a live node without a ring is one
      marked deleted, waiting for its last slot to let go of it. */
  ghost predicate Ringed(c: Cache) {
    && (forall o :: o in c.heads ==> o in c.meta && c.heads[o] < SLOTS && c.meta[o].deleted == 0)
    && (forall s :: s in c.slots ==> s.owner in c.heads && s.index < SLOTS)
    && (forall o, i :: o in c.heads && 0 <= i < SLOTS ==> SlotId(o, i) in c.slots)
    && (forall n :: n in c.meta && n !in c.heads ==> c.meta[n].deleted == 1)
  }

  ghost predicate Sound(c: Cache) {
    Counted(c.meta, c.slots) && Ringed(c)
  }

  /** A step from `c` to `c1` that freed `freed`, in order: each freed node
      was live, is no longer live and no slot points at it any more; no node
      is freed twice; and every node that stopped being live was freed. */
  ghost predicate FreesSafe(c: Cache, c1: Cache, freed: seq<Ref>) {
    && c1.meta.Keys <= c.meta.Keys
    && (forall i :: 0 <= i < |freed| ==> freed[i] in c.meta && freed[i] !in c1.meta)
    && (forall i :: 0 <= i < |freed| ==> Holding(c1.slots, freed[i]) == {})
    && (forall i, j :: 0 <= i < j < |freed| ==> freed[i] != freed[j])
    && (forall n :: n in c.meta && n !in c1.meta ==> n in freed)
  }

  /** The rule `setcache` and `freeQueue` apply to the node of a slot they
      let go of: the last reference to a deleted node frees it; otherwise
      the count goes down by one. */
  function Release(meta: map<Ref, Meta>, n: Ref): (r: (map<Ref, Meta>, seq<Ref>))
    requires n in meta
    ensures r.1 == [] || r.1 == [n]
    ensures r.1 == [n] <==> meta[n].count == 1 && meta[n].deleted == 1
    ensures r.0.Keys == if r.1 == [] then meta.Keys else meta.Keys - {n}
    ensures forall x :: x in r.0 && x != n ==> r.0[x] == meta[x]
    ensures n in r.0 ==> r.0[n] == Meta(Dec(meta[n].count), meta[n].deleted)
  {
    if meta[n].count == 1 && meta[n].deleted == 1 then (meta - {n}, [n])
    else (meta[n := Meta(Dec(meta[n].count), meta[n].deleted)], [])
  }

  /** Releasing a node never frees one that is not marked deleted. */
  lemma {:induction false} ReleaseKeepsUndeleted(meta: map<Ref, Meta>, n: Ref)
    requires n in meta && meta[n].deleted == 0
    ensures Release(meta, n).1 == [] && n in Release(meta, n).0
  {
  }

  /** A slot lets go of its node under the release rule and its storage
      goes away. */
  function Drop(c: Cache, s: SlotId): (r: (Cache, seq<Ref>))
    requires s in c.slots && (c.slots[s].node != NULL ==> c.slots[s].node in c.meta)
    ensures r.0.slots == c.slots - {s} && r.0.heads == c.heads
    ensures var n := c.slots[s].node;
            r.1 == if n != NULL && c.meta[n].count == 1 && c.meta[n].deleted == 1 then [n] else []
    ensures var n := c.slots[s].node;
            && r.0.meta.Keys == c.meta.Keys - set x | x in r.1
            && (forall x :: x in r.0.meta && x != n ==> x in c.meta && r.0.meta[x] == c.meta[x])
            && (n in r.0.meta ==> r.0.meta[n] == Meta(Dec(c.meta[n].count), c.meta[n].deleted))
  {
    var n := c.slots[s].node;
    if n == NULL then (c.(slots := c.slots - {s}), [])
    else
      var rel := Release(c.meta, n);
      (Cache(rel.0, c.slots - {s}, c.heads), rel.1)
  }

  lemma {:induction false} HoldingRemove(slots: map<SlotId, Entry>, s: SlotId, n: Ref)
    requires s in slots
    ensures Holding(slots - {s}, n) == if slots[s].node == n then Holding(slots, n) - {s} else Holding(slots, n)
  {
  }

  lemma {:induction false} HoldingAdd(slots: map<SlotId, Entry>, s: SlotId, e: Entry, n: Ref)
    requires s !in slots
    ensures Holding(slots[s := e], n) == if e.node == n then Holding(slots, n) + {s} else Holding(slots, n)
  {
  }

  /** No deleted mark changes from `c` to `r`, and only nodes marked
      deleted stop being live. */
  ghost predicate Kept(c: Cache, r: Cache) {
    && (forall x :: x in r.meta ==> x in c.meta && r.meta[x].deleted == c.meta[x].deleted)
    && (forall x :: x in c.meta && c.meta[x].deleted == 0 ==> x in r.meta)
  }

  /** A set of one element holds that element only. */
  lemma {:induction false} Single<T>(a: set<T>, x: T)
    requires x in a && |a| == 1
    ensures a == {x}
  {
    assert |a - {x}| == 0;
  }

  /** Dropping one slot keeps the counts right; a node it frees had no other
      slot pointing at it. */
  lemma {:induction false} DropCounted(c: Cache, s: SlotId)
    requires Counted(c.meta, c.slots) && s in c.slots
    ensures var r := Drop(c, s);
            && Counted(r.0.meta, r.0.slots)
            && (forall x :: x in r.1 ==> Holding(r.0.slots, x) == {})
  {
    var n := c.slots[s].node;
    var r := Drop(c, s);
    forall x ensures Holding(r.0.slots, x) == if n == x then Holding(c.slots, x) - {s} else Holding(c.slots, x) {
      HoldingRemove(c.slots, s, x);
    }
    if n != NULL {
      assert s in Holding(c.slots, n);
      if r.1 == [n] {
        Single(Holding(c.slots, n), s);
      }
    }
  }

  /** A step that frees nothing, or frees one live node it leaves no slot
      pointing at, frees safely. */
  lemma {:induction false} FreesStep(c: Cache, r: Cache, freed: seq<Ref>)
    requires freed == [] || (|freed| == 1 && freed[0] in c.meta && Holding(r.slots, freed[0]) == {})
    requires r.meta.Keys == c.meta.Keys - set x | x in freed
    ensures FreesSafe(c, r, freed)
  {
  }

  /** Dropping one slot keeps the counts right, frees safely, and frees only
      a node marked deleted. */
  lemma {:induction false} DropSafe(c: Cache, s: SlotId)
    requires Counted(c.meta, c.slots) && s in c.slots
    ensures var r := Drop(c, s);
            Counted(r.0.meta, r.0.slots) && FreesSafe(c, r.0, r.1) && Kept(c, r.0)
  {
    var r := Drop(c, s);
    DropCounted(c, s);
    FreesStep(c, r.0, r.1);
  }

  /** A slot comes to point at live node `n`, which gains one reference. */
  function Add(c: Cache, s: SlotId, n: Ref, key: Key): (r: Cache)
    requires s !in c.slots && n in c.meta
  {
    var m := c.meta[n];
    Cache(c.meta[n := Meta(m.count + 1, m.deleted)], c.slots[s := Entry(n, key)], c.heads)
  }

  /** Adding a slot keeps the counts right; no node stops being live and no
      slot comes to point at a node that is not. */
  lemma {:induction false} AddCounted(c: Cache, s: SlotId, n: Ref, key: Key)
    requires Counted(c.meta, c.slots) && s !in c.slots && n in c.meta
    ensures var r := Add(c, s, n, key);
            && Counted(r.meta, r.slots)
            && (forall x :: x != n ==> Holding(r.slots, x) == Holding(c.slots, x))
            && Kept(c, r)
  {
    var r := Add(c, s, n, key);
    forall x ensures Holding(r.slots, x) == if n == x then Holding(c.slots, x) + {s} else Holding(c.slots, x) {
      HoldingAdd(c.slots, s, Entry(n, key), x);
    }
  }

  lemma {:induction false} PutBack<K, V>(m: map<K, V>, k: K, v: V)
    requires k in m
    ensures (m - {k})[k := v] == m[k := v]
  {
  }

  /** The rings stay as they were when their slots stay and their owners
      stay live and undeleted. */
  lemma {:induction false} RingedKept(c: Cache, r: Cache)
    requires Ringed(c) && r.heads == c.heads && r.slots.Keys == c.slots.Keys && Kept(c, r)
    ensures Ringed(r)
  {
  }

  lemma {:induction false} KeptTrans(a: Cache, b: Cache, c: Cache)
    requires Kept(a, b) && Kept(b, c)
    ensures Kept(a, c)
  {
  }

  /** Frees stay safe when a later step adds a slot pointing at a live node
      and frees nothing more. */
  lemma {:induction false} FreesKept(c: Cache, d: Cache, r: Cache, freed: seq<Ref>, s: SlotId, n: Ref)
    requires FreesSafe(c, d, freed) && r.meta.Keys == d.meta.Keys && n in d.meta
    requires forall x :: x != n ==> Holding(r.slots, x) == Holding(d.slots, x)
    ensures FreesSafe(c, r, freed)
  {
  }

  /** `setcache` as meant, on the ring of node `o`: the slot at the ring's
      head lets go of the node it held (none on a fresh slot) under the
      release rule, then points at `n` with a copy of `key`; `n` gains one
      reference. The head does not move. */
  function SetCache(c: Cache, o: Ref, n: Ref, key: Key): (r: (Cache, seq<Ref>))
    requires Counted(c.meta, c.slots) && o in c.heads && SlotId(o, c.heads[o]) in c.slots
    requires n in c.meta && c.meta[n].deleted == 0
    ensures var s := SlotId(o, c.heads[o]);
            && r.0.slots == c.slots[s := Entry(n, key)]
            && r.0.heads == c.heads
            && n in r.0.meta
            && r.0.meta[n].count == if c.slots[s].node == n then c.meta[n].count else c.meta[n].count + 1
    ensures var was := c.slots[SlotId(o, c.heads[o])].node;
            r.1 == if was != NULL && c.meta[was].count == 1 && c.meta[was].deleted == 1 then [was] else []
  {
    var s := SlotId(o, c.heads[o]);
    var d := Drop(c, s);
    DropCount(c, s);
    PutBack(c.slots, s, Entry(n, key));
    (Add(d.0, s, n, key), d.1)
  }

  /** The slot `setcache` overwrites held a reference: a count it lowers was
      positive. */
  lemma {:induction false} DropCount(c: Cache, s: SlotId)
    requires Counted(c.meta, c.slots) && s in c.slots
    ensures c.slots[s].node != NULL ==> c.meta[c.slots[s].node].count >= 1
  {
    if c.slots[s].node != NULL {
      assert s in Holding(c.slots, c.slots[s].node);
    }
  }

  /** `setcache` keeps the counts right and frees only a node no slot
      points at any more. */
  lemma {:induction false} SetCacheCounted(c: Cache, o: Ref, n: Ref, key: Key)
    requires Counted(c.meta, c.slots) && o in c.heads && SlotId(o, c.heads[o]) in c.slots
    requires n in c.meta && c.meta[n].deleted == 0
    ensures var r := SetCache(c, o, n, key);
            Counted(r.0.meta, r.0.slots) && FreesSafe(c, r.0, r.1) && Kept(c, r.0)
  {
    var s := SlotId(o, c.heads[o]);
    var d := Drop(c, s);
    DropSafe(c, s);
    AddCounted(d.0, s, n, key);
    var r := Add(d.0, s, n, key);
    assert SetCache(c, o, n, key) == (r, d.1);
    KeptTrans(c, d.0, r);
    FreesKept(c, d.0, r, d.1, s, n);
  }

  /** `setcache` keeps the protocol sound: no node it frees is still
      pointed at, none is freed twice, and every ring keeps its four slots. */
  lemma {:induction false} SetCacheSafe(c: Cache, o: Ref, n: Ref, key: Key)
    requires Sound(c) && o in c.heads && n in c.meta && c.meta[n].deleted == 0
    ensures var r := SetCache(c, o, n, key);
            Sound(r.0) && FreesSafe(c, r.0, r.1)
  {
    SetCacheCounted(c, o, n, key);
    RingedKept(c, SetCache(c, o, n, key).0);
  }

  /** Every slot of `a` is a slot of `b` with the same contents. */
  ghost predicate Sub(a: map<SlotId, Entry>, b: map<SlotId, Entry>) {
    forall s :: s in a ==> s in b && a[s] == b[s]
  }

  lemma {:induction false} HoldingSub(a: map<SlotId, Entry>, b: map<SlotId, Entry>, n: Ref)
    requires Sub(a, b)
    ensures Holding(a, n) <= Holding(b, n)
  {
  }

  /** Two safe steps in a row free safely, when the second only removes
      slots. */
  lemma {:induction false} FreesCompose(a: Cache, b: Cache, c: Cache, f: seq<Ref>, g: seq<Ref>)
    requires FreesSafe(a, b, f) && FreesSafe(b, c, g) && Sub(c.slots, b.slots)
    ensures FreesSafe(a, c, f + g)
  {
    forall i | 0 <= i < |f| ensures Holding(c.slots, f[i]) == {} {
      HoldingSub(c.slots, b.slots, f[i]);
    }
    forall i | 0 <= i < |f + g|
      ensures (f + g)[i] in a.meta && (f + g)[i] !in c.meta && Holding(c.slots, (f + g)[i]) == {}
    {
      if i >= |f| {
        assert (f + g)[i] == g[i - |f|];
      }
    }
    forall i, j | 0 <= i < j < |f + g| ensures (f + g)[i] != (f + g)[j] {
      if j >= |f| {
        assert (f + g)[j] == g[j - |f|] && g[j - |f|] in b.meta;
        if i >= |f| {
          assert (f + g)[i] == g[i - |f|];
        }
      }
    }
    forall n | n in a.meta && n !in c.meta ensures n in f + g {
      if n in b.meta {
        assert n in g;
      } else {
        assert n in f;
      }
    }
  }

  /** The four slots of the ring of `o` exist. */
  ghost predicate HasRing(c: Cache, o: Ref) {
    forall i :: 0 <= i < SLOTS ==> SlotId(o, i) in c.slots
  }

  /** The loop of `freeQueue` from ring position `i` on: each slot, in
      order, lets go of its node under the release rule and its storage
      goes away. */
  function DropRing(c: Cache, o: Ref, i: nat): (r: (Cache, seq<Ref>))
    requires Counted(c.meta, c.slots) && i <= SLOTS
    requires forall j :: i <= j < SLOTS ==> SlotId(o, j) in c.slots
    ensures Counted(r.0.meta, r.0.slots) && FreesSafe(c, r.0, r.1) && Kept(c, r.0)
    ensures Sub(r.0.slots, c.slots) && r.0.heads == c.heads
    ensures forall s :: s in c.slots ==> (s in r.0.slots <==> !(s.owner == o && i <= s.index < SLOTS))
    decreases SLOTS - i
  {
    if i == SLOTS then
      FreesStep(c, c, []);
      (c, [])
    else
      var s := SlotId(o, i);
      var d := Drop(c, s);
      DropSafe(c, s);
      var e := DropRing(d.0, o, i + 1);
      FreesCompose(c, d.0, e.0, d.1, e.1);
      KeptTrans(c, d.0, e.0);
      (e.0, d.1 + e.1)
  }

  /** `freeQueue`, as its loop evidently means it: every slot of the ring
      of `o` lets go of its node, the slots and the ring go away, and no
      other slot changes. */
  function FreeQueue(c: Cache, o: Ref): (r: (Cache, seq<Ref>))
    requires Counted(c.meta, c.slots) && HasRing(c, o)
    ensures Counted(r.0.meta, r.0.slots) && FreesSafe(c, r.0, r.1) && Kept(c, r.0)
    ensures r.0.heads == c.heads - {o}
    ensures forall s :: s in r.0.slots <==> s in c.slots && !(s.owner == o && s.index < SLOTS)
    ensures Sub(r.0.slots, c.slots)
  {
    var d := DropRing(c, o, 0);
    (d.0.(heads := c.heads - {o}), d.1)
  }

  /** What `merge` does with the node `o` it empties: `freeQueue` on its
      ring, then `o` is freed when no slot counts it any more and is
      otherwise only marked deleted, for the last slot letting go of it to
      free. */
  function Retire(c: Cache, o: Ref): (r: (Cache, seq<Ref>))
    requires Counted(c.meta, c.slots) && HasRing(c, o) && o in c.meta && c.meta[o].deleted == 0
    ensures r.0.heads == c.heads - {o}
    ensures forall s :: s in r.0.slots <==> s in c.slots && !(s.owner == o && s.index < SLOTS)
    ensures Sub(r.0.slots, c.slots)
  {
    var q := FreeQueue(c, o);
    var t := Settle(q.0, o);
    (t.0, q.1 + t.1)
  }

  /** The end of `merge`: a node no slot counts is freed; one still cached
      is marked deleted. */
  function Settle(c: Cache, o: Ref): (r: (Cache, seq<Ref>))
    requires o in c.meta
    ensures r.0.slots == c.slots && r.0.heads == c.heads
  {
    var m := c.meta[o];
    if m.count == 0 then (c.(meta := c.meta - {o}), [o])
    else (c.(meta := c.meta[o := Meta(m.count, 1)]), [])
  }

  /** Settling keeps the counts right and frees safely: `o` is freed
      exactly when no slot points at it, and otherwise marked deleted; no
      other node changes. */
  lemma {:induction false} SettleSafe(c: Cache, o: Ref)
    requires Counted(c.meta, c.slots) && o in c.meta
    ensures var r := Settle(c, o);
            && Counted(r.0.meta, r.0.slots) && FreesSafe(c, r.0, r.1)
            && (o in r.0.meta <==> Holding(r.0.slots, o) != {})
            && (o in r.0.meta ==> r.0.meta[o].deleted == 1)
            && (forall x :: x != o ==> (x in r.0.meta <==> x in c.meta))
            && (forall x :: x in r.0.meta && x != o ==> r.0.meta[x] == c.meta[x])
  {
    var r := Settle(c, o);
    if c.meta[o].count == 0 {
      FreeUncounted(c.meta, c.slots, o);
      FreesStep(c, r.0, [o]);
    } else {
      MarkCounted(c.meta, c.slots, o);
      FreesStep(c, r.0, []);
    }
  }

  /** Freeing a node no slot counts keeps the counts right. */
  lemma {:induction false} FreeUncounted(meta: map<Ref, Meta>, slots: map<SlotId, Entry>, o: Ref)
    requires Counted(meta, slots) && o in meta && meta[o].count == 0
    ensures Counted(meta - {o}, slots) && Holding(slots, o) == {}
  {
    assert Holding(slots, o) == {};
    forall s | s in slots ensures slots[s].node != o {
      assert s !in Holding(slots, o);
    }
  }

  /** Marking a counted node deleted keeps the counts right. */
  lemma {:induction false} MarkCounted(meta: map<Ref, Meta>, slots: map<SlotId, Entry>, o: Ref)
    requires Counted(meta, slots) && o in meta && meta[o].count > 0
    ensures Counted(meta[o := Meta(meta[o].count, 1)], slots) && Holding(slots, o) != {}
  {
  }

  /** Retiring keeps the counts right and frees safely; `o` is freed
      exactly when no slot outside its own ring pointed at it, and is
      otherwise left marked deleted. */
  lemma {:induction false} RetireCounted(c: Cache, o: Ref)
    requires Counted(c.meta, c.slots) && HasRing(c, o) && o in c.meta && c.meta[o].deleted == 0
    ensures var r := Retire(c, o);
            && Counted(r.0.meta, r.0.slots) && FreesSafe(c, r.0, r.1)
            && (o in r.0.meta <==> Holding(r.0.slots, o) != {})
            && (o in r.0.meta ==> r.0.meta[o].deleted == 1)
            && (forall x :: x in r.0.meta && x != o ==> x in c.meta && r.0.meta[x].deleted == c.meta[x].deleted)
            && (forall x :: x in c.meta && x != o && c.meta[x].deleted == 0 ==> x in r.0.meta)
  {
    var q := FreeQueue(c, o);
    var t := Settle(q.0, o);
    SettleSafe(q.0, o);
    KeptBut(c, q.0, t.0, o);
    FreesCompose(c, q.0, t.0, q.1, t.1);
  }

  /** A step after a kept one that changes at most node `o`. */
  lemma {:induction false} KeptBut(c: Cache, q: Cache, r: Cache, o: Ref)
    requires Kept(c, q)
    requires forall x :: x != o ==> (x in r.meta <==> x in q.meta)
    requires forall x :: x in r.meta && x != o ==> r.meta[x] == q.meta[x]
    ensures forall x :: x in r.meta && x != o ==> x in c.meta && r.meta[x].deleted == c.meta[x].deleted
    ensures forall x :: x in c.meta && x != o && c.meta[x].deleted == 0 ==> x in r.meta
  {
  }

  /** Retiring keeps every other ring whole and leaves `o` without one. */
  lemma {:induction false} RetireRinged(c: Cache, o: Ref)
    requires Sound(c) && o in c.heads
    ensures Ringed(Retire(c, o).0)
  {
    RetireCounted(c, o);
    RingedDropped(c, Retire(c, o).0, o);
  }

  /** The rings other than that of `o` are untouched, and `o` is gone or
      marked deleted. */
  lemma {:induction false} RingedDropped(c: Cache, r: Cache, o: Ref)
    requires Ringed(c) && o in c.heads && r.heads == c.heads - {o}
    requires forall s :: s in r.slots <==> s in c.slots && !(s.owner == o && s.index < SLOTS)
    requires forall x :: x in r.meta && x != o ==> x in c.meta && r.meta[x].deleted == c.meta[x].deleted
    requires forall x :: x in c.meta && x != o && c.meta[x].deleted == 0 ==> x in r.meta
    requires o in r.meta ==> r.meta[o].deleted == 1
    ensures Ringed(r)
  {
  }

  /** `merge` retiring the node it emptied keeps the protocol sound. */
  lemma {:induction false} RetireSafe(c: Cache, o: Ref)
    requires Sound(c) && o in c.heads
    ensures var r := Retire(c, o);
            && Sound(r.0) && FreesSafe(c, r.0, r.1)
            && (o in r.0.meta <==> Holding(r.0.slots, o) != {})
  {
    RetireCounted(c, o);
    RetireRinged(c, o);
  }

  /** A slot of a fresh ring: no node. */
  const Blank: Entry := Entry(NULL, [])

  /** `cbtree_node_alloc` with `initQueue` as evidently meant: a zeroed node,
      so its count and deleted words are 0, with a ring of four empty slots
      whose head is slot 0. */
  function Alloc(c: Cache, o: Ref): (r: Cache)
    requires o != NULL && o !in c.meta
    ensures r.meta.Keys == c.meta.Keys + {o} && r.meta[o] == Meta(0, 0)
    ensures forall x :: x in c.meta ==> r.meta[x] == c.meta[x]
    ensures r.heads.Keys == c.heads.Keys + {o} && r.heads[o] == 0
    ensures forall i :: 0 <= i < SLOTS ==> SlotId(o, i) in r.slots && r.slots[SlotId(o, i)] == Blank
    ensures forall s :: s in r.slots ==> s in c.slots || (s.owner == o && s.index < SLOTS)
  {
    var s := c.slots[SlotId(o, 0) := Blank][SlotId(o, 1) := Blank][SlotId(o, 2) := Blank][SlotId(o, 3) := Blank];
    Cache(c.meta[o := Meta(0, 0)], s, c.heads[o := 0])
  }

  /** The counts stay right: the new node is in no slot and its empty
      slots count no node. */
  lemma {:induction false} AllocCounted(c: Cache, o: Ref)
    requires Counted(c.meta, c.slots) && o != NULL && o !in c.meta
    requires forall i :: 0 <= i < SLOTS ==> SlotId(o, i) !in c.slots
    ensures var r := Alloc(c, o); Counted(r.meta, r.slots) && Sub(c.slots, r.slots)
  {
    var r := Alloc(c, o);
    forall x | x != NULL ensures Holding(r.slots, x) == Holding(c.slots, x) {
      BlankRing(c.slots, o, x);
    }
    assert Holding(c.slots, o) == {} by {
      forall s | s in c.slots ensures c.slots[s].node != o { }
    }
  }

  /** The new ring has its four slots and a head on slot 0. */
  lemma {:induction false} AllocRinged(c: Cache, o: Ref)
    requires Ringed(c) && o != NULL && o !in c.meta
    ensures Ringed(Alloc(c, o))
  {
  }

  /** A new node is live, in no slot, with four empty slots; nothing else
      changes and the protocol stays sound. */
  lemma {:induction false} AllocSafe(c: Cache, o: Ref)
    requires Sound(c) && o != NULL && o !in c.meta
    ensures Sound(Alloc(c, o)) && Sub(c.slots, Alloc(c, o).slots)
  {
    AllocCounted(c, o);
    AllocRinged(c, o);
  }

  /** Four empty slots change no node's count. */
  lemma {:induction false} BlankRing(slots: map<SlotId, Entry>, o: Ref, x: Ref)
    requires x != NULL && forall i :: 0 <= i < SLOTS ==> SlotId(o, i) !in slots
    ensures var s := slots[SlotId(o, 0) := Blank][SlotId(o, 1) := Blank][SlotId(o, 2) := Blank][SlotId(o, 3) := Blank];
            Holding(s, x) == Holding(slots, x)
  {
  }

  /** Ring position `i` of `o` caches a live node not marked deleted under
      exactly `key`: `cachelongcmp` over the key's words is 0. */
  predicate Hit(c: Cache, o: Ref, key: Key, i: nat)
    requires SlotId(o, i) in c.slots
  {
    var e := c.slots[SlotId(o, i)];
    && e.node != NULL && e.node in c.meta && c.meta[e.node].deleted == 0
    && |e.key| == |key| && CacheLongcmp(key, e.key, |key|) == 0
  }

  /** Ring position `k` steps past the head `h`. */
  function Step(h: nat, k: nat): (r: nat)
    ensures r < SLOTS
  {
    (h + k) % SLOTS
  }

  /** The probe loop of `findNode` from its `j`-th step on: the number of
      steps past the head `h` to the first hit, if any. */
  function FirstHit(c: Cache, o: Ref, key: Key, h: nat, j: nat): (r: Option<nat>)
    requires h < SLOTS && j <= SLOTS && HasRing(c, o)
    ensures r.Some? ==> j <= r.value < SLOTS && Hit(c, o, key, Step(h, r.value))
    ensures r.Some? ==> forall k :: j <= k < r.value ==> !Hit(c, o, key, Step(h, k))
    ensures r.None? ==> forall k :: j <= k < SLOTS ==> !Hit(c, o, key, Step(h, k))
    decreases SLOTS - j
  {
    if j == SLOTS then None
    else if Hit(c, o, key, Step(h, j)) then Some(j)
    else FirstHit(c, o, key, h, j + 1)
  }

  /** Four steps from any head visit every ring position. */
  lemma {:induction false} ProbeCovers(c: Cache, o: Ref, key: Key, h: nat)
    requires h < SLOTS && HasRing(c, o)
    requires forall k :: 0 <= k < SLOTS ==> !Hit(c, o, key, Step(h, k))
    ensures forall i :: 0 <= i < SLOTS ==> !Hit(c, o, key, i)
  {
    forall i | 0 <= i < SLOTS ensures !Hit(c, o, key, i) {
      var k := (i + SLOTS - h) % SLOTS;
      assert Step(h, k) == i;
    }
  }

  /** `findNode` as evidently meant: probe the ring of `o` from its head,
      four slots at most, for a live node not marked deleted cached under
      `key`. A hit returns that node and leaves the head on its slot; a
      miss returns `NULL` and moves the head one slot on. Nothing but the
      head changes. */
  function FindNode(c: Cache, o: Ref, key: Key): (r: (Ref, Cache))
    requires HasRing(c, o) && o in c.heads && c.heads[o] < SLOTS
    ensures r.1.meta == c.meta && r.1.slots == c.slots
    ensures r.1.heads.Keys == c.heads.Keys
    ensures forall x :: x in c.heads && x != o ==> r.1.heads[x] == c.heads[x]
    ensures r.1.heads[o] < SLOTS
    ensures r.0 == NULL <==> forall i :: 0 <= i < SLOTS ==> !Hit(c, o, key, i)
    ensures r.0 == NULL ==> r.1.heads[o] == Step(c.heads[o], 1)
    ensures r.0 != NULL ==> Hit(c, o, key, r.1.heads[o]) && r.0 == c.slots[SlotId(o, r.1.heads[o])].node
    ensures r.0 != NULL ==>
              forall k :: 0 <= k < (r.1.heads[o] + SLOTS - c.heads[o]) % SLOTS ==> !Hit(c, o, key, Step(c.heads[o], k))
  {
    var h := c.heads[o];
    match FirstHit(c, o, key, h, 0)
    case None =>
      ProbeCovers(c, o, key, h);
      (NULL, c.(heads := c.heads[o := Step(h, 1)]))
    case Some(j) =>
      var i := Step(h, j);
      assert (i + SLOTS - h) % SLOTS == j;
      (c.slots[SlotId(o, i)].node, c.(heads := c.heads[o := i]))
  }

  /** A probe leaves the protocol sound. */
  lemma {:induction false} FindNodeSafe(c: Cache, o: Ref, key: Key)
    requires Sound(c) && o in c.heads
    ensures Sound(FindNode(c, o, key).1)
  {
  }

  /** A hit on the head slot is found at once and moves nothing. */
  lemma {:induction false} FindAtHead(c: Cache, o: Ref, key: Key)
    requires HasRing(c, o) && o in c.heads && c.heads[o] < SLOTS && Hit(c, o, key, c.heads[o])
    ensures FindNode(c, o, key) == (c.slots[SlotId(o, c.heads[o])].node, c)
  {
    var h := c.heads[o];
    assert Step(h, 0) == h;
    assert FirstHit(c, o, key, h, 0) == Some(0);
    assert c.heads[o := h] == c.heads;
  }

  /** A node `setcache` has just cached under `key` is what `findNode`
      finds next for `key`, and the probe changes nothing. */
  lemma {:induction false} SetCacheThenFind(c: Cache, o: Ref, n: Ref, key: Key)
    requires Sound(c) && o in c.heads && n in c.meta && c.meta[n].deleted == 0
    ensures var r := SetCache(c, o, n, key).0;
            Sound(r) && FindNode(r, o, key) == (n, r)
  {
    SetCacheSafe(c, o, n, key);
    SetCacheCounted(c, o, n, key);
    var r := SetCache(c, o, n, key).0;
    assert r.slots[SlotId(o, r.heads[o])] == Entry(n, key);
    assert Hit(r, o, key, r.heads[o]);
    FindAtHead(r, o, key);
  }
}

=== FILE: cache_bugs.dfy ===
/** The node cache as its source is written, next to the corrected model of
    module `NodeCache`. Each function here follows the C statements; the
    lemmas name the inputs on which the code as written and the corrected
    model part ways. */
module CacheAsWritten {
  import opened Keys
  import opened Nodes
  import opened Options
  import opened NodeCache

  /** `setcache` as written. The test before the release looks at the slot
      pointer, never NULL in a ring, instead of at the node the slot holds,
      so an empty slot is dereferenced (`None`); and the key-copy loop has
      its condition and increment swapped, so it never runs and the slot
      keeps the key it had. */
  function SetCacheAsWritten(c: Cache, o: Ref, n: Ref, key: Key): (r: Option<(Cache, seq<Ref>)>)
    requires Counted(c.meta, c.slots) && o in c.heads && SlotId(o, c.heads[o]) in c.slots
    requires n in c.meta && c.meta[n].deleted == 0
    ensures r.None? <==> c.slots[SlotId(o, c.heads[o])].node == NULL
    ensures r.Some? ==> r.value == SetCache(c, o, n, c.slots[SlotId(o, c.heads[o])].key)
  {
    var s := SlotId(o, c.heads[o]);
    var e := c.slots[s];
    if e.node == NULL then None
    else Some(SetCache(c, o, n, e.key))
  }

  /** The first `setcache` on a ring `cbtree_node_alloc` has just made
      dereferences the NULL node of its head slot; the corrected `setcache`
      caches the node and `findNode` finds it. */
  lemma {:induction false} FreshRingSetCacheAsWritten(c: Cache, o: Ref, n: Ref, key: Key)
    requires Sound(c) && o != NULL && o !in c.meta && n in c.meta && c.meta[n].deleted == 0
    ensures var a := Alloc(c, o);
            && Sound(a) && SetCacheAsWritten(a, o, n, key) == None
            && Sound(SetCache(a, o, n, key).0) && FindNode(SetCache(a, o, n, key).0, o, key).0 == n
  {
    AllocSafe(c, o);
    SetCacheThenFind(Alloc(c, o), o, n, key);
  }

  /** Overwriting a slot that held another key, the as-written `setcache`
      leaves the old key in place: the slot is no hit for the new key. */
  lemma {:induction false} StaleKeyAsWritten(c: Cache, o: Ref, n: Ref, key: Key)
    requires Sound(c) && o in c.heads && n in c.meta && c.meta[n].deleted == 0
    requires c.slots[SlotId(o, c.heads[o])].node != NULL
    requires c.slots[SlotId(o, c.heads[o])].key != key
    ensures var r := SetCacheAsWritten(c, o, n, key);
            r.Some? && !Hit(r.value.0, o, key, c.heads[o])
  {
    var s := SlotId(o, c.heads[o]);
    var k0 := c.slots[s].key;
    var r := SetCache(c, o, n, k0).0;
    assert r.slots[s] == Entry(n, k0);
    if |k0| == |key| {
      assert k0[..|key|] == k0 && key[..|key|] == key;
    }
  }

  /** The loop of `findNode` as written, from iteration `i` on, for the
      head slot `e` of a ring whose head was `h`. `current` never leaves the
      head slot. An empty slot is dereferenced (`None`). A node marked
      deleted is freed, whatever its count, on every iteration. The return
      fires when `cachelongcmp` reports a MISMATCH. The result is the node
      returned, the nodes freed in order, and where the head is left. */
  function ProbeAsWritten(c: Cache, e: Entry, key: Key, h: nat, i: nat, freed: seq<Ref>): (r: Option<(Ref, seq<Ref>, nat)>)
    requires h < SLOTS && i <= SLOTS
    decreases SLOTS - i
  {
    var head := if i == 0 then h else Step(h, 1);
    if i == SLOTS then Some((NULL, freed, head))
    else if e.node == NULL then None
    else if e.node in c.meta && c.meta[e.node].deleted == 1 then ProbeAsWritten(c, e, key, h, i + 1, freed + [e.node])
    else if |e.key| != |key| || CacheLongcmp(key, e.key, |key|) != 0 then Some((e.node, freed, head))
    else ProbeAsWritten(c, e, key, h, i + 1, freed)
  }

  /** `findNode` as written on the ring of `o`. */
  function FindNodeAsWritten(c: Cache, o: Ref, key: Key): (r: Option<(Ref, seq<Ref>, nat)>)
    requires o in c.heads && c.heads[o] < SLOTS && SlotId(o, c.heads[o]) in c.slots
  {
    ProbeAsWritten(c, c.slots[SlotId(o, c.heads[o])], key, c.heads[o], 0, [])
  }

  /** A hit on the head slot: the corrected probe returns the cached node at
      once; the probe as written runs its four iterations and returns NULL. */
  lemma {:induction false} HitMissedAsWritten(c: Cache, o: Ref, key: Key)
    requires HasRing(c, o) && o in c.heads && c.heads[o] < SLOTS && Hit(c, o, key, c.heads[o])
    ensures FindNodeAsWritten(c, o, key) == Some((NULL, [], Step(c.heads[o], 1)))
    ensures FindNode(c, o, key).0 == c.slots[SlotId(o, c.heads[o])].node != NULL
  {
    var h := c.heads[o];
    var e := c.slots[SlotId(o, h)];
    assert ProbeAsWritten(c, e, key, h, 3, []) == Some((NULL, [], Step(h, 1)));
    assert ProbeAsWritten(c, e, key, h, 1, []) == Some((NULL, [], Step(h, 1)));
    FindAtHead(c, o, key);
  }

  /** A live node cached under another key: the probe as written returns it
      for `key` although no slot of the ring holds it under `key`. */
  lemma {:induction false} WrongNodeAsWritten(c: Cache, o: Ref, key: Key)
    requires HasRing(c, o) && o in c.heads && c.heads[o] < SLOTS
    requires var e := c.slots[SlotId(o, c.heads[o])];
             e.node != NULL && e.node in c.meta && c.meta[e.node].deleted == 0 && e.key != key
    ensures var e := c.slots[SlotId(o, c.heads[o])];
            FindNodeAsWritten(c, o, key) == Some((e.node, [], c.heads[o]))
  {
    var e := c.slots[SlotId(o, c.heads[o])];
    if |e.key| == |key| {
      assert e.key[..|key|] == e.key && key[..|key|] == key;
    }
  }

  /** A node marked deleted in the head slot: the probe as written frees it
      four times over, while the counts say a slot still holds it. */
  lemma {:induction false} DeletedFreedAsWritten(c: Cache, o: Ref, key: Key)
    requires Sound(c) && o in c.heads
    requires var e := c.slots[SlotId(o, c.heads[o])];
             e.node != NULL && c.meta[e.node].deleted == 1
    ensures var x := c.slots[SlotId(o, c.heads[o])].node;
            && FindNodeAsWritten(c, o, key) == Some((NULL, [x, x, x, x], Step(c.heads[o], 1)))
            && c.meta[x].count >= 1
  {
    var h := c.heads[o];
    var e := c.slots[SlotId(o, h)];
    var x := e.node;
    assert [x, x, x] + [x] == [x, x, x, x] && [x, x] + [x] == [x, x, x] && [x] + [x] == [x, x] && [] + [x] == [x];
    assert ProbeAsWritten(c, e, key, h, 3, [x, x, x]) == Some((NULL, [x, x, x, x], Step(h, 1)));
    assert ProbeAsWritten(c, e, key, h, 2, [x, x]) == Some((NULL, [x, x, x, x], Step(h, 1)));
    assert ProbeAsWritten(c, e, key, h, 1, [x]) == Some((NULL, [x, x, x, x], Step(h, 1)));
  }

  /** What `freeQueue` does to a slot record, named by how many slots past
      the ring's head it lies. */
  datatype Touch = Read(step: nat) | Free(step: nat)

  /** Some record is read after it was freed. */
  ghost predicate UseAfterFree(t: seq<Touch>) {
    exists i, j :: 0 <= i < j < |t| && t[i] == Free(t[j].step) && t[j].Read?
  }

  /** The records the loop of `freeQueue` touches as written, from its
      `k`-th iteration on: each iteration reads `temp` for its successor,
      reads the successor to release its node, and only then frees `temp`;
      the successor of the last slot is the head. */
  function TeardownAsWritten(k: nat): (t: seq<Touch>)
    requires k <= SLOTS
    decreases SLOTS - k
  {
    if k == SLOTS then [] else [Read(k), Read((k + 1) % SLOTS), Free(k)] + TeardownAsWritten(k + 1)
  }

  /** The corrected loop from its `k`-th iteration on: read a record,
      release its node, free it, and move to the next. */
  function Teardown(k: nat): (t: seq<Touch>)
    requires k <= SLOTS
    ensures |t| == 2 * (SLOTS - k)
    ensures forall i :: 0 <= i < |t| ==> t[i] == if i % 2 == 0 then Read(k + i / 2) else Free(k + i / 2)
    decreases SLOTS - k
  {
    if k == SLOTS then []
    else
      var rest := Teardown(k + 1);
      var t := [Read(k), Free(k)] + rest;
      assert forall i :: 2 <= i < |t| ==> t[i] == rest[i - 2];
      t
  }

  /** The loop as written reads the head record after freeing it. */
  lemma {:induction false} TeardownUseAfterFreeAsWritten()
    ensures UseAfterFree(TeardownAsWritten(0))
  {
    var t := TeardownAsWritten(0);
    assert t == [Read(0), Read(1), Free(0), Read(1), Read(2), Free(1),
                 Read(2), Read(3), Free(2), Read(3), Read(0), Free(3)];
    assert t[2] == Free(t[10].step) && t[10].Read?;
  }

  /** The corrected loop reads no record after freeing it, and frees all
      four. */
  lemma {:induction false} TeardownSafe()
    ensures !UseAfterFree(Teardown(0))
    ensures forall p :: 0 <= p < SLOTS ==> Free(p) in Teardown(0)
  {
    var u := Teardown(0);
    forall p | 0 <= p < SLOTS ensures Free(p) in u {
      assert u[2 * p + 1] == Free(p);
    }
  }

  /** `freeQueue` as written: the test before each release looks at the
      slot pointer, never NULL in a ring, so a slot holding no node is
      dereferenced (`None`). With every slot full, it releases the four
      nodes as the corrected loop does. */
  function FreeQueueAsWritten(c: Cache, o: Ref): (r: Option<(Cache, seq<Ref>)>)
    requires Counted(c.meta, c.slots) && HasRing(c, o)
    ensures r.None? <==> exists i :: 0 <= i < SLOTS && c.slots[SlotId(o, i)].node == NULL
  {
    if exists i :: 0 <= i < SLOTS && c.slots[SlotId(o, i)].node == NULL then None
    else Some(FreeQueue(c, o))
  }

  /** `merge` on a node whose ring still has an empty slot, such as one that
      `cbtree_node_alloc` has just made, dereferences NULL in `freeQueue`. */
  lemma {:induction false} FreshRingFreeQueueAsWritten(c: Cache, o: Ref)
    requires Sound(c) && o != NULL && o !in c.meta
    ensures Sound(Alloc(c, o)) && FreeQueueAsWritten(Alloc(c, o), o) == None
  {
    AllocSafe(c, o);
    assert Alloc(c, o).slots[SlotId(o, 0)].node == NULL;
  }

  /** The `fill == 0` branch of `rebalance` as written: after `freeQueue` on
      the emptied child, an uncounted child is "freed" through the NULL
      `right`, which frees nothing; a counted one is marked deleted. */
  function RetireEmptyAsWritten(c: Cache, o: Ref): (r: (Cache, seq<Ref>))
    requires Counted(c.meta, c.slots) && HasRing(c, o) && o in c.meta && c.meta[o].deleted == 0
  {
    var q := FreeQueue(c, o);
    var m := q.0.meta[o];
    if m.count == 0 then q
    else (q.0.(meta := q.0.meta[o := Meta(m.count, 1)]), q.1)
  }

  /** When no other ring caches the emptied child, the branch as written
      leaks it: the child stays live, unmarked and without a ring, and since
      no slot points at it no release can ever free it. The corrected
      retirement frees it. */
  lemma {:induction false} RetireEmptyLeaksAsWritten(c: Cache, o: Ref)
    requires Sound(c) && o in c.heads
    requires forall s :: s in c.slots && s.owner != o ==> c.slots[s].node != o
    ensures var r := RetireEmptyAsWritten(c, o).0;
            && o in r.meta && r.meta[o].deleted == 0 && o !in r.heads
            && Holding(r.slots, o) == {} && !Ringed(r)
    ensures o !in Retire(c, o).0.meta
  {
    var q := FreeQueue(c, o);
    assert Holding(q.0.slots, o) == {} by {
      forall s | s in q.0.slots ensures q.0.slots[s].node != o {
        assert s in c.slots && s.owner != o;
      }
    }
    RetireSafe(c, o);
    assert Retire(c, o).0.slots == q.0.slots;
  }

  /** `cbtree_shrink` as written: after `freeQueue` on the old root, the
      root is freed whatever its count. */
  function ShrinkFreeAsWritten(c: Cache, o: Ref): (r: (Cache, seq<Ref>))
    requires Counted(c.meta, c.slots) && HasRing(c, o)
  {
    var q := FreeQueue(c, o);
    (q.0.(meta := q.0.meta - {o}), q.1 + [o])
  }

  /** When a slot of another ring caches the old root, the shrink as written
      frees it while that slot still points at it: the counts no longer
      hold and the free is unsafe. The corrected retirement only marks it
      deleted. */
  lemma {:induction false} ShrinkDanglingAsWritten(c: Cache, o: Ref, s: SlotId)
    requires Sound(c) && o in c.heads && s in c.slots && s.owner != o && c.slots[s].node == o
    ensures var r := ShrinkFreeAsWritten(c, o);
            !Counted(r.0.meta, r.0.slots) && !FreesSafe(c, r.0, r.1)
    ensures o in Retire(c, o).0.meta && Retire(c, o).0.meta[o].deleted == 1
  {
    var q := FreeQueue(c, o);
    var r := ShrinkFreeAsWritten(c, o);
    assert s in r.0.slots && r.0.slots[s].node == o;
    assert s in Holding(r.0.slots, o);
    assert r.1[|r.1| - 1] == o;
    RetireSafe(c, o);
    assert Retire(c, o).0.slots == q.0.slots;
    assert s in Holding(Retire(c, o).0.slots, o);
  }

  /** One store of `initQueue`: word `word` of the `block`-th block it
      allocated. */
  datatype Store = Store(block: nat, word: nat)

  /** Every store lands inside its block, given the blocks' sizes in words
      in allocation order. */
  ghost predicate InBounds(sizes: seq<nat>, stores: seq<Store>) {
    forall k :: 0 <= k < |stores| ==> stores[k].block < |sizes| && stores[k].word < sizes[stores[k].block]
  }

  /** `initQueue` as written, from iteration `i` on, `last` being the block
      `previous` points at. Iteration `i` allocates slot record `2i` (three
      words: node, key, next) and stores its node and next words, then
      allocates key buffer `2i + 1` (two words) and, by the chained
      assignment, makes `current` point at that buffer as well as storing it
      in the record's key word. C leaves unsequenced whether the key word is
      stored through the record or through the new buffer; the model takes the
      record. Either way `current` ends up at the buffer, so the overflow below
      does not depend on that choice. Linking then stores word 2 of the
      previous BUFFER, and closing the ring word 2 of the last one. The result
      is the block sizes, the stores in order, and the block the head points at. */
  function InitQueueAsWritten(i: nat, last: nat): (r: (seq<nat>, seq<Store>, nat))
    requires i <= SLOTS
    decreases SLOTS - i
  {
    if i == SLOTS then ([], [Store(last, 2)], 1)
    else
      var link := if i == 0 then [] else [Store(last, 2)];
      var rest := InitQueueAsWritten(i + 1, 2 * i + 1);
      ([3, 2] + rest.0, [Store(2 * i, 0), Store(2 * i, 2), Store(2 * i, 1)] + link + rest.1, rest.2)
  }

  /** `initQueue` as evidently meant: the key buffer goes into the record's
      key word only, and the links are the records' next words. */
  function InitQueue(i: nat, last: nat): (r: (seq<nat>, seq<Store>, nat))
    requires i <= SLOTS
    decreases SLOTS - i
  {
    if i == SLOTS then ([], [Store(last, 2)], 0)
    else
      var link := if i == 0 then [] else [Store(last, 2)];
      var rest := InitQueue(i + 1, 2 * i);
      ([3, 2] + rest.0, [Store(2 * i, 0), Store(2 * i, 2), Store(2 * i, 1)] + link + rest.1, rest.2)
  }

  /** As written, the second iteration already stores past the end of the
      first two-word key buffer, and the head is that buffer, not a slot
      record. */
  lemma {:induction false} InitQueueOverflowAsWritten()
    ensures var r := InitQueueAsWritten(0, 0);
            !InBounds(r.0, r.1) && r.0[r.2] == 2
  {
    var r := InitQueueAsWritten(0, 0);
    assert r.0 == [3, 2, 3, 2, 3, 2, 3, 2];
    assert r.1[6] == Store(1, 2);
  }

  /** As meant, every store lands inside its block and the head is the
      first slot record. */
  lemma {:induction false} InitQueueInBounds()
    ensures var r := InitQueue(0, 0);
            InBounds(r.0, r.1) && r.2 == 0 && r.0[r.2] == 3
  {
    var r := InitQueue(0, 0);
    assert r.0 == [3, 2, 3, 2, 3, 2, 3, 2];
    assert r.1 == [Store(0, 0), Store(0, 2), Store(0, 1),
                   Store(2, 0), Store(2, 2), Store(2, 1), Store(0, 2),
                   Store(4, 0), Store(4, 2), Store(4, 1), Store(2, 2),
                   Store(6, 0), Store(6, 2), Store(6, 1), Store(4, 2),
                   Store(6, 2)];
  }
}

=== FILE: calclock.dfy ===
/** The timing report helpers: `separate_num`, which renders an unsigned
    64-bit number in decimal with thousands separators, and `__ktprint`,
    which keeps the largest time reported so far and prints each time as a
    percentage of it with two decimals. */
module CalcLock {
  import opened Keys

  /** The character of a decimal digit. */
  function DigitChar(d: nat): (c: char)
    requires d < 10
  {
    ['0', '1', '2', '3', '4', '5', '6', '7', '8', '9'][d]
  }

  /** The value of a digit character, the inverse of `DigitChar`. */
  function DigitVal(c: char): (d: nat)
    ensures d < 10
    ensures forall x :: 0 <= x < 10 && DigitChar(x) == c ==> d == x
  {
    if '0' <= c <= '9' then (c - '0') as nat else 0
  }

  predicate IsDigits(s: string) {
    forall i :: 0 <= i < |s| ==> '0' <= s[i] <= '9'
  }

  /** What `%llu` prints: the decimal digits, most significant first, with
      no leading zero. */
  function Decimal(n: nat): (r: string)
    ensures |r| >= 1 && IsDigits(r)
    decreases n
  {
    if n < 10 then [DigitChar(n)] else Decimal(n / 10) + [DigitChar(n % 10)]
  }

  /** The number a string of decimal digits denotes. */
  function Value(s: string): nat {
    if s == [] then 0 else Value(s[..|s| - 1]) * 10 + DigitVal(s[|s| - 1])
  }

  /** `%llu` round-trips: its digits denote the number, and it has no
      leading zero. */
  lemma {:induction false} DecimalValue(n: nat)
    ensures Value(Decimal(n)) == n
    ensures |Decimal(n)| > 1 ==> Decimal(n)[0] != '0'
    decreases n
  {
    var r := Decimal(n);
    if n >= 10 {
      DecimalValue(n / 10);
      assert r[..|r| - 1] == Decimal(n / 10);
      assert r[0] == Decimal(n / 10)[0];
    }
  }

  function Ten(k: nat): nat {
    if k == 0 then 1 else 10 * Ten(k - 1)
  }

  /** A number below 10^k has at most k digits. */
  lemma {:induction false} DecimalLength(n: nat, k: nat)
    requires k >= 1 && n < Ten(k)
    ensures |Decimal(n)| <= k
    decreases k
  {
    if n >= 10 {
      assert k >= 2;
      DecimalLength(n / 10, k - 1);
    }
  }

  lemma {:induction false} TenAdd(a: nat, b: nat)
    ensures Ten(a + b) == Ten(a) * Ten(b)
    decreases a
  {
    if a > 0 {
      TenAdd(a - 1, b);
    }
  }

  /** An `unsigned long long` has at most 20 decimal digits. */
  lemma WordDigits(n: nat)
    requires n < WORD
    ensures |Decimal(n)| <= 20
  {
    assert Ten(5) == 100_000;
    TenAdd(5, 5);
    TenAdd(10, 10);
    DecimalLength(n, 20);
  }

  /** The digits with a comma before every group of three counted from the
      right: a digit is followed by a comma exactly when a positive multiple
      of three digits follows it. This is the reference reading of the
      output of `separate_num`. */
  function Group(ds: string): (g: string)
  {
    if ds == [] then []
    else if |ds| > 1 && (|ds| - 1) % 3 == 0 then [ds[0], ','] + Group(ds[1..])
    else [ds[0]] + Group(ds[1..])
  }

  /** The separated form of a number, as `separate_num` leaves it in the
      caller's buffer (without the terminating NUL). */
  function Separated(n: nat): string {
    Group(Decimal(n))
  }

  /** The characters of a string other than commas. */
  function Strip(s: string): string {
    if s == [] then []
    else (if s[0] == ',' then [] else [s[0]]) + Strip(s[1..])
  }

  /** Deleting the commas gives back the digits. */
  lemma {:induction false} StripGroup(ds: string)
    requires IsDigits(ds)
    ensures Strip(Group(ds)) == ds
    decreases |ds|
  {
    if ds != [] {
      var g := Group(ds);
      StripGroup(ds[1..]);
      if |ds| > 1 && (|ds| - 1) % 3 == 0 {
        assert g[1..] == [','] + Group(ds[1..]);
        assert Strip(g[1..]) == Strip(Group(ds[1..])) by {
          assert g[1..][1..] == Group(ds[1..]);
        }
      } else {
        assert g[1..] == Group(ds[1..]);
      }
    }
  }

  /** Deleting the commas from a separated number gives exactly its `%llu`
      form. */
  lemma SeparatedStrip(n: nat)
    ensures Strip(Separated(n)) == Decimal(n)
  {
    StripGroup(Decimal(n));
  }

  /** One comma per complete group of three beyond the first digit. */
  lemma {:induction false} GroupLength(ds: string)
    requires |ds| >= 1
    ensures |Group(ds)| == |ds| + (|ds| - 1) / 3
    decreases |ds|
  {
    if |ds| > 1 {
      GroupLength(ds[1..]);
    }
  }

  /** Counted from the right, every fourth character is a comma and every
      other one a digit. */
  ghost predicate CommaShape(g: string) {
    && (forall i :: 0 <= i < |g| ==> (g[i] == ',' <==> (|g| - i) % 4 == 0))
    && (forall i :: 0 <= i < |g| && g[i] != ',' ==> '0' <= g[i] <= '9')
  }

  /** Counted from the right, every fourth character of the output is a
      comma and every other one is a digit: groups of exactly three digits,
      and neither the first nor the last character is a comma. */
  lemma {:induction false} GroupCommas(ds: string)
    requires |ds| >= 1 && IsDigits(ds)
    ensures var g := Group(ds);
              && (forall i :: 0 <= i < |g| ==> (g[i] == ',' <==> (|g| - i) % 4 == 0))
              && (forall i :: 0 <= i < |g| && g[i] != ',' ==> '0' <= g[i] <= '9')
              && g[0] != ',' && g[|g| - 1] != ','
    decreases |ds|
  {
    GroupShape(ds);
  }

  lemma {:induction false} GroupShape(ds: string)
    requires |ds| >= 1 && IsDigits(ds)
    ensures CommaShape(Group(ds)) && Group(ds)[0] == ds[0] && |Group(ds)| % 4 != 0
    decreases |ds|
  {
    GroupLength(ds);
    GroupLengthMod(|ds|);
    if |ds| > 1 {
      var t := ds[1..];
      GroupShape(t);
      GroupLength(t);
      GroupLengthMod(|t|);
      if (|ds| - 1) % 3 == 0 {
        ShapeComma(ds[0], Group(t));
      } else {
        ShapeDigit(ds[0], Group(t));
      }
    }
  }

  /** The grouped length of `n` digits is never a multiple of four, and
      is one short of one when a comma goes in front. */
  lemma GroupLengthMod(n: nat)
    requires n >= 1
    ensures (n + (n - 1) / 3) % 4 != 0
    ensures n % 3 == 0 ==> (n + (n - 1) / 3 + 1) % 4 == 0
  {
    var q, r := (n - 1) / 3, (n - 1) % 3;
    assert n + q == 4 * q + r + 1;
    ModFour(q, r + 1);
    if n % 3 == 0 {
      assert r == 2;
      ModFour(q + 1, 0);
    }
  }

  lemma ModFour(q: nat, c: nat)
    requires c < 4
    ensures (4 * q + c) % 4 == c
  {
  }

  lemma {:induction false} ShapeComma(d: char, h: string)
    requires '0' <= d <= '9' && CommaShape(h) && (|h| + 1) % 4 == 0
    ensures CommaShape([d, ','] + h)
  {
    var g := [d, ','] + h;
    forall i | 2 <= i < |g| ensures g[i] == h[i - 2] { }
  }

  lemma {:induction false} ShapeDigit(d: char, h: string)
    requires '0' <= d <= '9' && CommaShape(h) && (|h| + 1) % 4 != 0
    ensures CommaShape([d] + h)
  {
    var g := [d] + h;
    forall i | 1 <= i < |g| ensures g[i] == h[i - 1] { }
  }

  /** A 64-bit number needs at most 26 characters, well within the
      100-character buffers. */
  lemma SeparatedFits(n: nat)
    requires n < WORD
    ensures |Separated(n)| <= 26
  {
    WordDigits(n);
    GroupLength(Decimal(n));
  }

  /** `s` reversed. */
  function Rev(s: string): (r: string)
    ensures |r| == |s|
  {
    if s == [] then [] else Rev(s[1..]) + [s[0]]
  }

  lemma {:induction false} RevIndex(s: string, i: nat)
    requires i < |s|
    ensures Rev(s)[i] == s[|s| - 1 - i]
    decreases |s|
  {
    if i < |s| - 1 {
      RevIndex(s[1..], i);
    }
  }

  /** The state of the first loop of `separate_num` after the digits `s`
      (a suffix of the `%llu` form) have been consumed: `counter` digits
      since the last comma, `rvs` the separated suffix reversed, and a comma
      already pending when `counter` was reset. */
  ghost predicate Reversing(s: string, counter: int, rvs: string) {
    || (counter == 0 && s == [] && rvs == [])
    || (1 <= counter <= 3 && |s| >= 1 && counter == (|s| - 1) % 3 + 1 && rvs == Rev(Group(s)))
    || (counter == 0 && |s| >= 3 && |s| % 3 == 0 && rvs == Rev(Group(s)) + [','])
  }

  lemma ReversingDigit(tmp: string, cur: int, counter: int, rvs: string)
    requires 0 <= cur < |tmp| && 0 <= counter < 3
    requires Reversing(tmp[cur + 1..], counter, rvs)
    ensures Reversing(tmp[cur..], counter + 1, rvs + [tmp[cur]])
  {
    var s, s' := tmp[cur + 1..], tmp[cur..];
    assert s' == [tmp[cur]] + s && s'[1..] == s;
    if counter == 0 && s != [] {
      assert Group(s') == [tmp[cur], ','] + Group(s);
      assert Rev(Group(s')) == Rev([','] + Group(s)) + [tmp[cur]];
      assert ([','] + Group(s))[1..] == Group(s);
    } else {
      assert Group(s') == [tmp[cur]] + Group(s);
      assert Group(s')[1..] == Group(s);
    }
  }

  /** The first loop of `separate_num` (calclock.c:19-29): walk the digits
      from the last to the first, appending each to the scratch buffer and,
      once three have gone by, a comma instead (stepping `cur` back so the
      same digit is read again). The scratch buffer ends up holding the
      separated digits reversed. */
  method ReverseGroups(tmp: string) returns (rvs: string)
    requires |tmp| >= 1
    ensures rvs == Rev(Group(tmp))
  {
    var cur: int := |tmp|;
    var counter := 0;
    rvs := [];
    cur := cur - 1;
    while cur > -1
      invariant -1 <= cur < |tmp|
      invariant 0 <= counter <= 3
      invariant Reversing(tmp[cur + 1..], counter, rvs)
      invariant counter == 0 && rvs != [] ==> cur >= 0
      decreases 2 * (cur + 1) + (if counter == 3 then 1 else 0)
    {
      if counter == 3 {
        rvs := rvs + [','];
        counter := 0;
        cur := cur + 1;
      } else {
        ReversingDigit(tmp, cur, counter, rvs);
        rvs := rvs + [tmp[cur]];
        counter := counter + 1;
      }
      cur := cur - 1;
    }
    assert tmp[cur + 1..] == tmp;
  }

  /** The second loop of `separate_num` (calclock.c:31-34): copy the scratch
      buffer back to front, which undoes the reversal. */
  method CopyBack(rvs: string, ghost g: string) returns (out: string)
    requires rvs == Rev(g)
    ensures out == g
  {
    out := [];
    var rvsCur := |rvs| - 1;
    while rvsCur > -1
      invariant -1 <= rvsCur < |rvs|
      invariant out == g[..|g| - 1 - rvsCur]
    {
      RevIndex(g, rvsCur);
      out := out + [rvs[rvsCur]];
      rvsCur := rvsCur - 1;
    }
  }

  /** `separate_num`: `sprintf` the number, reverse it into the scratch
      buffer with commas, copy it back and terminate it. What the caller's
      buffer holds is the separated number followed by the NUL, in at most
      27 of its 100 characters. */
  method SeparateNum(number: nat) returns (buffer: string)
    requires number < WORD
    ensures buffer == Separated(number) + ['\0']
    ensures |buffer| <= 27
  {
    var tmp := Decimal(number);
    var rvs := ReverseGroups(tmp);
    var out := CopyBack(rvs, Group(tmp));
    buffer := out + ['\0'];
    SeparatedFits(number);
  }

  /** Two's-complement wrap-around of a signed 64-bit `ktime_t`. */
  const S64: int := WORD / 2

  function WrapS64(x: int): (r: int)
    ensures -S64 <= r < S64
    ensures -S64 <= x < S64 ==> r == x
  {
    (x + S64) % WORD - S64
  }

  /** Conversion of a value to a 32-bit `int`, wrapping as the usual
      two's-complement build does. */
  const I32: int := 0x8000_0000

  function WrapI32(x: int): (r: int)
    ensures -I32 <= r < I32
    ensures -I32 <= x < I32 ==> r == x
  {
    (x + I32) % (2 * I32) - I32
  }

  /** C's `/`, which truncates toward zero (Dafny's rounds the remainder
      up to non-negative). */
  function Quot(a: int, b: int): (q: int)
    requires b > 0
    ensures a >= 0 ==> q == a / b
    ensures a < 0 ==> q == -((-a) / b)
  {
    if a >= 0 then a / b else -((-a) / b)
  }

  /** C's `%`, the remainder that goes with `Quot`. */
  function Rem(a: int, b: int): (m: int)
    requires b > 0
    ensures a == Quot(a, b) * b + m
    ensures a >= 0 ==> 0 <= m < b
  {
    a - Quot(a, b) * b
  }

  /** Lines 47-48: `totaltime` moves up to `time` when `time` is later. */
  function Tick(total: int, time: int): (r: int)
    ensures r >= total && r >= time
    ensures r == total || r == time
  {
    if total < time then time else total
  }

  /** `totaltime` after reporting each of `times` in turn, from its initial
      value 1. */
  function Total(times: seq<int>): int {
    if times == [] then 1 else Tick(Total(times[..|times| - 1]), times[|times| - 1])
  }

  /** `totaltime` is the running maximum of 1 and every time reported: it
      is at least each of them and equal to one of them. */
  lemma {:induction false} TotalIsMax(times: seq<int>)
    ensures Total(times) >= 1
    ensures forall i :: 0 <= i < |times| ==> times[i] <= Total(times)
    ensures Total(times) == 1 || exists i :: 0 <= i < |times| && times[i] == Total(times)
    decreases |times|
  {
    if times != [] {
      var init := times[..|times| - 1];
      TotalIsMax(init);
      assert forall i :: 0 <= i < |init| ==> times[i] == init[i];
    }
  }

  /** Line 49 as written: `time * 10000` in signed 64 bits (wrapping),
      divided by `totaltime` with truncation, stored in an `int`. */
  function PercentageAsWritten(total: int, time: int): (p: int)
    requires total > 0
  {
    WrapI32(Quot(WrapS64(time * 10000), total))
  }

  /** Line 49 with the product taken exactly. */
  function Percentage(total: int, time: int): (p: int)
    requires total > 0
  {
    WrapI32(Quot(time * 10000, total))
  }

  /** The two agree while `time * 10000` fits in a `ktime_t`. */
  lemma PercentageNoOverflow(total: int, time: int)
    requires total > 0 && -S64 <= time * 10000 < S64
    ensures PercentageAsWritten(total, time) == Percentage(total, time)
  {
  }

  /** A non-negative quotient that fits is what the percentage keeps. */
  lemma PercentageIs(t: int, time: int, q: int)
    requires t > 0 && time >= 0 && q == time * 10000 / t && q <= 10000
    ensures Percentage(t, time) == q
  {
  }

  /** After the update a non-negative time is at most the total, so its
      percentage lies in 0..10000 (0.00% to 100.00%). */
  lemma PercentageRange(total: int, time: int)
    requires total >= 1 && time >= 0
    ensures 0 <= Percentage(Tick(total, time), time) <= 10000
  {
    var t := Tick(total, time);
    var a := time * 10000;
    assert 0 <= a <= t * 10000;
    DivAtMost(a, t, 10000);
    var q := a / t;
    assert 0 <= q <= 10000;
    PercentageIs(t, time, q);
  }

  /** A time at or past the old total becomes the new total and prints
      exactly 10000, that is 100.00%. */
  lemma PercentageAtMax(total: int, time: int)
    requires total >= 1 && time >= total
    ensures Percentage(Tick(total, time), time) == 10000
  {
    assert Tick(total, time) == time;
    DivSelf(time);
    PercentageIs(time, time, 10000);
  }

  /** Ten thousand times a positive number, divided by it, is ten
      thousand. */
  lemma DivSelf(t: int)
    requires t > 0
    ensures t * 10000 / t == 10000
  {
    var q, r := t * 10000 / t, t * 10000 % t;
    assert t * 10000 == q * t + r && 0 <= r < t;
  }

  /** Dividing by a positive count never grows a non-negative number. */
  lemma DivShrinks(a: nat, b: nat)
    requires b >= 1
    ensures a / b <= a
  {
  }

  /** The `u64` cast leaves a non-negative per-CPU time as it is. */
  lemma CastSmall(time: nat, cpus: nat)
    requires cpus >= 1 && time < S64
    ensures Quot(time, cpus) % WORD == time / cpus
  {
    DivShrinks(time, cpus);
    var q := time / cpus;
    assert 0 <= q < WORD;
  }

  /** Line 49 as written overflows once `time` passes 2^63 / 10000
      nanoseconds (about ten and a half days of accumulated time): a new
      maximum of 2^62 prints as 0.00% instead of 100.00%. */
  lemma PercentageOverflowAsWritten()
    ensures var time := 0x4000_0000_0000_0000;
            Tick(1, time) == time &&
            PercentageAsWritten(Tick(1, time), time) == 0 &&
            Percentage(Tick(1, time), time) == 10000
  {
    var time := 0x4000_0000_0000_0000;
    assert time * 10000 == 625 * WORD * 4;
    assert WrapS64(time * 10000) == 0;
  }

  /** `(u64)(ktime_to_ns(time) / num_online_cpus())`: a truncating
      division, then the cast to unsigned. */
  function PerThread(time: int, cpus: nat): (r: nat)
    requires cpus >= 1 && -S64 <= time < S64
    ensures r < WORD
    ensures 0 <= time ==> r == time / cpus
  {
    var q := Quot(time, cpus);
    if time >= 0 then
      CastSmall(time, cpus);
      q % WORD
    else q % WORD
  }

  /** What one call of `__ktprint` reports: the separated count, the
      separated time and per-CPU time (both as `u64`), and the whole and
      fractional parts of the percentage. */
  datatype Report = Report(count: string, time: string, perThread: string, whole: int, frac: int)

  /** `__ktprint` for a `time` and `count`, with `cpus` the value of
      `num_online_cpus()` and `total` the static `totaltime`: the new total
      and the report. Line 49 is taken with the product exact. */
  function KtPrint(total: int, time: int, count: nat, cpus: nat): (r: (int, Report))
    requires total >= 1 && cpus >= 1
    requires -S64 <= time < S64 && count < WORD
    ensures r.0 == Tick(total, time)
    ensures var p := Percentage(r.0, time);
            r.1.whole * 100 + r.1.frac == p && (p >= 0 ==> 0 <= r.1.frac < 100)
    ensures r.1.count == Separated(count)
    ensures r.1.time == Separated(time % WORD)
  {
    var t := Tick(total, time);
    var p := Percentage(t, time);
    (t, Report(Separated(count), Separated(time % WORD), Separated(PerThread(time, cpus)),
               Quot(p, 100), Rem(p, 100)))
  }

  /** For a non-negative time the per-CPU figure is the truncated share
      of each online CPU. */
  lemma KtPrintPerThread(total: int, time: int, count: nat, cpus: nat)
    requires total >= 1 && cpus >= 1
    requires 0 <= time < S64 && count < WORD
    ensures KtPrint(total, time, count, cpus).1.perThread == Separated(time / cpus)
  {
  }

  /** `%.2d`: at least two digits, zero-padded. */
  function Pad2(n: nat): (r: string)
    requires n < 100
  {
    if n < 10 then ['0', DigitChar(n)] else Decimal(n)
  }

  /** ` (%d.%.2d%%)` for a non-negative percentage in hundredths. */
  function PercentText(p: nat): string {
    Decimal(p / 100) + ['.'] + Pad2(p % 100) + ['%']
  }

  /** `%.2d` reads back as its number. */
  lemma Pad2Value(f: nat)
    requires f < 100
    ensures |Pad2(f)| == 2 && Value(Pad2(f)) == f
  {
    var r := Pad2(f);
    if f < 10 {
      assert r[..1] == ['0'] && ['0'][..0] == [];
      assert DigitChar(0) == '0' && Value(['0']) == 0;
    } else {
      DecimalValue(f);
      assert Decimal(f) == Decimal(f / 10) + [DigitChar(f % 10)];
    }
  }

  /** The printed percentage reads back as the number of hundredths it was
      made from: the digits before the point and the two after it. */
  lemma PercentTextValue(p: nat)
    ensures var t := PercentText(p);
            var w := |Decimal(p / 100)|;
            |t| == w + 4 && t[w] == '.' && t[w + 3] == '%' &&
            Value(t[..w]) * 100 + Value(t[w + 1..w + 3]) == p
  {
    var t := PercentText(p);
    var d := Decimal(p / 100);
    DecimalValue(p / 100);
    Pad2Value(p % 100);
    assert t == d + ['.'] + Pad2(p % 100) + ['%'];
    assert t[..|d|] == d;
    assert t[|d| + 1..|d| + 3] == Pad2(p % 100);
  }
}

=== FILE: geometry.dfy ===
/** Node geometry: how many key/value pairs fit in one node block, where the
    key region ends and where the trailing cache-control words (ring pointer,
    reference count, deleted flag) sit. */
module Geometry {

  /** `struct cbtree_geo`: words per key, pairs per node, and the word offset
      at which the value region starts. */
  datatype Geo = Geo(keylen: nat, noPairs: nat, noLongs: nat)

  /** Trailing cache-control words: the ring pointer, the reference count and the deleted flag. */
  const CACHE_WORDS: nat := 3

  /** `NODESIZE`: the larger of the L1 cache line and 128 bytes. */
  function NodeSize(l1CacheBytes: nat): (r: nat)
    ensures r >= 128 && r >= l1CacheBytes
    ensures r == 128 || r == l1CacheBytes
  {
    if l1CacheBytes > 128 then l1CacheBytes else 128
  }

  /** Number of machine words in one node block. */
  function NodeWords(nodeSize: nat, longBytes: nat): nat
    requires longBytes > 0
  {
    nodeSize / longBytes
  }

  /** The geometry of a `keylen`-word key as the source computes it: the
      three cache words are subtracted from the node size in BYTES before the
      division by the word size. */
  function AsWrittenGeo(keylen: nat, nodeSize: nat, longBytes: nat): Geo
    requires longBytes > 0 && nodeSize >= CACHE_WORDS
  {
    var pairs := (nodeSize - CACHE_WORDS) / longBytes / (1 + keylen);
    Geo(keylen, pairs, keylen * pairs)
  }

  /** Word offset of the cache region as the source computes it
      (`keylen * no_pairs + no_longs`); the reference count sits one word
      after it and the deleted flag two words after it. */
  function AsWrittenCacheBase(g: Geo): nat {
    g.keylen * g.noPairs + g.noLongs
  }

  /** The geometry with the cache words subtracted in words: `no_pairs` is
      the largest number of pairs whose keys and values fit in the block next
      to the three cache words. */
  function FixedGeo(keylen: nat, nodeSize: nat, longBytes: nat): (g: Geo)
    requires longBytes > 0 && NodeWords(nodeSize, longBytes) >= CACHE_WORDS
    ensures g.keylen == keylen && g.noLongs == keylen * g.noPairs
    ensures g.noPairs * (1 + keylen) + CACHE_WORDS <= NodeWords(nodeSize, longBytes)
    ensures (g.noPairs + 1) * (1 + keylen) + CACHE_WORDS > NodeWords(nodeSize, longBytes)
  {
    var w := NodeWords(nodeSize, longBytes) - CACHE_WORDS;
    var pairs := w / (1 + keylen);
    assert pairs * (1 + keylen) <= w < (pairs + 1) * (1 + keylen);
    Geo(keylen, pairs, keylen * pairs)
  }

  /** Word offset of the cache region once the value region ends: keys take
      `no_longs` words and values `no_pairs` words. */
  function FixedCacheBase(g: Geo): nat {
    g.noLongs + g.noPairs
  }

  /** The smallest geometry the tree engine runs on: one-word keys and four
      pairs per node. */
  const TinyGeo := Geo(1, 4, 4)

  /** The geometries the tree engine runs on: at least one word per key and
      room for four pairs, which every standard geometry provides. */
  predicate TreeGeo(g: Geo) {
    g.keylen >= 1 && g.noPairs >= 4 && g.noLongs == g.keylen * g.noPairs
  }

  /** With a 128-byte node on a 64-bit kernel the deleted flag of a one-word-key
      node lands at word 16 of a 16-word block, and the cache region of a
      128-bit-key node starts at word 20, both beyond the block. */
  lemma {:induction false} GeometryOverflowAsWritten()
    ensures var g := AsWrittenGeo(1, 128, 8);
            g.noPairs == 7 && AsWrittenCacheBase(g) == 14 &&
            AsWrittenCacheBase(g) + 2 >= NodeWords(128, 8)
    ensures var g := AsWrittenGeo(2, 128, 8);
            g.noPairs == 5 && AsWrittenCacheBase(g) == 20 &&
            AsWrittenCacheBase(g) > NodeWords(128, 8)
  {}

  /** With the cache words subtracted in words, the keys, the values and all
      three cache-control words lie inside the block. */
  lemma {:induction false} FixedGeometryFits(keylen: nat, nodeSize: nat, longBytes: nat)
    requires longBytes > 0 && NodeWords(nodeSize, longBytes) >= CACHE_WORDS
    ensures var g := FixedGeo(keylen, nodeSize, longBytes);
            g.noLongs + g.noPairs + CACHE_WORDS <= NodeWords(nodeSize, longBytes) &&
            FixedCacheBase(g) + 2 < NodeWords(nodeSize, longBytes)
  {
    var w := NodeWords(nodeSize, longBytes);
    var g := FixedGeo(keylen, nodeSize, longBytes);
    var q := (w - CACHE_WORDS) / (1 + keylen);
    assert q * (1 + keylen) <= w - CACHE_WORDS;
    assert g.noLongs + g.noPairs == q * (1 + keylen);
  }

  /** The standard geometries (one-word, 64-bit and 128-bit keys, with 4- or
      8-byte words and a 128-byte node) give the tree engine room for at least
      four pairs, both as the source computes them and corrected. */
  lemma {:induction false} StandardGeometries()
    ensures TreeGeo(FixedGeo(1, 128, 8)) && TreeGeo(FixedGeo(2, 128, 8))
    ensures TreeGeo(FixedGeo(1, 128, 4)) && TreeGeo(FixedGeo(2, 128, 4)) && TreeGeo(FixedGeo(4, 128, 4))
    ensures TreeGeo(AsWrittenGeo(1, 128, 8)) && TreeGeo(AsWrittenGeo(2, 128, 8))
    ensures TreeGeo(AsWrittenGeo(1, 128, 4)) && TreeGeo(AsWrittenGeo(2, 128, 4)) && TreeGeo(AsWrittenGeo(4, 128, 4))
    ensures FixedGeo(1, 128, 8).noPairs == 6 && FixedGeo(2, 128, 8).noPairs == 4
  {}
}

=== FILE: insert.dfy ===
/** `cbtree_insert`: the descent of `find_level` that lowers right-most
    separators, the split of full nodes on the way back up (each split
    passing a new node and its separator to the parent), the growth of the
    tree by a new root, and the shift-insert into a node with room. */
module Insertion {
  import opened Keys
  import opened Nodes
  import opened Geometry
  import opened Options
  import opened BTree

  /** `ENOMEM` of the kernel's errno table. */
  const ENOMEM: int := 12

  /** Adding `p` at slot `pos` of a full node the way `cbtree_insert_level`
      does it: the node is split first, its first half (the larger keys)
      moving to a new node, and `p` then goes into the half whose range holds
      slot `pos`. The split key handed to the parent is the last key of the
      first half, `bkey(node, fill / 2 - 1)`. */
  function SplitAdd<V>(ps: seq<Pair<V>>, pos: nat, p: Pair<V>): (r: (seq<Pair<V>>, seq<Pair<V>>))
    requires pos <= |ps| && |ps| >= 4
    ensures r.0 + r.1 == ps[..pos] + [p] + ps[pos..]
    ensures |ps| / 2 <= |r.0| <= |ps| / 2 + 1 && |r.0| + |r.1| == |ps| + 1
    ensures r.0[|r.0| - 1] == ps[|ps| / 2 - 1]
  {
    var h := |ps| / 2;
    if pos < h then
      assert ps[..pos] + [p] + ps[pos..] == (ps[..pos] + [p] + ps[pos..h]) + ps[h..];
      (ps[..pos] + [p] + ps[pos..h], ps[h..])
    else
      assert ps[..pos] + [p] + ps[pos..] == ps[..h] + (ps[h..pos] + [p] + ps[pos..]);
      (ps[..h], ps[h..pos] + [p] + ps[pos..])
  }

  /** The run `f` with `p` added in front of the first entry whose key is at
      most `p`'s: where the leaf insertion of `cbtree_insert_level` puts it. */
  function InsertSorted(f: seq<Pair<Ptr>>, p: Pair<Ptr>): seq<Pair<Ptr>>
    requires forall j :: 0 <= j < |f| ==> |f[j].key| == |p.key|
  {
    var j := GetPos(f, p.key);
    f[..j] + [p] + f[j..]
  }

  /** Inserting into the middle of three runs, the front above the key and
      the back at most the key, inserts into the middle run. */
  lemma {:induction false} InsertSortedConcat(a: seq<Pair<Ptr>>, f: seq<Pair<Ptr>>, b: seq<Pair<Ptr>>, p: Pair<Ptr>)
    requires Words(p.key) && KeysWf(a, |p.key|) && KeysWf(f, |p.key|) && KeysWf(b, |p.key|)
    requires forall j :: 0 <= j < |a| ==> KeyVal(p.key) < KeyVal(a[j].key)
    requires forall j :: 0 <= j < |b| ==> KeyVal(b[j].key) <= KeyVal(p.key)
    ensures InsertSorted(a + f + b, p) == a + InsertSorted(f, p) + b
  {
    GetPosConcat(a, f, b, p.key);
    SpliceAt(a, f, b, GetPos(f, p.key), p);
  }

  /** `getpos` over three runs, the front above the key and the back at most
      the key, lands in the middle run or just after it. */
  lemma {:induction false} GetPosConcat(a: seq<Pair<Ptr>>, f: seq<Pair<Ptr>>, b: seq<Pair<Ptr>>, k: Key)
    requires Words(k) && KeysWf(a, |k|) && KeysWf(f, |k|) && KeysWf(b, |k|)
    requires forall j :: 0 <= j < |a| ==> KeyVal(k) < KeyVal(a[j].key)
    requires forall j :: 0 <= j < |b| ==> KeyVal(b[j].key) <= KeyVal(k)
    ensures KeysWf(a + f + b, |k|) && GetPos(a + f + b, k) == |a| + GetPos(f, k)
  {
    var all := a + f + b;
    var j := GetPos(f, k);
    KeysWf3(a, f, b, |k|);
    ConcatAbove(a, f, b, k);
    ConcatStop(a, f, b, k);
    GetPosIs(all, k, |a| + j);
  }

  lemma {:induction false} ConcatAbove(a: seq<Pair<Ptr>>, f: seq<Pair<Ptr>>, b: seq<Pair<Ptr>>, k: Key)
    requires Words(k) && KeysWf(a, |k|) && KeysWf(f, |k|)
    requires forall j :: 0 <= j < |a| ==> KeyVal(k) < KeyVal(a[j].key)
    ensures forall x :: 0 <= x < |a| + GetPos(f, k) ==> Longcmp((a + f + b)[x].key, k) > 0
  {
    forall x | 0 <= x < |a| + GetPos(f, k) ensures Longcmp((a + f + b)[x].key, k) > 0 {
      At3(a, f, b, x);
      if x < |a| {
        LongcmpOrder(a[x].key, k);
      }
    }
  }

  lemma {:induction false} ConcatStop(a: seq<Pair<Ptr>>, f: seq<Pair<Ptr>>, b: seq<Pair<Ptr>>, k: Key)
    requires Words(k) && KeysWf(f, |k|) && KeysWf(b, |k|)
    requires forall j :: 0 <= j < |b| ==> KeyVal(b[j].key) <= KeyVal(k)
    ensures var x := |a| + GetPos(f, k);
            x < |a + f + b| ==> Longcmp((a + f + b)[x].key, k) <= 0
  {
    var x := |a| + GetPos(f, k);
    if x < |a + f + b| {
      At3(a, f, b, x);
      if x == |a| + |f| {
        LongcmpOrder(b[0].key, k);
      }
    }
  }

  lemma {:induction false} KeysWf3<V>(a: seq<Pair<V>>, f: seq<Pair<V>>, b: seq<Pair<V>>, n: nat)
    requires KeysWf(a, n) && KeysWf(f, n) && KeysWf(b, n)
    ensures KeysWf(a + f + b, n)
  {
    forall x | 0 <= x < |a + f + b| ensures WfKey((a + f + b)[x].key, n) {
      At3(a, f, b, x);
    }
  }

  lemma {:induction false} At3<T>(a: seq<T>, f: seq<T>, b: seq<T>, x: nat)
    requires x < |a| + |f| + |b|
    ensures (a + f + b)[x] == if x < |a| then a[x] else if x < |a| + |f| then f[x - |a|] else b[x - |a| - |f|]
  {}

  /** Cutting three runs inside the middle one. */
  lemma {:induction false} SpliceAt<T>(a: seq<T>, f: seq<T>, b: seq<T>, j: nat, p: T)
    requires j <= |f|
    ensures var all := a + f + b;
            all[..|a| + j] + [p] + all[|a| + j..] == a + (f[..j] + [p] + f[j..]) + b
  {
    var all := a + f + b;
    assert all[..|a| + j] == a + f[..j];
    assert all[|a| + j..] == f[j..] + b;
  }

  /** The map of a concatenation: entries of the front win. */
  lemma {:induction false} ToMapConcat(x: seq<Pair<Ptr>>, y: seq<Pair<Ptr>>)
    ensures ToMap(x + y) == ToMap(y) + ToMap(x)
  {
    if |x| > 0 {
      assert (x + y)[0] == x[0] && (x + y)[1..] == x[1..] + y;
      ToMapConcat(x[1..], y);
    } else {
      assert x + y == y;
    }
  }

  /** The keys of the map of a run are the keys of its entries. */
  lemma {:induction false} ToMapKeys(x: seq<Pair<Ptr>>, k: Key)
    ensures k in ToMap(x) <==> exists i :: 0 <= i < |x| && x[i].key == k
  {
    if |x| > 0 {
      ToMapKeys(x[1..], k);
      if k in ToMap(x[1..]) {
        var i :| 0 <= i < |x[1..]| && x[1..][i].key == k;
        assert x[i + 1].key == k;
      }
      if k != x[0].key && exists i :: 0 <= i < |x| && x[i].key == k {
        var i :| 0 <= i < |x| && x[i].key == k;
        assert x[1..][i - 1].key == k;
      }
    }
  }

  /** Adding an entry whose key the run does not hold adds one key to its map. */
  lemma {:induction false} ToMapInsert(f: seq<Pair<Ptr>>, p: Pair<Ptr>)
    requires forall j :: 0 <= j < |f| ==> |f[j].key| == |p.key| && f[j].key != p.key
    ensures ToMap(InsertSorted(f, p)) == ToMap(f)[p.key := p.val]
  {
    var j := GetPos(f, p.key);
    var front, back := f[..j], f[j..];
    assert f == front + back;
    ToMapConcat(front, [p] + back);
    ToMapConcat(front, back);
    assert ([p] + back)[0] == p && ([p] + back)[1..] == back;
    ToMapKeys(front, p.key);
    assert forall i :: 0 <= i < |front| ==> front[i] == f[i];
    assert InsertSorted(f, p) == front + ([p] + back);
    assert ToMap([p] + back) == ToMap(back)[p.key := p.val];
    MapOverride(ToMap(back), ToMap(front), p.key, p.val);
  }

  /** Updating a map under an overriding map that lacks the key. */
  lemma {:induction false} MapOverride(m: map<Key, Ptr>, a: map<Key, Ptr>, k: Key, v: Ptr)
    requires k !in a
    ensures m[k := v] + a == (m + a)[k := v]
  {
  }

  /** What inserting below a node hands back to its parent: the node
      changed in place, or the node split in two, the first half holding the
      larger keys and `sep` the separator for it. */
  datatype Ins = Fit(t: Tree) | Split(sep: Key, up: Tree, low: Tree)

  /** `cbtree_insert_level` below a node whose path `find_level` has fixed,
      told from the top down: a node with room takes the new pair by
      shift-insert; a full node is split and the pair goes into the half
      that covers it. At a leaf the new pair is the entry, at an internal
      node it is the new node of a child's split with the child's split key. */
  function InsertRec(t: Tree, p: Pair<Ptr>, g: Geo): (r: Ins)
    requires TreeGeo(g) && Routed(t, p.key)
    decreases t
  {
    match t
    case Leaf(es) =>
      var pos := GetPos(es, p.key);
      if |es| < g.noPairs then Fit(Leaf(es[..pos] + [p] + es[pos..]))
      else
        var halves := SplitAdd(es, pos, p);
        Split(es[|es| / 2 - 1].key, Leaf(halves.0), Leaf(halves.1))
    case Index(ks) =>
      var i := GetPos(ks, p.key);
      assert ks[i] in ks;
      match InsertRec(ks[i].val, p, g)
      case Fit(c) => Fit(Index(ks[i := Pair(ks[i].key, c)]))
      case Split(s, up, low) =>
        if |ks| < g.noPairs then Fit(Index(Widen(ks, i, s, up, low)))
        else
          var halves := SplitAdd(ks[i := Pair(ks[i].key, low)], i, Pair(s, up));
          Split(ks[|ks| / 2 - 1].key, Index(halves.0), Index(halves.1))
  }

  /** Slot `i` after its child split: the upper half with the split key in
      front of it, the lower half left under the old separator. */
  function Widen(ks: seq<Pair<Tree>>, i: nat, s: Key, up: Tree, low: Tree): seq<Pair<Tree>>
    requires i < |ks|
  {
    var ks1 := ks[i := Pair(ks[i].key, low)];
    ks1[..i] + [Pair(s, up)] + ks1[i..]
  }

  /** The entries of `t` with `p` added, as a run. */
  ghost function Added(t: Tree, p: Pair<Ptr>, h: nat, g: Geo): seq<Pair<Ptr>>
    requires Valid(t, h, g) && |p.key| == g.keylen
  {
    ValidFlat(t, h, g);
    InsertSorted(Flat(t), p)
  }

  /** The outcome of inserting `p` below `t` is well formed: a changed node
      keeps its kind, grows and holds the entries of `t` with `p` added; a
      split yields two well-formed nodes fenced by the split key that hold
      those entries between them. No key appears that was not there or `p`'s. */
  ghost predicate InsOk(t: Tree, p: Pair<Ptr>, h: nat, g: Geo, r: Ins)
    requires Valid(t, h, g) && |p.key| == g.keylen
  {
    match r
    case Fit(t1) =>
      && Valid(t1, h, g) && t1.Leaf? == t.Leaf? && Size(t) <= Size(t1)
      && AllKeys(t1) <= AllKeys(t) + {p.key}
      && Flat(t1) == Added(t, p, h, g)
    case Split(s, up, low) =>
      && Valid(up, h, g) && Valid(low, h, g) && Size(up) >= 2 && Size(low) >= 2
      && up.Leaf? == t.Leaf? && low.Leaf? == t.Leaf?
      && s == LastKey(up) && Above(AllKeys(up), KeyVal(s)) && Below(AllKeys(low), KeyVal(s))
      && AllKeys(up) + AllKeys(low) <= AllKeys(t) + {p.key}
      && Flat(up) + Flat(low) == Added(t, p, h, g)
  }

  /** The leaf entries with a new key added stay descending and well formed. */
  lemma {:induction false} LeafAdded(es: seq<Pair<Ptr>>, p: Pair<Ptr>, g: Geo)
    requires Descending(es) && KeysWf(es, g.keylen) && NonNull(es)
    requires WfKey(p.key, g.keylen) && p.val != NULL
    requires forall j :: 0 <= j < |es| ==> es[j].key != p.key
    ensures var e := InsertSorted(es, p);
            && Descending(e) && KeysWf(e, g.keylen) && NonNull(e) && |e| == |es| + 1
            && AllKeys(Leaf(e)) <= AllKeys(Leaf(es)) + {p.key}
  {
    var k := p.key;
    var pos := GetPos(es, k);
    GetPosBounds(es, k);
    forall j | pos <= j < |es| ensures KeyVal(es[j].key) < KeyVal(k) {
      if KeyVal(es[j].key) == KeyVal(k) {
        KeyValInjective(es[j].key, k);
      }
    }
    InsertAtDescending(es, pos, p);
    AddedEntries(es, pos, p, g);
  }

  lemma {:induction false} AddedEntries(es: seq<Pair<Ptr>>, pos: nat, p: Pair<Ptr>, g: Geo)
    requires KeysWf(es, g.keylen) && NonNull(es) && WfKey(p.key, g.keylen) && p.val != NULL && pos <= |es|
    ensures var e := es[..pos] + [p] + es[pos..];
            && KeysWf(e, g.keylen) && NonNull(e) && |e| == |es| + 1
            && AllKeys(Leaf(e)) <= AllKeys(Leaf(es)) + {p.key}
  {
    var e := es[..pos] + [p] + es[pos..];
    forall x | 0 <= x < |e| ensures WfKey(e[x].key, g.keylen) && e[x].val != NULL && (e[x].key == p.key || e[x] in es) {
      At3(es[..pos], [p], es[pos..], x);
      if x > pos {
        assert e[x] == es[x - 1];
      }
    }
    forall y | y in AllKeys(Leaf(e)) ensures y in AllKeys(Leaf(es)) + {p.key} {
      var x :| 0 <= x < |e| && e[x].key == y;
      if y != p.key {
        var j :| 0 <= j < |es| && es[j] == e[x];
      }
    }
  }

  /** Cutting a descending run of leaf entries after slot `m - 1`: the key
      there bounds the front from below and the back from above. */
  lemma {:induction false} LeafCut(e: seq<Pair<Ptr>>, m: nat)
    requires Descending(e) && 1 <= m <= |e|
    ensures Descending(e[..m]) && Descending(e[m..])
    ensures Above(AllKeys(Leaf(e[..m])), KeyVal(e[m - 1].key))
    ensures Below(AllKeys(Leaf(e[m..])), KeyVal(e[m - 1].key))
  {
    DescendingSlice(e, 0, m);
    DescendingSlice(e, m, |e|);
    LeafCutAbove(e, m);
    LeafCutBelow(e, m);
  }

  lemma {:induction false} DescendingSlice<V>(e: seq<Pair<V>>, lo: nat, hi: nat)
    requires Descending(e) && lo <= hi <= |e|
    ensures Descending(e[lo..hi])
  {
    var b := e[lo..hi];
    forall i, j | 0 <= i < j < |b| ensures KeyVal(b[j].key) < KeyVal(b[i].key) {
      assert b[i] == e[lo + i] && b[j] == e[lo + j];
    }
  }

  lemma {:induction false} LeafCutAbove(e: seq<Pair<Ptr>>, m: nat)
    requires Descending(e) && 1 <= m <= |e|
    ensures Above(AllKeys(Leaf(e[..m])), KeyVal(e[m - 1].key))
  {
    var a := e[..m];
    forall x | x in AllKeys(Leaf(a)) ensures KeyVal(e[m - 1].key) <= KeyVal(x) {
      var j :| 0 <= j < |a| && a[j].key == x;
    }
  }

  lemma {:induction false} LeafCutBelow(e: seq<Pair<Ptr>>, m: nat)
    requires Descending(e) && 1 <= m <= |e|
    ensures Below(AllKeys(Leaf(e[m..])), KeyVal(e[m - 1].key))
  {
    var b := e[m..];
    forall x | x in AllKeys(Leaf(b)) ensures KeyVal(x) < KeyVal(e[m - 1].key) {
      var j :| 0 <= j < |b| && b[j].key == x;
      assert b[j] == e[m + j];
    }
  }

  /** A run of a well-formed run of leaf entries, short enough for a node,
      is a well-formed leaf. */
  lemma {:induction false} LeafSlice(e: seq<Pair<Ptr>>, lo: nat, hi: nat, g: Geo)
    requires Descending(e) && KeysWf(e, g.keylen) && NonNull(e) && TreeGeo(g)
    requires lo <= hi <= |e| && hi - lo <= g.noPairs
    ensures Valid(Leaf(e[lo..hi]), 1, g) && AllKeys(Leaf(e[lo..hi])) <= AllKeys(Leaf(e))
  {
    var b := e[lo..hi];
    DescendingSlice(e, lo, hi);
    assert forall j :: 0 <= j < |b| ==> b[j] == e[lo + j];
    forall y | y in AllKeys(Leaf(b)) ensures y in AllKeys(Leaf(e)) {
      var j :| 0 <= j < |b| && b[j].key == y;
      assert e[lo + j].key == y;
    }
  }

  /** Inserting a new key into a leaf. */
  lemma {:induction false} InsLeaf(es: seq<Pair<Ptr>>, p: Pair<Ptr>, g: Geo)
    requires Valid(Leaf(es), 1, g) && WfKey(p.key, g.keylen) && p.val != NULL
    requires forall j :: 0 <= j < |es| ==> es[j].key != p.key
    ensures InsOk(Leaf(es), p, 1, g, InsertRec(Leaf(es), p, g))
  {
    var e := InsertSorted(es, p);
    assert Added(Leaf(es), p, 1, g) == e;
    if |es| < g.noPairs {
      InsLeafFit(es, p, g);
    } else {
      InsLeafSplit(es, p, g);
    }
  }

  lemma {:induction false} InsLeafFit(es: seq<Pair<Ptr>>, p: Pair<Ptr>, g: Geo)
    requires Descending(es) && KeysWf(es, g.keylen) && NonNull(es) && TreeGeo(g) && |es| < g.noPairs
    requires WfKey(p.key, g.keylen) && p.val != NULL
    requires forall j :: 0 <= j < |es| ==> es[j].key != p.key
    ensures var e := InsertSorted(es, p);
            Valid(Leaf(e), 1, g) && AllKeys(Leaf(e)) <= AllKeys(Leaf(es)) + {p.key} && |e| == |es| + 1
  {
    var e := InsertSorted(es, p);
    LeafAdded(es, p, g);
    LeafSlice(e, 0, |e|, g);
    assert e[0..|e|] == e;
  }

  lemma {:induction false} InsLeafSplit(es: seq<Pair<Ptr>>, p: Pair<Ptr>, g: Geo)
    requires Descending(es) && KeysWf(es, g.keylen) && NonNull(es) && TreeGeo(g) && |es| == g.noPairs
    requires WfKey(p.key, g.keylen) && p.val != NULL
    requires forall j :: 0 <= j < |es| ==> es[j].key != p.key
    ensures var halves := SplitAdd(es, GetPos(es, p.key), p);
            var up, low, s := Leaf(halves.0), Leaf(halves.1), es[|es| / 2 - 1].key;
            && Valid(up, 1, g) && Valid(low, 1, g) && Size(up) >= 2 && Size(low) >= 2
            && s == LastKey(up) && Above(AllKeys(up), KeyVal(s)) && Below(AllKeys(low), KeyVal(s))
            && AllKeys(up) + AllKeys(low) <= AllKeys(Leaf(es)) + {p.key}
            && Flat(up) + Flat(low) == InsertSorted(es, p)
  {
    var e := InsertSorted(es, p);
    var m := |SplitAdd(es, GetPos(es, p.key), p).0|;
    SplitCut(es, GetPos(es, p.key), p);
    LeafAdded(es, p, g);
    LeafHalves(e, m, g);
  }

  /** The two halves of a split are the run with `p` added, cut after about half. */
  lemma {:induction false} SplitCut<V>(ps: seq<Pair<V>>, pos: nat, p: Pair<V>)
    requires pos <= |ps| && |ps| >= 4
    ensures var halves := SplitAdd(ps, pos, p);
            var all := ps[..pos] + [p] + ps[pos..];
            var m := |halves.0|;
            && |ps| / 2 <= m <= |ps| / 2 + 1 && |all| == |ps| + 1
            && halves.0 == all[..m] && halves.1 == all[m..]
            && all[m - 1].key == ps[|ps| / 2 - 1].key
  {
    var halves := SplitAdd(ps, pos, p);
    ConcatCut(halves.0, halves.1, ps[..pos] + [p] + ps[pos..]);
  }

  /** Cutting descending leaf entries in two gives two well-formed leaves
      fenced by the last key of the first. */
  lemma {:induction false} LeafHalves(e: seq<Pair<Ptr>>, m: nat, g: Geo)
    requires Descending(e) && KeysWf(e, g.keylen) && NonNull(e) && TreeGeo(g)
    requires 2 <= m <= g.noPairs && 2 <= |e| - m <= g.noPairs
    ensures var up, low := Leaf(e[..m]), Leaf(e[m..]);
            && Valid(up, 1, g) && Valid(low, 1, g)
            && e[m - 1].key == LastKey(up)
            && Above(AllKeys(up), KeyVal(e[m - 1].key)) && Below(AllKeys(low), KeyVal(e[m - 1].key))
            && AllKeys(up) + AllKeys(low) <= AllKeys(Leaf(e))
            && Flat(up) + Flat(low) == e
  {
    LeafCut(e, m);
    LeafSlice(e, 0, m, g);
    LeafSlice(e, m, |e|, g);
    assert e[0..m] == e[..m] && e[m..|e|] == e[m..];
    assert e[..m] + e[m..] == e;
  }

  /** Adding `p` to the entries of a node adds it to the entries of the
      child `getpos` picks for it. */
  lemma {:induction false} AddedAround(ks: seq<Pair<Tree>>, i: nat, p: Pair<Ptr>, h: nat, g: Geo)
    requires KidsValid(ks, h, g) && TreeGeo(g) && WfKey(p.key, g.keylen)
    requires i == GetPos(ks, p.key) < |ks|
    ensures var a, fc, b := KidsFlat(ks[..i]), Flat(ks[i].val), KidsFlat(ks[i + 1..]);
            && KeysWf(KidsFlat(ks), g.keylen) && KeysWf(fc, g.keylen) && KidsFlat(ks) == a + fc + b
            && InsertSorted(KidsFlat(ks), p) == a + InsertSorted(fc, p) + b
  {
    var k := p.key;
    var a, fc, b := KidsFlat(ks[..i]), Flat(ks[i].val), KidsFlat(ks[i + 1..]);
    GetPosBounds(ks, k);
    KidsFlatParts(ks, i, h, g);
    KidsFlatValid(ks, h, g);
    KeysWfParts(a, fc, b, g.keylen);
    if i == 0 {
      assert ks[..i] == [];
    }
    InsertSortedConcat(a, fc, b, p);
  }

  lemma {:induction false} KeysWfParts<V>(a: seq<Pair<V>>, f: seq<Pair<V>>, b: seq<Pair<V>>, n: nat)
    requires KeysWf(a + f + b, n)
    ensures KeysWf(a, n) && KeysWf(f, n) && KeysWf(b, n)
  {
    forall x | 0 <= x < |a| ensures WfKey(a[x].key, n) {
      At3(a, f, b, x);
    }
    forall x | 0 <= x < |f| ensures WfKey(f[x].key, n) {
      At3(a, f, b, |a| + x);
    }
    forall x | 0 <= x < |b| ensures WfKey(b[x].key, n) {
      At3(a, f, b, |a| + |f| + x);
    }
  }

  /** The child took the pair without splitting: it replaces the old child. */
  lemma {:induction false} InsKidFit(ks: seq<Pair<Tree>>, i: nat, c: Tree, p: Pair<Ptr>, h: nat, g: Geo)
    requires KidsValid(ks, h, g) && TreeGeo(g) && |ks| <= g.noPairs && WfKey(p.key, g.keylen)
    requires i == GetPos(ks, p.key) < |ks| && Valid(ks[i].val, h - 1, g)
    requires InsOk(ks[i].val, p, h - 1, g, Fit(c))
    ensures InsOk(Index(ks), p, h, g, Fit(Index(ks[i := Pair(ks[i].key, c)])))
  {
    var k := p.key;
    GetPosBounds(ks, k);
    ReplaceKidWithin(ks, i, c, k, h, g);
    AddedAround(ks, i, p, h, g);
  }

  /** A new slot put in front of slot `i` whose separator lies between
      those of slots `i - 1` and `i`, and whose child lies between them as
      well, keeps the separators fencing the children. */
  lemma {:induction false} InsertKidFenced(ks: seq<Pair<Tree>>, i: nat, q: Pair<Tree>)
    requires Fenced(ks) && i < |ks|
    requires KeyVal(ks[i].key) < KeyVal(q.key) && Below(AllKeys(ks[i].val), KeyVal(q.key))
    requires Above(AllKeys(q.val), KeyVal(q.key))
    requires forall j :: 0 <= j < i ==> KeyVal(q.key) < KeyVal(ks[j].key) && Below(AllKeys(q.val), KeyVal(ks[j].key))
    ensures Fenced(ks[..i] + [q] + ks[i..])
  {
    InsertKidAbove(ks, i, q);
    InsertKidPairs(ks, i, q);
  }

  lemma {:induction false} InsertKidAbove(ks: seq<Pair<Tree>>, i: nat, q: Pair<Tree>)
    requires i < |ks| && forall x :: 0 <= x < |ks| ==> Above(AllKeys(ks[x].val), KeyVal(ks[x].key))
    requires Above(AllKeys(q.val), KeyVal(q.key))
    ensures var r := ks[..i] + [q] + ks[i..];
            forall x :: 0 <= x < |r| ==> Above(AllKeys(r[x].val), KeyVal(r[x].key))
  {
    var r := ks[..i] + [q] + ks[i..];
    forall x | 0 <= x < |r| ensures Above(AllKeys(r[x].val), KeyVal(r[x].key)) {
      At3(ks[..i], [q], ks[i..], x);
      if x > i {
        assert r[x] == ks[x - 1];
      }
    }
  }

  lemma {:induction false} InsertKidPairs(ks: seq<Pair<Tree>>, i: nat, q: Pair<Tree>)
    requires Fenced(ks) && i < |ks|
    requires KeyVal(ks[i].key) < KeyVal(q.key) && Below(AllKeys(ks[i].val), KeyVal(q.key))
    requires forall j :: 0 <= j < i ==> KeyVal(q.key) < KeyVal(ks[j].key) && Below(AllKeys(q.val), KeyVal(ks[j].key))
    ensures var r := ks[..i] + [q] + ks[i..];
            forall a, b :: 0 <= a < b < |r| ==>
              KeyVal(r[b].key) < KeyVal(r[a].key) && Below(AllKeys(r[b].val), KeyVal(r[a].key))
  {
    var r := ks[..i] + [q] + ks[i..];
    forall a, b | 0 <= a < b < |r|
      ensures KeyVal(r[b].key) < KeyVal(r[a].key) && Below(AllKeys(r[b].val), KeyVal(r[a].key))
    {
      InsertKidPair(ks, i, q, a, b);
    }
  }

  lemma {:induction false} InsertKidPair(ks: seq<Pair<Tree>>, i: nat, q: Pair<Tree>, a: nat, b: nat)
    requires Fenced(ks) && i < |ks| && a < b < |ks| + 1
    requires KeyVal(ks[i].key) < KeyVal(q.key) && Below(AllKeys(ks[i].val), KeyVal(q.key))
    requires forall j :: 0 <= j < i ==> KeyVal(q.key) < KeyVal(ks[j].key) && Below(AllKeys(q.val), KeyVal(ks[j].key))
    ensures var r := ks[..i] + [q] + ks[i..];
            KeyVal(r[b].key) < KeyVal(r[a].key) && Below(AllKeys(r[b].val), KeyVal(r[a].key))
  {
    var r := ks[..i] + [q] + ks[i..];
    At3(ks[..i], [q], ks[i..], a);
    At3(ks[..i], [q], ks[i..], b);
    if b > i {
      assert r[b] == ks[b - 1];
      if a > i {
        assert r[a] == ks[a - 1];
      } else if a == i && b - 1 > i {
        assert KeyVal(ks[b - 1].key) < KeyVal(ks[i].key) && Below(AllKeys(ks[b - 1].val), KeyVal(ks[i].key));
      }
    }
  }

  /** Putting a well-formed child with its separator in front of slot `i`,
      fenced between slots `i - 1` and `i`, keeps the node well formed. */
  lemma {:induction false} InsertKidValid(ks: seq<Pair<Tree>>, i: nat, q: Pair<Tree>, h: nat, g: Geo)
    requires KidsValid(ks, h, g) && i < |ks| && TreeGeo(g)
    requires Valid(q.val, h - 1, g) && Size(q.val) >= 1 && WfKey(q.key, g.keylen)
    requires KeyVal(ks[i].key) < KeyVal(q.key) && Below(AllKeys(ks[i].val), KeyVal(q.key))
    requires Above(AllKeys(q.val), KeyVal(q.key))
    requires forall j :: 0 <= j < i ==> KeyVal(q.key) < KeyVal(ks[j].key) && Below(AllKeys(q.val), KeyVal(ks[j].key))
    ensures var r := ks[..i] + [q] + ks[i..];
            && KidsValid(r, h, g)
            && KidsFlat(r) == KidsFlat(ks[..i]) + Flat(q.val) + KidsFlat(ks[i..])
            && KidsKeys(r) <= KidsKeys(ks) + {q.key} + AllKeys(q.val)
  {
    var r := ks[..i] + [q] + ks[i..];
    InsertKidFenced(ks, i, q);
    InsertKidKids(ks, i, q, h, g);
    InsertKidFlat(ks, i, q);
    InsertKidKeys(ks, i, q);
  }

  lemma {:induction false} InsertKidKids(ks: seq<Pair<Tree>>, i: nat, q: Pair<Tree>, h: nat, g: Geo)
    requires KidsValid(ks, h, g) && i < |ks|
    requires Valid(q.val, h - 1, g) && Size(q.val) >= 1 && WfKey(q.key, g.keylen)
    ensures var r := ks[..i] + [q] + ks[i..];
            && KeysWf(r, g.keylen)
            && forall x :: 0 <= x < |r| ==> Size(r[x].val) >= 1 && (assert r[x] in r; Valid(r[x].val, h - 1, g))
  {
    var r := ks[..i] + [q] + ks[i..];
    forall x | 0 <= x < |r| ensures WfKey(r[x].key, g.keylen) && Size(r[x].val) >= 1 && Valid(r[x].val, h - 1, g) {
      At3(ks[..i], [q], ks[i..], x);
      if x > i {
        assert r[x] == ks[x - 1];
      }
    }
  }

  lemma {:induction false} InsertKidFlat(ks: seq<Pair<Tree>>, i: nat, q: Pair<Tree>)
    requires i <= |ks|
    ensures KidsFlat(ks[..i] + [q] + ks[i..]) == KidsFlat(ks[..i]) + Flat(q.val) + KidsFlat(ks[i..])
  {
    KidsFlatAppend(ks[..i] + [q], ks[i..]);
    KidsFlatAppend(ks[..i], [q]);
    KidsFlatOne(q);
  }

  lemma {:induction false} InsertKidKeys(ks: seq<Pair<Tree>>, i: nat, q: Pair<Tree>)
    requires i <= |ks|
    ensures KidsKeys(ks[..i] + [q] + ks[i..]) <= KidsKeys(ks) + {q.key} + AllKeys(q.val)
  {
    var r := ks[..i] + [q] + ks[i..];
    forall y | y in KidsKeys(r) ensures y in KidsKeys(ks) + {q.key} + AllKeys(q.val) {
      KidsKeysMember(r, y);
      KidsKeysMember(ks, y);
      var x :| 0 <= x < |r| && (y == r[x].key || y in AllKeys(r[x].val));
      At3(ks[..i], [q], ks[i..], x);
      if x < i {
        assert r[x] == ks[x];
      } else if x > i {
        assert r[x] == ks[x - 1];
      }
    }
  }

  /** Every key of `S` lies in slot `i`'s range: not below its separator and
      below the separators of all earlier slots. */
  ghost predicate InSlot(ks: seq<Pair<Tree>>, i: nat, S: set<Key>)
    requires i < |ks|
  {
    Above(S, KeyVal(ks[i].key)) && forall j :: 0 <= j < i ==> Below(S, KeyVal(ks[j].key))
  }

  /** Keys taken from child `i` and the inserted key lie in slot `i`'s range. */
  lemma {:induction false} WithinSlot(ks: seq<Pair<Tree>>, i: nat, k: Key, S: set<Key>)
    requires Fenced(ks) && i < |ks| && S <= AllKeys(ks[i].val) + {k}
    requires KeyVal(ks[i].key) <= KeyVal(k)
    requires forall j :: 0 <= j < i ==> KeyVal(k) < KeyVal(ks[j].key)
    ensures InSlot(ks, i, S)
  {
    assert Above(AllKeys(ks[i].val), KeyVal(ks[i].key));
    forall j | 0 <= j < i ensures Below(S, KeyVal(ks[j].key)) {
      assert Below(AllKeys(ks[i].val), KeyVal(ks[j].key));
    }
  }

  /** A part of a set in a slot's range is in the range too. */
  lemma {:induction false} InSlotPart(ks: seq<Pair<Tree>>, i: nat, S: set<Key>, T: set<Key>)
    requires i < |ks| && InSlot(ks, i, S) && T <= S
    ensures Above(T, KeyVal(ks[i].key)) && forall j :: 0 <= j < i ==> Below(T, KeyVal(ks[j].key))
  {}

  /** The split key of two halves in slot `i` lies strictly inside the slot. */
  lemma {:induction false} SplitKeyInSlot(ks: seq<Pair<Tree>>, i: nat, s: Key, y: Key, up: set<Key>, low: set<Key>)
    requires i < |ks| && InSlot(ks, i, up + low)
    requires s in up && y in low && KeyVal(y) < KeyVal(s)
    ensures KeyVal(ks[i].key) < KeyVal(s) && forall j :: 0 <= j < i ==> KeyVal(s) < KeyVal(ks[j].key)
  {
    assert s in up + low && y in up + low;
    forall j | 0 <= j < i ensures KeyVal(s) < KeyVal(ks[j].key) {
      assert Below(up + low, KeyVal(ks[j].key));
    }
  }

  /** A child split: its lower half stays in slot `i`, its upper half goes
      in front with the split key as separator. The node has one more slot
      and the entries of the node with `p` added. */
  lemma {:induction false} InsKidWide(ks: seq<Pair<Tree>>, i: nat, s: Key, up: Tree, low: Tree, p: Pair<Ptr>, h: nat, g: Geo)
    requires KidsValid(ks, h, g) && TreeGeo(g) && WfKey(p.key, g.keylen)
    requires i == GetPos(ks, p.key) < |ks| && Valid(ks[i].val, h - 1, g)
    requires InsOk(ks[i].val, p, h - 1, g, Split(s, up, low))
    ensures KeysWf(KidsFlat(ks), g.keylen)
    ensures var ks2 := Widen(ks, i, s, up, low);
            && KidsValid(ks2, h, g) && |ks2| == |ks| + 1
            && KidsFlat(ks2) == InsertSorted(KidsFlat(ks), p)
            && KidsKeys(ks2) <= KidsKeys(ks) + {p.key}
  {
    SplitKey(up, h - 1, g);
    WideFlat(ks, i, up, low, p, h, g);
    WidenFlat(ks, i, s, up, low);
    InsKidWideKeys(ks, i, s, up, low, p.key);
    InsKidWideShape(ks, i, s, up, low, p.key, h, g);
  }

  lemma {:induction false} InsKidWideKeys(ks: seq<Pair<Tree>>, i: nat, s: Key, up: Tree, low: Tree, k: Key)
    requires i < |ks| && s in AllKeys(up)
    requires AllKeys(up) + AllKeys(low) <= AllKeys(ks[i].val) + {k}
    ensures KidsKeys(Widen(ks, i, s, up, low)) <= KidsKeys(ks) + {k}
  {
    KidKeys(ks, i);
    WidenKeys(ks, i, s, up, low);
    WideKeys(KidsKeys(Widen(ks, i, s, up, low)), KidsKeys(ks), AllKeys(low), AllKeys(up), s, AllKeys(ks[i].val), k);
  }

  /** The keys of a widened node: those of the node, of the two halves and the split key. */
  lemma {:induction false} WidenKeys(ks: seq<Pair<Tree>>, i: nat, s: Key, up: Tree, low: Tree)
    requires i < |ks|
    ensures KidsKeys(Widen(ks, i, s, up, low)) <= KidsKeys(ks) + AllKeys(low) + AllKeys(up) + {s}
  {
    KidsKeysReplace(ks, i, low);
    InsertKidKeys(ks[i := Pair(ks[i].key, low)], i, Pair(s, up));
  }

  lemma {:induction false} InsKidWideShape(ks: seq<Pair<Tree>>, i: nat, s: Key, up: Tree, low: Tree, k: Key, h: nat, g: Geo)
    requires KidsValid(ks, h, g) && TreeGeo(g) && WfKey(k, g.keylen)
    requires i == GetPos(ks, k) < |ks|
    requires Valid(up, h - 1, g) && Valid(low, h - 1, g) && Size(up) >= 1 && Size(low) >= 1
    requires s in AllKeys(up) && WfKey(s, g.keylen)
    requires Above(AllKeys(up), KeyVal(s)) && Below(AllKeys(low), KeyVal(s))
    requires AllKeys(up) + AllKeys(low) <= AllKeys(ks[i].val) + {k}
    ensures var ks2 := Widen(ks, i, s, up, low);
            KidsValid(ks2, h, g) && |ks2| == |ks| + 1
  {
    WideSlot(ks, i, AllKeys(up) + AllKeys(low), k);
    WideValid(ks, i, s, up, low, h, g);
  }

  /** Keys from the child on the insertion path, or the inserted key, lie in that child's slot. */
  lemma {:induction false} WideSlot(ks: seq<Pair<Tree>>, i: nat, S: set<Key>, k: Key)
    requires Fenced(ks) && KeysWf(ks, |k|) && Words(k)
    requires i == GetPos(ks, k) < |ks| && S <= AllKeys(ks[i].val) + {k}
    ensures InSlot(ks, i, S)
  {
    GetPosBounds(ks, k);
    WithinSlot(ks, i, k, S);
  }

  /** The split key of a split node is one of its keys and well formed. */
  lemma {:induction false} SplitKey(t: Tree, h: nat, g: Geo)
    requires Valid(t, h, g) && Size(t) >= 1
    ensures LastKey(t) in AllKeys(t) && WfKey(LastKey(t), g.keylen)
  {
    LastKeyMin(t, h, g);
    AllKeysWf(t, h, g);
  }

  lemma {:induction false} KidKeys(ks: seq<Pair<Tree>>, i: nat)
    requires i < |ks|
    ensures AllKeys(ks[i].val) <= KidsKeys(ks)
  {
    forall y | y in AllKeys(ks[i].val) ensures y in KidsKeys(ks) {
      KidsKeysMember(ks, y);
    }
  }

  lemma {:induction false} WideFlat(ks: seq<Pair<Tree>>, i: nat, up: Tree, low: Tree, p: Pair<Ptr>, h: nat, g: Geo)
    requires KidsValid(ks, h, g) && TreeGeo(g) && WfKey(p.key, g.keylen)
    requires i == GetPos(ks, p.key) < |ks|
    requires Flat(up) + Flat(low) == Added(ks[i].val, p, h - 1, g)
    ensures KeysWf(KidsFlat(ks), g.keylen)
    ensures KidsFlat(ks[..i]) + (Flat(up) + Flat(low)) + KidsFlat(ks[i + 1..]) == InsertSorted(KidsFlat(ks), p)
  {
    AddedAround(ks, i, p, h, g);
  }

  lemma {:induction false} WideKeys<T>(after: set<T>, before: set<T>, low: set<T>, up: set<T>, s: T, c: set<T>, k: T)
    requires after <= before + low + up + {s}
    requires s in up && up + low <= c + {k} && c <= before
    ensures after <= before + {k}
  {}

  /** The two halves of a split child in place of the child, fenced by the
      child's separator and the split key. */
  lemma {:induction false} WideValid(ks: seq<Pair<Tree>>, i: nat, s: Key, up: Tree, low: Tree, h: nat, g: Geo)
    requires KidsValid(ks, h, g) && TreeGeo(g) && i < |ks|
    requires Valid(up, h - 1, g) && Valid(low, h - 1, g) && Size(up) >= 1 && Size(low) >= 1
    requires WfKey(s, g.keylen) && s in AllKeys(up)
    requires Above(AllKeys(up), KeyVal(s)) && Below(AllKeys(low), KeyVal(s))
    requires InSlot(ks, i, AllKeys(up) + AllKeys(low))
    ensures var ks2 := Widen(ks, i, s, up, low);
            KidsValid(ks2, h, g) && |ks2| == |ks| + 1
  {
    LastKeyMin(low, h - 1, g);
    SplitKeyInSlot(ks, i, s, LastKey(low), AllKeys(up), AllKeys(low));
    InSlotPart(ks, i, AllKeys(up) + AllKeys(low), AllKeys(up));
    InSlotPart(ks, i, AllKeys(up) + AllKeys(low), AllKeys(low));
    ReplaceKid(ks, i, low, h, g);
    var ks1 := ks[i := Pair(ks[i].key, low)];
    assert ks1[i] == Pair(ks[i].key, low);
    forall j | 0 <= j < i
      ensures KeyVal(s) < KeyVal(ks1[j].key) && Below(AllKeys(up), KeyVal(ks1[j].key))
    {
      assert ks1[j] == ks[j];
    }
    InsertKidValid(ks1, i, Pair(s, up), h, g);
  }

  /** The entries below a widened node: those of the slots before, then the
      two halves, then those of the slots after. */
  lemma {:induction false} WidenFlat(ks: seq<Pair<Tree>>, i: nat, s: Key, up: Tree, low: Tree)
    requires i < |ks|
    ensures KidsFlat(Widen(ks, i, s, up, low)) == KidsFlat(ks[..i]) + (Flat(up) + Flat(low)) + KidsFlat(ks[i + 1..])
  {
    var q, r := Pair(s, up), Pair(ks[i].key, low);
    UpdateSlices(ks, i, r);
    assert Widen(ks, i, s, up, low) == ks[..i] + ([q] + ([r] + ks[i + 1..]));
    KidsFlatAppend(ks[..i], [q] + ([r] + ks[i + 1..]));
    KidsFlatAppend([q], [r] + ks[i + 1..]);
    KidsFlatAppend([r], ks[i + 1..]);
    KidsFlatOne(q);
    KidsFlatOne(r);
    Assoc4(KidsFlat(ks[..i]), Flat(up), Flat(low), KidsFlat(ks[i + 1..]));
  }

  lemma {:induction false} UpdateSlices<T>(s: seq<T>, i: nat, x: T)
    requires i < |s|
    ensures s[i := x][..i] == s[..i] && s[i := x][i..] == [x] + s[i + 1..]
  {}

  lemma {:induction false} Assoc4<T>(a: seq<T>, b: seq<T>, c: seq<T>, d: seq<T>)
    ensures a + b + (c + d) == a + (b + c) + d
  {}

  /** The child split and the node has room: the node takes the new slot. */
  lemma {:induction false} InsWideFit(ks: seq<Pair<Tree>>, i: nat, s: Key, up: Tree, low: Tree, p: Pair<Ptr>, h: nat, g: Geo)
    requires KidsValid(ks, h, g) && TreeGeo(g) && |ks| < g.noPairs && WfKey(p.key, g.keylen)
    requires i == GetPos(ks, p.key) < |ks| && Valid(ks[i].val, h - 1, g)
    requires InsOk(ks[i].val, p, h - 1, g, Split(s, up, low))
    ensures InsOk(Index(ks), p, h, g, Fit(Index(Widen(ks, i, s, up, low))))
  {
    InsKidWide(ks, i, s, up, low, p, h, g);
  }

  /** The child split and the node is full: the node splits in turn, the
      first half (larger keys) going up with its last separator. */
  lemma {:induction false} InsWideSplit(ks: seq<Pair<Tree>>, i: nat, s: Key, up: Tree, low: Tree, p: Pair<Ptr>, h: nat, g: Geo)
    requires KidsValid(ks, h, g) && TreeGeo(g) && |ks| == g.noPairs && WfKey(p.key, g.keylen)
    requires i == GetPos(ks, p.key) < |ks| && Valid(ks[i].val, h - 1, g)
    requires InsOk(ks[i].val, p, h - 1, g, Split(s, up, low))
    ensures var halves := SplitAdd(ks[i := Pair(ks[i].key, low)], i, Pair(s, up));
            InsOk(Index(ks), p, h, g, Split(ks[|ks| / 2 - 1].key, Index(halves.0), Index(halves.1)))
  {
    var ks2 := Widen(ks, i, s, up, low);
    var m := |SplitAdd(ks[i := Pair(ks[i].key, low)], i, Pair(s, up)).0|;
    WidenCut(ks, i, s, up, low);
    InsKidWide(ks, i, s, up, low, p, h, g);
    CutOk(ks, ks2, m, p, h, g);
  }

  /** Splitting the widened slots cuts them after about half of them, and the
      last separator of the first half is the node's middle separator. */
  lemma {:induction false} WidenCut<T>(ks: seq<Pair<T>>, i: nat, s: Key, up: T, low: T)
    requires i < |ks| && |ks| >= 4
    ensures var halves := SplitAdd(ks[i := Pair(ks[i].key, low)], i, Pair(s, up));
            var ks2 := ks[i := Pair(ks[i].key, low)][..i] + [Pair(s, up)] + ks[i := Pair(ks[i].key, low)][i..];
            var m := |halves.0|;
            && |ks| / 2 <= m <= |ks| / 2 + 1 && |ks2| == |ks| + 1
            && halves.0 == ks2[..m] && halves.1 == ks2[m..]
            && ks2[m - 1].key == ks[|ks| / 2 - 1].key
  {
    SplitCut(ks[i := Pair(ks[i].key, low)], i, Pair(s, up));
  }

  /** One step of the insert at an internal node: whatever the child
      handed back, the node's own outcome is well formed. */
  lemma {:induction false} InsIndex(ks: seq<Pair<Tree>>, p: Pair<Ptr>, h: nat, g: Geo)
    requires h >= 2 && Valid(Index(ks), h, g) && WfKey(p.key, g.keylen) && Routed(Index(ks), p.key)
    requires var i := GetPos(ks, p.key);
             i < |ks| && Valid(ks[i].val, h - 1, g) && Routed(ks[i].val, p.key)
             && InsOk(ks[i].val, p, h - 1, g, InsertRec(ks[i].val, p, g))
    ensures InsOk(Index(ks), p, h, g, InsertRec(Index(ks), p, g))
  {
    var i := GetPos(ks, p.key);
    var r := InsertRec(ks[i].val, p, g);
    if r.Fit? {
      InsIndexFit(ks, i, r.t, p, h, g);
    } else {
      InsIndexSplit(ks, i, r.sep, r.up, r.low, p, h, g);
    }
  }

  lemma {:induction false} InsIndexFit(ks: seq<Pair<Tree>>, i: nat, c: Tree, p: Pair<Ptr>, h: nat, g: Geo)
    requires h >= 2 && Valid(Index(ks), h, g) && WfKey(p.key, g.keylen) && Routed(Index(ks), p.key)
    requires i == GetPos(ks, p.key) < |ks| && Valid(ks[i].val, h - 1, g) && Routed(ks[i].val, p.key)
    requires InsertRec(ks[i].val, p, g) == Fit(c) && InsOk(ks[i].val, p, h - 1, g, Fit(c))
    ensures InsOk(Index(ks), p, h, g, InsertRec(Index(ks), p, g))
  {
    InsKidFit(ks, i, c, p, h, g);
  }

  lemma {:induction false} InsIndexSplit(ks: seq<Pair<Tree>>, i: nat, s: Key, up: Tree, low: Tree, p: Pair<Ptr>, h: nat, g: Geo)
    requires h >= 2 && Valid(Index(ks), h, g) && WfKey(p.key, g.keylen) && Routed(Index(ks), p.key)
    requires i == GetPos(ks, p.key) < |ks| && Valid(ks[i].val, h - 1, g) && Routed(ks[i].val, p.key)
    requires InsertRec(ks[i].val, p, g) == Split(s, up, low) && InsOk(ks[i].val, p, h - 1, g, Split(s, up, low))
    ensures InsOk(Index(ks), p, h, g, InsertRec(Index(ks), p, g))
  {
    if |ks| < g.noPairs {
      InsWideFit(ks, i, s, up, low, p, h, g);
    } else {
      InsWideSplit(ks, i, s, up, low, p, h, g);
    }
  }

  /** A key missing from a node's entries is missing from each child's. */
  lemma {:induction false} ChildAbsent(ks: seq<Pair<Tree>>, i: nat, k: Key, h: nat, g: Geo)
    requires KidsValid(ks, h, g) && TreeGeo(g) && i < |ks|
    requires forall j :: 0 <= j < |KidsFlat(ks)| ==> KidsFlat(ks)[j].key != k
    ensures var f := Flat(ks[i].val); forall j :: 0 <= j < |f| ==> f[j].key != k
  {
    var a, f, b := KidsFlat(ks[..i]), Flat(ks[i].val), KidsFlat(ks[i + 1..]);
    KidsFlatParts(ks, i, h, g);
    forall j | 0 <= j < |f| ensures f[j].key != k {
      At3(a, f, b, |a| + j);
    }
  }

  /** `cbtree_insert_level` along the whole path: inserting a new key below
      a well-formed node whose path is routed gives a well-formed outcome
      holding exactly the old entries and the new one. */
  lemma {:induction false} InsertRecSpec(t: Tree, p: Pair<Ptr>, h: nat, g: Geo)
    requires Valid(t, h, g) && WfKey(p.key, g.keylen) && Routed(t, p.key) && p.val != NULL
    requires forall j :: 0 <= j < |Flat(t)| ==> Flat(t)[j].key != p.key
    ensures InsOk(t, p, h, g, InsertRec(t, p, g))
    decreases t
  {
    match t
    case Leaf(es) =>
      assert Flat(t) == es;
      InsLeaf(es, p, g);
    case Index(ks) =>
      var i := GetPos(ks, p.key);
      assert KidsValid(ks, h, g) && ks[i] in ks && Flat(t) == KidsFlat(ks);
      ChildAbsent(ks, i, p.key, h, g);
      InsertRecSpec(ks[i].val, p, h - 1, g);
      InsIndex(ks, p, h, g);
  }

  /** A node with `p` added, cut after slot `m`, is a correct split of the node. */
  lemma {:induction false} CutOk(ks: seq<Pair<Tree>>, ks2: seq<Pair<Tree>>, m: nat, p: Pair<Ptr>, h: nat, g: Geo)
    requires KidsValid(ks, h, g) && TreeGeo(g) && |ks| <= g.noPairs && WfKey(p.key, g.keylen)
    requires KeysWf(KidsFlat(ks), g.keylen)
    requires KidsValid(ks2, h, g) && KidsFlat(ks2) == InsertSorted(KidsFlat(ks), p)
    requires KidsKeys(ks2) <= KidsKeys(ks) + {p.key}
    requires 2 <= m <= g.noPairs && 2 <= |ks2| - m <= g.noPairs
    ensures InsOk(Index(ks), p, h, g, Split(ks2[m - 1].key, Index(ks2[..m]), Index(ks2[m..])))
  {
    KidsHalves(ks2, m, h, g);
  }

  lemma {:induction false} ConcatCut<T>(a: seq<T>, b: seq<T>, c: seq<T>)
    requires a + b == c
    ensures a == c[..|a|] && b == c[|a|..]
  {}

  /** Cutting the slots of a well-formed node in two gives two well-formed
      nodes fenced by the last separator of the first. */
  lemma {:induction false} KidsHalves(ks: seq<Pair<Tree>>, m: nat, h: nat, g: Geo)
    requires KidsValid(ks, h, g) && TreeGeo(g)
    requires 2 <= m <= g.noPairs && 2 <= |ks| - m <= g.noPairs
    ensures var up, low := Index(ks[..m]), Index(ks[m..]);
            && Valid(up, h, g) && Valid(low, h, g)
            && ks[m - 1].key == LastKey(up)
            && Above(AllKeys(up), KeyVal(ks[m - 1].key)) && Below(AllKeys(low), KeyVal(ks[m - 1].key))
            && AllKeys(up) + AllKeys(low) <= KidsKeys(ks)
            && Flat(up) + Flat(low) == KidsFlat(ks)
  {
    HalvesValid(ks, m, h, g);
    HalvesFence(ks, m);
    HalvesKeys(ks, m);
    HalvesFlat(ks, m);
  }

  lemma {:induction false} HalvesFence(ks: seq<Pair<Tree>>, m: nat)
    requires 1 <= m <= |ks| && Fenced(ks)
    ensures ks[m - 1].key == LastKey(Index(ks[..m]))
    ensures Above(AllKeys(Index(ks[..m])), KeyVal(ks[m - 1].key))
    ensures Below(AllKeys(Index(ks[m..])), KeyVal(ks[m - 1].key))
  {
    KidsAbove(ks, m);
    KidsBelow(ks, m);
  }

  lemma {:induction false} HalvesKeys(ks: seq<Pair<Tree>>, m: nat)
    requires m <= |ks|
    ensures AllKeys(Index(ks[..m])) + AllKeys(Index(ks[m..])) <= KidsKeys(ks)
  {
    assert ks[0..m] == ks[..m];
    assert ks[m..|ks|] == ks[m..];
    KidsKeysSlice(ks, 0, m);
    KidsKeysSlice(ks, m, |ks|);
  }

  lemma {:induction false} HalvesValid(ks: seq<Pair<Tree>>, m: nat, h: nat, g: Geo)
    requires KidsValid(ks, h, g) && TreeGeo(g)
    requires 1 <= m <= g.noPairs && 1 <= |ks| - m <= g.noPairs
    ensures Valid(Index(ks[..m]), h, g) && Valid(Index(ks[m..]), h, g)
  {
    KidsValidSlice(ks, h, g, 0, m);
    KidsValidSlice(ks, h, g, m, |ks|);
    assert ks[0..m] == ks[..m] && ks[m..|ks|] == ks[m..];
  }

  lemma {:induction false} HalvesFlat(ks: seq<Pair<Tree>>, m: nat)
    requires m <= |ks|
    ensures KidsFlat(ks[..m]) + KidsFlat(ks[m..]) == KidsFlat(ks)
  {
    KidsFlatAppend(ks[..m], ks[m..]);
    assert ks[..m] + ks[m..] == ks;
  }

  /** Everything in the slots after `m - 1` lies below that slot's separator. */
  /** Every key below the first `m` slots is at least the separator of slot `m - 1`. */
  lemma {:induction false} KidsAbove(ks: seq<Pair<Tree>>, m: nat)
    requires Fenced(ks) && 1 <= m <= |ks|
    ensures Above(KidsKeys(ks[..m]), KeyVal(ks[m - 1].key))
  {
    var r := ks[..m];
    forall x | x in KidsKeys(r) ensures KeyVal(ks[m - 1].key) <= KeyVal(x) {
      KidsKeysMember(r, x);
      var j :| 0 <= j < |r| && (x == r[j].key || x in AllKeys(r[j].val));
      assert r[j] == ks[j];
      assert Above(AllKeys(ks[j].val), KeyVal(ks[j].key));
      if j < m - 1 {
        assert KeyVal(ks[m - 1].key) < KeyVal(ks[j].key);
      }
    }
  }

  lemma {:induction false} KidsBelow(ks: seq<Pair<Tree>>, m: nat)
    requires Fenced(ks) && 1 <= m <= |ks|
    ensures Below(KidsKeys(ks[m..]), KeyVal(ks[m - 1].key))
  {
    var r := ks[m..];
    forall x | x in KidsKeys(r) ensures KeyVal(x) < KeyVal(ks[m - 1].key) {
      KidsKeysMember(r, x);
      var j :| 0 <= j < |r| && (x == r[j].key || x in AllKeys(r[j].val));
      assert r[j] == ks[m + j];
      assert Below(AllKeys(ks[m + j].val), KeyVal(ks[m - 1].key));
    }
  }

  /** The keys below a run of slots are among the keys below all slots. */
  lemma {:induction false} KidsKeysSlice(ks: seq<Pair<Tree>>, a: nat, b: nat)
    requires a <= b <= |ks|
    ensures KidsKeys(ks[a..b]) <= KidsKeys(ks)
  {
    var r := ks[a..b];
    forall x | x in KidsKeys(r) ensures x in KidsKeys(ks) {
      KidsKeysMember(r, x);
      var j :| 0 <= j < |r| && (x == r[j].key || x in AllKeys(r[j].val));
      assert r[j] == ks[a + j];
      KidsKeysMember(ks, x);
    }
  }

  /** Number of nodes on the path `find_level` takes for `k`, root and leaf included. */
  function PathLen(t: Tree, k: Key): (n: nat)
    requires Routed(t, k)
    ensures n >= 1
    decreases t
  {
    match t
    case Leaf(_) => 1
    case Index(ks) =>
      var i := GetPos(ks, k);
      assert ks[i] in ks;
      1 + PathLen(ks[i].val, k)
  }

  /** In a tree of height `h` every path has `h` nodes. */
  lemma {:induction false} PathLenHeight(t: Tree, k: Key, h: nat, g: Geo)
    requires Valid(t, h, g) && Routed(t, k)
    ensures PathLen(t, k) == h
    decreases t
  {
    match t
    case Leaf(_) =>
    case Index(ks) =>
      var i := GetPos(ks, k);
      assert KidsValid(ks, h, g) && ks[i] in ks;
      PathLenHeight(ks[i].val, k, h - 1, g);
  }

  /** Nodes `cbtree_insert_level` takes from the pool below `t`: one for
      each node on the path that splits. The whole path splits exactly when
      the outcome is a split. */
  function Splits(t: Tree, p: Pair<Ptr>, g: Geo): (n: nat)
    requires TreeGeo(g) && Routed(t, p.key)
    ensures n <= PathLen(t, p.key)
    ensures InsertRec(t, p, g).Split? <==> n == PathLen(t, p.key)
    decreases t
  {
    match t
    case Leaf(es) => if |es| < g.noPairs then 0 else 1
    case Index(ks) =>
      var i := GetPos(ks, p.key);
      assert ks[i] in ks;
      var n := Splits(ks[i].val, p, g);
      if InsertRec(ks[i].val, p, g).Split? && |ks| >= g.noPairs then n + 1 else n
  }

  /** Nodes the whole insert takes from the pool: a first leaf for an empty
      tree; otherwise one per split node, and one more for the new root when
      every node on the path, the root included, is full. */
  function Need(hd: Head, p: Pair<Ptr>, g: Geo): (n: nat)
    requires ValidHead(hd, g) && WfKey(p.key, g.keylen)
    ensures 1 <= n || hd.root.Some?
    ensures n <= hd.height + 1
  {
    match hd.root
    case None => 1
    case Some(t) =>
      var t1 := Lower(t, p.key, hd.height, g);
      PathLenHeight(t1, p.key, hd.height, g);
      var n := Splits(t1, p, g);
      if n == hd.height then n + 1 else n
  }

  /** `cbtree_insert` of a key the tree does not hold with a non-null value.
      The descent lowers separators; then either the pool cannot supply
      every node the insert needs and `-ENOMEM` comes back with the contents
      untouched, or the pair is stored, a root split growing the tree by a
      new root over the two halves. */
  function Insert(hd: Head, p: Pair<Ptr>, g: Geo, avail: nat): (r: (Head, int))
    requires TreeGeo(g) && ValidHead(hd, g) && WfKey(p.key, g.keylen) && p.val != NULL
    requires p.key !in Contents(hd)
    ensures ValidHead(r.0, g)
    ensures r.1 == 0 || r.1 == -ENOMEM
    ensures r.1 == -ENOMEM <==> avail < Need(hd, p, g)
    ensures r.1 == 0 ==> Contents(r.0) == Contents(hd)[p.key := p.val]
    ensures r.1 != 0 ==> Contents(r.0) == Contents(hd) && r.0.height == hd.height
    ensures r.1 == 0 ==> r.0.height == if Need(hd, p, g) == hd.height + 1 then hd.height + 1 else hd.height
  {
    match hd.root
    case None =>
      if avail < 1 then (hd, -ENOMEM)
      else
        FirstLeaf(p, g);
        (Head(Some(Leaf([p])), 1), 0)
    case Some(t) =>
      var t1 := Lower(t, p.key, hd.height, g);
      if avail < Need(hd, p, g) then (Head(Some(t1), hd.height), -ENOMEM)
      else
        PathLenHeight(t1, p.key, hd.height, g);
        InsertRoot(t1, p, hd.height, g);
        match InsertRec(t1, p, g)
        case Fit(t2) => (Head(Some(t2), hd.height), 0)
        case Split(s, up, low) => (Head(Some(Index([Pair(s, up), Pair(LastKey(low), low)])), hd.height + 1), 0)
  }

  /** A failed insert leaves a tree that needs as many nodes for the same
      pair as before: the separators its descent lowered are not lowered
      again. */
  lemma {:induction false} FailedInsertNeed(hd: Head, p: Pair<Ptr>, g: Geo, avail: nat)
    requires TreeGeo(g) && ValidHead(hd, g) && WfKey(p.key, g.keylen) && p.val != NULL
    requires p.key !in Contents(hd)
    requires Insert(hd, p, g, avail).1 != 0
    ensures Need(Insert(hd, p, g, avail).0, p, g) == Need(hd, p, g)
  {
    if hd.root.Some? {
      var t1 := Lower(hd.root.value, p.key, hd.height, g);
      LowerRouted(t1, p.key, hd.height, g);
    }
  }

  /** `cbtree_insert_level` adds one node to the pool's account per split:
      a changed node grows by the splits below it, and the two halves of a
      split node hold together its old nodes, those splits, and itself. */
  lemma {:induction false} InsertRecNodes(t: Tree, p: Pair<Ptr>, g: Geo)
    requires TreeGeo(g) && Routed(t, p.key)
    ensures match InsertRec(t, p, g)
            case Fit(t2) => NodeCount(t2) == NodeCount(t) + Splits(t, p, g)
            case Split(_, up, low) => NodeCount(up) + NodeCount(low) == NodeCount(t) + Splits(t, p, g)
    decreases t
  {
    match t
    case Leaf(_) =>
    case Index(ks) =>
      var i := GetPos(ks, p.key);
      assert ks[i] in ks;
      InsertRecNodes(ks[i].val, p, g);
      match InsertRec(ks[i].val, p, g)
      case Fit(c) =>
        KidsNodesSet(ks, i, Pair(ks[i].key, c));
      case Split(s, up, low) =>
        if |ks| < g.noPairs {
          WidenNodes(ks, i, s, up, low);
        } else {
          SplitWideNodes(ks, i, s, up, low);
        }
  }

  /** A child split in a node with room: the node gains the upper half. */
  lemma {:induction false} WidenNodes(ks: seq<Pair<Tree>>, i: nat, s: Key, up: Tree, low: Tree)
    requires i < |ks|
    ensures KidsNodes(Widen(ks, i, s, up, low)) + NodeCount(ks[i].val) == KidsNodes(ks) + NodeCount(up) + NodeCount(low)
  {
    var ks1 := ks[i := Pair(ks[i].key, low)];
    KidsNodesSet(ks, i, Pair(ks[i].key, low));
    assert ks1 == ks1[..i] + ks1[i..];
    KidsNodesAppend(ks1[..i], ks1[i..]);
    KidsNodesSplice(ks1[..i], Pair(s, up), ks1[i..]);
  }

  /** A child split in a full node: the node's two halves share its
      children and the upper half. */
  lemma {:induction false} SplitWideNodes(ks: seq<Pair<Tree>>, i: nat, s: Key, up: Tree, low: Tree)
    requires i < |ks| && |ks| >= 4
    ensures var halves := SplitAdd(ks[i := Pair(ks[i].key, low)], i, Pair(s, up));
            KidsNodes(halves.0) + KidsNodes(halves.1) + NodeCount(ks[i].val) == KidsNodes(ks) + NodeCount(up) + NodeCount(low)
  {
    var ks1 := ks[i := Pair(ks[i].key, low)];
    var halves := SplitAdd(ks1, i, Pair(s, up));
    KidsNodesAppend(halves.0, halves.1);
    WidenNodes(ks, i, s, up, low);
  }

  /** A new root over two halves is one node more than the halves. */
  lemma {:induction false} NewRootNodes(s: Key, up: Tree, low: Tree)
    requires Size(low) >= 1
    ensures NodeCount(Index([Pair(s, up), Pair(LastKey(low), low)])) == 1 + NodeCount(up) + NodeCount(low)
  {
    KidsNodesSplice([Pair(s, up)], Pair(LastKey(low), low), []);
    KidsNodesSplice([], Pair(s, up), []);
    assert [Pair(s, up)] + [Pair(LastKey(low), low)] + [] == [Pair(s, up), Pair(LastKey(low), low)];
    assert [] + [Pair(s, up)] + [] == [Pair(s, up)];
  }

  /** The nodes an insert takes all end up in the tree: a successful insert
      grows the tree by exactly `Need` nodes, a failed one by none. */
  lemma {:induction false} InsertNodes(hd: Head, p: Pair<Ptr>, g: Geo, avail: nat)
    requires TreeGeo(g) && ValidHead(hd, g) && WfKey(p.key, g.keylen) && p.val != NULL
    requires p.key !in Contents(hd)
    ensures var r := Insert(hd, p, g, avail);
            HeadNodes(r.0) == if r.1 == 0 then HeadNodes(hd) + Need(hd, p, g) else HeadNodes(hd)
  {
    if hd.root.Some? {
      var t := hd.root.value;
      var t1 := Lower(t, p.key, hd.height, g);
      if avail >= Need(hd, p, g) {
        PathLenHeight(t1, p.key, hd.height, g);
        InsertRoot(t1, p, hd.height, g);
        InsertRecNodes(t1, p, g);
        match InsertRec(t1, p, g)
        case Fit(_) =>
        case Split(s, up, low) =>
          NewRootNodes(s, up, low);
      }
    }
  }

  /** The first leaf of an empty tree holds the pair alone. */
  lemma {:induction false} FirstLeaf(p: Pair<Ptr>, g: Geo)
    requires TreeGeo(g) && WfKey(p.key, g.keylen) && p.val != NULL
    ensures ValidRoot(Leaf([p]), 1, g) && ToMap(Flat(Leaf([p]))) == map[p.key := p.val]
  {
    assert ([p])[1..] == [];
  }

  /** Inserting below a well-formed root: the node it becomes, or the new
      root over its two halves, is a well-formed root holding the old
      contents and the new pair. */
  lemma {:induction false} InsertRoot(t: Tree, p: Pair<Ptr>, h: nat, g: Geo)
    requires ValidRoot(t, h, g) && WfKey(p.key, g.keylen) && Routed(t, p.key) && p.val != NULL
    requires p.key !in ToMap(Flat(t))
    ensures match InsertRec(t, p, g)
            case Fit(t2) =>
              ValidRoot(t2, h, g) && ToMap(Flat(t2)) == ToMap(Flat(t))[p.key := p.val]
            case Split(s, up, low) =>
              && Size(low) >= 1
              && var t2 := Index([Pair(s, up), Pair(LastKey(low), low)]);
                 ValidRoot(t2, h + 1, g) && ToMap(Flat(t2)) == ToMap(Flat(t))[p.key := p.val]
  {
    ValidFlat(t, h, g);
    ToMapKeys(Flat(t), p.key);
    InsertRecSpec(t, p, h, g);
    ToMapInsert(Flat(t), p);
    match InsertRec(t, p, g)
    case Fit(t2) =>
    case Split(s, up, low) =>
      RootSplit(s, up, low, h, g);
  }

  /** A root split: the new root over the two halves is well formed and
      holds the entries of both. */
  lemma {:induction false} RootSplit(s: Key, up: Tree, low: Tree, h: nat, g: Geo)
    requires TreeGeo(g) && Valid(up, h, g) && Valid(low, h, g) && Size(up) >= 2 && Size(low) >= 2
    requires s == LastKey(up) && Above(AllKeys(up), KeyVal(s)) && Below(AllKeys(low), KeyVal(s))
    ensures var t2 := Index([Pair(s, up), Pair(LastKey(low), low)]);
            ValidRoot(t2, h + 1, g) && Flat(t2) == Flat(up) + Flat(low)
  {
    RootKeys(s, up, low, h, g);
    TwoKidsValid(s, up, LastKey(low), low, h + 1, g);
    TwoKidsFlat(Pair(s, up), Pair(LastKey(low), low));
  }

  /** The separators of the new root: both well formed, the second below
      the first and at most every key of its child. */
  lemma {:induction false} RootKeys(s: Key, up: Tree, low: Tree, h: nat, g: Geo)
    requires Valid(up, h, g) && Valid(low, h, g) && Size(up) >= 1 && Size(low) >= 1
    requires s == LastKey(up) && Below(AllKeys(low), KeyVal(s))
    ensures WfKey(s, g.keylen) && WfKey(LastKey(low), g.keylen) && KeyVal(LastKey(low)) < KeyVal(s)
    ensures Above(AllKeys(low), KeyVal(LastKey(low)))
  {
    SplitKey(up, h, g);
    SplitKey(low, h, g);
    LastKeyMin(low, h, g);
  }

  lemma {:induction false} TwoKidsFlat(a: Pair<Tree>, b: Pair<Tree>)
    ensures KidsFlat([a, b]) == Flat(a.val) + Flat(b.val)
  {
    KidsFlatAppend([a], [b]);
    assert [a, b] == [a] + [b];
    KidsFlatOne(a);
    KidsFlatOne(b);
  }
}

=== FILE: keys.dfy ===
/** Multi-word keys of the cbtree.
    A key is an array of `keylen` machine words; word 0 is the most significant one.
    The helpers here are `longcmp`, `dec_key` and `keyzero` of the tree engine and
    `cachelongcmp` of the node cache. */
module Keys {

  /** Number of distinct values of one `unsigned long` (64-bit kernel). */
  const WORD: nat := 0x1_0000_0000_0000_0000

  type Key = seq<nat>

  /** Every word of the key fits in a machine word. */
  predicate Words(k: Key) {
    forall i :: 0 <= i < |k| ==> k[i] < WORD
  }

  /** A well-formed key of a tree whose geometry has `keylen` words per key. */
  predicate WfKey(k: Key, keylen: nat) {
    |k| == keylen && Words(k)
  }

  /** The unsigned number a key denotes, word 0 most significant. */
  function KeyVal(k: Key): nat {
    if |k| == 0 then 0 else KeyVal(k[..|k| - 1]) * WORD + k[|k| - 1]
  }

  /** The largest key of `n` words: every word is all ones. */
  function MaxKey(n: nat): (k: Key)
    ensures |k| == n && Words(k)
    ensures forall i :: 0 <= i < n ==> k[i] == WORD - 1
  {
    seq(n, _ => WORD - 1)
  }

  /** `longcmp`: three-way compare of two n-word keys, word 0 first. */
  function Longcmp(a: Key, b: Key): (r: int)
    requires |a| == |b|
    ensures -1 <= r <= 1
    ensures r == 0 <==> a == b
  {
    if |a| == 0 then 0
    else if a[0] < b[0] then -1
    else if a[0] > b[0] then 1
    else
      var r := Longcmp(a[1..], b[1..]);
      assert a == [a[0]] + a[1..] && b == [b[0]] + b[1..];
      r
  }

  /** `cachelongcmp`: 0 when the first `n` words of both keys agree, 1 otherwise. */
  function CacheLongcmp(a: Key, b: Key, n: nat): (r: int)
    requires n <= |a| && n <= |b|
    ensures r == 0 || r == 1
    ensures r == 0 <==> a[..n] == b[..n]
  {
    if n == 0 then 0
    else if a[n - 1] != b[n - 1] then 1
    else
      var r := CacheLongcmp(a, b, n - 1);
      assert a[..n] == a[..n - 1] + [a[n - 1]] && b[..n] == b[..n - 1] + [b[n - 1]];
      r
  }

  /** `keyzero`: the key is all zero words. */
  function KeyZero(k: Key): (r: bool)
    ensures r <==> forall i :: 0 <= i < |k| ==> k[i] == 0
  {
    if |k| == 0 then true
    else if k[0] != 0 then false
    else
      var r := KeyZero(k[1..]);
      assert forall i :: 1 <= i < |k| ==> k[i] == k[1..][i - 1];
      r
  }

  /** `dec_key`: subtract one, the borrow running from the last word toward word 0;
      the all-zero key wraps around to the all-ones key. */
  function DecKey(k: Key): (r: Key)
    ensures |r| == |k|
  {
    if |k| == 0 then k
    else if k[|k| - 1] != 0 then k[..|k| - 1] + [k[|k| - 1] - 1]
    else DecKey(k[..|k| - 1]) + [WORD - 1]
  }

  /** Comparing two keys by their last words once the fronts agree. */
  lemma {:induction false} LongcmpSnoc(a: Key, b: Key, x: nat, y: nat)
    requires |a| == |b|
    ensures Longcmp(a + [x], b + [y]) ==
            if Longcmp(a, b) != 0 then Longcmp(a, b)
            else if x < y then -1 else if x > y then 1 else 0
  {
    if |a| == 0 {
      assert a + [x] == [x] && b + [y] == [y];
      assert ([x])[1..] == [] && ([y])[1..] == [];
    } else {
      assert (a + [x])[1..] == a[1..] + [x];
      assert (b + [y])[1..] == b[1..] + [y];
      LongcmpSnoc(a[1..], b[1..], x, y);
    }
  }

  lemma {:induction false} MulMono(x: nat, y: nat, w: nat)
    requires x < y
    ensures (x + 1) * w <= y * w
  {}

  /** A quotient is at most `m` when the dividend is at most `m` times
      the divisor. */
  lemma DivAtMost(a: nat, t: nat, m: nat)
    requires t > 0 && a <= t * m
    ensures a / t <= m
  {
    if a / t > m {
      MulMono(m, a / t, t);
    }
  }

  /** Every word being below WORD, the compare agrees with the numeric order of the keys. */
  lemma {:induction false} LongcmpOrder(a: Key, b: Key)
    requires |a| == |b| && Words(a) && Words(b)
    ensures Longcmp(a, b) < 0 <==> KeyVal(a) < KeyVal(b)
    ensures Longcmp(a, b) == 0 <==> KeyVal(a) == KeyVal(b)
    ensures Longcmp(a, b) > 0 <==> KeyVal(a) > KeyVal(b)
  {
    if |a| > 0 {
      var n := |a| - 1;
      var a', b' := a[..n], b[..n];
      assert a == a' + [a[n]] && b == b' + [b[n]];
      LongcmpSnoc(a', b', a[n], b[n]);
      LongcmpOrder(a', b');
      var va, vb := KeyVal(a'), KeyVal(b');
      assert KeyVal(a) == va * WORD + a[n] && KeyVal(b) == vb * WORD + b[n];
      if va < vb {
        MulMono(va, vb, WORD);
      } else if vb < va {
        MulMono(vb, va, WORD);
      }
    }
  }

  /** Two well-formed keys of equal length with the same value are the same key. */
  lemma {:induction false} KeyValInjective(a: Key, b: Key)
    requires |a| == |b| && Words(a) && Words(b)
    requires KeyVal(a) == KeyVal(b)
    ensures a == b
  {
    LongcmpOrder(a, b);
  }

  /** `keyzero` holds exactly of the keys whose value is zero. */
  lemma {:induction false} KeyZeroVal(k: Key)
    ensures KeyZero(k) <==> KeyVal(k) == 0
  {
    if |k| > 0 {
      var f := k[..|k| - 1];
      KeyZeroVal(f);
      assert forall i :: 0 <= i < |f| ==> f[i] == k[i];
      if KeyVal(f) > 0 {
        assert KeyVal(f) * WORD >= WORD;
      }
    }
  }

  /** `dec_key` on a non-zero key yields the key one smaller; on the zero key, the largest key. */
  lemma {:induction false} DecKeyValue(k: Key)
    requires Words(k)
    ensures Words(DecKey(k))
    ensures !KeyZero(k) ==> KeyVal(DecKey(k)) + 1 == KeyVal(k)
    ensures KeyZero(k) ==> DecKey(k) == MaxKey(|k|)
  {
    KeyZeroVal(k);
    if |k| > 0 {
      var n := |k| - 1;
      var f := k[..n];
      assert k == f + [k[n]];
      assert Words(f);
      KeyZeroVal(f);
      if k[n] != 0 {
        DecLastWord(k);
      } else {
        DecKeyValue(f);
        DecBorrow(k);
      }
    }
  }

  /** The last word is non-zero: it alone goes down by one. */
  lemma {:induction false} DecLastWord(k: Key)
    requires Words(k) && |k| > 0 && k[|k| - 1] != 0
    ensures Words(DecKey(k)) && !KeyZero(k)
    ensures KeyVal(DecKey(k)) + 1 == KeyVal(k)
  {
    var n := |k| - 1;
    var r := DecKey(k);
    assert r[..n] == k[..n];
    assert KeyVal(r) == KeyVal(k[..n]) * WORD + k[n] - 1;
  }

  /** The last word is zero: it wraps to all ones and the borrow goes to the front. */
  lemma {:induction false} DecBorrow(k: Key)
    requires Words(k) && |k| > 0 && k[|k| - 1] == 0
    requires var f := k[..|k| - 1];
             && Words(DecKey(f))
             && (!KeyZero(f) ==> KeyVal(DecKey(f)) + 1 == KeyVal(f))
             && (KeyZero(f) ==> DecKey(f) == MaxKey(|f|))
             && (KeyZero(f) <==> KeyVal(f) == 0)
    ensures Words(DecKey(k))
    ensures !KeyZero(k) ==> KeyVal(DecKey(k)) + 1 == KeyVal(k)
    ensures KeyZero(k) ==> DecKey(k) == MaxKey(|k|)
  {
    var n := |k| - 1;
    var f := k[..n];
    var d := DecKey(f);
    var r := DecKey(k);
    assert r == d + [WORD - 1];
    ZeroFront(k);
    if KeyZero(k) {
      assert r == MaxKey(|k|);
    } else {
      BorrowValue(f, d, r);
      assert KeyVal(k) == KeyVal(f) * WORD;
    }
  }

  /** With a zero last word, a key is zero exactly when its front is. */
  lemma {:induction false} ZeroFront(k: Key)
    requires |k| > 0 && k[|k| - 1] == 0
    ensures KeyZero(k) <==> KeyZero(k[..|k| - 1])
  {
    var f := k[..|k| - 1];
    assert forall i :: 0 <= i < |f| ==> f[i] == k[i];
  }

  /** Appending an all-ones word to the decremented front. */
  lemma {:induction false} BorrowValue(f: Key, d: Key, r: Key)
    requires r == d + [WORD - 1] && KeyVal(d) + 1 == KeyVal(f)
    ensures KeyVal(r) + 1 == KeyVal(f) * WORD
  {
    assert r[..|d|] == d;
    assert KeyVal(r) == KeyVal(d) * WORD + WORD - 1;
  }

  /** No key of `n` words exceeds the all-ones key. */
  lemma {:induction false} KeyValMax(k: Key)
    requires Words(k)
    ensures KeyVal(k) <= KeyVal(MaxKey(|k|))
  {
    if |k| > 0 {
      var n := |k| - 1;
      var m := MaxKey(|k|);
      assert Words(k[..n]);
      KeyValMax(k[..n]);
      assert m[..n] == MaxKey(n);
      assert KeyVal(k[..n]) * WORD <= KeyVal(m[..n]) * WORD;
    }
  }

  /** A one-word key denotes its word. */
  lemma {:induction false} SmallKey(w: nat)
    ensures KeyVal([w]) == w
  {
    assert [w][..0] == [];
  }
}

=== FILE: lookup.dfy ===
/** The read side of the engine and `cbtree_update`: plain linear-descent
    lookup, update in place, and `cbtree_last`. */
module Search {
  import opened Keys
  import opened Nodes
  import opened Geometry
  import opened Options
  import opened BTree

  /** `ENOENT` of the kernel's errno table. */
  const ENOENT: int := 2

  /** The leaf scan: the first slot from `i` on whose key equals `k`, or the slot count. */
  function FindExact<V>(ps: seq<Pair<V>>, k: Key, i: nat := 0): (r: nat)
    requires i <= |ps| && forall j :: 0 <= j < |ps| ==> |ps[j].key| == |k|
    ensures i <= r <= |ps|
    ensures r < |ps| ==> ps[r].key == k
    ensures forall j :: i <= j < r ==> ps[j].key != k
    decreases |ps| - i
  {
    if i == |ps| then i
    else if Longcmp(ps[i].key, k) == 0 then i
    else FindExact(ps, k, i + 1)
  }

  /** `k` is stored with value `v` among the entries `f`. */
  ghost predicate Found(f: seq<Pair<Ptr>>, k: Key, v: Ptr) {
    exists j :: 0 <= j < |f| && f[j] == Pair(k, v)
  }

  /** No entry of `f` has key `k`. */
  ghost predicate Absent(f: seq<Pair<Ptr>>, k: Key) {
    forall j :: 0 <= j < |f| ==> f[j].key != k
  }

  /** The value the leaf scan returns when it runs over every slot of the node,
      unused ones included, as the engine does. */
  function ScanValue(s: seq<Pair<Ptr>>, k: Key): Ptr
    requires forall j :: 0 <= j < |s| ==> |s[j].key| == |k|
  {
    var j := FindExact(s, k);
    if j < |s| then s[j].val else NULL
  }

  /** Scanning every slot finds what scanning the used slots finds: an unused
      slot matching the zero key holds NULL, the not-found answer. */
  lemma {:induction false} ScanAllSlots(s: seq<Pair<Ptr>>, fill: nat, keylen: nat, k: Key)
    requires WellFilled(s, fill, keylen) && WfKey(k, keylen)
    ensures ScanValue(s, k) == ScanValue(s[..fill], k)
    ensures ScanValue(s, k) == NULL <==> Absent(s[..fill], k)
    ensures ScanValue(s, k) != NULL ==> Found(s[..fill], k, ScanValue(s, k))
  {
    var ps := s[..fill];
    var j := FindExact(s, k);
    var j' := FindExact(ps, k);
    forall i | 0 <= i < |ps| ensures ps[i] == s[i] {}
    if j' < fill {
      assert j == j';
    } else if j < |s| {
      assert j >= fill;
      assert s[j] == EmptySlot(keylen);
    }
  }

  /** Plain linear-descent lookup below `t`: at each internal level the first
      slot whose separator is at most `k` (none: NULL), at the leaf the slot
      whose key equals `k`. */
  function LookupIn(t: Tree, k: Key, ghost h: nat, ghost g: Geo): (v: Ptr)
    requires Valid(t, h, g) && WfKey(k, g.keylen)
    decreases t
  {
    match t
    case Leaf(es) =>
      var j := FindExact(es, k);
      if j < |es| then es[j].val else NULL
    case Index(ks) =>
      assert KidsValid(ks, h, g);
      var i := GetPos(ks, k);
      if i == |ks| then NULL
      else
        assert ks[i] in ks;
        LookupIn(ks[i].val, k, h - 1, g)
  }

  /** The descent finds the value stored under `k`, and NULL exactly when `k`
      is not stored. */
  lemma {:induction false} LookupInFinds(t: Tree, k: Key, h: nat, g: Geo)
    requires Valid(t, h, g) && WfKey(k, g.keylen)
    ensures var v := LookupIn(t, k, h, g);
            (v != NULL && Found(Flat(t), k, v)) || (v == NULL && Absent(Flat(t), k))
    decreases t
  {
    match t
    case Leaf(es) =>
    case Index(ks) =>
      assert KidsValid(ks, h, g);
      var i := GetPos(ks, k);
      if i == |ks| {
        BelowAllSeparators(ks, k, h, g);
      } else {
        assert ks[i] in ks;
        LookupInFinds(ks[i].val, k, h - 1, g);
        var v := LookupIn(ks[i].val, k, h - 1, g);
        LongcmpOrder(ks[i].key, k);
        if i > 0 {
          LongcmpOrder(ks[i - 1].key, k);
        }
        KeyInSlot(ks, i, k, h, g, v);
      }
  }

  /** A key below every separator of a node is stored nowhere below it. */
  lemma {:induction false} BelowAllSeparators(ks: seq<Pair<Tree>>, k: Key, h: nat, g: Geo)
    requires Valid(Index(ks), h, g) && KeysWf(ks, g.keylen) && WfKey(k, g.keylen)
    requires forall j :: 0 <= j < |ks| ==> Longcmp(ks[j].key, k) > 0
    ensures Absent(KidsFlat(ks), k)
  {
    var t := Index(ks);
    ValidFlat(t, h, g);
    var f := Flat(t);
    if |ks| > 0 {
      LongcmpOrder(ks[|ks| - 1].key, k);
      LastKeyMin(t, h, g);
    }
    forall j | 0 <= j < |f| ensures f[j].key != k {
      assert f[j].key in AllKeys(t);
    }
  }

  /** A key in the range of slot `i` is stored below the node exactly as it is stored below slot `i`. */
  lemma {:induction false} KeyInSlot(ks: seq<Pair<Tree>>, i: nat, k: Key, h: nat, g: Geo, v: Ptr)
    requires KidsValid(ks, h, g) && TreeGeo(g) && i < |ks| && WfKey(k, g.keylen)
    requires KeyVal(ks[i].key) <= KeyVal(k)
    requires i > 0 ==> KeyVal(k) < KeyVal(ks[i - 1].key)
    requires (v != NULL && Found(Flat(ks[i].val), k, v)) || (v == NULL && Absent(Flat(ks[i].val), k))
    ensures (v != NULL && Found(KidsFlat(ks), k, v)) || (v == NULL && Absent(KidsFlat(ks), k))
  {
    KidsFlatParts(ks, i, h, g);
    var a, c, b := KidsFlat(ks[..i]), Flat(ks[i].val), KidsFlat(ks[i + 1..]);
    if i == 0 {
      assert ks[..i] == [];
    }
    if v != NULL {
      var j :| 0 <= j < |c| && c[j] == Pair(k, v);
      FoundInMiddle(a, c, b, j);
    } else {
      AbsentParts(a, c, b, k);
    }
  }

  /** An entry of the middle run is an entry of the whole. */
  lemma {:induction false} FoundInMiddle(a: seq<Pair<Ptr>>, f: seq<Pair<Ptr>>, b: seq<Pair<Ptr>>, j: nat)
    requires j < |f|
    ensures Found(a + f + b, f[j].key, f[j].val)
  {
    assert (a + f + b)[|a| + j] == f[j];
  }

  /** A key absent from the middle run, above every key of the back run and
      below every key of the front run, is absent from the whole. */
  lemma {:induction false} AbsentParts(a: seq<Pair<Ptr>>, f: seq<Pair<Ptr>>, b: seq<Pair<Ptr>>, k: Key)
    requires forall j :: 0 <= j < |a| ==> KeyVal(k) < KeyVal(a[j].key)
    requires forall j :: 0 <= j < |b| ==> KeyVal(b[j].key) < KeyVal(k)
    requires Absent(f, k)
    ensures Absent(a + f + b, k)
  {
    var all := a + f + b;
    forall j | 0 <= j < |all| ensures all[j].key != k {
      if j < |a| {
        assert all[j] == a[j];
      } else if j < |a| + |f| {
        assert all[j] == f[j - |a|];
      } else {
        assert all[j] == b[j - |a| - |f|];
      }
    }
  }

  /** The map view of the flat entries of a valid tree. */
  lemma {:induction false} ContentsFound(hd: Head, g: Geo, k: Key, v: Ptr)
    requires ValidHead(hd, g) && hd.root.Some?
    ensures Found(Flat(hd.root.value), k, v) ==> k in Contents(hd) && Contents(hd)[k] == v
    ensures Absent(Flat(hd.root.value), k) ==> k !in Contents(hd)
  {
    ValidFlat(hd.root.value, hd.height, g);
    ToMapMembers(Flat(hd.root.value));
  }

  /** `cbtree_lookup`: the value stored under `k`, or NULL. */
  function Lookup(hd: Head, k: Key, ghost g: Geo): (v: Ptr)
    requires ValidHead(hd, g) && WfKey(k, g.keylen)
    ensures v == if k in Contents(hd) then Contents(hd)[k] else NULL
  {
    match hd.root
    case None => NULL
    case Some(t) =>
      var v := LookupIn(t, k, hd.height, g);
      LookupInFinds(t, k, hd.height, g);
      ContentsFound(hd, g, k, v);
      v
  }

  /** `cbtree_update` below `t`: the lookup descent, then the value of the slot
      whose key equals `k` is replaced; None when there is no such slot. */
  function UpdateIn(t: Tree, k: Key, v: Ptr, ghost h: nat, ghost g: Geo): (r: Option<Tree>)
    requires Valid(t, h, g) && WfKey(k, g.keylen)
    decreases t
  {
    match t
    case Leaf(es) =>
      var j := FindExact(es, k);
      if j < |es| then Some(Leaf(es[j := Pair(es[j].key, v)])) else None
    case Index(ks) =>
      assert KidsValid(ks, h, g);
      var i := GetPos(ks, k);
      if i == |ks| then None
      else
        assert ks[i] in ks;
        match UpdateIn(ks[i].val, k, v, h - 1, g)
        case None => None
        case Some(c) => Some(Index(ks[i := Pair(ks[i].key, c)]))
  }

  /** The update changes the value of the one entry whose key is `k` and
      nothing else; it finds nothing exactly when `k` is not stored. */
  lemma {:induction false} UpdateInSpec(t: Tree, k: Key, v: Ptr, h: nat, g: Geo)
    requires Valid(t, h, g) && WfKey(k, g.keylen) && v != NULL
    ensures UpdatedAs(t, UpdateIn(t, k, v, h, g), k, v, h, g)
    decreases t
  {
    match t
    case Leaf(es) =>
      var j := FindExact(es, k);
      UpdateLeaf(es, k, v, g);
      if j < |es| {
        assert Flat(t)[j].key == k;
      }
    case Index(ks) =>
      assert KidsValid(ks, h, g);
      var i := GetPos(ks, k);
      if i == |ks| {
        BelowAllSeparators(ks, k, h, g);
      } else {
        assert ks[i] in ks;
        UpdateInSpec(ks[i].val, k, v, h - 1, g);
        match UpdateIn(ks[i].val, k, v, h - 1, g)
        case None => UpdateIndexAbsent(ks, i, k, v, h, g);
        case Some(c) => UpdateIndexFound(ks, i, k, v, h, g, c);
      }
  }

  /** What an update below `t` yields: the one entry with key `k` gets value
      `v`, or nothing is found and `k` is not stored. */
  ghost predicate UpdatedAs(t: Tree, r: Option<Tree>, k: Key, v: Ptr, h: nat, g: Geo) {
    match r
    case None => Absent(Flat(t), k)
    case Some(t1) =>
      && Valid(t1, h, g) && Size(t1) == Size(t) && t1.Leaf? == t.Leaf?
      && AllKeys(t1) <= AllKeys(t) + {k}
      && exists j :: 0 <= j < |Flat(t)| && Flat(t)[j].key == k && Flat(t1) == Flat(t)[j := Pair(k, v)]
  }

  /** The kid on the route holds no entry with key `k`: neither does the parent. */
  lemma {:induction false} UpdateIndexAbsent(ks: seq<Pair<Tree>>, i: nat, k: Key, v: Ptr, h: nat, g: Geo)
    requires KidsValid(ks, h, g) && TreeGeo(g) && |ks| <= g.noPairs
    requires WfKey(k, g.keylen) && i == GetPos(ks, k) < |ks|
    requires Valid(ks[i].val, h - 1, g) && UpdateIn(ks[i].val, k, v, h - 1, g).None?
    requires Absent(Flat(ks[i].val), k)
    ensures UpdatedAs(Index(ks), UpdateIn(Index(ks), k, v, h, g), k, v, h, g)
  {
    LongcmpOrder(ks[i].key, k);
    if i > 0 {
      LongcmpOrder(ks[i - 1].key, k);
    }
    KeyInSlot(ks, i, k, h, g, NULL);
  }

  /** The kid on the route was updated: the parent is updated in that slot. */
  lemma {:induction false} UpdateIndexFound(ks: seq<Pair<Tree>>, i: nat, k: Key, v: Ptr, h: nat, g: Geo, c: Tree)
    requires KidsValid(ks, h, g) && TreeGeo(g) && |ks| <= g.noPairs
    requires WfKey(k, g.keylen) && v != NULL && i == GetPos(ks, k) < |ks|
    requires Valid(ks[i].val, h - 1, g) && UpdateIn(ks[i].val, k, v, h - 1, g) == Some(c)
    requires UpdatedAs(ks[i].val, Some(c), k, v, h - 1, g)
    ensures UpdatedAs(Index(ks), UpdateIn(Index(ks), k, v, h, g), k, v, h, g)
  {
    LongcmpOrder(ks[i].key, k);
    forall j | 0 <= j < i ensures KeyVal(k) < KeyVal(ks[j].key) {
      LongcmpOrder(ks[j].key, k);
    }
    var f := Flat(ks[i].val);
    var j :| 0 <= j < |f| && f[j].key == k && Flat(c) == f[j := Pair(k, v)];
    UpdateKid(ks, i, k, v, h, g, c, j);
  }

  lemma {:induction false} UpdateLeaf(es: seq<Pair<Ptr>>, k: Key, v: Ptr, g: Geo)
    requires Valid(Leaf(es), 1, g) && WfKey(k, g.keylen) && v != NULL
    ensures var j := FindExact(es, k);
            j < |es| ==>
              var t1 := Leaf(es[j := Pair(es[j].key, v)]);
              && Valid(t1, 1, g) && AllKeys(t1) <= AllKeys(Leaf(es))
              && es[j].key == k && Flat(t1) == es[j := Pair(k, v)]
  {
    var j := FindExact(es, k);
    if j < |es| {
      var es1 := es[j := Pair(es[j].key, v)];
      forall x | x in AllKeys(Leaf(es1)) ensures x in AllKeys(Leaf(es)) {
        var i :| 0 <= i < |es1| && es1[i].key == x;
        assert es[i].key == x;
      }
    }
  }

  /** Replacing kid `i` by its updated copy `c` is an update of the parent. */
  lemma {:induction false} UpdateKid(ks: seq<Pair<Tree>>, i: nat, k: Key, v: Ptr, h: nat, g: Geo, c: Tree, j: nat)
    requires KidsValid(ks, h, g) && TreeGeo(g) && i < |ks| <= g.noPairs && WfKey(k, g.keylen)
    requires KeyVal(ks[i].key) <= KeyVal(k)
    requires forall j :: 0 <= j < i ==> KeyVal(k) < KeyVal(ks[j].key)
    requires Valid(c, h - 1, g) && Size(c) == Size(ks[i].val) && AllKeys(c) <= AllKeys(ks[i].val) + {k}
    requires j < |Flat(ks[i].val)| && Flat(ks[i].val)[j].key == k
    requires Flat(c) == Flat(ks[i].val)[j := Pair(k, v)]
    ensures UpdatedAs(Index(ks), Some(Index(ks[i := Pair(ks[i].key, c)])), k, v, h, g)
  {
    assert ks[i] in ks;
    ReplaceKidWithin(ks, i, c, k, h, g);
    FlatSplice(ks, i, c, j, Pair(k, v));
  }

  /** An update of entry `j` of kid `i` is an update of the flattened parent
      at offset `j` past the entries of the kids before it. */
  lemma {:induction false} FlatSplice(ks: seq<Pair<Tree>>, i: nat, c: Tree, j: nat, x: Pair<Ptr>)
    requires i < |ks| && j < |Flat(ks[i].val)| && Flat(c) == Flat(ks[i].val)[j := x]
    ensures var n := |KidsFlat(ks[..i])| + j;
            && n < |Flat(Index(ks))| && Flat(Index(ks))[n] == Flat(ks[i].val)[j]
            && Flat(Index(ks[i := Pair(ks[i].key, c)])) == Flat(Index(ks))[n := x]
  {
    var ks1 := ks[i := Pair(ks[i].key, c)];
    KidsFlatAt(ks, i);
    KidsFlatAt(ks1, i);
    assert ks1[..i] == ks[..i] && ks1[i + 1..] == ks[i + 1..];
    SpliceUpdate(KidsFlat(ks[..i]), Flat(ks[i].val), KidsFlat(ks[i + 1..]), j, x);
  }

  lemma {:induction false} SpliceUpdate<T>(a: seq<T>, f: seq<T>, b: seq<T>, j: nat, x: T)
    requires j < |f|
    ensures (a + f + b)[|a| + j] == f[j]
    ensures a + f[j := x] + b == (a + f + b)[|a| + j := x]
  {
    var l, r := a + f[j := x] + b, (a + f + b)[|a| + j := x];
    assert |l| == |r|;
    forall i | 0 <= i < |l| ensures l[i] == r[i] {
      if i < |a| {
      } else if i < |a| + |f| {
      } else {
      }
    }
  }

  /** `cbtree_update`: 0 with the value under `k` replaced when `k` is stored,
      -ENOENT with the tree unchanged otherwise. */
  function Update(hd: Head, k: Key, v: Ptr, ghost g: Geo): (r: (Head, int))
    requires ValidHead(hd, g) && WfKey(k, g.keylen) && v != NULL
    ensures ValidHead(r.0, g) && r.0.height == hd.height
    ensures k in Contents(hd) ==> r.1 == 0 && Contents(r.0) == Contents(hd)[k := v]
    ensures k !in Contents(hd) ==> r == (hd, -ENOENT)
  {
    match hd.root
    case None => (hd, -ENOENT)
    case Some(t) =>
      UpdateInSpec(t, k, v, hd.height, g);
      ValidFlat(t, hd.height, g);
      ToMapMembers(Flat(t));
      match UpdateIn(t, k, v, hd.height, g)
      case None => (hd, -ENOENT)
      case Some(t1) =>
        var f := Flat(t);
        var j :| 0 <= j < |f| && f[j].key == k && Flat(t1) == f[j := Pair(k, v)];
        forall i | 0 <= i < |f| && i != j ensures f[i].key != k {
          assert KeyVal(f[i].key) != KeyVal(f[j].key);
        }
        ToMapReplace(f, Flat(t1), k, v);
        (Head(Some(t1), hd.height), 0)
  }

  /** The slot scan of `cbtree_update` as the engine runs it: over all
      `no_pairs` slots of the leaf, unused ones included, setting the value of
      the first slot whose key equals `k`. Returns the new slot array and the
      status. */
  function LeafUpdateAsWritten(s: seq<Pair<Ptr>>, k: Key, v: Ptr): (r: (seq<Pair<Ptr>>, int))
    requires forall j :: 0 <= j < |s| ==> |s[j].key| == |k|
    ensures |r.0| == |s| && (r.1 == 0 || r.1 == -ENOENT)
    ensures r.1 == -ENOENT ==> r.0 == s && forall j :: 0 <= j < |s| ==> s[j].key != k
    ensures r.1 == 0 ==> exists j :: 0 <= j < |s| && s[j].key == k && r.0 == s[j := Pair(k, v)]
  {
    var j := FindExact(s, k);
    if j < |s| then (s[j := Pair(s[j].key, v)], 0) else (s, -ENOENT)
  }

  /** Apart from the zero key, the all-slot scan updates exactly what the scan
      of the used slots updates: the result is the layout of the corrected
      leaf update. */
  lemma {:induction false} LeafUpdateAgrees(es: seq<Pair<Ptr>>, k: Key, v: Ptr, g: Geo)
    requires Valid(Leaf(es), 1, g) && WfKey(k, g.keylen) && !KeyZero(k)
    ensures var r := LeafUpdateAsWritten(Layout(es, g.noPairs, g.keylen), k, v);
            match UpdateIn(Leaf(es), k, v, 1, g)
            case None => r.1 == -ENOENT
            case Some(t1) => r.1 == 0 && r.0 == Layout(t1.entries, g.noPairs, g.keylen)
  {
    var s := Layout(es, g.noPairs, g.keylen);
    var j := FindExact(s, k);
    var j' := FindExact(es, k);
    forall i | 0 <= i < |es| ensures s[i] == es[i] {
      assert s[..|es|][i] == es[i];
    }
    if j' < |es| {
      assert j == j';
      var es1 := es[j' := Pair(es[j'].key, v)];
      var s1 := Layout(es1, g.noPairs, g.keylen);
      assert s[j := Pair(s[j].key, v)] == s1 by {
        forall i | 0 <= i < |s| ensures s[j := Pair(s[j].key, v)][i] == s1[i] {
          if i < |es| {
            assert s1[..|es1|][i] == es1[i];
          }
        }
      }
    } else if j < |s| {
      assert s[j] == EmptySlot(g.keylen);
      KeyZeroVal(k);
      assert false;
    }
  }

  /** A leaf of one entry with key 5 in a four-slot node: updating the absent
      zero key returns 0 and writes the value into the first unused slot,
      whose zero key matches, so the leaf gains an entry; the update of the
      used slots reports -ENOENT. */
  lemma {:induction false} UpdateZeroKeyAsWritten()
    ensures var g := Geo(1, 4, 4);
            var es := [Pair([5], 7)];
            var r := LeafUpdateAsWritten(Layout(es, g.noPairs, g.keylen), [0], 9);
            && Valid(Leaf(es), 1, g)
            && r.1 == 0 && r.0[..2] == [Pair([5], 7), Pair([0], 9)]
            && GetFill(r.0, 0) == 2
            && Update(Head(Some(Leaf(es)), 1), [0], 9, g).1 == -ENOENT
  {
    var g := Geo(1, 4, 4);
    var es := [Pair([5], 7)];
    var s := Layout(es, g.noPairs, g.keylen);
    assert ZeroKey(1) == [0];
    assert s == [Pair([5], 7), Pair([0], 0), Pair([0], 0), Pair([0], 0)];
    assert KeyVal([5]) == 5;
    assert FindExact(s, [0]) == 1;
    var t := Leaf(es);
    assert Valid(t, 1, g);
    assert Flat(t) == es && ToMap(es) == map[[5] := 7];
  }

  /** The entries of the leaf reached by always following slot 0. */
  function FirstLeaf(t: Tree): (es: seq<Pair<Ptr>>)
    decreases t
  {
    match t
    case Leaf(es) => es
    case Index(ks) => if |ks| == 0 then [] else (assert ks[0] in ks; FirstLeaf(ks[0].val))
  }

  /** Slot 0 of the first leaf holds the first flattened entry: children are
      never empty, so the first leaf is empty only in an empty tree. */
  lemma {:induction false} FirstLeafFront(t: Tree, h: nat, g: Geo)
    requires Valid(t, h, g)
    ensures |FirstLeaf(t)| == 0 <==> |Flat(t)| == 0
    ensures |Flat(t)| > 0 ==> Flat(t)[0] == FirstLeaf(t)[0]
    decreases t
  {
    match t
    case Leaf(_) =>
    case Index(ks) =>
      if |ks| > 0 {
        assert KidsValid(ks, h, g) && ks[0] in ks;
        var c := ks[0].val;
        FirstLeafFront(c, h - 1, g);
        ValidFlat(c, h - 1, g);
        assert Flat(t) == Flat(c) + KidsFlat(ks[1..]);
      }
  }

  /** `cbtree_last`: the value and key of the entry with the largest key, or
      NULL with the key left as the caller passed it when the tree is empty. */
  function Last(hd: Head, key: Key, ghost g: Geo): (r: (Ptr, Key))
    requires ValidHead(hd, g)
    ensures r.0 == NULL <==> Contents(hd) == map[]
    ensures r.0 == NULL ==> r.1 == key
    ensures r.0 != NULL ==> r.1 in Contents(hd) && Contents(hd)[r.1] == r.0
    ensures r.0 != NULL ==> forall x :: x in Contents(hd) ==> KeyVal(x) <= KeyVal(r.1)
  {
    match hd.root
    case None => (NULL, key)
    case Some(t) =>
      var es := FirstLeaf(t);
      LastSpec(t, hd.height, g);
      if |es| == 0 then (NULL, key) else (es[0].val, es[0].key)
  }

  lemma {:induction false} LastSpec(t: Tree, h: nat, g: Geo)
    requires Valid(t, h, g)
    ensures var es := FirstLeaf(t);
            && (|es| == 0 <==> ToMap(Flat(t)) == map[])
            && (|es| > 0 ==>
                  && es[0].val != NULL && es[0].key in ToMap(Flat(t))
                  && ToMap(Flat(t))[es[0].key] == es[0].val
                  && forall x :: x in ToMap(Flat(t)) ==> KeyVal(x) <= KeyVal(es[0].key))
  {
    var f := Flat(t);
    FirstLeafFront(t, h, g);
    ValidFlat(t, h, g);
    ToMapMembers(f);
    if |f| > 0 {
      assert f[0].key in ToMap(f);
      forall x | x in ToMap(f) ensures KeyVal(x) <= KeyVal(f[0].key) {
        var i :| 0 <= i < |f| && f[i].key == x;
      }
    } else {
      assert forall x :: x !in ToMap(f);
    }
  }

  /** `cbtree_last` as written: it follows slot 0 down to a leaf and copies
      slot 0's key into the caller's key whatever slot 0 holds. */
  function LastAsWritten(hd: Head, key: Key, g: Geo): (r: (Ptr, Key))
    requires ValidHead(hd, g)
    ensures hd.root.None? ==> r == (NULL, key)
    ensures hd.root.Some? ==>
              var es := FirstLeaf(hd.root.value);
              r == if |es| == 0 then (NULL, ZeroKey(g.keylen)) else (es[0].val, es[0].key)
  {
    match hd.root
    case None => (NULL, key)
    case Some(t) =>
      var es := FirstLeaf(t);
      FirstLeafFits(t, hd.height, g);
      var s := Layout(es, g.noPairs, g.keylen);
      assert |es| > 0 ==> s[..|es|][0] == es[0];
      (s[0].val, s[0].key)
  }

  lemma {:induction false} FirstLeafFits(t: Tree, h: nat, g: Geo)
    requires Valid(t, h, g)
    ensures |FirstLeaf(t)| <= g.noPairs
    decreases t
  {
    match t
    case Leaf(_) =>
    case Index(ks) =>
      if |ks| > 0 {
        assert KidsValid(ks, h, g) && ks[0] in ks;
        FirstLeafFits(ks[0].val, h - 1, g);
      }
  }

  /** On a non-empty tree the engine's `cbtree_last` is the largest entry. */
  lemma {:induction false} LastAgrees(hd: Head, key: Key, g: Geo)
    requires ValidHead(hd, g) && Contents(hd) != map[]
    ensures LastAsWritten(hd, key, g) == Last(hd, key, g)
  {
    var t := hd.root.value;
    var es := FirstLeaf(t);
    LastSpec(t, hd.height, g);
    FirstLeafFits(t, hd.height, g);
    assert Layout(es, g.noPairs, g.keylen)[..|es|][0] == es[0];
  }

  /** A height-1 tree whose only leaf was emptied by removals: the engine
      returns NULL but overwrites the caller's key 7 with the zero key,
      although an empty tree must leave the key unchanged. */
  lemma {:induction false} LastEmptyLeafAsWritten()
    ensures var g := Geo(1, 4, 4);
            var hd := Head(Some(Leaf([])), 1);
            && ValidHead(hd, g)
            && LastAsWritten(hd, [7], g) == (NULL, [0])
            && Last(hd, [7], g) == (NULL, [7])
  {
    var g := Geo(1, 4, 4);
    var hd := Head(Some(Leaf([])), 1);
    assert ValidHead(hd, g);
    assert ZeroKey(1) == [0];
  }
}

=== FILE: monitor.dfy ===
/** Data-structure monitoring: a table of visit counters keyed by an
    index that a client callback derives from each visited element, with a
    running total of all visits. The xarray is a map from index to
    element record; the client's callbacks are flags saying which of them
    exist, and the values they would return are parameters. */
module Monitor {
  import opened Keys
  import opened Options

  /** `struct ds_monitoring_elem`: its own index, an optional copy of the
      client's name for it, and how many times it was found. */
  datatype Elem = Elem(key: nat, name: Option<string>, count: nat)

  /** Which callbacks of `struct ds_monitoring_operations` are set. */
  datatype Ops = Ops(getIndex: bool, getName: bool, printElem: bool)

  /** `struct ds_monitoring`: the element table and `total_counts`. */
  datatype Monitor = Monitor(elements: map<nat, Elem>, total: nat)

  /** `DS_MONITORING_INIT`: an empty table and a zero total. */
  const Empty: Monitor := Monitor(map[], 0)

  /** The least element of a non-empty set of indices. */
  ghost function MinOf(s: set<nat>): (m: nat)
    requires s != {}
    ensures m in s && forall x :: x in s ==> m <= x
    decreases |s|
  {
    var x :| x in s;
    if s == {x} then
      assert forall y :: y in s ==> y == x;
      x
    else
      var y := MinOf(s - {x});
      assert forall z :: z in s ==> z == x || z in s - {x};
      if x < y then x else y
  }

  /** The sum of the counts of a table, taken in index order. */
  ghost function Sum(m: map<nat, Elem>): nat
    decreases |m|
  {
    if m == map[] then 0
    else
      var k := MinOf(m.Keys);
      m[k].count + Sum(m - {k})
  }

  /** The sum does not depend on which element is taken out first. */
  lemma {:induction false} SumRemove(m: map<nat, Elem>, k: nat)
    requires k in m
    ensures Sum(m) == m[k].count + Sum(m - {k})
    decreases |m|
  {
    var j := MinOf(m.Keys);
    if j != k {
      var mj, mk := m - {j}, m - {k};
      assert |mj| < |m| && k in mj;
      SumRemove(mj, k);
      assert mj - {k} == mk - {j};
      assert MinOf(mk.Keys) == j by {
        var j' := MinOf(mk.Keys);
        assert j in mk.Keys && j' in m.Keys;
      }
      assert mk != map[] by { assert j in mk; }
    }
  }

  /** Putting an element under index `k` changes the sum by the difference
      of the counts. */
  lemma {:induction false} SumPut(m: map<nat, Elem>, k: nat, e: Elem)
    ensures k in m ==> Sum(m[k := e]) + m[k].count == Sum(m) + e.count
    ensures k !in m ==> Sum(m[k := e]) == Sum(m) + e.count
  {
    var m' := m[k := e];
    SumRemove(m', k);
    assert m' - {k} == m - {k};
    if k in m {
      SumRemove(m, k);
    } else {
      assert m - {k} == m;
    }
  }

  /** No count exceeds the sum. */
  lemma {:induction false} CountBelowSum(m: map<nat, Elem>, k: nat)
    requires k in m
    ensures m[k].count <= Sum(m)
  {
    SumRemove(m, k);
  }

  /** Every element sits under its own index, was found at least once, and
      `total_counts` is the sum of all counts. */
  ghost predicate Inv(dm: Monitor) {
    && (forall k :: k in dm.elements ==> dm.elements[k].key == k && dm.elements[k].count >= 1)
    && dm.total == Sum(dm.elements)
  }

  /** `find_ds_monitoring` with `index` the value of `get_index` and `name`
      that of `get_name`. Without `get_index` nothing changes. Otherwise the
      element under the index gains one count, or a new one is stored with
      count 1 and, when `get_name` is set, a copy of the name; and the total
      gains one. */
  function Find(dm: Monitor, ops: Ops, index: nat, name: string): (r: Monitor)
    ensures !ops.getIndex ==> r == dm
    ensures ops.getIndex ==> r.total == dm.total + 1 && r.elements.Keys == dm.elements.Keys + {index}
    ensures ops.getIndex && index in dm.elements ==>
              r.elements[index] == dm.elements[index].(count := dm.elements[index].count + 1)
    ensures ops.getIndex && index !in dm.elements ==>
              r.elements[index] == Elem(index, if ops.getName then Some(name) else None, 1)
    ensures forall k :: k in dm.elements && k != index ==> r.elements[k] == dm.elements[k]
  {
    if !ops.getIndex then dm
    else if index in dm.elements then
      var cur := dm.elements[index];
      Monitor(dm.elements[index := cur.(count := cur.count + 1)], dm.total + 1)
    else
      Monitor(dm.elements[index := Insert(ops, index, name)], dm.total + 1)
  }

  /** `insert_ds_monitoring`: the record for a new index. */
  function Insert(ops: Ops, index: nat, name: string): (e: Elem)
    ensures e.key == index && e.count == 1
    ensures ops.getName <==> e.name == Some(name)
    ensures !ops.getName ==> e.name == None
  {
    Elem(index, if ops.getName then Some(name) else None, 1)
  }

  /** The empty monitor satisfies the invariant, and every find keeps it:
      the total stays the sum of the counts. */
  lemma {:induction false} FindKeepsInv(dm: Monitor, ops: Ops, index: nat, name: string)
    requires Inv(dm)
    ensures Inv(Empty)
    ensures Inv(Find(dm, ops, index, name))
  {
    if ops.getIndex {
      var r := Find(dm, ops, index, name);
      SumPut(dm.elements, index, r.elements[index]);
      assert r.elements == dm.elements[index := r.elements[index]];
    }
  }

  /** One line of `print_elem`: index, name, count and percentage. */
  datatype Line = Line(index: nat, name: Option<string>, count: nat, percent: nat)

  /** `cur_count * 100 / total_counts` in `unsigned long long`: the product
      wraps at 2^64 before the division. */
  function Percent(count: nat, total: nat): (p: nat)
    requires total > 0
  {
    ((count * 100) % WORD) / total
  }

  /** While `count * 100` fits in 64 bits the percentage is the truncated
      quotient, and it is at most 100 when the count is within the total. */
  lemma PercentExact(count: nat, total: nat)
    requires total > 0 && count * 100 < WORD
    ensures Percent(count, total) == count * 100 / total
    ensures count <= total ==> Percent(count, total) <= 100
  {
    var a := count * 100;
    assert a % WORD == a;
    if count <= total {
      assert a <= total * 100;
      DivAtMost(a, total, 100);
    }
  }

  /** The indices of a table in increasing order, as `xa_for_each`
      visits them. */
  ghost function Ascending(s: set<nat>): (r: seq<nat>)
    ensures |r| == |s|
    decreases |s|
  {
    if s == {} then [] else [MinOf(s)] + Ascending(s - {MinOf(s)})
  }

  /** `Ascending` lists exactly the indices of the set, each once, in
      strictly increasing order. */
  lemma {:induction false} AscendingSorted(s: set<nat>)
    ensures forall i :: 0 <= i < |Ascending(s)| ==> Ascending(s)[i] in s
    ensures forall i :: 0 < i < |Ascending(s)| ==> Ascending(s)[i - 1] < Ascending(s)[i]
    ensures forall k :: k in s ==> k in Ascending(s)
    decreases |s|
  {
    if s != {} {
      var k := MinOf(s);
      var t := s - {k};
      var rest := Ascending(t);
      AscendingSorted(t);
      var r := [k] + rest;
      assert Ascending(s) == r;
      forall i | 0 <= i < |r| ensures r[i] in s {
        if i > 0 { assert r[i] == rest[i - 1] && rest[i - 1] in t; }
      }
      forall i | 0 < i < |r| ensures r[i - 1] < r[i] {
        assert r[i] == rest[i - 1] && rest[i - 1] in t;
        if i > 1 { assert r[i - 1] == rest[i - 2]; }
      }
      forall x | x in s ensures x in r {
        if x != k {
          assert x in t;
          var j :| 0 <= j < |rest| && rest[j] == x;
          assert r[j + 1] == x;
        }
      }
    }
  }

  /** The line printed for an element. */
  function LineOf(e: Elem, total: nat): Line
    requires total > 0
  {
    Line(e.key, e.name, e.count, Percent(e.count, total))
  }

  /** The lines for the elements of `m` in increasing index order. */
  ghost function Lines(m: map<nat, Elem>, total: nat): (r: seq<Line>)
    requires total > 0
    ensures |r| == |m|
    ensures forall i :: 0 <= i < |r| ==>
              Ascending(m.Keys)[i] in m && r[i] == LineOf(m[Ascending(m.Keys)[i]], total)
  {
    var ks := Ascending(m.Keys);
    AscendingSorted(m.Keys);
    seq(|ks|, i requires 0 <= i < |ks| => LineOf(m[ks[i]], total))
  }

  /** `print_ds_monitoring`: nothing when the total is zero or `print_elem`
      is not set; otherwise one line per element in index order. */
  ghost function Print(dm: Monitor, ops: Ops): (r: seq<Line>)
    ensures dm.total == 0 || !ops.printElem ==> r == []
    ensures dm.total > 0 && ops.printElem ==> |r| == |dm.elements|
  {
    if dm.total == 0 || !ops.printElem then [] else Lines(dm.elements, dm.total)
  }

  /** Under the invariant every printed percentage lies in 0..100, and it
      is the exact truncated quotient, while `count * 100` fits in 64
      bits. */
  lemma {:induction false} PrintPercentBounded(dm: Monitor, ops: Ops)
    requires Inv(dm)
    requires forall k :: k in dm.elements ==> dm.elements[k].count * 100 < WORD
    ensures forall i :: 0 <= i < |Print(dm, ops)| ==>
              Print(dm, ops)[i].percent <= 100 &&
              Print(dm, ops)[i].percent == Print(dm, ops)[i].count * 100 / dm.total
  {
    if dm.total > 0 && ops.printElem {
      var r := Print(dm, ops);
      AscendingSorted(dm.elements.Keys);
      forall i | 0 <= i < |r| ensures r[i].percent <= 100 && r[i].percent == r[i].count * 100 / dm.total {
        var k := Ascending(dm.elements.Keys)[i];
        CountBelowSum(dm.elements, k);
        PercentExact(dm.elements[k].count, dm.total);
      }
    }
  }

  /** Under the invariant the printed lines name every recorded index once,
      in strictly increasing order, each with its own name and count. */
  lemma {:induction false} PrintListsAll(dm: Monitor, ops: Ops)
    requires Inv(dm) && dm.total > 0 && ops.printElem
    ensures forall i :: 0 <= i < |Print(dm, ops)| ==>
              var l := Print(dm, ops)[i];
              l.index in dm.elements && l.name == dm.elements[l.index].name && l.count == dm.elements[l.index].count
    ensures forall i :: 0 < i < |Print(dm, ops)| ==> Print(dm, ops)[i - 1].index < Print(dm, ops)[i].index
    ensures forall k :: k in dm.elements ==> exists i :: 0 <= i < |Print(dm, ops)| && Print(dm, ops)[i].index == k
  {
    var r := Print(dm, ops);
    var ks := Ascending(dm.elements.Keys);
    AscendingSorted(dm.elements.Keys);
    assert r == Lines(dm.elements, dm.total);
    forall i | 0 <= i < |r|
      ensures r[i].index == ks[i] && ks[i] in dm.elements
      ensures r[i].name == dm.elements[ks[i]].name && r[i].count == dm.elements[ks[i]].count
    {
      assert r[i] == LineOf(dm.elements[ks[i]], dm.total);
    }
    forall k | k in dm.elements ensures exists i :: 0 <= i < |r| && r[i].index == k {
      var i :| 0 <= i < |ks| && ks[i] == k;
      assert r[i].index == k;
    }
  }
}

=== FILE: node.dfy ===
/** Node layout: a node is a fixed array of `no_pairs` (key, value) slots.
    Used slots form a prefix whose values are non-null and whose keys are
    strictly descending; every unused slot holds the zero key and the null value.
    This module models the slot-level loops of the engine (`getpos`, `getfill`,
    shift-and-insert, remove-and-shift, split, merge) and relates each of them
    to the used prefix, which is how the tree module stores a node. */
module Nodes {
  import opened Keys

  /** One slot: a key and a value (a child at internal levels, the caller's pointer at the leaves). */
  datatype Pair<V> = Pair(key: Key, val: V)

  /** The null pointer. */
  const NULL: nat := 0

  function ZeroKey(keylen: nat): (k: Key)
    ensures |k| == keylen && Words(k) && KeyVal(k) == 0
  {
    var k := seq(keylen, _ => 0);
    KeyZeroVal(k);
    k
  }

  /** An unused slot. */
  function EmptySlot(keylen: nat): Pair<nat> {
    Pair(ZeroKey(keylen), NULL)
  }

  /** Keys strictly descending from slot 0. */
  ghost predicate Descending<V>(ps: seq<Pair<V>>) {
    forall i, j :: 0 <= i < j < |ps| ==> KeyVal(ps[j].key) < KeyVal(ps[i].key)
  }

  predicate KeysWf<V>(ps: seq<Pair<V>>, keylen: nat) {
    forall i :: 0 <= i < |ps| ==> WfKey(ps[i].key, keylen)
  }

  predicate NonNull(ps: seq<Pair<nat>>) {
    forall i :: 0 <= i < |ps| ==> ps[i].val != NULL
  }

  /** The slot array of a node whose used prefix is `ps`. */
  function Layout(ps: seq<Pair<nat>>, n: nat, keylen: nat): (s: seq<Pair<nat>>)
    requires |ps| <= n
    ensures |s| == n && s[..|ps|] == ps
    ensures forall i :: |ps| <= i < n ==> s[i] == EmptySlot(keylen)
  {
    ps + seq(n - |ps|, _ => EmptySlot(keylen))
  }

  /** The prefix-fill and ordering invariant of a node's slot array. */
  ghost predicate WellFilled(s: seq<Pair<nat>>, fill: nat, keylen: nat) {
    && fill <= |s|
    && NonNull(s[..fill]) && Descending(s[..fill]) && KeysWf(s[..fill], keylen)
    && forall i :: fill <= i < |s| ==> s[i] == EmptySlot(keylen)
  }

  /** `getpos`: the first slot from `i` on whose key is at most `k`, or the slot count. */
  function GetPos<V>(ps: seq<Pair<V>>, k: Key, i: nat := 0): (r: nat)
    requires i <= |ps|
    requires forall j :: 0 <= j < |ps| ==> |ps[j].key| == |k|
    ensures i <= r <= |ps|
    ensures forall j :: i <= j < r ==> Longcmp(ps[j].key, k) > 0
    ensures r < |ps| ==> Longcmp(ps[r].key, k) <= 0
    decreases |ps| - i
  {
    if i == |ps| then i
    else if Longcmp(ps[i].key, k) <= 0 then i
    else GetPos(ps, k, i + 1)
  }

  /** Numerically, `getpos` stops at the first key at most `k`: every key
      before it is larger than `k`. */
  lemma {:induction false} GetPosBounds<V>(ps: seq<Pair<V>>, k: Key)
    requires KeysWf(ps, |k|) && Words(k)
    ensures var i := GetPos(ps, k);
            && (forall j :: 0 <= j < i ==> KeyVal(k) < KeyVal(ps[j].key))
            && (i < |ps| ==> KeyVal(ps[i].key) <= KeyVal(k))
  {
    var i := GetPos(ps, k);
    forall j | 0 <= j < i ensures KeyVal(k) < KeyVal(ps[j].key) {
      LongcmpOrder(ps[j].key, k);
    }
    if i < |ps| {
      LongcmpOrder(ps[i].key, k);
    }
  }

  /** `getfill`: the first slot from `start` on whose value is null, or the slot count. */
  function GetFill(s: seq<Pair<nat>>, start: nat): (r: nat)
    requires start <= |s|
    ensures start <= r <= |s|
    ensures forall j :: start <= j < r ==> s[j].val != NULL
    ensures r < |s| ==> s[r].val == NULL
    decreases |s| - start
  {
    if start == |s| then start
    else if s[start].val == NULL then start
    else GetFill(s, start + 1)
  }

  /** On a well-filled slot array, `getfill` from any used slot finds the fill. */
  lemma {:induction false} FillOfWellFilled(s: seq<Pair<nat>>, fill: nat, keylen: nat, start: nat)
    requires WellFilled(s, fill, keylen) && start <= fill
    ensures GetFill(s, start) == fill
  {
    assert forall j :: start <= j < fill ==> s[j] == s[..fill][j];
    if fill < |s| {
      assert s[fill] == EmptySlot(keylen);
    }
    GetFillIs(s, start, fill);
  }

  /** Any slot meeting the `getfill` characterisation is the one `getfill` returns. */
  lemma {:induction false} GetFillIs(s: seq<Pair<nat>>, start: nat, r: nat)
    requires start <= r <= |s|
    requires forall j :: start <= j < r ==> s[j].val != NULL
    requires r < |s| ==> s[r].val == NULL
    ensures GetFill(s, start) == r
  {}

  /** Any slot meeting the `getpos` characterisation is the one `getpos` returns. */
  lemma {:induction false} GetPosIs<V>(ps: seq<Pair<V>>, k: Key, r: nat)
    requires r <= |ps| && forall j :: 0 <= j < |ps| ==> |ps[j].key| == |k|
    requires forall j :: 0 <= j < r ==> Longcmp(ps[j].key, k) > 0
    requires r < |ps| ==> Longcmp(ps[r].key, k) <= 0
    ensures GetPos(ps, k) == r
  {}

  /** The slot array of a used prefix is well filled. */
  lemma {:induction false} LayoutWellFilled(ps: seq<Pair<nat>>, n: nat, keylen: nat)
    requires |ps| <= n && NonNull(ps) && Descending(ps) && KeysWf(ps, keylen)
    ensures WellFilled(Layout(ps, n, keylen), |ps|, keylen)
  {}

  /** In a well-filled slot array `getpos` finds the same slot as on the used
      prefix: the zero key of an unused slot is at most every key. */
  lemma {:induction false} PosOfWellFilled(s: seq<Pair<nat>>, fill: nat, keylen: nat, k: Key)
    requires WellFilled(s, fill, keylen) && WfKey(k, keylen)
    ensures GetPos(s, k) == GetPos(s[..fill], k)
  {
    var p := GetPos(s[..fill], k);
    assert forall j :: 0 <= j < fill ==> s[..fill][j] == s[j];
    if p == fill && p < |s| {
      LongcmpOrder(s[p].key, k);
    }
    GetPosIs(s, k, p);
  }

  /** The shift-and-insert loop: slots pos..fill-1 move up one, the pair goes to slot pos. */
  method InsertSlots(s: seq<Pair<nat>>, fill: nat, pos: nat, p: Pair<nat>) returns (r: seq<Pair<nat>>)
    requires pos <= fill < |s|
    ensures r == s[..pos] + [p] + s[pos..fill] + s[fill + 1..]
  {
    r := s;
    var i := fill;
    while i > pos
      invariant pos <= i <= fill && |r| == |s|
      invariant forall j :: 0 <= j <= i ==> r[j] == s[j]
      invariant forall j :: i < j <= fill ==> r[j] == s[j - 1]
      invariant forall j :: fill < j < |s| ==> r[j] == s[j]
    {
      r := r[i := r[i - 1]];
      i := i - 1;
    }
    r := r[pos := p];
    assert r == s[..pos] + [p] + s[pos..fill] + s[fill + 1..];
  }

  /** The remove-and-shift loop: slots pos+1..fill-1 move down one and slot fill-1 is cleared. */
  method RemoveSlots(s: seq<Pair<nat>>, fill: nat, pos: nat, keylen: nat) returns (r: seq<Pair<nat>>)
    requires pos < fill <= |s|
    ensures r == s[..pos] + s[pos + 1..fill] + [EmptySlot(keylen)] + s[fill..]
  {
    r := s;
    var i := pos;
    while i < fill - 1
      invariant pos <= i <= fill - 1 && |r| == |s|
      invariant forall j :: 0 <= j < pos ==> r[j] == s[j]
      invariant forall j :: pos <= j < i ==> r[j] == s[j + 1]
      invariant forall j :: i <= j < |s| ==> r[j] == s[j]
    {
      r := r[i := r[i + 1]];
      i := i + 1;
    }
    r := r[fill - 1 := EmptySlot(keylen)];
    assert r == s[..pos] + s[pos + 1..fill] + [EmptySlot(keylen)] + s[fill..];
  }

  /** The split loop of `cbtree_insert_level`: the new node (allocated zeroed)
      takes the first fill/2 pairs, the remaining pairs slide to the front of the
      old node and every vacated slot is cleared. */
  method SplitSlots(s: seq<Pair<nat>>, fill: nat, keylen: nat) returns (front: seq<Pair<nat>>, back: seq<Pair<nat>>)
    requires 2 <= fill <= |s|
    requires forall j :: fill <= j < |s| ==> s[j] == EmptySlot(keylen)
    ensures |front| == |back| == |s|
    ensures forall j :: 0 <= j < fill / 2 ==> front[j] == s[j]
    ensures forall j :: fill / 2 <= j < |s| ==> front[j] == EmptySlot(keylen)
    ensures forall j :: 0 <= j < fill - fill / 2 ==> back[j] == s[fill / 2 + j]
    ensures forall j :: fill - fill / 2 <= j < |s| ==> back[j] == EmptySlot(keylen)
  {
    var h := fill / 2;
    var z := EmptySlot(keylen);
    front := seq(|s|, _ => z);
    back := s;
    var i := 0;
    while i < h
      invariant 0 <= i <= h && |front| == |s| && |back| == |s|
      invariant forall j :: 0 <= j < i ==> front[j] == s[j]
      invariant forall j :: 0 <= j < i ==> back[j] == s[j + h]
      invariant forall j :: i <= j < |s| ==> front[j] == z
      invariant forall j :: i <= j < h ==> back[j] == s[j]
      invariant forall j :: h <= j < h + i ==> back[j] == z
      invariant forall j :: h + i <= j < |s| ==> back[j] == s[j]
    {
      front := front[i := back[i]];
      back := back[i := back[i + h]];
      back := back[i + h := z];
      i := i + 1;
    }
    if fill % 2 == 1 {
      back := back[i := back[fill - 1]][fill - 1 := z];
    }
  }

  /** The merge loop: the right node's `rfill` pairs are appended at the left node's slots lfill.. */
  method MergeSlots(left: seq<Pair<nat>>, lfill: nat, right: seq<Pair<nat>>, rfill: nat) returns (r: seq<Pair<nat>>)
    requires lfill + rfill <= |left| && rfill <= |right|
    ensures r == left[..lfill] + right[..rfill] + left[lfill + rfill..]
  {
    r := left;
    var i := 0;
    while i < rfill
      invariant 0 <= i <= rfill && |r| == |left|
      invariant forall j :: 0 <= j < lfill ==> r[j] == left[j]
      invariant forall j :: 0 <= j < i ==> r[lfill + j] == right[j]
      invariant forall j :: lfill + i <= j < |left| ==> r[j] == left[j]
    {
      r := r[lfill + i := right[i]];
      i := i + 1;
    }
    assert r == left[..lfill] + right[..rfill] + left[lfill + rfill..];
  }

  /** Inserting at `getpos` keeps the keys strictly descending when the key is new. */
  lemma {:induction false} InsertKeepsDescending<V>(ps: seq<Pair<V>>, k: Key, v: V)
    requires Descending(ps) && KeysWf(ps, |k|) && Words(k)
    requires forall j :: 0 <= j < |ps| ==> ps[j].key != k
    ensures var pos := GetPos(ps, k);
            Descending(ps[..pos] + [Pair(k, v)] + ps[pos..])
  {
    var pos := GetPos(ps, k);
    forall j | 0 <= j < |ps|
      ensures j < pos ==> KeyVal(k) < KeyVal(ps[j].key)
      ensures j >= pos ==> KeyVal(ps[j].key) < KeyVal(k)
    {
      LongcmpOrder(ps[j].key, k);
      if j > pos {
        LongcmpOrder(ps[pos].key, k);
      }
    }
    InsertAtDescending(ps, pos, Pair(k, v));
  }

  /** A pair whose key lies between the keys before and after `pos` goes in
      at `pos` without breaking the order. */
  lemma {:induction false} InsertAtDescending<V>(ps: seq<Pair<V>>, pos: nat, p: Pair<V>)
    requires Descending(ps) && pos <= |ps|
    requires forall j :: 0 <= j < pos ==> KeyVal(p.key) < KeyVal(ps[j].key)
    requires forall j :: pos <= j < |ps| ==> KeyVal(ps[j].key) < KeyVal(p.key)
    ensures Descending(ps[..pos] + [p] + ps[pos..])
  {
    var r := ps[..pos] + [p] + ps[pos..];
    forall a, b | 0 <= a < b < |r|
      ensures KeyVal(r[b].key) < KeyVal(r[a].key)
    {
      if b < pos {
        assert r[a] == ps[a] && r[b] == ps[b];
      } else if b == pos {
        assert r[a] == ps[a] && r[b] == p;
      } else if a < pos {
        assert r[a] == ps[a] && r[b] == ps[b - 1];
      } else if a == pos {
        assert r[a] == p && r[b] == ps[b - 1];
      } else {
        assert r[a] == ps[a - 1] && r[b] == ps[b - 1];
      }
    }
  }


  /** What the leaf step of `cbtree_remove_level` does as written: the slots
      afterwards, the value it returns, and how many words in front of the
      node block it overwrites with zero. */
  datatype LeafStep = LeafStep(slots: seq<Pair<nat>>, val: nat, before: nat)

  /** The leaf step of `cbtree_remove_level` as written: the exact-match test
      compares the slot `getpos` found even when that slot is unused. When the
      node is empty, `clearpair` of slot fill - 1 = -1 zeroes the `keylen` words
      in front of the block and the last word of the key region. Reading past
      the last slot (the key smaller than every key of a full node) is modelled
      as a mismatch. */
  function LeafRemoveAsWritten(s: seq<Pair<nat>>, k: Key, keylen: nat): (res: LeafStep)
    requires WfKey(k, keylen) && forall j :: 0 <= j < |s| ==> |s[j].key| == keylen
    ensures |res.slots| == |s|
  {
    var pos := GetPos(s, k);
    if pos == |s| then LeafStep(s, NULL, 0)
    else
      var fill := GetFill(s, pos);
      if Longcmp(s[pos].key, k) != 0 then LeafStep(s, NULL, 0)
      else if pos < fill then LeafStep(s[..pos] + s[pos + 1..fill] + [EmptySlot(keylen)] + s[fill..], s[pos].val, 0)
      else if fill == 0 then
        if keylen == 0 then LeafStep(s, s[pos].val, 1)
        else
          var last := s[|s| - 1];
          LeafStep(s[..|s| - 1] + [Pair(last.key[..keylen - 1] + [0], last.val)], s[pos].val, keylen)
      else LeafStep(s[..fill - 1] + [EmptySlot(keylen)] + s[fill..], s[pos].val, 0)
  }

  /** Removing the absent zero key from the one-entry leaf {5 -> 7} returns NULL
      and clears the entry for key 5. */
  lemma {:induction false} LeafRemoveZeroKeyLosesEntry()
    ensures var s := Layout([Pair([5], 7)], 4, 1);
            var res := LeafRemoveAsWritten(s, [0], 1);
            res == LeafStep(Layout([], 4, 1), NULL, 0) && s[0] == Pair([5], 7)
  {
    var s := Layout([Pair([5], 7)], 4, 1);
    assert Longcmp(s[0].key, [0]) == 1;
    assert s[1] == EmptySlot(1) && EmptySlot(1).key == [0];
    assert GetPos(s, [0]) == 1;
    assert GetFill(s, 1) == 1;
  }

  /** The leaf {5 -> 7}, once 5 is removed, is empty; removing the zero key
      from it then matches the cleared slot 0 and clears slot -1, the word in
      front of the node block. */
  lemma {:induction false} LeafRemoveEmptyOverrunAsWritten()
    ensures WellFilled(Layout([Pair([5], 7)], 4, 1), 1, 1)
    ensures var s := LeafRemove(Layout([Pair([5], 7)], 4, 1), 1, [5], 1).0;
            && s == Layout([], 4, 1)
            && LeafRemoveAsWritten(s, [0], 1) == LeafStep(s, NULL, 1)
  {
    LeafOfFiveEmptied();
    EmptyLeafOverrun();
  }

  lemma {:induction false} LeafOfFiveEmptied()
    ensures WellFilled(Layout([Pair([5], 7)], 4, 1), 1, 1)
    ensures LeafRemove(Layout([Pair([5], 7)], 4, 1), 1, [5], 1).0 == Layout([], 4, 1)
  {
    var s0 := Layout([Pair([5], 7)], 4, 1);
    assert s0[..1] == [Pair([5], 7)];
    assert GetPos(s0, [5]) == 0;
  }

  lemma {:induction false} EmptyLeafOverrun()
    ensures LeafRemoveAsWritten(Layout([], 4, 1), [0], 1) == LeafStep(Layout([], 4, 1), NULL, 1)
  {
    assert ZeroKey(1) == [0];
    EmptyNodeOverrun(Layout([], 4, 1), 1);
  }

  /** In a node with no used slot the zero key matches slot 0, and the
      clear of slot -1 writes `keylen` words in front of the block while the
      slots, all clear already, stay as they are. */
  lemma {:induction false} EmptyNodeOverrun(s: seq<Pair<nat>>, keylen: nat)
    requires keylen >= 1 && |s| >= 1 && forall i :: 0 <= i < |s| ==> s[i] == EmptySlot(keylen)
    ensures forall j :: 0 <= j < |s| ==> |s[j].key| == keylen
    ensures LeafRemoveAsWritten(s, ZeroKey(keylen), keylen) == LeafStep(s, NULL, keylen)
  {
    var z := ZeroKey(keylen);
    assert Longcmp(s[0].key, z) == 0;
    assert GetPos(s, z) == 0;
    assert GetFill(s, 0) == 0;
    var last := s[|s| - 1];
    assert last.key[..keylen - 1] + [0] == z;
    assert s[..|s| - 1] + [Pair(last.key[..keylen - 1] + [0], last.val)] == s;
  }

  /** The leaf step with the exact-match test confined to used slots. */
  function LeafRemove(s: seq<Pair<nat>>, fill: nat, k: Key, keylen: nat): (res: (seq<Pair<nat>>, nat))
    requires WellFilled(s, fill, keylen) && WfKey(k, keylen)
    ensures var ps := s[..fill];
            if exists j :: 0 <= j < fill && ps[j].key == k then
              exists j :: 0 <= j < fill && ps[j].key == k && res.1 == ps[j].val &&
                          res.0 == Layout(ps[..j] + ps[j + 1..], |s|, keylen)
            else res == (s, NULL)
  {
    var pos := GetPos(s, k);
    if pos < fill && Longcmp(s[pos].key, k) == 0 then
      LeafRemoveHit(s, fill, k, keylen, pos);
      (s[..pos] + s[pos + 1..fill] + [EmptySlot(keylen)] + s[fill..], s[pos].val)
    else
      LeafRemoveMiss(s, fill, k, keylen);
      (s, NULL)
  }

  /** The key sits at used slot `pos`: the later used slots move down one and
      the freed last slot is cleared. */
  lemma {:induction false} LeafRemoveHit(s: seq<Pair<nat>>, fill: nat, k: Key, keylen: nat, pos: nat)
    requires WellFilled(s, fill, keylen) && pos < fill && s[pos].key == k
    ensures var ps := s[..fill];
            && ps[pos].key == k && ps[pos].val == s[pos].val
            && s[..pos] + s[pos + 1..fill] + [EmptySlot(keylen)] + s[fill..] == Layout(ps[..pos] + ps[pos + 1..], |s|, keylen)
  {
    var ps := s[..fill];
    var x := ps[..pos] + ps[pos + 1..];
    assert s[..pos] + s[pos + 1..fill] == x;
    var r := x + [EmptySlot(keylen)] + s[fill..];
    var l := Layout(x, |s|, keylen);
    assert |r| == |l|;
    forall i | 0 <= i < |r| ensures r[i] == l[i] {
      if i < |x| {
        assert r[i] == x[i] && l[..|x|] == x;
      } else {
        assert r[i] == EmptySlot(keylen);
      }
    }
    assert s[..pos] + s[pos + 1..fill] + [EmptySlot(keylen)] + s[fill..] == r;
  }

  /** `getpos` stops at a used slot whose key differs, or past the used slots:
      no used slot holds the key. */
  lemma {:induction false} LeafRemoveMiss(s: seq<Pair<nat>>, fill: nat, k: Key, keylen: nat)
    requires WellFilled(s, fill, keylen) && WfKey(k, keylen)
    requires var pos := GetPos(s, k); !(pos < fill && Longcmp(s[pos].key, k) == 0)
    ensures forall j :: 0 <= j < fill ==> s[..fill][j].key != k
  {
    var pos := GetPos(s, k);
    PosOfWellFilled(s, fill, keylen, k);
    forall j | 0 <= j < fill
      ensures s[..fill][j].key != k
    {
      assert s[..fill][j] == s[j];
      if j > pos && pos < fill {
        LongcmpOrder(s[pos].key, k);
      }
    }
  }
}

=== FILE: option.dfy ===
/** An optional value: a pointer that may be NULL. */
module Options {
  datatype Option<T> = None | Some(value: T)
}

=== FILE: ordered.dfy ===
/** Walking the tree downward in key order: `cbtree_get_prev` and the
    `cbtree_for_each_safe` iteration built from `cbtree_last` and it. */
module Ordered {
  import opened Keys
  import opened Nodes
  import opened Geometry
  import opened Options
  import opened BTree
  import opened Search

  /** One descent of `cbtree_get_prev` for the key `x`: the entry found at
      the leaf, or a miss carrying the separator of the deepest slot passed
      (None when the miss happened at the root). */
  datatype Probe = Hit(val: Ptr, key: Key) | Miss(retry: Option<Key>)

  /** No entry of `f` has a key whose value lies in `lo..hi`. */
  ghost predicate NoneIn(f: seq<Pair<Ptr>>, lo: int, hi: int) {
    forall j :: 0 <= j < |f| ==> !(lo <= KeyVal(f[j].key) <= hi)
  }

  /** What a descent for `x` below `t` establishes: a hit is the entry with
      the largest key at most `x`; a miss with separator `s` leaves no entry
      in `s..x`; a miss without one leaves no entry at most `x`. */
  ghost predicate ProbeOk(t: Tree, x: Key, r: Probe) {
    var f := Flat(t);
    match r
    case Hit(v, k) => Found(f, k, v) && KeyVal(k) <= KeyVal(x) && NoneIn(f, KeyVal(k) + 1, KeyVal(x))
    case Miss(None) => NoneIn(f, 0, KeyVal(x))
    case Miss(Some(s)) => s in AllKeys(t) && KeyVal(s) <= KeyVal(x) && NoneIn(f, KeyVal(s), KeyVal(x))
  }

  /** The descent of `cbtree_get_prev`: at each internal level the first slot
      whose separator is at most `x` (none, or an unused one: a miss), at the
      leaf the first slot whose key is at most `x` (none, or an unused one: a miss). */
  function Descend(t: Tree, x: Key, ghost h: nat, ghost g: Geo): (r: Probe)
    requires Valid(t, h, g) && WfKey(x, g.keylen)
    decreases t
  {
    match t
    case Leaf(es) =>
      var i := GetPos(es, x);
      if i < |es| then Hit(es[i].val, es[i].key) else Miss(None)
    case Index(ks) =>
      assert KidsValid(ks, h, g);
      var i := GetPos(ks, x);
      if i == |ks| then Miss(None)
      else
        assert ks[i] in ks;
        match Descend(ks[i].val, x, h - 1, g)
        case Miss(None) => Miss(Some(ks[i].key))
        case r => r
  }

  /** Every descent answers truthfully about the entries below `t`. */
  lemma {:induction false} DescendSpec(t: Tree, x: Key, h: nat, g: Geo)
    requires Valid(t, h, g) && WfKey(x, g.keylen)
    ensures ProbeOk(t, x, Descend(t, x, h, g))
    decreases t
  {
    match t
    case Leaf(es) => ProbeLeaf(es, x);
    case Index(ks) =>
      assert KidsValid(ks, h, g);
      var i := GetPos(ks, x);
      if i == |ks| {
        ProbeNoSlot(ks, x, h, g);
      } else {
        assert ks[i] in ks;
        DescendSpec(ks[i].val, x, h - 1, g);
        ProbeLift(ks, i, x, h, g, Descend(ks[i].val, x, h - 1, g));
      }
  }

  /** At a leaf the first key at most `x` is the largest such key. */
  lemma {:induction false} ProbeLeaf(es: seq<Pair<Ptr>>, x: Key)
    requires Descending(es) && KeysWf(es, |x|) && Words(x)
    ensures var i := GetPos(es, x);
            ProbeOk(Leaf(es), x, if i < |es| then Hit(es[i].val, es[i].key) else Miss(None))
  {
    var i := GetPos(es, x);
    GetPosBounds(es, x);
    if i < |es| {
      assert es[i] == Pair(es[i].key, es[i].val);
    }
  }

  /** No separator is at most `x`: every entry lies above `x`. */
  lemma {:induction false} ProbeNoSlot(ks: seq<Pair<Tree>>, x: Key, h: nat, g: Geo)
    requires Valid(Index(ks), h, g) && KeysWf(ks, g.keylen) && WfKey(x, g.keylen)
    requires GetPos(ks, x) == |ks|
    ensures NoneIn(KidsFlat(ks), 0, KeyVal(x))
  {
    var t := Index(ks);
    ValidFlat(t, h, g);
    var f := Flat(t);
    if |ks| > 0 {
      LongcmpOrder(ks[|ks| - 1].key, x);
      LastKeyMin(t, h, g);
    }
    forall j | 0 <= j < |f| ensures KeyVal(x) < KeyVal(f[j].key) {
      assert f[j].key in AllKeys(t);
    }
  }

  /** The answer of the descent below slot `i` carries over to the node,
      a miss at the child becoming a miss with the slot's separator. */
  lemma {:induction false} ProbeLift(ks: seq<Pair<Tree>>, i: nat, x: Key, h: nat, g: Geo, r: Probe)
    requires KidsValid(ks, h, g) && TreeGeo(g) && |ks| <= g.noPairs && WfKey(x, g.keylen)
    requires i == GetPos(ks, x) < |ks| && ProbeOk(ks[i].val, x, r)
    ensures ProbeOk(Index(ks), x, if r == Miss(None) then Miss(Some(ks[i].key)) else r)
  {
    match r
    case Hit(v, k) => ProbeLiftHit(ks, i, x, h, g, v, k);
    case Miss(None) => ProbeLiftMiss(ks, i, x, h, g, ks[i].key, 0);
    case Miss(Some(s)) => ProbeLiftMiss(ks, i, x, h, g, s, KeyVal(s));
  }

  lemma {:induction false} ProbeLiftHit(ks: seq<Pair<Tree>>, i: nat, x: Key, h: nat, g: Geo, v: Ptr, k: Key)
    requires KidsValid(ks, h, g) && TreeGeo(g) && WfKey(x, g.keylen)
    requires i == GetPos(ks, x) < |ks| && ProbeOk(ks[i].val, x, Hit(v, k))
    ensures ProbeOk(Index(ks), x, Hit(v, k))
  {
    var c := ks[i].val;
    var f := Flat(c);
    SlotFences(ks, i, x, h, g);
    assert ks[i] in ks;
    ValidFlat(c, h - 1, g);
    var j :| 0 <= j < |f| && f[j] == Pair(k, v);
    assert f[j].key in AllKeys(c);
    var a, b := KidsFlat(ks[..i]), KidsFlat(ks[i + 1..]);
    ProbeParts(a, f, b, KeyVal(ks[i].key), KeyVal(k) + 1, KeyVal(x), if i > 0 then KeyVal(ks[i - 1].key) else KeyVal(x) + 1);
    FoundInMiddle(a, f, b, j);
  }

  /** A miss below slot `i` that leaves nothing in `s..x`, `s` a key of the
      slot at or above its separator, is such a miss for the whole node. */
  lemma {:induction false} ProbeLiftMiss(ks: seq<Pair<Tree>>, i: nat, x: Key, h: nat, g: Geo, s: Key, lo: int)
    requires KidsValid(ks, h, g) && TreeGeo(g) && WfKey(x, g.keylen)
    requires i == GetPos(ks, x) < |ks|
    requires s == ks[i].key || (s in AllKeys(ks[i].val) && KeyVal(s) <= KeyVal(x))
    requires lo <= KeyVal(s) && NoneIn(Flat(ks[i].val), lo, KeyVal(x))
    ensures ProbeOk(Index(ks), x, Miss(Some(s)))
  {
    var c := ks[i].val;
    SlotFences(ks, i, x, h, g);
    KidsKeysMember(ks, s);
    var a, f, b := KidsFlat(ks[..i]), Flat(c), KidsFlat(ks[i + 1..]);
    assert NoneIn(f, KeyVal(s), KeyVal(x));
    ProbeParts(a, f, b, KeyVal(ks[i].key), KeyVal(s), KeyVal(x), if i > 0 then KeyVal(ks[i - 1].key) else KeyVal(x) + 1);
  }

  /** The slot `getpos` picks for `x`: its separator is at most `x`, the
      entries of earlier slots lie above `x`, those of later slots below the
      separator, and every key of the slot is at or above the separator. */
  lemma {:induction false} SlotFences(ks: seq<Pair<Tree>>, i: nat, x: Key, h: nat, g: Geo)
    requires KidsValid(ks, h, g) && TreeGeo(g) && WfKey(x, g.keylen)
    requires i == GetPos(ks, x) < |ks|
    ensures KeyVal(ks[i].key) <= KeyVal(x) && Above(AllKeys(ks[i].val), KeyVal(ks[i].key))
    ensures Flat(Index(ks)) == KidsFlat(ks[..i]) + Flat(ks[i].val) + KidsFlat(ks[i + 1..])
    ensures var a := KidsFlat(ks[..i]);
            var top := if i > 0 then KeyVal(ks[i - 1].key) else KeyVal(x) + 1;
            KeyVal(x) < top && forall j :: 0 <= j < |a| ==> top <= KeyVal(a[j].key)
    ensures var b := KidsFlat(ks[i + 1..]);
            forall j :: 0 <= j < |b| ==> KeyVal(b[j].key) < KeyVal(ks[i].key)
  {
    LongcmpOrder(ks[i].key, x);
    if i > 0 {
      LongcmpOrder(ks[i - 1].key, x);
    } else {
      assert ks[..i] == [];
    }
    KidsFlatParts(ks, i, h, g);
  }

  /** Gluing three runs: the front lies at or above `top`, beyond `hi`; the
      back lies below `sep`, below `lo`; the middle has nothing in `lo..hi`. */
  lemma {:induction false} ProbeParts(a: seq<Pair<Ptr>>, f: seq<Pair<Ptr>>, b: seq<Pair<Ptr>>, sep: int, lo: int, hi: int, top: int)
    requires sep <= lo && hi < top
    requires forall j :: 0 <= j < |a| ==> top <= KeyVal(a[j].key)
    requires forall j :: 0 <= j < |b| ==> KeyVal(b[j].key) < sep
    requires NoneIn(f, lo, hi)
    ensures NoneIn(a + f + b, lo, hi)
  {
    var all := a + f + b;
    forall j | 0 <= j < |all| ensures !(lo <= KeyVal(all[j].key) <= hi) {
      if j < |a| {
        assert all[j] == a[j];
      } else if j < |a| + |f| {
        assert all[j] == f[j - |a|];
      } else {
        assert all[j] == b[j - |a| - |f|];
      }
    }
  }

  lemma {:induction false} NoneInJoin(f: seq<Pair<Ptr>>, a: int, b: int, c: int)
    requires NoneIn(f, a, b - 1) && NoneIn(f, b, c)
    ensures NoneIn(f, a, c)
  {}

  /** The retry loop of `cbtree_get_prev` from the key `x`, which is
      decremented before each descent: the entry with the largest key below
      `x`, None when there is none. A miss retries from the deepest separator
      passed, and a zero separator ends the search, nothing lying below it. */
  function PrevFrom(t: Tree, x: Key, ghost h: nat, ghost g: Geo): (r: Option<Pair<Ptr>>)
    requires Valid(t, h, g) && WfKey(x, g.keylen) && !KeyZero(x)
    ensures r.None? ==> NoneIn(Flat(t), 0, KeyVal(x) - 1)
    ensures r.Some? ==> && Found(Flat(t), r.value.key, r.value.val)
                        && KeyVal(r.value.key) < KeyVal(x)
                        && NoneIn(Flat(t), KeyVal(r.value.key) + 1, KeyVal(x) - 1)
    decreases KeyVal(x)
  {
    DecKeyValue(x);
    var y := DecKey(x);
    DescendSpec(t, y, h, g);
    match Descend(t, y, h, g)
    case Hit(v, k) => Some(Pair(k, v))
    case Miss(None) => None
    case Miss(Some(s)) =>
      AllKeysWf(t, h, g);
      KeyZeroVal(s);
      if KeyZero(s) then None
      else
        var r := PrevFrom(t, s, h, g);
        if r.None? then
          NoneInJoin(Flat(t), 0, KeyVal(s), KeyVal(y));
          r
        else
          NoneInJoin(Flat(t), KeyVal(r.value.key) + 1, KeyVal(s), KeyVal(y));
          r
  }

  /** `cbtree_get_prev`: the entry with the largest key strictly below `key`
      and that key, or NULL with `key` unchanged when no smaller key is stored. */
  function GetPrev(hd: Head, key: Key, ghost g: Geo): (r: (Ptr, Key))
    requires ValidHead(hd, g) && WfKey(key, g.keylen)
    ensures r.0 == NULL ==> r.1 == key && forall x :: x in Contents(hd) ==> KeyVal(key) <= KeyVal(x)
    ensures r.0 != NULL ==> && r.1 in Contents(hd) && Contents(hd)[r.1] == r.0
                            && KeyVal(r.1) < KeyVal(key)
                            && forall x :: x in Contents(hd) && KeyVal(x) < KeyVal(key) ==> KeyVal(x) <= KeyVal(r.1)
  {
    KeyZeroVal(key);
    if KeyZero(key) then (NULL, key)
    else
      match hd.root
      case None => (NULL, key)
      case Some(t) =>
        var r := PrevFrom(t, key, hd.height, g);
        PrevContents(t, hd.height, g, key, r);
        if r.None? then (NULL, key) else (r.value.val, r.value.key)
  }

  /** The answer of the retry loop read on the map of the entries. */
  lemma {:induction false} PrevContents(t: Tree, h: nat, g: Geo, key: Key, r: Option<Pair<Ptr>>)
    requires Valid(t, h, g)
    requires r.None? ==> NoneIn(Flat(t), 0, KeyVal(key) - 1)
    requires r.Some? ==> && Found(Flat(t), r.value.key, r.value.val)
                         && KeyVal(r.value.key) < KeyVal(key)
                         && NoneIn(Flat(t), KeyVal(r.value.key) + 1, KeyVal(key) - 1)
    ensures var m := ToMap(Flat(t));
            && (r.None? ==> forall x :: x in m ==> KeyVal(key) <= KeyVal(x))
            && (r.Some? ==> && r.value.val != NULL && r.value.key in m && m[r.value.key] == r.value.val
                            && forall x :: x in m && KeyVal(x) < KeyVal(key) ==> KeyVal(x) <= KeyVal(r.value.key))
  {
    var f := Flat(t);
    ValidFlat(t, h, g);
    ToMapMembers(f);
    forall x | x in ToMap(f) ensures KeyVal(x) < KeyVal(key) ==> r.Some? && KeyVal(x) <= KeyVal(r.value.key) {
      var i :| 0 <= i < |f| && f[i].key == x;
    }
    if r.Some? {
      var j :| 0 <= j < |f| && f[j] == Pair(r.value.key, r.value.val);
      assert f[j].key in ToMap(f);
    }
  }

  /** The descent for the all-ones key follows slot 0 at every level and
      hits slot 0 of the first leaf, unless the node is empty. */
  lemma {:induction false} DescendMax(t: Tree, h: nat, g: Geo)
    requires Valid(t, h, g)
    ensures var r := Descend(t, MaxKey(g.keylen), h, g);
            if Size(t) == 0 then r == Miss(None) else r.Hit?
    decreases t
  {
    var m := MaxKey(g.keylen);
    match t
    case Leaf(es) =>
      if |es| > 0 {
        KeyValMax(es[0].key);
        LongcmpOrder(es[0].key, m);
      }
    case Index(ks) =>
      assert KidsValid(ks, h, g);
      if |ks| > 0 {
        KeyValMax(ks[0].key);
        LongcmpOrder(ks[0].key, m);
        assert ks[0] in ks;
        DescendMax(ks[0].val, h - 1, g);
      }
  }

  /** The retry loop as the engine runs it: a zero separator is decremented
      like any other key and wraps to the all-ones key, so the search
      restarts from the top of the key space. */
  function PrevFromAsWritten(t: Tree, x: Key, ghost h: nat, ghost g: Geo): (r: Option<Pair<Ptr>>)
    requires Valid(t, h, g) && WfKey(x, g.keylen)
    ensures r.Some? ==> Found(Flat(t), r.value.key, r.value.val)
    decreases if KeyZero(x) then 0 else KeyVal(x) + 1
  {
    DecKeyValue(x);
    KeyZeroVal(x);
    var y := DecKey(x);
    DescendSpec(t, y, h, g);
    DescendMax(t, h, g);
    match Descend(t, y, h, g)
    case Hit(v, k) => Some(Pair(k, v))
    case Miss(None) => None
    case Miss(Some(s)) =>
      AllKeysWf(t, h, g);
      PrevFromAsWritten(t, s, h, g)
  }

  /** `cbtree_get_prev` as the engine runs it. */
  function GetPrevAsWritten(hd: Head, key: Key, ghost g: Geo): (r: (Ptr, Key))
    requires ValidHead(hd, g) && WfKey(key, g.keylen)
    ensures r.0 == NULL ==> r.1 == key
    ensures r.0 != NULL ==> r.1 in Contents(hd) && Contents(hd)[r.1] == r.0
  {
    if KeyZero(key) then (NULL, key)
    else
      match hd.root
      case None => (NULL, key)
      case Some(t) =>
        var r := PrevFromAsWritten(t, key, hd.height, g);
        ValidFlat(t, hd.height, g);
        ToMapMembers(Flat(t));
        if r.None? then (NULL, key)
        else
          var f := Flat(t);
          var j :| 0 <= j < |f| && f[j] == Pair(r.value.key, r.value.val);
          assert f[j].key in ToMap(f);
          (r.value.val, r.value.key)
  }

  /** `cbtree_for_each_safe` as meant: `cbtree_last`, then `cbtree_get_prev`
      from the key just visited until it returns NULL. Every stored entry is
      visited exactly once, largest key first, in the order of the leaves.
      With the engine's `cbtree_get_prev` the loop can cycle instead
      (`ForEachCyclesAsWritten`). */
  method ForEachSafe(hd: Head, key0: Key, ghost g: Geo) returns (visited: seq<Pair<Ptr>>)
    requires ValidHead(hd, g) && WfKey(key0, g.keylen)
    ensures Descending(visited) && NonNull(visited) && ToMap(visited) == Contents(hd)
    ensures visited == if hd.root.None? then [] else Flat(hd.root.value)
  {
    ghost var f := Entries(hd, g);
    var val, key := First(hd, key0, g);
    visited := [];
    while val != NULL
      invariant WfKey(key, g.keylen)
      invariant |visited| <= |f| && visited == f[..|visited|]
      invariant val != NULL ==> |visited| < |f| && f[|visited|] == Pair(key, val)
      invariant val == NULL ==> |visited| == |f|
      decreases |f| - |visited|
    {
      ghost var n := |visited|;
      assert f[..n + 1] == f[..n] + [f[n]];
      visited := visited + [Pair(key, val)];
      val, key := Next(hd, key, g, f, n);
    }
    assert visited == f;
  }

  /** The leaf entries of the tree, largest key first. */
  ghost function Entries(hd: Head, g: Geo): (f: seq<Pair<Ptr>>)
    requires ValidHead(hd, g)
    ensures Descending(f) && NonNull(f) && KeysWf(f, g.keylen) && ToMap(f) == Contents(hd)
  {
    if hd.root.None? then []
    else
      ValidFlat(hd.root.value, hd.height, g);
      Flat(hd.root.value)
  }

  /** The first step of the iteration: `cbtree_last` yields entry 0. */
  method First(hd: Head, key0: Key, ghost g: Geo) returns (val: Ptr, key: Key)
    requires ValidHead(hd, g) && WfKey(key0, g.keylen)
    ensures WfKey(key, g.keylen)
    ensures var f := Entries(hd, g);
            && (val != NULL ==> |f| > 0 && f[0] == Pair(key, val))
            && (val == NULL ==> |f| == 0)
  {
    var r := Last(hd, key0, g);
    FirstEntry(Entries(hd, g), r);
    val, key := r.0, r.1;
  }

  /** A later step: `cbtree_get_prev` from the key of entry `n` yields entry `n + 1`. */
  method Next(hd: Head, key0: Key, ghost g: Geo, ghost f: seq<Pair<Ptr>>, ghost n: nat) returns (val: Ptr, key: Key)
    requires ValidHead(hd, g) && f == Entries(hd, g) && n < |f| && f[n].key == key0
    ensures WfKey(key, g.keylen)
    ensures n + 1 < |f| ==> val != NULL && f[n + 1] == Pair(key, val)
    ensures n + 1 == |f| ==> val == NULL
  {
    var r := GetPrev(hd, key0, g);
    NextEntry(f, n, r);
    val, key := r.0, r.1;
  }

  /** The position of a stored key in a descending run. */
  lemma {:induction false} KeyIndex(f: seq<Pair<Ptr>>, x: Key) returns (j: nat)
    requires Descending(f) && x in ToMap(f)
    ensures j < |f| && f[j].key == x && ToMap(f)[x] == f[j].val
  {
    ToMapMembers(f);
    j :| 0 <= j < |f| && f[j].key == x;
  }

  /** What `cbtree_last` answers on the map of a descending run is its first entry. */
  lemma {:induction false} FirstEntry(f: seq<Pair<Ptr>>, r: (Ptr, Key))
    requires Descending(f) && NonNull(f)
    requires var m := ToMap(f);
             && (r.0 == NULL <==> m == map[])
             && (r.0 != NULL ==> r.1 in m && m[r.1] == r.0 && forall x :: x in m ==> KeyVal(x) <= KeyVal(r.1))
    ensures r.0 != NULL ==> |f| > 0 && f[0] == Pair(r.1, r.0)
    ensures r.0 == NULL ==> |f| == 0
  {
    ToMapMembers(f);
    if r.0 != NULL {
      var j := KeyIndex(f, r.1);
    }
  }

  /** What `cbtree_get_prev` answers from the key of entry `n` of a
      descending run, read on the run's map, is entry `n + 1`, or NULL past the end. */
  lemma {:induction false} NextEntry(f: seq<Pair<Ptr>>, n: nat, r: (Ptr, Key))
    requires Descending(f) && NonNull(f) && n < |f|
    requires var m := ToMap(f);
             var key := f[n].key;
             && (r.0 == NULL ==> r.1 == key && forall x :: x in m ==> KeyVal(key) <= KeyVal(x))
             && (r.0 != NULL ==> && r.1 in m && m[r.1] == r.0 && KeyVal(r.1) < KeyVal(key)
                                 && forall x :: x in m && KeyVal(x) < KeyVal(key) ==> KeyVal(x) <= KeyVal(r.1))
    ensures n + 1 < |f| ==> r.0 != NULL && f[n + 1] == Pair(r.1, r.0)
    ensures n + 1 == |f| ==> r.0 == NULL
  {
    ToMapMembers(f);
    if n + 1 < |f| {
      assert f[n + 1].key in ToMap(f);
    }
    if r.0 != NULL {
      var j := KeyIndex(f, r.1);
    }
  }

  /** A two-leaf tree whose last separator is the zero key. It is reached
      from the leaves {13, 12, 11, 10} and {5}: inserting the zero key lowers
      the last separator to it, and removing it again leaves {5} underfull
      but not merged, since 1 + 4 pairs exceed `no_pairs`; removing 13 and
      then 10 leaves the left leaf with two pairs, which is not underfull,
      so no rebalance runs. */
  function WrapTree(): Tree {
    Index([Pair([10], Leaf([Pair([12], 1), Pair([11], 2)])),
           Pair([0], Leaf([Pair([5], 3)]))])
  }

  lemma {:induction false} WrapTreeValid()
    ensures ValidHead(Head(Some(WrapTree()), 2), TinyGeo)
  {
    var ks := WrapTree().kids;
    WrapLeaves();
    SmallKey(10); SmallKey(0);
    TwoKidsValid(ks[0].key, ks[0].val, ks[1].key, ks[1].val, 2, TinyGeo);
  }

  lemma {:induction false} WrapLeaves()
    ensures var ks := WrapTree().kids;
            && Valid(ks[0].val, 1, TinyGeo) && AllKeys(ks[0].val) == {[12], [11]}
            && Valid(ks[1].val, 1, TinyGeo) && AllKeys(ks[1].val) == {[5]}
  {
    var es1 := [Pair([12], 1), Pair([11], 2)];
    var es2 := [Pair([5], 3)];
    SmallKey(12); SmallKey(11); SmallKey(5);
    assert AllKeys(Leaf(es1)) == {[12], [11]} by {
      assert [12] == es1[0].key && [11] == es1[1].key;
    }
    assert AllKeys(Leaf(es2)) == {[5]} by {
      assert [5] == es2[0].key;
    }
    assert Descending(es1);
  }

  /** The two descents of the search for the entry below 3: the key 2 misses
      with the zero separator, the all-ones key hits the entry with key 12. */
  lemma {:induction false} WrapDescents()
    requires Valid(WrapTree(), 2, TinyGeo)
    ensures Descend(WrapTree(), [2], 2, TinyGeo) == Miss(Some([0]))
    ensures Descend(WrapTree(), [WORD - 1], 2, TinyGeo) == Hit(1, [12])
  {
    var g := TinyGeo;
    var ks := WrapTree().kids;
    assert GetPos(ks, [2]) == 1 by {
      assert Longcmp([10], [2]) == 1 && Longcmp([0], [2]) == -1;
    }
    assert GetPos(ks[1].val.entries, [2]) == 1 by {
      assert Longcmp([5], [2]) == 1;
    }
    assert GetPos(ks, [WORD - 1]) == 0 by {
      assert Longcmp([10], [WORD - 1]) == -1;
    }
    assert GetPos(ks[0].val.entries, [WORD - 1]) == 0 by {
      assert Longcmp([12], [WORD - 1]) == -1;
    }
  }

  /** No key below 3 is stored in the tree above, yet the engine's retry
      from the zero separator wraps to the all-ones key and returns the entry
      with key 12. */
  lemma {:induction false} GetPrevWrapAsWritten()
    ensures var hd := Head(Some(WrapTree()), 2);
            && ValidHead(hd, TinyGeo)
            && GetPrevAsWritten(hd, [3], TinyGeo) == (1, [12])
            && GetPrev(hd, [3], TinyGeo) == (NULL, [3])
  {
    WrapTreeValid();
    WrapRetries();
    assert !KeyZero([3]);
  }

  /** The retries of both searches on the tree above, starting below 3. */
  lemma {:induction false} WrapRetries()
    requires Valid(WrapTree(), 2, TinyGeo)
    ensures PrevFromAsWritten(WrapTree(), [3], 2, TinyGeo) == Some(Pair([12], 1))
    ensures PrevFrom(WrapTree(), [3], 2, TinyGeo) == None
  {
    WrapDescents();
    WrapFromZero();
    assert DecKey([3]) == [2];
  }

  /** Retrying from the zero separator wraps to the all-ones key. */
  lemma {:induction false} WrapFromZero()
    requires Valid(WrapTree(), 2, TinyGeo)
    ensures PrevFromAsWritten(WrapTree(), [0], 2, TinyGeo) == Some(Pair([12], 1))
  {
    WrapDescents();
    assert DecKey([0]) == [WORD - 1];
  }

  /** On the same tree the iteration of `cbtree_for_each_safe`, run with the
      engine's `cbtree_get_prev`, never ends: from 12 it steps to 11, then
      to 5, and from 5 the wrap of the zero separator brings it back to 12. */
  lemma {:induction false} ForEachCyclesAsWritten()
    ensures var hd := Head(Some(WrapTree()), 2);
            && ValidHead(hd, TinyGeo)
            && GetPrevAsWritten(hd, [12], TinyGeo) == (2, [11])
            && GetPrevAsWritten(hd, [11], TinyGeo) == (3, [5])
            && GetPrevAsWritten(hd, [5], TinyGeo) == (1, [12])
  {
    WrapTreeValid();
    WrapSteps();
    assert !KeyZero([12]) && !KeyZero([11]) && !KeyZero([5]);
  }

  /** The retries of the engine's search below 12, 11 and 5. */
  lemma {:induction false} WrapSteps()
    requires Valid(WrapTree(), 2, TinyGeo)
    ensures PrevFromAsWritten(WrapTree(), [12], 2, TinyGeo) == Some(Pair([11], 2))
    ensures PrevFromAsWritten(WrapTree(), [11], 2, TinyGeo) == Some(Pair([5], 3))
    ensures PrevFromAsWritten(WrapTree(), [5], 2, TinyGeo) == Some(Pair([12], 1))
  {
    StepFrom12();
    StepFrom11();
    StepFrom5();
  }

  lemma {:induction false} StepFrom12()
    requires Valid(WrapTree(), 2, TinyGeo)
    ensures PrevFromAsWritten(WrapTree(), [12], 2, TinyGeo) == Some(Pair([11], 2))
  {
    DescendAt11();
    assert DecKey([12]) == [11];
  }

  lemma {:induction false} StepFrom11()
    requires Valid(WrapTree(), 2, TinyGeo)
    ensures PrevFromAsWritten(WrapTree(), [11], 2, TinyGeo) == Some(Pair([5], 3))
  {
    DescendAt10();
    StepFrom10();
    assert DecKey([11]) == [10];
  }

  lemma {:induction false} StepFrom10()
    requires Valid(WrapTree(), 2, TinyGeo)
    ensures PrevFromAsWritten(WrapTree(), [10], 2, TinyGeo) == Some(Pair([5], 3))
  {
    DescendAt9();
    assert DecKey([10]) == [9];
  }

  lemma {:induction false} StepFrom5()
    requires Valid(WrapTree(), 2, TinyGeo)
    ensures PrevFromAsWritten(WrapTree(), [5], 2, TinyGeo) == Some(Pair([12], 1))
  {
    DescendAt4();
    WrapFromZero();
    assert DecKey([5]) == [4];
  }

  /** The descents those retries make: slot 0 of the root holds the leaf
      {12, 11}, slot 1 the leaf {5}. */
  lemma {:induction false} DescendAt11()
    requires Valid(WrapTree(), 2, TinyGeo)
    ensures Descend(WrapTree(), [11], 2, TinyGeo) == Hit(2, [11])
  {
    var ks := WrapTree().kids;
    assert GetPos(ks, [11]) == 0 by {
      assert Longcmp([10], [11]) == -1;
    }
    assert GetPos(ks[0].val.entries, [11]) == 1 by {
      assert Longcmp([12], [11]) == 1 && Longcmp([11], [11]) == 0;
    }
  }

  lemma {:induction false} DescendAt10()
    requires Valid(WrapTree(), 2, TinyGeo)
    ensures Descend(WrapTree(), [10], 2, TinyGeo) == Miss(Some([10]))
  {
    var ks := WrapTree().kids;
    assert GetPos(ks, [10]) == 0 by {
      assert Longcmp([10], [10]) == 0;
    }
    assert GetPos(ks[0].val.entries, [10]) == 2 by {
      assert Longcmp([12], [10]) == 1 && Longcmp([11], [10]) == 1;
    }
  }

  lemma {:induction false} DescendAt9()
    requires Valid(WrapTree(), 2, TinyGeo)
    ensures Descend(WrapTree(), [9], 2, TinyGeo) == Hit(3, [5])
  {
    var ks := WrapTree().kids;
    assert GetPos(ks, [9]) == 1 by {
      assert Longcmp([10], [9]) == 1 && Longcmp([0], [9]) == -1;
    }
    assert GetPos(ks[1].val.entries, [9]) == 0 by {
      assert Longcmp([5], [9]) == -1;
    }
  }

  lemma {:induction false} DescendAt4()
    requires Valid(WrapTree(), 2, TinyGeo)
    ensures Descend(WrapTree(), [4], 2, TinyGeo) == Miss(Some([0]))
  {
    var ks := WrapTree().kids;
    assert GetPos(ks, [4]) == 1 by {
      assert Longcmp([10], [4]) == 1 && Longcmp([0], [4]) == -1;
    }
    assert GetPos(ks[1].val.entries, [4]) == 1 by {
      assert Longcmp([5], [4]) == 1;
    }
  }
}

=== FILE: remove.dfy ===
/** `cbtree_remove`: remove-and-shift at the leaf, `rebalance` and `merge`
    one level up, and `cbtree_shrink` at the root. As for insertion, the
    engine's upward recursion (`rebalance` and `merge` calling
    `cbtree_remove_level` at level + 1) is written as a downward recursion
    that hands the changed child back to its parent, which then decides
    whether to rebalance it. */
module Removal {
  import opened Keys
  import opened Nodes
  import opened Geometry
  import opened Options
  import opened BTree
  import opened Search
  import opened Insertion

  /** The entries of `f` other than those with key `k`, in order. */
  function Without(f: seq<Pair<Ptr>>, k: Key): (r: seq<Pair<Ptr>>)
    ensures |r| <= |f| && Absent(r, k)
  {
    if |f| == 0 then []
    else
      var rest := Without(f[1..], k);
      if f[0].key == k then rest
      else
        assert forall j :: 1 <= j <= |rest| ==> ([f[0]] + rest)[j] == rest[j - 1];
        [f[0]] + rest
  }

  /** The value the map of `f` holds under `k`, or NULL. */
  function Stored(f: seq<Pair<Ptr>>, k: Key): Ptr {
    var m := ToMap(f);
    if k in m then m[k] else NULL
  }

  lemma {:induction false} WithoutAbsent(f: seq<Pair<Ptr>>, k: Key)
    requires Absent(f, k)
    ensures Without(f, k) == f
  {
    if |f| > 0 {
      assert Absent(f[1..], k) by {
        assert forall j :: 0 <= j < |f| - 1 ==> f[1..][j] == f[j + 1];
      }
      WithoutAbsent(f[1..], k);
      assert f == [f[0]] + f[1..];
    }
  }

  lemma {:induction false} WithoutAppend(a: seq<Pair<Ptr>>, b: seq<Pair<Ptr>>, k: Key)
    ensures Without(a + b, k) == Without(a, k) + Without(b, k)
  {
    if |a| == 0 {
      assert a + b == b;
    } else {
      assert (a + b)[0] == a[0] && (a + b)[1..] == a[1..] + b;
      WithoutAppend(a[1..], b, k);
    }
  }

  /** Dropping the entries with key `k` drops `k` from the map and nothing else. */
  lemma {:induction false} WithoutMap(f: seq<Pair<Ptr>>, k: Key)
    ensures ToMap(Without(f, k)) == ToMap(f) - {k}
  {
    if |f| > 0 {
      WithoutMap(f[1..], k);
      var rest := Without(f[1..], k);
      if f[0].key != k {
        var r := [f[0]] + rest;
        assert r[0] == f[0] && r[1..] == rest;
        assert ToMap(r) == ToMap(rest)[f[0].key := f[0].val];
        assert ToMap(r) == (ToMap(f[1..])[f[0].key := f[0].val]) - {k};
      }
    }
  }

  /** Between two runs without `k`, only the middle run loses entries. */
  lemma {:induction false} WithoutMiddle(a: seq<Pair<Ptr>>, f: seq<Pair<Ptr>>, b: seq<Pair<Ptr>>, k: Key)
    requires Absent(a, k) && Absent(b, k)
    ensures Without(a + f + b, k) == a + Without(f, k) + b
    ensures Stored(a + f + b, k) == Stored(f, k)
  {
    WithoutAppend(a + f, b, k);
    WithoutAppend(a, f, k);
    WithoutAbsent(a, k);
    WithoutAbsent(b, k);
    ToMapConcat(a + f, b);
    ToMapConcat(a, f);
    ToMapKeys(a, k);
    ToMapKeys(b, k);
  }

  /** In a descending run the entry with key `k` is the only one. */
  lemma {:induction false} WithoutHit(es: seq<Pair<Ptr>>, pos: nat, k: Key)
    requires Descending(es) && pos < |es| && es[pos].key == k
    ensures Without(es, k) == es[..pos] + es[pos + 1..]
    ensures Stored(es, k) == es[pos].val
  {
    var a, b := es[..pos], es[pos + 1..];
    assert es == a + [es[pos]] + b;
    forall j | 0 <= j < |a| ensures a[j].key != k {
      assert a[j] == es[j];
    }
    forall j | 0 <= j < |b| ensures b[j].key != k {
      assert b[j] == es[pos + 1 + j];
    }
    WithoutMiddle(a, [es[pos]], b, k);
    assert [es[pos]][1..] == [];
    ToMapMembers(es);
  }

  /** When the slot `getpos` finds does not hold `k`, no slot of a
      descending run does. */
  lemma {:induction false} LeafMiss(es: seq<Pair<Ptr>>, k: Key, keylen: nat)
    requires Descending(es) && KeysWf(es, keylen) && WfKey(k, keylen)
    requires var pos := GetPos(es, k); !(pos < |es| && Longcmp(es[pos].key, k) == 0)
    ensures Absent(es, k) && Without(es, k) == es && Stored(es, k) == NULL
  {
    var pos := GetPos(es, k);
    GetPosBounds(es, k);
    if pos < |es| {
      LongcmpOrder(es[pos].key, k);
    }
    WithoutAbsent(es, k);
    ToMapKeys(es, k);
  }

  /** Every leaf below `t` lies `h - 1` levels down: the shape part of `Valid`. */
  ghost predicate Shaped(t: Tree, h: nat)
    decreases t
  {
    match t
    case Leaf(_) => h == 1
    case Index(ks) =>
      h >= 2 && forall i :: 0 <= i < |ks| ==> (assert ks[i] in ks; Shaped(ks[i].val, h - 1))
  }

  lemma {:induction false} ValidShaped(t: Tree, h: nat, g: Geo)
    requires Valid(t, h, g)
    ensures Shaped(t, h)
    decreases t
  {
    match t
    case Leaf(_) =>
    case Index(ks) =>
      assert KidsValid(ks, h, g);
      forall i | 0 <= i < |ks| ensures Shaped(ks[i].val, h - 1) {
        assert ks[i] in ks;
        ValidShaped(ks[i].val, h - 1, g);
      }
  }

  /** The node `merge` leaves behind: the pairs of `left` followed by those of
      `right`, which joins the same level. */
  function Merge(left: Tree, right: Tree): (m: Tree)
    requires left.Leaf? == right.Leaf?
    ensures Size(m) == Size(left) + Size(right)
    ensures Flat(m) == Flat(left) + Flat(right)
  {
    match left
    case Leaf(x) => Leaf(x + right.entries)
    case Index(x) =>
      KidsFlatAppend(x, right.kids);
      Index(x + right.kids)
  }

  /** `merge` of the children in slots `j` and `j + 1` of a parent: one child
      holding both, under the separator of slot `j + 1`, in place of the two. */
  function Fuse(ks: seq<Pair<Tree>>, j: nat): (r: seq<Pair<Tree>>)
    requires j + 1 < |ks| && ks[j].val.Leaf? == ks[j + 1].val.Leaf?
    ensures |r| == |ks| - 1
    ensures KidsFlat(r) == KidsFlat(ks)
  {
    var r := ks[..j] + [Pair(ks[j + 1].key, Merge(ks[j].val, ks[j + 1].val))] + ks[j + 2..];
    FuseFlat(ks, j, r[j].val);
    r
  }

  lemma {:induction false} FuseFlat(ks: seq<Pair<Tree>>, j: nat, m: Tree)
    requires j + 1 < |ks| && Flat(m) == Flat(ks[j].val) + Flat(ks[j + 1].val)
    ensures KidsFlat(ks[..j] + [Pair(ks[j + 1].key, m)] + ks[j + 2..]) == KidsFlat(ks)
  {
    var r := ks[..j] + [Pair(ks[j + 1].key, m)] + ks[j + 2..];
    KidsFlatAt(r, j);
    assert r[..j] == ks[..j] && r[j + 1..] == ks[j + 2..];
    KidsFlatAt(ks, j);
    KidsFlatAt(ks[j + 1..], 0);
    assert ks[j + 1..][..0] == [] && ks[j + 1..][1..] == ks[j + 2..];
  }

  /** `rebalance` of the parent `ks` whose child in slot `i` has become
      underfull: an empty child loses its slot; otherwise the child merges
      into its left neighbour when the two fit in one node, or else takes in
      its right neighbour under the same test; otherwise nothing changes.
      No entry is ever moved between neighbours. The flag tells whether the
      parent lost a slot. */
  function Rebalance(ks: seq<Pair<Tree>>, i: nat, g: Geo, ghost h: nat): (r: (seq<Pair<Tree>>, bool))
    requires i < |ks| && forall j :: 0 <= j < |ks| ==> Shaped(ks[j].val, h)
    ensures |r.0| == if r.1 then |ks| - 1 else |ks|
    ensures !r.1 ==> r.0 == ks
    ensures Size(ks[i].val) == 0 ==> r.1
    ensures KidsFlat(r.0) == KidsFlat(ks)
  {
    var c := ks[i].val;
    if Size(c) == 0 then
      DropEmpty(ks, i);
      (ks[..i] + ks[i + 1..], true)
    else if i > 0 && Size(c) + Size(ks[i - 1].val) <= g.noPairs then
      ShapedSame(ks[i - 1].val, c, h);
      (Fuse(ks, i - 1), true)
    else if i + 1 < |ks| && Size(c) + Size(ks[i + 1].val) <= g.noPairs then
      ShapedSame(c, ks[i + 1].val, h);
      (Fuse(ks, i), true)
    else (ks, false)
  }

  /** What removing below a node hands back to its parent: the node as it now
      is, whether it lost a slot, and the value removed (NULL for none). */
  datatype Rem = Rem(t: Tree, cut: bool, val: Ptr)

  /** `cbtree_remove_level` from the leaf up, below a node on the path of `k`:
      the leaf slot holding exactly `k` is removed and the later slots shift
      down; a node that lost a slot and is left with fewer than
      `no_pairs / 2` is rebalanced in its parent. */
  function RemoveRec(t: Tree, k: Key, g: Geo, ghost h: nat): (r: Rem)
    requires Shaped(t, h) && Routed(t, k)
    ensures Shaped(r.t, h)
    ensures Size(r.t) == if r.cut then Size(t) - 1 else Size(t)
    decreases t
  {
    match t
    case Leaf(es) =>
      assert h == 1;
      var pos := GetPos(es, k);
      if pos < |es| && Longcmp(es[pos].key, k) == 0 then Rem(Leaf(es[..pos] + es[pos + 1..]), true, es[pos].val)
      else Rem(t, false, NULL)
    case Index(ks) =>
      var i := GetPos(ks, k);
      assert ks[i] in ks;
      Settle(ks, i, RemoveRec(ks[i].val, k, g, h - 1), g, h)
  }

  /** The parent's half of `remove_level`: the child of slot `i` came back as
      `r`; when it lost an entry and is now under half full, `rebalance` runs. */
  function Settle(ks: seq<Pair<Tree>>, i: nat, r: Rem, g: Geo, ghost h: nat): (out: Rem)
    requires Shaped(Index(ks), h) && i < |ks| && Shaped(r.t, h - 1)
    ensures Shaped(out.t, h) && out.val == r.val
    ensures Size(out.t) == if out.cut then |ks| - 1 else |ks|
  {
    var ks2 := ks[i := Pair(ks[i].key, r.t)];
    ShapedReplace(ks, i, r.t, h);
    if r.cut && Size(r.t) < g.noPairs / 2 then
      var rb := Rebalance(ks2, i, g, h - 1);
      RebalanceShaped(ks2, i, g, h);
      Rem(Index(rb.0), rb.1, r.val)
    else
      ShapedIndex(ks2, h);
      Rem(Index(ks2), false, r.val)
  }

  lemma {:induction false} ShapedReplace(ks: seq<Pair<Tree>>, i: nat, c: Tree, h: nat)
    requires Shaped(Index(ks), h) && i < |ks| && Shaped(c, h - 1)
    ensures var ks2 := ks[i := Pair(ks[i].key, c)];
            h >= 2 && forall j :: 0 <= j < |ks2| ==> Shaped(ks2[j].val, h - 1)
  {
    var ks2 := ks[i := Pair(ks[i].key, c)];
    forall j | 0 <= j < |ks2| ensures Shaped(ks2[j].val, h - 1) {
      if j != i {
        assert ks2[j] == ks[j];
      }
    }
  }

  lemma {:induction false} ShapedIndex(ks: seq<Pair<Tree>>, h: nat)
    requires h >= 2 && forall j :: 0 <= j < |ks| ==> Shaped(ks[j].val, h - 1)
    ensures Shaped(Index(ks), h)
  {}

  lemma {:induction false} RebalanceShaped(ks: seq<Pair<Tree>>, i: nat, g: Geo, h: nat)
    requires h >= 2 && i < |ks| && forall j :: 0 <= j < |ks| ==> Shaped(ks[j].val, h - 1)
    ensures Shaped(Index(Rebalance(ks, i, g, h - 1).0), h)
  {
    var c := ks[i].val;
    var r := Rebalance(ks, i, g, h - 1).0;
    if Size(c) == 0 {
      forall j | 0 <= j < |r| ensures Shaped(r[j].val, h - 1) {
        assert r[j] == ks[if j < i then j else j + 1];
      }
    } else if i > 0 && Size(c) + Size(ks[i - 1].val) <= g.noPairs {
      FuseShaped(ks, i - 1, h - 1);
    } else if i + 1 < |ks| && Size(c) + Size(ks[i + 1].val) <= g.noPairs {
      FuseShaped(ks, i, h - 1);
    }
    ShapedIndex(r, h);
  }

  /** The merged node has the shape of the two it replaces. */
  lemma {:induction false} MergeShaped(a: Tree, b: Tree, h: nat)
    requires Shaped(a, h) && Shaped(b, h) && a.Leaf? == b.Leaf?
    ensures Shaped(Merge(a, b), h)
  {
    match a
    case Leaf(_) =>
    case Index(x) =>
      var y := b.kids;
      forall j | 0 <= j < |x + y| ensures Shaped((x + y)[j].val, h - 1) {
        if j < |x| {
          assert (x + y)[j] == x[j];
        } else {
          assert (x + y)[j] == y[j - |x|];
        }
      }
      ShapedIndex(x + y, h);
  }

  lemma {:induction false} FuseShaped(ks: seq<Pair<Tree>>, j: nat, h: nat)
    requires j + 1 < |ks| && forall x :: 0 <= x < |ks| ==> Shaped(ks[x].val, h)
    requires ks[j].val.Leaf? == ks[j + 1].val.Leaf?
    ensures forall x :: 0 <= x < |Fuse(ks, j)| ==> Shaped(Fuse(ks, j)[x].val, h)
  {
    var r := Fuse(ks, j);
    MergeShaped(ks[j].val, ks[j + 1].val, h);
    forall x | 0 <= x < |r| ensures Shaped(r[x].val, h) {
      if x < j {
        assert r[x] == ks[x];
      } else if x > j {
        assert r[x] == ks[x + 1];
      }
    }
  }

  /** An empty child holds no entries: dropping its slot loses none. */
  lemma {:induction false} DropEmpty(ks: seq<Pair<Tree>>, i: nat)
    requires i < |ks| && Size(ks[i].val) == 0
    ensures KidsFlat(ks[..i] + ks[i + 1..]) == KidsFlat(ks)
  {
    KidsFlatAt(ks, i);
    KidsFlatAppend(ks[..i], ks[i + 1..]);
    match ks[i].val
    case Leaf(es) =>
    case Index(x) =>
  }

  /** Dropping the child of slot `j` keeps the node well formed. */
  lemma {:induction false} DropKid(ks: seq<Pair<Tree>>, j: nat, h: nat, g: Geo)
    requires KidsValid(ks, h, g) && j < |ks|
    ensures var d := ks[..j] + ks[j + 1..];
            KidsValid(d, h, g) && KidsKeys(d) <= KidsKeys(ks)
  {
    DropFenced(ks, j);
    DropKeys(ks, j);
    DropMembers(ks, j);
    KidsValidSub(ks, ks[..j] + ks[j + 1..], h, g);
  }

  /** Every slot left after a drop is a slot of the node. */
  lemma {:induction false} DropMembers(ks: seq<Pair<Tree>>, j: nat)
    requires j < |ks|
    ensures var d := ks[..j] + ks[j + 1..];
            forall a :: 0 <= a < |d| ==> d[a] in ks
  {
    var d := ks[..j] + ks[j + 1..];
    forall a | 0 <= a < |d| ensures d[a] in ks {
      assert d[a] == ks[if a < j then a else a + 1];
    }
  }

  /** Slots taken from a well-formed node, in a fenced order, form a
      well-formed node. */
  lemma {:induction false} KidsValidSub(ks: seq<Pair<Tree>>, d: seq<Pair<Tree>>, h: nat, g: Geo)
    requires KidsValid(ks, h, g) && Fenced(d)
    requires forall a :: 0 <= a < |d| ==> d[a] in ks
    ensures KidsValid(d, h, g)
  {
    forall a | 0 <= a < |d| ensures WfKey(d[a].key, g.keylen) && Size(d[a].val) >= 1 && Valid(d[a].val, h - 1, g) {
      var b :| 0 <= b < |ks| && ks[b] == d[a];
    }
  }

  /** Dropping a slot keeps the separator search invariant. */
  lemma {:induction false} DropFenced(ks: seq<Pair<Tree>>, j: nat)
    requires Fenced(ks) && j < |ks|
    ensures Fenced(ks[..j] + ks[j + 1..])
  {
    var d := ks[..j] + ks[j + 1..];
    assert forall a :: 0 <= a < |d| ==> d[a] == ks[if a < j then a else a + 1];
    forall a, b | 0 <= a < b < |d|
      ensures KeyVal(d[b].key) < KeyVal(d[a].key) && Below(AllKeys(d[b].val), KeyVal(d[a].key))
    {
      var a', b' := if a < j then a else a + 1, if b < j then b else b + 1;
      assert d[a] == ks[a'] && d[b] == ks[b'] && a' < b';
    }
  }

  /** Dropping a slot brings in no key. */
  lemma {:induction false} DropKeys(ks: seq<Pair<Tree>>, j: nat)
    requires j < |ks|
    ensures KidsKeys(ks[..j] + ks[j + 1..]) <= KidsKeys(ks)
  {
    var d := ks[..j] + ks[j + 1..];
    forall x | x in KidsKeys(d) ensures x in KidsKeys(ks) {
      KidsKeysMember(d, x);
      KidsKeysMember(ks, x);
      var a :| 0 <= a < |d| && (x == d[a].key || x in AllKeys(d[a].val));
      assert d[a] == ks[if a < j then a else a + 1];
    }
  }

  /** A well-formed child whose keys are among the old child's keys can take its slot. */
  lemma {:induction false} KeepKid(ks: seq<Pair<Tree>>, i: nat, c: Tree, h: nat, g: Geo)
    requires KidsValid(ks, h, g) && i < |ks|
    requires Valid(c, h - 1, g) && Size(c) >= 1 && AllKeys(c) <= AllKeys(ks[i].val)
    ensures var ks2 := ks[i := Pair(ks[i].key, c)];
            KidsValid(ks2, h, g) && KidsKeys(ks2) <= KidsKeys(ks)
  {
    assert Fenced(ks);
    assert Above(AllKeys(ks[i].val), KeyVal(ks[i].key));
    forall j | 0 <= j < i ensures Below(AllKeys(c), KeyVal(ks[j].key)) {
      assert Below(AllKeys(ks[i].val), KeyVal(ks[j].key));
    }
    ReplaceKid(ks, i, c, h, g);
    forall x | x in AllKeys(ks[i].val) ensures x in KidsKeys(ks) {
      KidsKeysMember(ks, x);
    }
  }

  /** Two nodes of one level whose keys a bound `m` separates, and whose
      pairs fit in one node, merge into a well-formed node holding the keys of both. */
  lemma {:induction false} MergeValid(a: Tree, b: Tree, m: nat, h: nat, g: Geo)
    requires Valid(a, h, g) && Valid(b, h, g) && a.Leaf? == b.Leaf? && Size(a) + Size(b) <= g.noPairs
    requires Above(AllKeys(a), m) && Below(AllKeys(b), m)
    ensures Valid(Merge(a, b), h, g) && AllKeys(Merge(a, b)) == AllKeys(a) + AllKeys(b)
  {
    match a
    case Leaf(x) => MergeLeaves(x, b.entries, m, g);
    case Index(x) => MergeKids(x, b.kids, m, h, g);
  }

  /** Two leaves whose keys a bound `m` separates merge into a well-formed leaf. */
  lemma {:induction false} MergeLeaves(x: seq<Pair<Ptr>>, y: seq<Pair<Ptr>>, m: nat, g: Geo)
    requires Valid(Leaf(x), 1, g) && Valid(Leaf(y), 1, g) && |x| + |y| <= g.noPairs
    requires Above(AllKeys(Leaf(x)), m) && Below(AllKeys(Leaf(y)), m)
    ensures Valid(Leaf(x + y), 1, g) && AllKeys(Leaf(x + y)) == AllKeys(Leaf(x)) + AllKeys(Leaf(y))
  {
    forall i | 0 <= i < |x| ensures m <= KeyVal(x[i].key) {
      assert x[i].key in AllKeys(Leaf(x));
    }
    forall i | 0 <= i < |y| ensures KeyVal(y[i].key) < m {
      assert y[i].key in AllKeys(Leaf(y));
    }
    DescendingConcat(x, y, m);
    LeafKeysConcat(x, y);
    var z := x + y;
    assert forall i :: 0 <= i < |z| ==> z[i] == if i < |x| then x[i] else y[i - |x|];
  }

  /** The keys of two leaves laid end to end are the keys of both. */
  lemma {:induction false} LeafKeysConcat(x: seq<Pair<Ptr>>, y: seq<Pair<Ptr>>)
    ensures AllKeys(Leaf(x + y)) == AllKeys(Leaf(x)) + AllKeys(Leaf(y))
  {
    var z := x + y;
    forall w | w in AllKeys(Leaf(z)) ensures w in AllKeys(Leaf(x)) + AllKeys(Leaf(y)) {
      var i :| 0 <= i < |z| && z[i].key == w;
      if i < |x| {
        assert z[i] == x[i];
      } else {
        assert z[i] == y[i - |x|];
      }
    }
    forall w | w in AllKeys(Leaf(x)) + AllKeys(Leaf(y)) ensures w in AllKeys(Leaf(z)) {
      if w in AllKeys(Leaf(x)) {
        var i :| 0 <= i < |x| && x[i].key == w;
        assert z[i] == x[i];
      } else {
        var i :| 0 <= i < |y| && y[i].key == w;
        assert z[|x| + i] == y[i];
      }
    }
  }

  /** Two internal nodes whose keys a bound `m` separates merge into a
      well-formed internal node. */
  lemma {:induction false} MergeKids(x: seq<Pair<Tree>>, y: seq<Pair<Tree>>, m: nat, h: nat, g: Geo)
    requires KidsValid(x, h, g) && KidsValid(y, h, g)
    requires Above(KidsKeys(x), m) && Below(KidsKeys(y), m)
    ensures KidsValid(x + y, h, g) && KidsKeys(x + y) == KidsKeys(x) + KidsKeys(y)
  {
    var z := x + y;
    assert forall a :: 0 <= a < |z| ==> z[a] == if a < |x| then x[a] else y[a - |x|];
    assert Fenced(x) && Fenced(y);
    forall a | 0 <= a < |x| ensures m <= KeyVal(x[a].key) {
      KidsKeysMember(x, x[a].key);
    }
    forall b | 0 <= b < |y| ensures KeyVal(y[b].key) < m && Below(AllKeys(y[b].val), m) {
      KidsKeysMember(y, y[b].key);
      forall w | w in AllKeys(y[b].val) ensures KeyVal(w) < m {
        KidsKeysMember(y, w);
      }
    }
    assert Fenced(z) by {
      forall a, b | 0 <= a < b < |z|
        ensures KeyVal(z[b].key) < KeyVal(z[a].key) && Below(AllKeys(z[b].val), KeyVal(z[a].key))
      {
        if b < |x| {
        } else if a >= |x| {
          assert z[a] == y[a - |x|] && z[b] == y[b - |x|];
        } else {
          assert z[a] == x[a] && z[b] == y[b - |x|];
        }
      }
    }
    forall a | 0 <= a < |z| ensures Size(z[a].val) >= 1 && Valid(z[a].val, h - 1, g) {
      if a < |x| {
        assert x[a] in x;
      } else {
        assert y[a - |x|] in y;
      }
    }
    KidsKeysAppend(x, y);
  }

  lemma {:induction false} KidsKeysAppend(x: seq<Pair<Tree>>, y: seq<Pair<Tree>>)
    ensures KidsKeys(x + y) == KidsKeys(x) + KidsKeys(y)
  {
    var z := x + y;
    forall w | w in KidsKeys(z) ensures w in KidsKeys(x) + KidsKeys(y) {
      KidsKeysMember(z, w);
      var a :| 0 <= a < |z| && (w == z[a].key || w in AllKeys(z[a].val));
      if a < |x| {
        KidsKeysMember(x, w);
      } else {
        KidsKeysMember(y, w);
        assert z[a] == y[a - |x|];
      }
    }
    forall w | w in KidsKeys(x) + KidsKeys(y) ensures w in KidsKeys(z) {
      KidsKeysMember(z, w);
      if w in KidsKeys(x) {
        KidsKeysMember(x, w);
        var a :| 0 <= a < |x| && (w == x[a].key || w in AllKeys(x[a].val));
        assert z[a] == x[a];
      } else {
        KidsKeysMember(y, w);
        var b :| 0 <= b < |y| && (w == y[b].key || w in AllKeys(y[b].val));
        assert z[|x| + b] == y[b];
      }
    }
  }

  /** A well-formed child holding keys of slots `j` and `j + 1` only can
      replace the two under the separator of slot `j + 1`. */
  lemma {:induction false} FuseValid(ks: seq<Pair<Tree>>, j: nat, m: Tree, h: nat, g: Geo)
    requires KidsValid(ks, h, g) && j + 1 < |ks| && Valid(m, h - 1, g) && Size(m) >= 1
    requires AllKeys(m) <= AllKeys(ks[j].val) + AllKeys(ks[j + 1].val)
    ensures var f := ks[..j] + [Pair(ks[j + 1].key, m)] + ks[j + 2..];
            KidsValid(f, h, g) && KidsKeys(f) <= KidsKeys(ks)
  {
    var d := ks[..j] + ks[j + 1..];
    DropKid(ks, j, h, g);
    assert d[j] == ks[j + 1];
    assert Fenced(ks);
    assert ks[j] in ks && ks[j + 1] in ks;
    assert Above(AllKeys(m), KeyVal(d[j].key)) by {
      assert Above(AllKeys(ks[j].val), KeyVal(ks[j].key));
      assert Above(AllKeys(ks[j + 1].val), KeyVal(ks[j + 1].key));
    }
    forall l | 0 <= l < j ensures Below(AllKeys(m), KeyVal(d[l].key)) {
      assert d[l] == ks[l];
      assert Below(AllKeys(ks[j].val), KeyVal(ks[l].key));
      assert Below(AllKeys(ks[j + 1].val), KeyVal(ks[l].key));
    }
    ReplaceKid(d, j, m, h, g);
    DropReplace(ks, j, m);
    forall x | x in AllKeys(ks[j].val) + AllKeys(ks[j + 1].val) ensures x in KidsKeys(ks) {
      KidsKeysMember(ks, x);
    }
  }

  /** `merge` of slots `j` and `j + 1`, one of which holds the new child `c`
      of slot `i`, when their pairs fit in one node. */
  lemma {:induction false} FuseOk(ks: seq<Pair<Tree>>, i: nat, c: Tree, j: nat, h: nat, g: Geo)
    requires KidsValid(ks, h, g) && i < |ks| && j + 1 < |ks| && (j == i || j + 1 == i)
    requires Valid(c, h - 1, g) && Size(c) >= 1 && AllKeys(c) <= AllKeys(ks[i].val)
    requires var ks2 := ks[i := Pair(ks[i].key, c)];
             && ks2[j].val.Leaf? == ks2[j + 1].val.Leaf?
             && Size(ks2[j].val) + Size(ks2[j + 1].val) <= g.noPairs
    ensures var ks2 := ks[i := Pair(ks[i].key, c)];
            var f := ks[..j] + [Pair(ks[j + 1].key, Merge(ks2[j].val, ks2[j + 1].val))] + ks[j + 2..];
            KidsValid(f, h, g) && KidsKeys(f) <= KidsKeys(ks)
  {
    var ks2 := ks[i := Pair(ks[i].key, c)];
    var a, b := ks2[j].val, ks2[j + 1].val;
    var mk := KeyVal(ks[j].key);
    FuseBounds(ks, i, c, j);
    assert ks[j] in ks && ks[j + 1] in ks;
    MergeValid(a, b, mk, h - 1, g);
    FuseValid(ks, j, Merge(a, b), h, g);
  }

  /** The keys of the two children to merge, the new one among them, lie on
      either side of the separator of the first. */
  lemma {:induction false} FuseBounds(ks: seq<Pair<Tree>>, i: nat, c: Tree, j: nat)
    requires Fenced(ks) && i < |ks| && j + 1 < |ks| && (j == i || j + 1 == i)
    requires AllKeys(c) <= AllKeys(ks[i].val)
    ensures var ks2 := ks[i := Pair(ks[i].key, c)];
            && Above(AllKeys(ks2[j].val), KeyVal(ks[j].key)) && Below(AllKeys(ks2[j + 1].val), KeyVal(ks[j].key))
            && AllKeys(ks2[j].val) <= AllKeys(ks[j].val) && AllKeys(ks2[j + 1].val) <= AllKeys(ks[j + 1].val)
  {
    assert Above(AllKeys(ks[j].val), KeyVal(ks[j].key));
    assert Below(AllKeys(ks[j + 1].val), KeyVal(ks[j].key));
  }

  lemma {:induction false} FuseIs(ks: seq<Pair<Tree>>, i: nat, c: Tree, j: nat)
    requires i < |ks| && j + 1 < |ks| && (j == i || j + 1 == i)
    requires var ks2 := ks[i := Pair(ks[i].key, c)];
             ks2[j].val.Leaf? == ks2[j + 1].val.Leaf?
    ensures var ks2 := ks[i := Pair(ks[i].key, c)];
            Fuse(ks2, j) == ks[..j] + [Pair(ks[j + 1].key, Merge(ks2[j].val, ks2[j + 1].val))] + ks[j + 2..]
  {
    var ks2 := ks[i := Pair(ks[i].key, c)];
    assert ks2[..j] == ks[..j] && ks2[j + 2..] == ks[j + 2..];
  }

  lemma {:induction false} DropReplace(ks: seq<Pair<Tree>>, j: nat, m: Tree)
    requires j + 1 < |ks|
    ensures (ks[..j] + ks[j + 1..])[j := Pair(ks[j + 1].key, m)] == ks[..j] + [Pair(ks[j + 1].key, m)] + ks[j + 2..]
  {
    var d := ks[..j] + ks[j + 1..];
    var f := ks[..j] + [Pair(ks[j + 1].key, m)] + ks[j + 2..];
    assert |d| == |f|;
    forall a | 0 <= a < |f| ensures d[j := Pair(ks[j + 1].key, m)][a] == f[a] {
      if a < j {
      } else if a > j {
        assert d[a] == ks[a + 1] && f[a] == ks[a + 1];
      }
    }
  }

  /** Two nodes of one shape are both leaves or both internal. */
  lemma {:induction false} ShapedSame(a: Tree, b: Tree, h: nat)
    requires Shaped(a, h) && Shaped(b, h)
    ensures a.Leaf? == b.Leaf?
  {
    match a
    case Leaf(_) =>
    case Index(_) =>
  }

  /** The children after `rebalance` are well formed and hold no key the
      parent's children before the removal did not hold. */
  ghost predicate Rebalanced(ks: seq<Pair<Tree>>, ks2: seq<Pair<Tree>>, i: nat, h: nat, g: Geo)
    requires h >= 2 && i < |ks2| && forall j :: 0 <= j < |ks2| ==> Shaped(ks2[j].val, h - 1)
  {
    var r := Rebalance(ks2, i, g, h - 1).0;
    KidsValid(r, h, g) && KidsKeys(r) <= KidsKeys(ks)
  }

  /** `rebalance` keeps the parent well formed and brings in no key. */
  lemma {:induction false} RebalanceOk(ks: seq<Pair<Tree>>, ks2: seq<Pair<Tree>>, i: nat, c: Tree, h: nat, g: Geo)
    requires Pending(ks, ks2, i, c, h, g)
    ensures Rebalanced(ks, ks2, i, h, g)
  {
    if Size(c) == 0 {
      RebalanceDrop(ks, ks2, i, c, h, g);
    } else if i > 0 && Size(c) + Size(ks2[i - 1].val) <= g.noPairs {
      RebalanceFuse(ks, ks2, i, c, i - 1, h, g);
    } else if i + 1 < |ks| && Size(c) + Size(ks2[i + 1].val) <= g.noPairs {
      RebalanceFuse(ks, ks2, i, c, i, h, g);
    } else {
      RebalanceKeep(ks, ks2, i, c, h, g);
    }
  }

  /** The child of slot `i` of `ks` became `c`, which is what `ks2` holds:
      the state in which `rebalance` runs on the parent. */
  ghost predicate Pending(ks: seq<Pair<Tree>>, ks2: seq<Pair<Tree>>, i: nat, c: Tree, h: nat, g: Geo) {
    && h >= 2 && i < |ks| && ks2 == ks[i := Pair(ks[i].key, c)] && i < |ks2|
    && (forall j :: 0 <= j < |ks2| ==> Shaped(ks2[j].val, h - 1))
    && KidsValid(ks, h, g) && Valid(c, h - 1, g) && AllKeys(c) <= AllKeys(ks[i].val)
  }

  lemma {:induction false} RebalanceDrop(ks: seq<Pair<Tree>>, ks2: seq<Pair<Tree>>, i: nat, c: Tree, h: nat, g: Geo)
    requires Pending(ks, ks2, i, c, h, g) && Size(c) == 0
    ensures Rebalanced(ks, ks2, i, h, g)
  {
    RebalanceDropIs(ks2, i, g, h - 1);
    DropKid(ks, i, h, g);
    DropSame(ks, ks2, i, c);
  }

  /** An empty child loses its slot. */
  lemma {:induction false} RebalanceDropIs(ks: seq<Pair<Tree>>, i: nat, g: Geo, h: nat)
    requires i < |ks| && (forall j :: 0 <= j < |ks| ==> Shaped(ks[j].val, h)) && Size(ks[i].val) == 0
    ensures Rebalance(ks, i, g, h).0 == ks[..i] + ks[i + 1..]
  {
  }

  lemma {:induction false} RebalanceFuse(ks: seq<Pair<Tree>>, ks2: seq<Pair<Tree>>, i: nat, c: Tree, j: nat, h: nat, g: Geo)
    requires Pending(ks, ks2, i, c, h, g) && Size(c) != 0
    requires || (j + 1 == i && Size(c) + Size(ks2[i - 1].val) <= g.noPairs)
             || (&& j == i && i + 1 < |ks| && Size(c) + Size(ks2[i + 1].val) <= g.noPairs
                 && !(i > 0 && Size(c) + Size(ks2[i - 1].val) <= g.noPairs))
    ensures Rebalanced(ks, ks2, i, h, g)
  {
    RebalanceFuseIs(ks2, i, g, h - 1, j);
    FuseStep(ks, i, c, j, h, g);
  }

  /** A child that fits together with a neighbour merges with it: the left
      one when it fits, else the right one. */
  lemma {:induction false} RebalanceFuseIs(ks: seq<Pair<Tree>>, i: nat, g: Geo, h: nat, j: nat)
    requires i < |ks| && (forall x :: 0 <= x < |ks| ==> Shaped(ks[x].val, h)) && Size(ks[i].val) != 0
    requires || (j + 1 == i && Size(ks[i].val) + Size(ks[i - 1].val) <= g.noPairs)
             || (&& j == i && i + 1 < |ks| && Size(ks[i].val) + Size(ks[i + 1].val) <= g.noPairs
                 && !(i > 0 && Size(ks[i].val) + Size(ks[i - 1].val) <= g.noPairs))
    ensures j + 1 < |ks| && ks[j].val.Leaf? == ks[j + 1].val.Leaf?
    ensures Rebalance(ks, i, g, h).0 == Fuse(ks, j)
  {
    ShapedSame(ks[j].val, ks[j + 1].val, h);
  }

  lemma {:induction false} RebalanceKeep(ks: seq<Pair<Tree>>, ks2: seq<Pair<Tree>>, i: nat, c: Tree, h: nat, g: Geo)
    requires Pending(ks, ks2, i, c, h, g) && Size(c) != 0
    requires !(i > 0 && Size(c) + Size(ks2[i - 1].val) <= g.noPairs)
    requires !(i + 1 < |ks| && Size(c) + Size(ks2[i + 1].val) <= g.noPairs)
    ensures Rebalanced(ks, ks2, i, h, g)
  {
    RebalanceKeepIs(ks2, i, g, h - 1);
    KeepKid(ks, i, c, h, g);
  }

  /** A non-empty child that fits with neither neighbour stays as it is. */
  lemma {:induction false} RebalanceKeepIs(ks: seq<Pair<Tree>>, i: nat, g: Geo, h: nat)
    requires i < |ks| && (forall x :: 0 <= x < |ks| ==> Shaped(ks[x].val, h)) && Size(ks[i].val) != 0
    requires !(i > 0 && Size(ks[i].val) + Size(ks[i - 1].val) <= g.noPairs)
    requires !(i + 1 < |ks| && Size(ks[i].val) + Size(ks[i + 1].val) <= g.noPairs)
    ensures Rebalance(ks, i, g, h).0 == ks
  {
  }

  /** Merging the child of slot `i` with a neighbour keeps the parent well formed. */
  lemma {:induction false} FuseStep(ks: seq<Pair<Tree>>, i: nat, c: Tree, j: nat, h: nat, g: Geo)
    requires KidsValid(ks, h, g) && i < |ks| && j + 1 < |ks| && (j == i || j + 1 == i)
    requires Valid(c, h - 1, g) && Size(c) >= 1 && AllKeys(c) <= AllKeys(ks[i].val)
    requires var ks2 := ks[i := Pair(ks[i].key, c)];
             && Shaped(ks2[j].val, h - 1) && Shaped(ks2[j + 1].val, h - 1)
             && Size(ks2[j].val) + Size(ks2[j + 1].val) <= g.noPairs
    ensures var f := Fuse(ks[i := Pair(ks[i].key, c)], j);
            KidsValid(f, h, g) && KidsKeys(f) <= KidsKeys(ks)
  {
    var ks2 := ks[i := Pair(ks[i].key, c)];
    ShapedSame(ks2[j].val, ks2[j + 1].val, h - 1);
    FuseOk(ks, i, c, j, h, g);
    FuseIs(ks, i, c, j);
    KidsOk(Fuse(ks2, j), ks[..j] + [Pair(ks[j + 1].key, Merge(ks2[j].val, ks2[j + 1].val))] + ks[j + 2..], ks, h, g);
  }

  lemma {:induction false} DropSame(ks: seq<Pair<Tree>>, ks2: seq<Pair<Tree>>, i: nat, c: Tree)
    requires i < |ks| && ks2 == ks[i := Pair(ks[i].key, c)]
    ensures ks2[..i] + ks2[i + 1..] == ks[..i] + ks[i + 1..]
  {
    assert ks2[..i] == ks[..i] && ks2[i + 1..] == ks[i + 1..];
  }

  lemma {:induction false} KidsOk(a: seq<Pair<Tree>>, b: seq<Pair<Tree>>, ks: seq<Pair<Tree>>, h: nat, g: Geo)
    requires a == b && KidsValid(b, h, g) && KidsKeys(b) <= KidsKeys(ks)
    ensures KidsValid(a, h, g) && KidsKeys(a) <= KidsKeys(ks)
  {
  }

  /** Removing `k` below the slot `getpos` picks removes it from the whole
      node: the other slots' entries lie outside the slot's key range. */
  lemma {:induction false} RemoveFlat(ks: seq<Pair<Tree>>, i: nat, c: Tree, k: Key, h: nat, g: Geo)
    requires KidsValid(ks, h, g) && TreeGeo(g) && WfKey(k, g.keylen)
    requires i == GetPos(ks, k) && i < |ks| && Flat(c) == Without(Flat(ks[i].val), k)
    ensures KidsFlat(ks[i := Pair(ks[i].key, c)]) == Without(KidsFlat(ks), k)
    ensures Stored(KidsFlat(ks), k) == Stored(Flat(ks[i].val), k)
  {
    var ks2 := ks[i := Pair(ks[i].key, c)];
    KidsFlatParts(ks, i, h, g);
    GetPosBounds(ks, k);
    var a, b := KidsFlat(ks[..i]), KidsFlat(ks[i + 1..]);
    assert Absent(a, k) by {
      forall x | 0 <= x < |a| ensures a[x].key != k {
        assert KeyVal(k) < KeyVal(ks[i - 1].key) <= KeyVal(a[x].key);
      }
    }
    assert Absent(b, k) by {
      forall y | 0 <= y < |b| ensures b[y].key != k {
        assert KeyVal(b[y].key) < KeyVal(ks[i].key) <= KeyVal(k);
      }
    }
    WithoutMiddle(a, Flat(ks[i].val), b, k);
    KidsFlatAt(ks2, i);
    assert ks2[..i] == ks[..i] && ks2[i + 1..] == ks[i + 1..];
  }

  /** Dropping one entry from a well-formed leaf leaves a well-formed leaf
      whose keys are among the old ones. */
  lemma {:induction false} DropSlot(es: seq<Pair<Ptr>>, pos: nat, g: Geo)
    requires Valid(Leaf(es), 1, g) && pos < |es|
    ensures Valid(Leaf(es[..pos] + es[pos + 1..]), 1, g)
    ensures AllKeys(Leaf(es[..pos] + es[pos + 1..])) <= AllKeys(Leaf(es))
  {
    var e := es[..pos] + es[pos + 1..];
    assert forall x :: 0 <= x < |e| ==> e[x] == es[if x < pos then x else x + 1];
    assert Descending(e) by {
      forall x, y | 0 <= x < y < |e| ensures KeyVal(e[y].key) < KeyVal(e[x].key) {
        var x', y' := if x < pos then x else x + 1, if y < pos then y else y + 1;
        assert e[x] == es[x'] && e[y] == es[y'];
      }
    }
    forall w | w in AllKeys(Leaf(e)) ensures w in AllKeys(Leaf(es)) {
      var x :| 0 <= x < |e| && e[x].key == w;
      assert es[if x < pos then x else x + 1].key == w;
    }
  }

  /** The leaf step of removal. */
  lemma {:induction false} LeafRemoved(es: seq<Pair<Ptr>>, k: Key, g: Geo)
    requires Valid(Leaf(es), 1, g) && WfKey(k, g.keylen)
    ensures var r := RemoveRec(Leaf(es), k, g, 1);
            && Valid(r.t, 1, g) && AllKeys(r.t) <= AllKeys(Leaf(es))
            && Flat(r.t) == Without(es, k) && r.val == Stored(es, k)
  {
    var pos := GetPos(es, k);
    if pos < |es| && Longcmp(es[pos].key, k) == 0 {
      WithoutHit(es, pos, k);
      DropSlot(es, pos, g);
    } else {
      LeafMiss(es, k, g.keylen);
    }
  }

  /** `r` is what removing `k` below `t`, of height `h`, should leave: a
      well-formed node without the entry for `k` and with no new key, and
      the value that entry held (NULL when there was none). */
  ghost predicate Removed(t: Tree, r: Rem, k: Key, h: nat, g: Geo) {
    && Valid(r.t, h, g) && AllKeys(r.t) <= AllKeys(t)
    && Flat(r.t) == Without(Flat(t), k) && r.val == Stored(Flat(t), k)
  }

  /** One internal step of removal, given what removal below slot `i` did. */
  lemma {:induction false} RemoveIndex(ks: seq<Pair<Tree>>, i: nat, k: Key, h: nat, g: Geo, r: Rem)
    requires Valid(Index(ks), h, g) && Shaped(Index(ks), h) && WfKey(k, g.keylen)
    requires KeysWf(ks, g.keylen) && i == GetPos(ks, k) && i < |ks| && Shaped(r.t, h - 1)
    requires Removed(ks[i].val, r, k, h - 1, g) && (r.cut || Size(r.t) == Size(ks[i].val))
    ensures Removed(Index(ks), Settle(ks, i, r, g, h), k, h, g)
  {
    assert KidsValid(ks, h, g);
    RemoveFlat(ks, i, r.t, k, h, g);
    ShapedReplace(ks, i, r.t, h);
    if r.cut && Size(r.t) < g.noPairs / 2 {
      RebalanceOk(ks, ks[i := Pair(ks[i].key, r.t)], i, r.t, h, g);
    } else {
      assert ks[i] in ks;
      KeepKid(ks, i, r.t, h, g);
    }
  }

  /** Removal below a well-formed node on the path of `k`: the node stays
      well formed, only the entry with key `k` leaves it, and its value is
      what comes back (NULL when there was none). */
  lemma {:induction false} RemoveRecSpec(t: Tree, k: Key, h: nat, g: Geo)
    requires Valid(t, h, g) && Shaped(t, h) && Routed(t, k) && WfKey(k, g.keylen)
    ensures Removed(t, RemoveRec(t, k, g, h), k, h, g)
    decreases t
  {
    match t
    case Leaf(es) => LeafRemoved(es, k, g);
    case Index(ks) =>
      var i := GetPos(ks, k);
      assert ks[i] in ks && KidsValid(ks, h, g);
      var c := ks[i].val;
      RemoveRecSpec(c, k, h - 1, g);
      var r := RemoveRec(c, k, g, h - 1);
      RemoveIndex(ks, i, k, h, g, r);
      assert RemoveRec(t, k, g, h) == Settle(ks, i, r, g, h);
  }

  /** A value the map of a run of non-null entries holds is never NULL. */
  lemma {:induction false} StoredNonNull(f: seq<Pair<Ptr>>, k: Key)
    requires Descending(f) && NonNull(f)
    ensures Stored(f, k) == NULL <==> k !in ToMap(f)
  {
    ToMapMembers(f);
    if k in ToMap(f) {
      var i :| 0 <= i < |f| && f[i].key == k;
    }
  }

  /** `find_level` and `cbtree_remove_level` below the root: the separators on
      the path of `k` are lowered, then the entry is removed from its leaf and
      the nodes on the way back up are rebalanced. */
  function Detach(t: Tree, k: Key, ghost h: nat, g: Geo): (r: Rem)
    requires Valid(t, h, g) && (t.Index? ==> Size(t) >= 1) && WfKey(k, g.keylen)
    ensures Valid(r.t, h, g)
    ensures ToMap(Flat(r.t)) == ToMap(Flat(t)) - {k}
    ensures r.val == Stored(Flat(t), k)
    ensures r.val == NULL <==> k !in ToMap(Flat(t))
    ensures Size(r.t) == if r.cut then Size(t) - 1 else Size(t)
  {
    var t1 := Lower(t, k, h, g);
    ValidShaped(t1, h, g);
    RemoveRecSpec(t1, k, h, g);
    WithoutMap(Flat(t1), k);
    ValidFlat(t, h, g);
    StoredNonNull(Flat(t), k);
    RemoveRec(t1, k, g, h)
  }

  /** `cbtree_shrink`: a tree taller than one level whose root has a single
      child loses a level, the child becoming the root. */
  function Shrink(hd: Head): (r: Head)
    requires hd.height > 1 ==> hd.root.Some? && hd.root.value.Index? && |hd.root.value.kids| == 1
    ensures r.root.Some? == hd.root.Some?
    ensures Contents(r) == Contents(hd)
    ensures r.height == if hd.height > 1 then hd.height - 1 else hd.height
  {
    if hd.height <= 1 then hd
    else
      var ks := hd.root.value.kids;
      KidsFlatOne(ks[0]);
      assert ks == [ks[0]];
      Head(Some(hd.root.value.kids[0].val), hd.height - 1)
  }

  /** The child that replaces the root is a well-formed node one level lower. */
  lemma {:induction false} ShrinkOk(hd: Head, g: Geo)
    requires hd.height >= 1 && hd.root.Some? && Valid(hd.root.value, hd.height, g)
    requires hd.height > 1 ==> hd.root.value.Index? && |hd.root.value.kids| == 1
    ensures var r := Shrink(hd);
            && r.root.Some? && Valid(r.root.value, r.height, g) && r.height >= 1
            && (r.height > 1 ==> r.root.value.Index? && Size(r.root.value) >= 1)
  {
    if hd.height > 1 {
      var ks := hd.root.value.kids;
      assert ks[0] in ks && KidsValid(ks, hd.height, g);
    }
  }

  /** Shrinking for as long as the root is internal with a single child: the
      root left behind is a leaf or has two children at least. */
  function Collapse(hd: Head): (r: Head)
    ensures r.root.Some? == hd.root.Some? && r.height <= hd.height
    ensures Contents(r) == Contents(hd)
    ensures !(r.height > 1 && r.root.Some? && r.root.value.Index? && |r.root.value.kids| == 1)
    decreases hd.height
  {
    if hd.height > 1 && hd.root.Some? && hd.root.value.Index? && |hd.root.value.kids| == 1 then
      Collapse(Shrink(hd))
    else hd
  }

  /** A tree whose root is well formed and, when internal, not empty comes out
      of `Collapse` with a root that satisfies the head invariant. */
  lemma {:induction false} CollapseOk(hd: Head, g: Geo)
    requires hd.height >= 1 && hd.root.Some? && Valid(hd.root.value, hd.height, g)
    requires hd.root.value.Index? ==> Size(hd.root.value) >= 1
    ensures ValidHead(Collapse(hd), g)
    decreases hd.height
  {
    var t := hd.root.value;
    if hd.height > 1 && t.Index? && |t.kids| == 1 {
      ShrinkOk(hd, g);
      CollapseOk(Shrink(hd), g);
    } else if t.Index? {
      assert hd.height >= 2 by {
        assert KidsValid(t.kids, hd.height, g);
      }
    }
  }

  /** The states `find_level` can descend from: height 0 exactly when the
      root is NULL, a well-formed root, and an internal root with a child.
      Every tree satisfying the head invariant is one. */
  ghost predicate Descendable(hd: Head, g: Geo) {
    && (hd.height == 0 <==> hd.root.None?)
    && (hd.root.Some? ==> Valid(hd.root.value, hd.height, g)
                          && (hd.root.value.Index? ==> Size(hd.root.value) >= 1))
  }

  lemma {:induction false} ValidDescendable(hd: Head, g: Geo)
    requires ValidHead(hd, g)
    ensures Descendable(hd, g)
  {
  }

  /** `cbtree_remove` as written: the entry with key `k` goes and its value
      comes back (NULL when there was none); a root that lost a slot and has
      one left is shrunk once. Under the neighbour invariant of `rebalance`,
      which `Valid` does not carry, that single shrink suffices. */
  function RemoveAsWritten(hd: Head, k: Key, g: Geo): (r: (Head, Ptr))
    requires Descendable(hd, g) && WfKey(k, g.keylen)
    ensures Contents(r.0) == Contents(hd) - {k}
    ensures r.1 == if k in Contents(hd) then Contents(hd)[k] else NULL
    ensures r.1 == NULL <==> k !in Contents(hd)
    ensures r.0.height == 0 <==> r.0.root.None?
    ensures r.0.root.Some? ==> Valid(r.0.root.value, r.0.height, g)
  {
    match hd.root
    case None => (hd, NULL)
    case Some(t) =>
      var r := Detach(t, k, hd.height, g);
      var hd1 := Head(Some(r.t), hd.height);
      if r.cut && Size(r.t) < g.noPairs / 2 && Size(r.t) == 1 then
        ShrinkOk(hd1, g);
        (Shrink(hd1), r.val)
      else (hd1, r.val)
  }

  /** `cbtree_remove` with the root shrunk until it is a leaf or has two
      children: the head invariant holds afterwards. On the trees `cbtree_remove`
      reaches, this shrinks at most once, as the source does; the repetition is
      what lets the head invariant follow from `Valid` alone. */
  function Remove(hd: Head, k: Key, g: Geo): (r: (Head, Ptr))
    requires ValidHead(hd, g) && WfKey(k, g.keylen)
    ensures ValidHead(r.0, g)
    ensures Contents(r.0) == Contents(hd) - {k}
    ensures r.1 == if k in Contents(hd) then Contents(hd)[k] else NULL
    ensures r.1 == NULL <==> k !in Contents(hd)
  {
    match hd.root
    case None => (hd, NULL)
    case Some(t) =>
      var r := Detach(t, k, hd.height, g);
      var hd1 := Head(Some(r.t), hd.height);
      CollapseOk(hd1, g);
      (Collapse(hd1), r.val)
  }

  /** An internal node of one child is well formed when the child is and
      the separator bounds its keys from below. */
  lemma {:induction false} OneKidValid(s0: Key, c0: Tree, h: nat, g: Geo)
    requires h >= 2 && TreeGeo(g) && WfKey(s0, g.keylen)
    requires Valid(c0, h - 1, g) && Size(c0) >= 1 && Above(AllKeys(c0), KeyVal(s0))
    ensures KidsValid([Pair(s0, c0)], h, g)
  {
    var ks := [Pair(s0, c0)];
    assert Fenced(ks);
  }

  /** The upper and lower halves of the counterexample: internal nodes of
      one child, each over a leaf of one entry. */
  function UpperHalf(): Tree {
    Index([Pair([10], Leaf([Pair([12], 1)]))])
  }

  function LowerHalf(): Tree {
    Index([Pair([0], Leaf([Pair([5], 2)]))])
  }

  /** A tree of height 3 whose root has two children, each an internal node
      with a single child. It satisfies `Valid`, which leaves out the source's
      invariant that no two neighbouring nodes could be merged: `rebalance`
      merges two such halves (1 + 1 <= no_pairs), so `cbtree_remove` does not
      produce this tree from an empty one. */
  function LoneTree(): Tree {
    Index([Pair([10], UpperHalf()), Pair([0], LowerHalf())])
  }

  /** An internal node of height 2 with one child, a leaf of one entry,
      is well formed when the separator is at most the entry's key. */
  lemma {:induction false} SingleHalf(s: nat, e: nat, v: Ptr)
    requires s <= e < WORD && v != NULL
    ensures var t := Index([Pair([s], Leaf([Pair([e], v)]))]);
            Valid(t, 2, TinyGeo) && AllKeys(t) == {[s], [e]}
  {
    var l := Leaf([Pair([e], v)]);
    SmallKey(s); SmallKey(e);
    assert AllKeys(l) == {[e]} by {
      assert [e] == l.entries[0].key;
    }
    OneKidValid([s], l, 2, TinyGeo);
    OneKidKeys([s], l);
  }

  /** The keys under a node of one child: its separator and the child's. */
  lemma {:induction false} OneKidKeys(k: Key, c: Tree)
    ensures KidsKeys([Pair(k, c)]) == {k} + AllKeys(c)
  {
    var ks := [Pair(k, c)];
    forall x | x in KidsKeys(ks) ensures x in {k} + AllKeys(c) {
      KidsKeysMember(ks, x);
    }
    forall x | x in {k} + AllKeys(c) ensures x in KidsKeys(ks) {
      KidsKeysMember(ks, x);
      assert x == ks[0].key || x in AllKeys(ks[0].val);
    }
  }

  lemma {:induction false} HalvesValid()
    ensures Valid(UpperHalf(), 2, TinyGeo) && AllKeys(UpperHalf()) == {[10], [12]}
    ensures Valid(LowerHalf(), 2, TinyGeo) && AllKeys(LowerHalf()) == {[0], [5]}
  {
    SingleHalf(10, 12, 1);
    SingleHalf(0, 5, 2);
  }

  lemma {:induction false} LoneTreeValid()
    ensures ValidHead(Head(Some(LoneTree()), 3), TinyGeo)
  {
    HalvesValid();
    SmallKey(12); SmallKey(10); SmallKey(5); SmallKey(0);
    TwoKidsValid([10], UpperHalf(), [0], LowerHalf(), 3, TinyGeo);
    KidsRoot(LoneTree().kids, 3, TinyGeo);
  }

  /** Two to `no_pairs` well-formed slots make a well-formed internal root. */
  lemma {:induction false} KidsRoot(ks: seq<Pair<Tree>>, h: nat, g: Geo)
    requires KidsValid(ks, h, g) && TreeGeo(g) && 2 <= |ks| <= g.noPairs
    ensures ValidHead(Head(Some(Index(ks)), h), g)
  {
  }

  /** The descent for key 5 finds separators at most 5 all the way down:
      nothing is lowered. */
  lemma {:induction false} LoneLower()
    requires Valid(LoneTree(), 3, TinyGeo)
    ensures WfKey([5], 1) && Lower(LoneTree(), [5], 3, TinyGeo) == LoneTree()
  {
    LowerHalfLower();
    var ks := LoneTree().kids;
    assert GetPos(ks, [5]) == 1;
    LowerKeeps(ks, [5], 3, TinyGeo, 1);
  }

  lemma {:induction false} LowerHalfLower()
    ensures && Valid(LowerHalf(), 2, TinyGeo) && WfKey([5], 1)
            && Lower(LowerHalf(), [5], 2, TinyGeo) == LowerHalf()
  {
    HalvesValid();
    var ls := LowerHalf().kids;
    assert GetPos(ls, [5]) == 0;
    LowerKeeps(ls, [5], 2, TinyGeo, 0);
  }

  /** When the routed slot's separator is already at most the key and the
      child below is left as it is, the node is left as it is. */
  lemma {:induction false} LowerKeeps(ks: seq<Pair<Tree>>, k: Key, h: nat, g: Geo, i: nat)
    requires Valid(Index(ks), h, g) && h >= 2 && KeysWf(ks, g.keylen) && |ks| >= 1 && WfKey(k, g.keylen)
    requires i < |ks| && GetPos(ks, k) == i
    requires Valid(ks[i].val, h - 1, g) && (ks[i].val.Index? ==> Size(ks[i].val) >= 1)
    requires Lower(ks[i].val, k, h - 1, g) == ks[i].val
    ensures Lower(Index(ks), k, h, g) == Index(ks)
  {
    assert Route(ks, k) == (i, ks);
    assert ks[i := Pair(ks[i].key, ks[i].val)] == ks;
  }

  /** Below the lower half, key 5 empties the leaf, which its parent drops. */
  lemma {:induction false} LoneLowerHalf()
    ensures && Shaped(LowerHalf(), 2) && Routed(LowerHalf(), [5])
            && RemoveRec(LowerHalf(), [5], TinyGeo, 2) == Rem(Index([]), true, 2)
  {
    var ks := LowerHalf().kids;
    LowerLeafGone();
    ShapedIndex(ks, 2);
    assert GetPos(ks, [5]) == 0;
    LowerHalfSettle();
  }

  /** The lower half's parent step: its emptied leaf is dropped. */
  lemma {:induction false} LowerHalfSettle()
    requires Shaped(LowerHalf(), 2)
    ensures Settle(LowerHalf().kids, 0, Rem(Leaf([]), true, 2), TinyGeo, 2) == Rem(Index([]), true, 2)
  {
    var ks := LowerHalf().kids;
    assert ks[0 := Pair(ks[0].key, Leaf([]))] == [Pair([0], Leaf([]))];
    LowerLeafDropped();
  }

  lemma {:induction false} LowerLeafGone()
    ensures && Shaped(Leaf([Pair([5], 2)]), 1) && Routed(Leaf([Pair([5], 2)]), [5])
            && RemoveRec(Leaf([Pair([5], 2)]), [5], TinyGeo, 1) == Rem(Leaf([]), true, 2)
  {
    assert GetPos([Pair([5], 2)], [5]) == 0;
  }

  lemma {:induction false} LowerLeafDropped()
    ensures Shaped(Leaf([]), 1)
    ensures Rebalance([Pair([0], Leaf([]))], 0, TinyGeo, 1) == ([], true)
  {
  }

  /** At the root the emptied lower half is dropped too: one child is left. */
  lemma {:induction false} LoneRoot()
    ensures && Shaped(LoneTree(), 3) && Routed(LoneTree(), [5])
            && RemoveRec(LoneTree(), [5], TinyGeo, 3) == Rem(Index([Pair([10], UpperHalf())]), true, 2)
  {
    LoneLowerHalf();
    var ks := LoneTree().kids;
    assert Shaped(UpperHalf(), 2) by {
      assert Shaped(UpperHalf().kids[0].val, 1);
    }
    ShapedIndex(ks, 3);
    assert GetPos(ks, [5]) == 1;
    LoneRootSettle();
  }

  /** The root's half: the emptied second child is dropped. */
  lemma {:induction false} LoneRootSettle()
    requires Shaped(LoneTree(), 3)
    ensures Settle(LoneTree().kids, 1, Rem(Index([]), true, 2), TinyGeo, 3) == Rem(Index([Pair([10], UpperHalf())]), true, 2)
  {
    var ks := LoneTree().kids;
    var ks2 := ks[1 := Pair(ks[1].key, Index([]))];
    ShapedReplace(ks, 1, Index([]), 3);
    RebalanceDropIs(ks2, 1, TinyGeo, 2);
    DropSecond(ks[0], ks[1], Index([]));
  }

  lemma {:induction false} DropSecond(a: Pair<Tree>, b: Pair<Tree>, c: Tree)
    ensures var ks2 := [a, b][1 := Pair(b.key, c)];
            ks2[..1] + ks2[2..] == [a]
  {
  }

  lemma {:induction false} LoneDetach()
    ensures && Valid(LoneTree(), 3, TinyGeo) && WfKey([5], 1)
            && Detach(LoneTree(), [5], 3, TinyGeo) == Rem(Index([Pair([10], UpperHalf())]), true, 2)
  {
    LoneTreeValid();
    LoneLower();
    LoneRoot();
  }

  /** Removing key 5 from `LoneTree` empties the lower half, which its
      parent drops; the root keeps the upper half alone and is shrunk once,
      so the new root is an internal node with one child. */
  lemma {:induction false} LoneFirstRemoval()
    ensures && Descendable(Head(Some(LoneTree()), 3), TinyGeo) && WfKey([5], 1)
            && RemoveAsWritten(Head(Some(LoneTree()), 3), [5], TinyGeo).0 == Head(Some(UpperHalf()), 2)
  {
    LoneTreeValid();
    LoneDetach();
  }

  lemma {:induction false} UpperLower()
    requires Valid(UpperHalf(), 2, TinyGeo)
    ensures WfKey([12], 1) && Lower(UpperHalf(), [12], 2, TinyGeo) == UpperHalf()
  {
    var ks := UpperHalf().kids;
    assert GetPos(ks, [12]) == 0;
    assert Route(ks, [12]) == (0, ks);
    assert ks[0 := Pair(ks[0].key, ks[0].val)] == ks;
  }

  lemma {:induction false} UpperRec()
    ensures && Shaped(UpperHalf(), 2) && Routed(UpperHalf(), [12])
            && RemoveRec(UpperHalf(), [12], TinyGeo, 2) == Rem(Index([]), true, 1)
  {
    var ks := UpperHalf().kids;
    assert Shaped(UpperHalf(), 2) by {
      assert Shaped(ks[0].val, 1);
    }
    assert GetPos(ks, [12]) == 0;
    var l := ks[0].val;
    assert GetPos(l.entries, [12]) == 0;
    assert RemoveRec(l, [12], TinyGeo, 1) == Rem(Leaf([]), true, 1);
    var ks2 := ks[0 := Pair(ks[0].key, Leaf([]))];
    assert Rebalance(ks2, 0, TinyGeo, 1) == ([], true);
  }

  /** In the upper half, key 12 empties the leaf and the parent drops it,
      leaving an internal node without children; the root is not shrunk. */
  lemma {:induction false} UpperRemoval()
    ensures && Descendable(Head(Some(UpperHalf()), 2), TinyGeo) && WfKey([12], 1)
            && RemoveAsWritten(Head(Some(UpperHalf()), 2), [12], TinyGeo).0 == Head(Some(Index([])), 2)
  {
    HalvesValid();
    UpperLower();
    UpperRec();
  }

  /** `cbtree_remove` as written shrinks the root once only. From
      `LoneTree`, which `Valid` admits but the neighbour invariant rules out,
      removing 5 leaves a root with a single child: one shrink is enough only
      on trees that keep that invariant. */
  lemma {:induction false} RemoveLeavesLoneChild()
    ensures ValidHead(Head(Some(LoneTree()), 3), TinyGeo) && WfKey([5], 1)
    ensures RemoveAsWritten(Head(Some(LoneTree()), 3), [5], TinyGeo).0 == Head(Some(UpperHalf()), 2)
    ensures !ValidHead(Head(Some(UpperHalf()), 2), TinyGeo)
  {
    LoneTreeValid();
    LoneFirstRemoval();
  }

  /** Removing 12 next, from the root with a single child that only a tree
      outside the neighbour invariant leads to, leaves a non-NULL root with no
      entries at height 2, from which `find_level` cannot descend. */
  lemma {:induction false} RemoveLeavesEmptyRoot()
    ensures Descendable(Head(Some(UpperHalf()), 2), TinyGeo) && WfKey([12], 1)
    ensures RemoveAsWritten(Head(Some(UpperHalf()), 2), [12], TinyGeo).0 == Head(Some(Index([])), 2)
    ensures !Descendable(Head(Some(Index([])), 2), TinyGeo)
  {
    UpperRemoval();
    EmptyRootStuck();
  }

  /** A non-NULL root with no entries above the leaves admits no descent. */
  lemma {:induction false} EmptyRootStuck()
    ensures !Descendable(Head(Some(Index([])), 2), TinyGeo)
  {
    assert Size(Index([])) == 0;
  }

  /** The removal that repeats the shrink leaves the remaining entry of
      `LoneTree` in a root leaf. */
  lemma {:induction false} RemoveCollapsesRoot()
    ensures ValidHead(Head(Some(LoneTree()), 3), TinyGeo) && WfKey([5], 1)
    ensures Remove(Head(Some(LoneTree()), 3), [5], TinyGeo).0 == Head(Some(Leaf([Pair([12], 1)])), 1)
  {
    LoneTreeValid();
    LoneDetach();
    LoneCollapse();
  }

  lemma {:induction false} LoneCollapse()
    ensures Collapse(Head(Some(Index([Pair([10], UpperHalf())])), 3)) == Head(Some(Leaf([Pair([12], 1)])), 1)
  {
    var hd1 := Head(Some(Index([Pair([10], UpperHalf())])), 3);
    var hd2 := Head(Some(UpperHalf()), 2);
    var hd3 := Head(Some(Leaf([Pair([12], 1)])), 1);
    assert Shrink(hd1) == hd2;
    assert Shrink(hd2) == hd3;
    assert Collapse(hd3) == hd3;
    assert Collapse(hd2) == hd3;
  }
}

=== FILE: tree.dfy ===
/** The cbtree as a value: every node holds only its used slots, internal
    nodes hold (separator, child) pairs and leaves hold (key, value) pairs.
    This module defines the search-tree invariant, the abstract contents of a
    tree and the structural facts the operations rely on. */
module BTree {
  import opened Keys
  import opened Nodes
  import opened Geometry
  import opened Options

  /** The caller's value pointer stored at a leaf slot; NULL marks an unused slot. */
  type Ptr = nat

  /** A node with everything below it. The slot array of the node is
      `Layout(pairs, no_pairs, keylen)` of its used pairs. */
  datatype Tree = Leaf(entries: seq<Pair<Ptr>>) | Index(kids: seq<Pair<Tree>>)

  /** `struct cbtree_head`: the root node (None for NULL) and the height. */
  datatype Head = Head(root: Option<Tree>, height: nat)

  /** Number of used slots of the node. */
  function Size(t: Tree): nat {
    match t
    case Leaf(es) => |es|
    case Index(ks) => |ks|
  }

  /** The leaf entries below `t`, largest key first. */
  function Flat(t: Tree): seq<Pair<Ptr>>
    decreases t
  {
    match t
    case Leaf(es) => es
    case Index(ks) => KidsFlat(ks)
  }

  function KidsFlat(ks: seq<Pair<Tree>>): seq<Pair<Ptr>>
    decreases ks
  {
    if |ks| == 0 then [] else (assert ks[0] in ks; Flat(ks[0].val)) + KidsFlat(ks[1..])
  }

  /** Every key stored at or below `t`: the leaf keys and the separators. */
  ghost function AllKeys(t: Tree): set<Key>
    decreases t
  {
    match t
    case Leaf(es) => set i | 0 <= i < |es| :: es[i].key
    case Index(ks) => KidsKeys(ks)
  }

  ghost function KidsKeys(ks: seq<Pair<Tree>>): set<Key>
    decreases ks
  {
    (set i | 0 <= i < |ks| :: ks[i].key) +
    (set i, x | 0 <= i < |ks| && x in AllKeys(ks[i].val) :: x)
  }

  ghost predicate Above(s: set<Key>, lo: nat) {
    forall x :: x in s ==> lo <= KeyVal(x)
  }

  ghost predicate Below(s: set<Key>, hi: nat) {
    forall x :: x in s ==> KeyVal(x) < hi
  }

  /** The separator search invariant of an internal node: separators strictly
      descending, each a lower bound of its child, and every child's keys
      below the separators of all earlier slots. */
  ghost predicate Fenced(ks: seq<Pair<Tree>>) {
    && (forall i :: 0 <= i < |ks| ==> Above(AllKeys(ks[i].val), KeyVal(ks[i].key)))
    && (forall i, j :: 0 <= i < j < |ks| ==>
          KeyVal(ks[j].key) < KeyVal(ks[i].key) && Below(AllKeys(ks[j].val), KeyVal(ks[i].key)))
  }

  /** A node of height `h` (leaves have height 1) with all its descendants
      well formed: at most `no_pairs` used slots, well-formed keys, strictly
      descending keys, non-null leaf values, non-empty children, and the
      separator search invariant. */
  ghost predicate Valid(t: Tree, h: nat, g: Geo)
    decreases t
  {
    && TreeGeo(g) && Size(t) <= g.noPairs
    && match t
       case Leaf(es) => h == 1 && Descending(es) && KeysWf(es, g.keylen) && NonNull(es)
       case Index(ks) => KidsValid(ks, h, g)
  }

  /** The entries of a well-formed internal node of height `h`. */
  ghost predicate KidsValid(ks: seq<Pair<Tree>>, h: nat, g: Geo)
    decreases ks
  {
    && h >= 2 && KeysWf(ks, g.keylen) && Fenced(ks)
    && forall i :: 0 <= i < |ks| ==>
         Size(ks[i].val) >= 1 && (assert ks[i] in ks; Valid(ks[i].val, h - 1, g))
  }

  /** The root may be an empty leaf, but an internal root has two children at least. */
  ghost predicate ValidRoot(t: Tree, h: nat, g: Geo) {
    Valid(t, h, g) && (t.Index? ==> Size(t) >= 2)
  }

  /** The head invariant: height 0 exactly when the root is NULL. */
  ghost predicate ValidHead(hd: Head, g: Geo) {
    && (hd.height == 0 <==> hd.root.None?)
    && (hd.root.Some? ==> ValidRoot(hd.root.value, hd.height, g))
  }

  /** The map a sequence of entries denotes; an earlier entry wins. */
  function ToMap(ps: seq<Pair<Ptr>>): map<Key, Ptr> {
    if |ps| == 0 then map[] else ToMap(ps[1..])[ps[0].key := ps[0].val]
  }

  /** The contents of a tree as a map from keys to values. */
  function Contents(hd: Head): map<Key, Ptr> {
    match hd.root
    case None => map[]
    case Some(t) => ToMap(Flat(t))
  }

  /** A run of consecutive entries of a well-formed node is well formed. */
  lemma {:induction false} KidsValidSlice(ks: seq<Pair<Tree>>, h: nat, g: Geo, a: nat, b: nat)
    requires KidsValid(ks, h, g) && a <= b <= |ks|
    ensures KidsValid(ks[a..b], h, g)
  {
    var s := ks[a..b];
    forall i | 0 <= i < |s| ensures s[i] == ks[a + i] {}
  }

  lemma {:induction false} KidsFlatAppend(a: seq<Pair<Tree>>, b: seq<Pair<Tree>>)
    ensures KidsFlat(a + b) == KidsFlat(a) + KidsFlat(b)
  {
    if |a| > 0 {
      assert (a + b)[0] == a[0] && (a + b)[1..] == a[1..] + b;
      KidsFlatAppend(a[1..], b);
    } else {
      assert a + b == b;
    }
  }

  lemma {:induction false} KidsFlatOne(p: Pair<Tree>)
    ensures KidsFlat([p]) == Flat(p.val)
  {
    assert [p][1..] == [];
  }

  /** The separators and keys below the entries of an internal node. */
  lemma {:induction false} KidsKeysMember(ks: seq<Pair<Tree>>, x: Key)
    ensures x in KidsKeys(ks) <==>
            exists i :: 0 <= i < |ks| && (x == ks[i].key || x in AllKeys(ks[i].val))
  {
  }

  /** A key held under the slots after the first is held under the node. */
  lemma {:induction false} KidsKeysTail(ks: seq<Pair<Tree>>, x: Key)
    requires |ks| > 0 && x in KidsKeys(ks[1..])
    ensures x in KidsKeys(ks)
  {
    var rest := ks[1..];
    KidsKeysMember(rest, x);
    var j :| 0 <= j < |rest| && (x == rest[j].key || x in AllKeys(rest[j].val));
    assert rest[j] == ks[j + 1];
    KidsKeysMember(ks, x);
  }

  /** Descending runs whose keys are split by a bound concatenate to a descending run. */
  lemma {:induction false} DescendingConcat<V>(a: seq<Pair<V>>, b: seq<Pair<V>>, m: nat)
    requires Descending(a) && Descending(b)
    requires forall i :: 0 <= i < |a| ==> m <= KeyVal(a[i].key)
    requires forall i :: 0 <= i < |b| ==> KeyVal(b[i].key) < m
    ensures Descending(a + b)
  {
    var c := a + b;
    forall i, j | 0 <= i < j < |c| ensures KeyVal(c[j].key) < KeyVal(c[i].key) {
      if j < |a| {
      } else if i >= |a| {
        assert c[i] == b[i - |a|] && c[j] == b[j - |a|];
      } else {
        assert c[j] == b[j - |a|];
      }
    }
  }

  /** The leaf entries of a well-formed tree: descending, well-formed keys,
      non-null values, each key among the tree's keys, and at least one entry
      below a non-empty node. */
  lemma {:induction false} ValidFlat(t: Tree, h: nat, g: Geo)
    requires Valid(t, h, g)
    ensures var f := Flat(t);
            Descending(f) && KeysWf(f, g.keylen) && NonNull(f) &&
            (forall i :: 0 <= i < |f| ==> f[i].key in AllKeys(t)) &&
            (Size(t) >= 1 ==> |f| >= 1)
    decreases t, 1
  {
    match t
    case Leaf(es) =>
    case Index(ks) => KidsFlatValid(ks, h, g);
  }

  lemma {:induction false} KidsFlatValid(ks: seq<Pair<Tree>>, h: nat, g: Geo)
    requires KidsValid(ks, h, g) && TreeGeo(g)
    ensures var f := KidsFlat(ks);
            Descending(f) && KeysWf(f, g.keylen) && NonNull(f) &&
            (forall i :: 0 <= i < |f| ==> f[i].key in KidsKeys(ks)) &&
            (|ks| >= 1 ==> |f| >= 1)
    decreases ks, 0
  {
    if |ks| > 0 {
      assert ks[0] in ks;
      var a, rest := Flat(ks[0].val), ks[1..];
      ValidFlat(ks[0].val, h - 1, g);
      KidsValidSlice(ks, h, g, 1, |ks|);
      KidsFlatValid(rest, h, g);
      var b := KidsFlat(rest);
      FlatFenced(ks, a, b);
      DescendingConcat(a, b, KeyVal(ks[0].key));
    }
  }

  /** The leaf entries under the first slot lie at or above its separator,
      those under the later slots below it, and all are held in the node. */
  lemma {:induction false} FlatFenced(ks: seq<Pair<Tree>>, a: seq<Pair<Ptr>>, b: seq<Pair<Ptr>>)
    requires Fenced(ks) && |ks| > 0
    requires forall i :: 0 <= i < |a| ==> a[i].key in AllKeys(ks[0].val)
    requires forall i :: 0 <= i < |b| ==> b[i].key in KidsKeys(ks[1..])
    ensures forall i :: 0 <= i < |a| ==> KeyVal(ks[0].key) <= KeyVal(a[i].key) && a[i].key in KidsKeys(ks)
    ensures forall i :: 0 <= i < |b| ==> KeyVal(b[i].key) < KeyVal(ks[0].key) && b[i].key in KidsKeys(ks)
  {
    var m := KeyVal(ks[0].key);
    forall i | 0 <= i < |b| ensures KeyVal(b[i].key) < m && b[i].key in KidsKeys(ks) {
      FencedAfter(ks, 0, b[i].key);
      KidsKeysTail(ks, b[i].key);
    }
    forall i | 0 <= i < |a| ensures m <= KeyVal(a[i].key) && a[i].key in KidsKeys(ks) {
      KidsKeysMember(ks, a[i].key);
    }
  }

  /** Every key stored in a well-formed tree has the tree's key length and fits in words. */
  lemma {:induction false} AllKeysWf(t: Tree, h: nat, g: Geo)
    requires Valid(t, h, g)
    ensures forall x :: x in AllKeys(t) ==> WfKey(x, g.keylen)
    decreases t
  {
    match t
    case Leaf(es) =>
    case Index(ks) =>
      forall x | x in AllKeys(t) ensures WfKey(x, g.keylen) {
        KidsKeysMember(ks, x);
        var i :| 0 <= i < |ks| && (x == ks[i].key || x in AllKeys(ks[i].val));
        assert ks[i] in ks;
        AllKeysWf(ks[i].val, h - 1, g);
      }
  }

  /** The map of a descending run holds exactly its keys, each with its value. */
  lemma {:induction false} ToMapMembers(ps: seq<Pair<Ptr>>)
    requires Descending(ps)
    ensures forall k :: k in ToMap(ps) <==> exists i :: 0 <= i < |ps| && ps[i].key == k
    ensures forall i :: 0 <= i < |ps| ==> ToMap(ps)[ps[i].key] == ps[i].val
  {
    if |ps| > 0 {
      var rest := ps[1..];
      assert Descending(rest) by {
        forall i, j | 0 <= i < j < |rest| ensures KeyVal(rest[j].key) < KeyVal(rest[i].key) {
          assert rest[i] == ps[i + 1] && rest[j] == ps[j + 1];
        }
      }
      ToMapMembers(rest);
      forall i | 1 <= i < |ps| ensures ps[i].key != ps[0].key && ps[i] == rest[i - 1] {
        assert KeyVal(ps[i].key) < KeyVal(ps[0].key);
      }
      forall k | k in ToMap(ps) ensures exists i :: 0 <= i < |ps| && ps[i].key == k {
        if k != ps[0].key {
          assert k in ToMap(rest);
          var j :| 0 <= j < |rest| && rest[j].key == k;
          assert ps[j + 1].key == k;
        }
      }
    }
  }

  /** The key in the last used slot of a non-empty node. */
  function LastKey(t: Tree): Key
    requires Size(t) >= 1
  {
    match t
    case Leaf(es) => es[|es| - 1].key
    case Index(ks) => ks[|ks| - 1].key
  }

  /** The key in the last used slot is the smallest key stored in the tree. */
  lemma {:induction false} LastKeyMin(t: Tree, h: nat, g: Geo)
    requires Valid(t, h, g) && Size(t) >= 1
    ensures LastKey(t) in AllKeys(t) && Above(AllKeys(t), KeyVal(LastKey(t)))
  {
    match t
    case Leaf(es) => LeafLastMin(es);
    case Index(ks) => KidsLastMin(ks);
  }

  lemma {:induction false} LeafLastMin(es: seq<Pair<Ptr>>)
    requires Descending(es) && |es| >= 1
    ensures LastKey(Leaf(es)) in AllKeys(Leaf(es)) && Above(AllKeys(Leaf(es)), KeyVal(LastKey(Leaf(es))))
  {
    var n := |es| - 1;
    forall x | x in AllKeys(Leaf(es)) ensures KeyVal(es[n].key) <= KeyVal(x) {
      var i :| 0 <= i < |es| && es[i].key == x;
      if i < n {
        assert KeyVal(es[n].key) < KeyVal(es[i].key);
      }
    }
  }

  lemma {:induction false} KidsLastMin(ks: seq<Pair<Tree>>)
    requires Fenced(ks) && |ks| >= 1
    ensures LastKey(Index(ks)) in AllKeys(Index(ks)) && Above(AllKeys(Index(ks)), KeyVal(LastKey(Index(ks))))
  {
    var n := |ks| - 1;
    KidsKeysMember(ks, ks[n].key);
    assert ks[..|ks|] == ks;
    forall x | x in AllKeys(Index(ks)) ensures KeyVal(ks[n].key) <= KeyVal(x) {
      FencedBefore(ks, |ks|, x);
    }
  }

  /** An internal node of two children is well formed when the children are
      and the two separators fence them. */
  lemma {:induction false} TwoKidsValid(s0: Key, c0: Tree, s1: Key, c1: Tree, h: nat, g: Geo)
    requires h >= 2 && TreeGeo(g) && WfKey(s0, g.keylen) && WfKey(s1, g.keylen)
    requires Valid(c0, h - 1, g) && Size(c0) >= 1 && Valid(c1, h - 1, g) && Size(c1) >= 1
    requires KeyVal(s1) < KeyVal(s0)
    requires Above(AllKeys(c0), KeyVal(s0)) && Above(AllKeys(c1), KeyVal(s1)) && Below(AllKeys(c1), KeyVal(s0))
    ensures KidsValid([Pair(s0, c0), Pair(s1, c1)], h, g)
  {
    var ks := [Pair(s0, c0), Pair(s1, c1)];
    assert Fenced(ks);
    forall i | 0 <= i < |ks| ensures Size(ks[i].val) >= 1 && Valid(ks[i].val, h - 1, g) {
      if i == 0 {} else {}
    }
  }

  /** One level of `find_level`: the first slot whose separator is at most `k`;
      when there is none the right-most separator is lowered to `k` and its
      slot is taken, so a non-empty node always yields a child. */
  function Route(ks: seq<Pair<Tree>>, k: Key): (r: (nat, seq<Pair<Tree>>))
    requires |ks| >= 1 && forall j :: 0 <= j < |ks| ==> |ks[j].key| == |k|
    ensures r.0 < |r.1| == |ks|
    ensures forall j :: 0 <= j < |ks| ==> r.1[j].val == ks[j].val && |r.1[j].key| == |k|
    ensures Longcmp(r.1[r.0].key, k) <= 0
    ensures forall j :: 0 <= j < r.0 ==> Longcmp(r.1[j].key, k) > 0
    ensures r.1 == ks || (r.0 == |ks| - 1 && r.1 == ks[r.0 := Pair(k, ks[r.0].val)])
  {
    var i := GetPos(ks, k);
    if i < |ks| then (i, ks)
    else (|ks| - 1, ks[|ks| - 1 := Pair(k, ks[|ks| - 1].val)])
  }

  /** The leaf entries of a node are those of its children in slot order. */
  lemma {:induction false} KidsFlatAt(ks: seq<Pair<Tree>>, i: nat)
    requires i < |ks|
    ensures KidsFlat(ks) == KidsFlat(ks[..i]) + Flat(ks[i].val) + KidsFlat(ks[i + 1..])
  {
    assert ks == ks[..i] + [ks[i]] + ks[i + 1..];
    KidsFlatAppend(ks[..i] + [ks[i]], ks[i + 1..]);
    KidsFlatAppend(ks[..i], [ks[i]]);
    KidsFlatOne(ks[i]);
  }

  /** Separators take no part in the leaf entries. */
  lemma {:induction false} KidsFlatVals(a: seq<Pair<Tree>>, b: seq<Pair<Tree>>)
    requires |a| == |b| && forall j :: 0 <= j < |a| ==> a[j].val == b[j].val
    ensures KidsFlat(a) == KidsFlat(b)
  {
    if |a| > 0 {
      KidsFlatVals(a[1..], b[1..]);
    }
  }

  /** `find_level`'s step on a well-formed node keeps it well formed and keeps its
      leaf entries; the slot taken is the one whose range holds `k`. */
  lemma {:induction false} RouteValid(ks: seq<Pair<Tree>>, k: Key, h: nat, g: Geo)
    requires KidsValid(ks, h, g) && |ks| >= 1 && WfKey(k, g.keylen)
    ensures var (i, ks1) := Route(ks, k);
            && KidsValid(ks1, h, g) && KidsFlat(ks1) == KidsFlat(ks)
            && KidsKeys(ks1) <= KidsKeys(ks) + {k}
            && KeyVal(ks1[i].key) <= KeyVal(k)
            && (forall j :: 0 <= j < i ==> KeyVal(k) < KeyVal(ks1[j].key))
  {
    var (i, ks1) := Route(ks, k);
    KidsFlatVals(ks1, ks);
    forall j | 0 <= j <= i ensures j < i <==> KeyVal(k) < KeyVal(ks1[j].key) {
      LongcmpOrder(ks1[j].key, k);
    }
    if ks1 != ks {
      LowerLastValid(ks, k, h, g);
    }
  }

  /** Lowering the right-most separator of a node to a key below every separator. */
  lemma {:induction false} LowerLastValid(ks: seq<Pair<Tree>>, k: Key, h: nat, g: Geo)
    requires KidsValid(ks, h, g) && |ks| >= 1 && WfKey(k, g.keylen)
    requires forall j :: 0 <= j < |ks| ==> Longcmp(ks[j].key, k) > 0
    ensures var n := |ks| - 1;
            var ks1 := ks[n := Pair(k, ks[n].val)];
            KidsValid(ks1, h, g) && KidsKeys(ks1) <= KidsKeys(ks) + {k}
  {
    var n := |ks| - 1;
    var ks1 := ks[n := Pair(k, ks[n].val)];
    forall j | 0 <= j < |ks| ensures KeyVal(k) < KeyVal(ks[j].key) {
      LongcmpOrder(ks[j].key, k);
    }
    LowerLastFenced(ks, k);
    assert KidsValid(ks1, h, g) by {
      forall j | 0 <= j < |ks1| ensures ks1[j].val == ks[j].val {}
    }
    LowerLastKeys(ks, k);
  }

  /** The last separator may drop to any key below all separators. */
  lemma {:induction false} LowerLastFenced(ks: seq<Pair<Tree>>, k: Key)
    requires Fenced(ks) && |ks| >= 1
    requires forall j :: 0 <= j < |ks| ==> KeyVal(k) < KeyVal(ks[j].key)
    ensures Fenced(ks[|ks| - 1 := Pair(k, ks[|ks| - 1].val)])
  {
    var n := |ks| - 1;
    var ks1 := ks[n := Pair(k, ks[n].val)];
    assert Above(AllKeys(ks[n].val), KeyVal(ks[n].key));
    forall i | 0 <= i < |ks1| ensures Above(AllKeys(ks1[i].val), KeyVal(ks1[i].key)) {
      assert ks1[i].val == ks[i].val;
    }
    forall i, j | 0 <= i < j < |ks1|
      ensures KeyVal(ks1[j].key) < KeyVal(ks1[i].key) && Below(AllKeys(ks1[j].val), KeyVal(ks1[i].key))
    {
      assert ks1[i] == ks[i] && ks1[j].val == ks[j].val;
    }
  }

  lemma {:induction false} LowerLastKeys(ks: seq<Pair<Tree>>, k: Key)
    requires |ks| >= 1
    ensures KidsKeys(ks[|ks| - 1 := Pair(k, ks[|ks| - 1].val)]) <= KidsKeys(ks) + {k}
  {
    var n := |ks| - 1;
    var ks1 := ks[n := Pair(k, ks[n].val)];
    forall x | x in KidsKeys(ks1) ensures x in KidsKeys(ks) + {k} {
      KidsKeysMember(ks1, x);
      KidsKeysMember(ks, x);
      var j :| 0 <= j < |ks1| && (x == ks1[j].key || x in AllKeys(ks1[j].val));
      if j < n || x != ks1[j].key {
        assert x == ks[j].key || x in AllKeys(ks[j].val);
      }
    }
  }

  /** Putting a well-formed child in slot `i` whose keys fit the slot's range
      keeps the node well formed. */
  lemma {:induction false} ReplaceKid(ks: seq<Pair<Tree>>, i: nat, c: Tree, h: nat, g: Geo)
    requires KidsValid(ks, h, g) && i < |ks|
    requires Valid(c, h - 1, g) && Size(c) >= 1
    requires Above(AllKeys(c), KeyVal(ks[i].key))
    requires forall j :: 0 <= j < i ==> Below(AllKeys(c), KeyVal(ks[j].key))
    ensures var ks1 := ks[i := Pair(ks[i].key, c)];
            && KidsValid(ks1, h, g)
            && KidsFlat(ks1) == KidsFlat(ks[..i]) + Flat(c) + KidsFlat(ks[i + 1..])
            && KidsKeys(ks1) <= KidsKeys(ks) + AllKeys(c)
  {
    var ks1 := ks[i := Pair(ks[i].key, c)];
    assert Fenced(ks1) by {
      assert Fenced(ks);
      forall a | 0 <= a < |ks1| ensures Above(AllKeys(ks1[a].val), KeyVal(ks1[a].key)) {
        if a != i {
          assert ks1[a] == ks[a];
        }
      }
      forall a, b | 0 <= a < b < |ks1|
        ensures KeyVal(ks1[b].key) < KeyVal(ks1[a].key) && Below(AllKeys(ks1[b].val), KeyVal(ks1[a].key))
      {
        assert ks1[a].key == ks[a].key && ks1[b].key == ks[b].key;
        if b != i {
          assert ks1[b] == ks[b];
        }
      }
    }
    assert KidsValid(ks1, h, g) by {
      forall a | 0 <= a < |ks1| ensures Size(ks1[a].val) >= 1 && Valid(ks1[a].val, h - 1, g) {
        if a != i {
          assert ks1[a] == ks[a] && ks[a] in ks;
        }
      }
    }
    KidsFlatAt(ks1, i);
    assert ks1[..i] == ks[..i] && ks1[i + 1..] == ks[i + 1..];
    KidsKeysReplace(ks, i, c);
  }

  lemma {:induction false} KidsKeysReplace(ks: seq<Pair<Tree>>, i: nat, c: Tree)
    requires i < |ks|
    ensures KidsKeys(ks[i := Pair(ks[i].key, c)]) <= KidsKeys(ks) + AllKeys(c)
  {
    var ks1 := ks[i := Pair(ks[i].key, c)];
    forall x | x in KidsKeys(ks1) ensures x in KidsKeys(ks) + AllKeys(c) {
      KidsKeysMember(ks1, x);
      KidsKeysMember(ks, x);
    }
  }

  /** A child whose keys are its old keys and possibly `k`, where `k` lies in
      the child's slot range, can replace the old child. */
  lemma {:induction false} ReplaceKidWithin(ks: seq<Pair<Tree>>, i: nat, c: Tree, k: Key, h: nat, g: Geo)
    requires KidsValid(ks, h, g) && i < |ks|
    requires KeyVal(ks[i].key) <= KeyVal(k)
    requires forall j :: 0 <= j < i ==> KeyVal(k) < KeyVal(ks[j].key)
    requires Valid(c, h - 1, g) && Size(c) >= 1 && AllKeys(c) <= AllKeys(ks[i].val) + {k}
    ensures var ks1 := ks[i := Pair(ks[i].key, c)];
            && KidsValid(ks1, h, g)
            && KidsFlat(ks1) == KidsFlat(ks[..i]) + Flat(c) + KidsFlat(ks[i + 1..])
            && KidsKeys(ks1) <= KidsKeys(ks) + {k}
  {
    assert ks[i] in ks;
    assert Above(AllKeys(ks[i].val), KeyVal(ks[i].key));
    forall j | 0 <= j < i ensures Below(AllKeys(c), KeyVal(ks[j].key)) {
      assert Below(AllKeys(ks[i].val), KeyVal(ks[j].key));
    }
    ReplaceKid(ks, i, c, h, g);
    forall x | x in AllKeys(ks[i].val) ensures x in KidsKeys(ks) {
      KidsKeysMember(ks, x);
    }
  }

  /** Every internal node on the path of `k` has a slot whose separator is
      at most `k`: the state `find_level` leaves the path in. */
  predicate Routed(t: Tree, k: Key)
    decreases t
  {
    match t
    case Leaf(es) => forall j :: 0 <= j < |es| ==> |es[j].key| == |k|
    case Index(ks) =>
      && (forall j :: 0 <= j < |ks| ==> |ks[j].key| == |k|)
      && GetPos(ks, k) < |ks|
      && (assert ks[GetPos(ks, k)] in ks; Routed(ks[GetPos(ks, k)].val, k))
  }

  /** The node `find_level` leaves behind routes `k` when the child it took does. */
  lemma {:induction false} RoutedStep(ks: seq<Pair<Tree>>, k: Key, c: Tree)
    requires |ks| >= 1 && forall j :: 0 <= j < |ks| ==> |ks[j].key| == |k|
    requires Routed(c, k)
    ensures var (i, ks1) := Route(ks, k);
            Routed(Index(ks1[i := Pair(ks1[i].key, c)]), k)
  {
    var (i, ks1) := Route(ks, k);
    var ks2 := ks1[i := Pair(ks1[i].key, c)];
    GetPosIs(ks2, k, i);
    RoutedIndex(ks2, k);
  }

  lemma {:induction false} RoutedIndex(ks: seq<Pair<Tree>>, k: Key)
    requires forall j :: 0 <= j < |ks| ==> |ks[j].key| == |k|
    requires GetPos(ks, k) < |ks| && Routed(ks[GetPos(ks, k)].val, k)
    ensures Routed(Index(ks), k)
  {}

  /** `find_level` down to the leaves: every right-most separator on the path
      of `k` that exceeds `k` is lowered to `k`. The leaf entries stay as they
      were and the tree stays well formed. */
  function Lower(t: Tree, k: Key, ghost h: nat, ghost g: Geo): (r: Tree)
    requires Valid(t, h, g) && (t.Index? ==> Size(t) >= 1) && WfKey(k, g.keylen)
    ensures Valid(r, h, g) && Size(r) == Size(t) && r.Leaf? == t.Leaf?
    ensures Flat(r) == Flat(t) && AllKeys(r) <= AllKeys(t) + {k}
    ensures Routed(r, k)
    ensures NodeCount(r) == NodeCount(t)
    decreases t
  {
    match t
    case Leaf(es) => assert KeysWf(es, g.keylen); t
    case Index(ks) =>
      assert KidsValid(ks, h, g);
      var route := Route(ks, k);
      var i, ks1 := route.0, route.1;
      assert ks[i] in ks;
      var c := Lower(ks1[i].val, k, h - 1, g);
      LowerStep(ks, k, h, g, c);
      RouteNodes(ks, k, c);
      Index(ks1[i := Pair(ks1[i].key, c)])
  }

  /** A path that already routes `k` is left as it is: the descent lowers
      no separator, so a second `find_level` for the same key changes nothing. */
  lemma {:induction false} LowerRouted(t: Tree, k: Key, h: nat, g: Geo)
    requires Valid(t, h, g) && (t.Index? ==> Size(t) >= 1) && WfKey(k, g.keylen)
    requires Routed(t, k)
    ensures Lower(t, k, h, g) == t
    decreases t
  {
    match t
    case Leaf(_) =>
    case Index(ks) =>
      assert KidsValid(ks, h, g);
      var i := GetPos(ks, k);
      assert Route(ks, k) == (i, ks);
      assert ks[i] in ks;
      LowerRouted(ks[i].val, k, h - 1, g);
      assert ks[i := Pair(ks[i].key, ks[i].val)] == ks;
  }

  /** The nodes making up `t`, itself included: what the pool handed out
      to build it. */
  ghost function NodeCount(t: Tree): nat
    decreases t
  {
    match t
    case Leaf(_) => 1
    case Index(ks) => 1 + KidsNodes(ks)
  }

  ghost function KidsNodes(ks: seq<Pair<Tree>>): nat
    decreases ks
  {
    if |ks| == 0 then 0 else (assert ks[0] in ks; NodeCount(ks[0].val)) + KidsNodes(ks[1..])
  }

  /** The nodes of a tree through its head; an empty tree has none. */
  ghost function HeadNodes(hd: Head): nat {
    match hd.root
    case None => 0
    case Some(t) => NodeCount(t)
  }

  lemma {:induction false} KidsNodesAppend(a: seq<Pair<Tree>>, b: seq<Pair<Tree>>)
    ensures KidsNodes(a + b) == KidsNodes(a) + KidsNodes(b)
  {
    if |a| > 0 {
      assert (a + b)[0] == a[0] && (a + b)[1..] == a[1..] + b;
      KidsNodesAppend(a[1..], b);
    } else {
      assert a + b == b;
    }
  }

  /** The nodes below a run of slots with one slot singled out. */
  lemma {:induction false} KidsNodesSplice(a: seq<Pair<Tree>>, q: Pair<Tree>, b: seq<Pair<Tree>>)
    ensures KidsNodes(a + [q] + b) == KidsNodes(a) + NodeCount(q.val) + KidsNodes(b)
  {
    KidsNodesAppend(a + [q], b);
    KidsNodesAppend(a, [q]);
    assert [q][1..] == [];
  }

  /** Replacing the child of slot `i` changes the count by the difference
      of the two children; its separator takes no part. */
  lemma {:induction false} KidsNodesSet(ks: seq<Pair<Tree>>, i: nat, q: Pair<Tree>)
    requires i < |ks|
    ensures KidsNodes(ks[i := q]) + NodeCount(ks[i].val) == KidsNodes(ks) + NodeCount(q.val)
  {
    assert ks == ks[..i] + [ks[i]] + ks[i + 1..];
    assert ks[i := q] == ks[..i] + [q] + ks[i + 1..];
    KidsNodesSplice(ks[..i], ks[i], ks[i + 1..]);
    KidsNodesSplice(ks[..i], q, ks[i + 1..]);
  }

  /** One step of `find_level`: the routed slot's child replaced by `c`. */
  lemma {:induction false} RouteNodes(ks: seq<Pair<Tree>>, k: Key, c: Tree)
    requires |ks| >= 1 && forall j :: 0 <= j < |ks| ==> |ks[j].key| == |k|
    ensures var (i, ks1) := Route(ks, k);
            KidsNodes(ks1[i := Pair(ks1[i].key, c)]) + NodeCount(ks[i].val) == KidsNodes(ks) + NodeCount(c)
  {
    var (i, ks1) := Route(ks, k);
    if ks1 != ks {
      KidsNodesSet(ks, i, Pair(k, ks[i].val));
    }
    KidsNodesSet(ks1, i, Pair(ks1[i].key, c));
  }

  lemma {:induction false} LowerStep(ks: seq<Pair<Tree>>, k: Key, h: nat, g: Geo, c: Tree)
    requires Valid(Index(ks), h, g) && h >= 2 && KeysWf(ks, g.keylen) && |ks| >= 1 && WfKey(k, g.keylen)
    requires var r := Route(ks, k);
             && Valid(c, h - 1, g) && Size(c) == Size(r.1[r.0].val)
             && Flat(c) == Flat(r.1[r.0].val) && AllKeys(c) <= AllKeys(r.1[r.0].val) + {k}
             && Routed(c, k)
    ensures var r := Route(ks, k);
            var t := Index(r.1[r.0 := Pair(r.1[r.0].key, c)]);
            && Valid(t, h, g) && Size(t) == |ks|
            && Flat(t) == KidsFlat(ks) && AllKeys(t) <= KidsKeys(ks) + {k}
            && Routed(t, k)
  {
    RoutedStep(ks, k, c);
    RouteValid(ks, k, h, g);
    var (i, ks1) := Route(ks, k);
    assert ks1[i] in ks1;
    ReplaceKidWithin(ks1, i, c, k, h, g);
    KidsFlatAt(ks1, i);
  }

  /** The leaf entries of a node split at slot `i`: those of earlier slots are
      at least the separator of slot i-1, those of later slots are below the
      separator of slot i. */
  lemma {:induction false} KidsFlatParts(ks: seq<Pair<Tree>>, i: nat, h: nat, g: Geo)
    requires KidsValid(ks, h, g) && TreeGeo(g) && i < |ks|
    ensures KidsFlat(ks) == KidsFlat(ks[..i]) + Flat(ks[i].val) + KidsFlat(ks[i + 1..])
    ensures var a := KidsFlat(ks[..i]);
            i > 0 ==> forall x :: 0 <= x < |a| ==> KeyVal(ks[i - 1].key) <= KeyVal(a[x].key)
    ensures var b := KidsFlat(ks[i + 1..]);
            forall y :: 0 <= y < |b| ==> KeyVal(b[y].key) < KeyVal(ks[i].key)
  {
    KidsFlatAt(ks, i);
    if i > 0 {
      KidsFlatBefore(ks, i, h, g);
    }
    KidsFlatAfter(ks, i, h, g);
  }

  lemma {:induction false} KidsFlatBefore(ks: seq<Pair<Tree>>, i: nat, h: nat, g: Geo)
    requires KidsValid(ks, h, g) && TreeGeo(g) && 0 < i <= |ks|
    ensures var a := KidsFlat(ks[..i]);
            forall x :: 0 <= x < |a| ==> KeyVal(ks[i - 1].key) <= KeyVal(a[x].key)
  {
    var pre := ks[..i];
    KidsValidSlice(ks, h, g, 0, i);
    KidsFlatValid(pre, h, g);
    var a := KidsFlat(pre);
    forall x | 0 <= x < |a| ensures KeyVal(ks[i - 1].key) <= KeyVal(a[x].key) {
      FencedBefore(ks, i, a[x].key);
    }
  }

  /** A key held under one of the first `i` slots is at least the
      separator of slot `i - 1`. */
  lemma {:induction false} FencedBefore(ks: seq<Pair<Tree>>, i: nat, x: Key)
    requires Fenced(ks) && 0 < i <= |ks| && x in KidsKeys(ks[..i])
    ensures KeyVal(ks[i - 1].key) <= KeyVal(x)
  {
    var pre := ks[..i];
    KidsKeysMember(pre, x);
    var j :| 0 <= j < |pre| && (x == pre[j].key || x in AllKeys(pre[j].val));
    assert pre[j] == ks[j];
    var lo := KeyVal(ks[j].key);
    assert KeyVal(ks[i - 1].key) <= lo by {
      if j < i - 1 {
        assert KeyVal(ks[i - 1].key) < KeyVal(ks[j].key);
      }
    }
    if x != ks[j].key {
      assert Above(AllKeys(ks[j].val), lo);
    }
  }

  /** A key held under a slot after `i` is below the separator of slot
      `i`. */
  lemma {:induction false} FencedAfter(ks: seq<Pair<Tree>>, i: nat, x: Key)
    requires Fenced(ks) && i < |ks| && x in KidsKeys(ks[i + 1..])
    ensures KeyVal(x) < KeyVal(ks[i].key)
  {
    var post := ks[i + 1..];
    KidsKeysMember(post, x);
    var j :| 0 <= j < |post| && (x == post[j].key || x in AllKeys(post[j].val));
    assert post[j] == ks[i + 1 + j];
    assert Below(AllKeys(ks[i + 1 + j].val), KeyVal(ks[i].key));
  }

  lemma {:induction false} KidsFlatAfter(ks: seq<Pair<Tree>>, i: nat, h: nat, g: Geo)
    requires KidsValid(ks, h, g) && TreeGeo(g) && i < |ks|
    ensures var b := KidsFlat(ks[i + 1..]);
            forall y :: 0 <= y < |b| ==> KeyVal(b[y].key) < KeyVal(ks[i].key)
  {
    var post := ks[i + 1..];
    KidsValidSlice(ks, h, g, i + 1, |ks|);
    KidsFlatValid(post, h, g);
    var b := KidsFlat(post);
    forall y | 0 <= y < |b| ensures KeyVal(b[y].key) < KeyVal(ks[i].key) {
      FencedAfter(ks, i, b[y].key);
    }
  }

  /** Changing the value stored under one key changes the map at that key only. */
  lemma {:induction false} ToMapReplace(f: seq<Pair<Ptr>>, f1: seq<Pair<Ptr>>, k: Key, v: Ptr)
    requires Descending(f) && |f1| == |f|
    requires forall j :: 0 <= j < |f| ==> f1[j] == if f[j].key == k then Pair(k, v) else f[j]
    requires exists j :: 0 <= j < |f| && f[j].key == k
    ensures ToMap(f1) == ToMap(f)[k := v]
  {
    SameKeysDescending(f, f1);
    ToMapMembers(f);
    ToMapMembers(f1);
    MapExt(ToMap(f), ToMap(f1), f, f1, k, v);
  }

  lemma {:induction false} SameKeysDescending<V>(f: seq<Pair<V>>, f1: seq<Pair<V>>)
    requires Descending(f) && |f1| == |f|
    requires forall j :: 0 <= j < |f| ==> f1[j].key == f[j].key
    ensures Descending(f1)
  {}

  lemma {:induction false} MapExt(m: map<Key, Ptr>, m1: map<Key, Ptr>, f: seq<Pair<Ptr>>, f1: seq<Pair<Ptr>>, k: Key, v: Ptr)
    requires |f1| == |f|
    requires forall j :: 0 <= j < |f| ==> f1[j] == if f[j].key == k then Pair(k, v) else f[j]
    requires exists j :: 0 <= j < |f| && f[j].key == k
    requires forall x :: x in m <==> exists i :: 0 <= i < |f| && f[i].key == x
    requires forall i :: 0 <= i < |f| ==> m[f[i].key] == f[i].val
    requires forall x :: x in m1 <==> exists i :: 0 <= i < |f1| && f1[i].key == x
    requires forall i :: 0 <= i < |f1| ==> m1[f1[i].key] == f1[i].val
    ensures m1 == m[k := v]
  {
    forall x | x in m1 ensures x in m {
      var j :| 0 <= j < |f1| && f1[j].key == x;
      assert f[j].key == x;
    }
    forall x | x in m ensures x in m1 && m1[x] == m[k := v][x] {
      var j :| 0 <= j < |f| && f[j].key == x;
      assert f1[j].key == x;
    }
  }
}

=== FILE: whole.dfy ===
/** Whole-tree operations of the cbtree: `cbtree_merge`, which drains one
    tree into another entry by entry, and the visitors built on
    `__cbtree_for_each`, which walk every leaf slot in order and count. */
module WholeTree {
  import opened Keys
  import opened Nodes
  import opened Geometry
  import opened Options
  import opened BTree
  import opened Search
  import opened Insertion
  import opened Removal
  import opened Ordered

  /** Every key a well-formed tree stores is well formed and maps to a
      non-null value. */
  lemma {:induction false} ContentsWf(hd: Head, g: Geo)
    requires ValidHead(hd, g)
    ensures forall x :: x in Contents(hd) ==> WfKey(x, g.keylen) && Contents(hd)[x] != NULL
  {
    var f := Entries(hd, g);
    ToMapMembers(f);
    forall x | x in Contents(hd) ensures WfKey(x, g.keylen) && Contents(hd)[x] != NULL {
      var i :| 0 <= i < |f| && f[i].key == x;
    }
  }

  /** Removing a stored key leaves one key fewer. */
  lemma {:induction false} DropOne(m: map<Key, Ptr>, k: Key)
    requires k in m
    ensures |(m - {k}).Keys| < |m.Keys|
  {
    assert (m - {k}).Keys == m.Keys - {k};
  }

  /** One round of the merge loop: the largest entry of the victim moves to
      the target; the union of both trees and their disjointness are kept. */
  lemma {:induction false} MoveKeeps(mt: map<Key, Ptr>, mv: map<Key, Ptr>, k: Key, v: Ptr)
    requires mt.Keys !! mv.Keys && k in mv && mv[k] == v
    ensures mt[k := v].Keys !! (mv - {k}).Keys
    ensures mt[k := v] + (mv - {k}) == mt + mv
  {
  }

  /** Two trees holding between them, each key once, the entries of `m`. */
  ghost predicate Parted(t: Head, v: Head, m: map<Key, Ptr>, g: Geo) {
    && ValidHead(t, g) && ValidHead(v, g)
    && Contents(t).Keys !! Contents(v).Keys
    && Contents(t) + Contents(v) == m
  }

  /** The victim still holds entries, and the pool cannot supply the nodes
      that inserting its largest entry into the target needs. */
  ghost predicate Starved(t: Head, v: Head, g: Geo, avail: nat)
    requires ValidHead(t, g) && ValidHead(v, g)
  {
    var l := Last(v, ZeroKey(g.keylen), g);
    && l.0 != NULL
    && (ContentsWf(v, g); avail < Need(t, Pair(l.1, l.0), g))
  }

  /** The loop of `cbtree_merge`: `cbtree_last` names the victim's largest
      key, `cbtree_lookup` its value; the pair is inserted into the target
      and, when that succeeds, removed from the victim, and the loop goes
      on until the victim is empty or an insert fails for want of nodes.
      `avail` is the number of nodes the pool can still hand out and `key`
      the caller's key buffer; the fourth result is the number left, which
      is `avail` less exactly the nodes the target has grown by. */
  function Drain(t: Head, v: Head, g: Geo, avail: nat, key: Key): (r: (Head, Head, int, nat))
    requires TreeGeo(g) && ValidHead(t, g) && ValidHead(v, g)
    requires Contents(t).Keys !! Contents(v).Keys
    ensures Parted(r.0, r.1, Contents(t) + Contents(v), g)
    ensures r.2 == 0 || r.2 == -ENOMEM
    ensures r.2 == 0 ==> Contents(r.1) == map[]
    ensures r.2 == -ENOMEM ==> Starved(r.0, r.1, g, r.3)
    ensures r.3 <= avail
    ensures r.3 + HeadNodes(r.0) == avail + HeadNodes(t)
    decreases |Contents(v).Keys|
  {
    var last := Last(v, key, g);
    if last.0 == NULL then (t, v, 0, avail)
    else
      var k := last.1;
      ContentsWf(v, g);
      var p := Pair(k, Lookup(v, k, g));
      var ins := Insert(t, p, g, avail);
      InsertNodes(t, p, g, avail);
      if ins.1 != 0 then
        FailedInsertNeed(t, p, g, avail);
        assert Last(v, ZeroKey(g.keylen), g) == last;
        (ins.0, v, ins.1, avail)
      else
        var rem := Remove(v, k, g);
        MoveKeeps(Contents(t), Contents(v), k, p.val);
        DropOne(Contents(v), k);
        Drain(ins.0, rem.0, g, avail - Need(t, p, g), k)
  }

  /** `cbtree_merge` of two distinct trees with disjoint keys. An empty
      target takes the victim's root and height while the victim is reset;
      otherwise the victim is drained into the target. Every entry ends up
      in exactly one of the two trees, on success all of them are in the
      target, and a failure leaves the pool short of what the next insert
      needs, every node taken from it having gone into the target. */
  function MergeTrees(target: Head, victim: Head, g: Geo, avail: nat): (r: (Head, Head, int, nat))
    requires TreeGeo(g) && ValidHead(target, g) && ValidHead(victim, g)
    requires Contents(target).Keys !! Contents(victim).Keys
    ensures Parted(r.0, r.1, Contents(target) + Contents(victim), g)
    ensures r.2 == 0 || r.2 == -ENOMEM
    ensures r.2 == 0 ==> Contents(r.1) == map[] && Contents(r.0) == Contents(target) + Contents(victim)
    ensures r.2 == -ENOMEM ==> Starved(r.0, r.1, g, r.3)
    ensures r.3 <= avail
    ensures target.root.Some? ==> r.3 + HeadNodes(r.0) == avail + HeadNodes(target)
    ensures target.root.None? ==> r == (victim, Head(None, 0), 0, avail)
  {
    if target.root.None? then (victim, Head(None, 0), 0, avail)
    else Drain(target, victim, g, avail, ZeroKey(g.keylen))
  }

  /** One call of the visitor's callback: the element, its key and its
      running index. */
  datatype Visit = Visit(elem: Ptr, key: Key, index: nat)

  /** The calls a walk makes over `ps`, indices counted from `from`. */
  ghost predicate Numbered(calls: seq<Visit>, ps: seq<Pair<Ptr>>, from: nat) {
    && |calls| == |ps|
    && forall i :: 0 <= i < |calls| ==> calls[i] == Visit(ps[i].val, ps[i].key, from + i)
  }

  /** `__cbtree_for_each` over the leaf slots below `t`: slot by slot until
      the first NULL value, descending into children above the leaf level
      and handing each leaf entry to the callback with the running count.
      Returns the calls made and the count reached. */
  function ForEach(t: Tree, count: nat): (r: (seq<Visit>, nat))
    ensures r.1 == count + |r.0|
    ensures NonNull(Flat(t)) ==> Numbered(r.0, Flat(t), count)
    decreases t, 1
  {
    match t
    case Leaf(es) => LeafVisits(es, count)
    case Index(ks) => KidsVisits(ks, count)
  }

  /** The leaf level: each entry up to the first NULL value, numbered on. */
  function LeafVisits(es: seq<Pair<Ptr>>, count: nat): (r: (seq<Visit>, nat))
    ensures r.1 == count + |r.0| && |r.0| <= |es|
    ensures NonNull(es) ==> Numbered(r.0, es, count)
  {
    if |es| == 0 || es[0].val == NULL then ([], count)
    else
      var rest := LeafVisits(es[1..], count + 1);
      ([Visit(es[0].val, es[0].key, count)] + rest.0, rest.1)
  }

  /** An internal level: the children in slot order, the count threaded
      through. */
  function KidsVisits(ks: seq<Pair<Tree>>, count: nat): (r: (seq<Visit>, nat))
    ensures r.1 == count + |r.0|
    ensures NonNull(KidsFlat(ks)) ==> Numbered(r.0, KidsFlat(ks), count)
    decreases ks, 0
  {
    if |ks| == 0 then ([], count)
    else
      assert ks[0] in ks;
      var first := ForEach(ks[0].val, count);
      var rest := KidsVisits(ks[1..], first.1);
      NonNullSplit(Flat(ks[0].val), KidsFlat(ks[1..]));
      NumberedConcat(first.0, rest.0, Flat(ks[0].val), KidsFlat(ks[1..]), count);
      (first.0 + rest.0, rest.1)
  }

  lemma {:induction false} NonNullSplit(a: seq<Pair<Ptr>>, b: seq<Pair<Ptr>>)
    ensures NonNull(a + b) ==> NonNull(a) && NonNull(b)
  {
    if NonNull(a + b) {
      assert forall i :: 0 <= i < |b| ==> b[i] == (a + b)[|a| + i];
      assert forall i :: 0 <= i < |a| ==> a[i] == (a + b)[i];
    }
  }

  /** The calls over two runs, one after the other, are the calls over the
      joined run. */
  lemma {:induction false} NumberedConcat(c1: seq<Visit>, c2: seq<Visit>, a: seq<Pair<Ptr>>, b: seq<Pair<Ptr>>, from: nat)
    ensures Numbered(c1, a, from) && Numbered(c2, b, from + |a|) ==> Numbered(c1 + c2, a + b, from)
  {
    if Numbered(c1, a, from) && Numbered(c2, b, from + |a|) {
      var c, p := c1 + c2, a + b;
      forall i | 0 <= i < |c| ensures c[i] == Visit(p[i].val, p[i].key, from + i) {
        if i >= |c1| {
          assert c[i] == c2[i - |c1|] && p[i] == b[i - |a|];
        }
      }
    }
  }

  /** The number of entries of a descending run is the number of keys of
      its map. */
  lemma {:induction false} ToMapSize(f: seq<Pair<Ptr>>)
    requires Descending(f)
    ensures |ToMap(f).Keys| == |f|
  {
    if |f| > 0 {
      var rest := f[1..];
      assert Descending(rest) by {
        forall i, j | 0 <= i < j < |rest| ensures KeyVal(rest[j].key) < KeyVal(rest[i].key) {
          assert rest[i] == f[i + 1] && rest[j] == f[j + 1];
        }
      }
      ToMapSize(rest);
      ToMapMembers(rest);
      forall j | 0 <= j < |rest| ensures rest[j].key != f[0].key {
        assert rest[j] == f[j + 1];
      }
      assert ToMap(f).Keys == ToMap(rest).Keys + {f[0].key};
    }
  }

  /** `cbtree_visitor`: with no callback the walk runs the empty callback,
      so no call is observed; either way the count of stored entries comes
      back and the tree is untouched. The calls visit every entry exactly
      once, largest key first, numbered from 0. */
  function Visitor(hd: Head, hasFunc: bool, ghost g: Geo): (r: (seq<Visit>, nat))
    requires ValidHead(hd, g)
    ensures r.1 == |Contents(hd).Keys|
    ensures !hasFunc ==> r.0 == []
    ensures hasFunc ==> Numbered(r.0, Entries(hd, g), 0)
  {
    match hd.root
    case None => ([], 0)
    case Some(t) =>
      var w := ForEach(t, 0);
      ValidFlat(t, hd.height, g);
      ToMapSize(Flat(t));
      (if hasFunc then w.0 else [], w.1)
  }

  /** `cbtree_grim_visitor`: the same walk, freeing each node behind it,
      and the head reset to the empty tree. */
  function GrimVisitor(hd: Head, hasFunc: bool, ghost g: Geo): (r: (seq<Visit>, nat, Head))
    requires ValidHead(hd, g)
    ensures r.1 == |Contents(hd).Keys|
    ensures !hasFunc ==> r.0 == []
    ensures hasFunc ==> Numbered(r.0, Entries(hd, g), 0)
    ensures r.2 == Head(None, 0) && Contents(r.2) == map[]
  {
    var w := Visitor(hd, hasFunc, g);
    (w.0, w.1, Head(None, 0))
  }

  /** The visitor and `cbtree_for_each_safe` as meant see the same entries
      in the same order, strictly decreasing keys. */
  lemma {:induction false} VisitorMatchesIteration(hd: Head, key0: Key, g: Geo, visited: seq<Pair<Ptr>>)
    requires ValidHead(hd, g) && WfKey(key0, g.keylen)
    requires visited == (if hd.root.None? then [] else Flat(hd.root.value))
    ensures var calls := Visitor(hd, true, g).0;
            && |calls| == |visited|
            && (forall i :: 0 <= i < |calls| ==> calls[i].key == visited[i].key && calls[i].elem == visited[i].val)
            && (forall i, j :: 0 <= i < j < |calls| ==> KeyVal(calls[j].key) < KeyVal(calls[i].key))
  {
    var calls := Visitor(hd, true, g).0;
    var f := Entries(hd, g);
    assert f == visited;
    forall i, j | 0 <= i < j < |calls| ensures KeyVal(calls[j].key) < KeyVal(calls[i].key) {
      assert calls[i].key == f[i].key && calls[j].key == f[j].key;
    }
  }

  /** Removing a key twice: the second removal finds nothing and changes
      nothing. */
  lemma {:induction false} RemoveTwice(hd: Head, k: Key, g: Geo)
    requires ValidHead(hd, g) && WfKey(k, g.keylen)
    ensures var r1 := Remove(hd, k, g);
            var r2 := Remove(r1.0, k, g);
            r2.1 == NULL && Contents(r2.0) == Contents(r1.0)
  {
    var r1 := Remove(hd, k, g);
    assert k !in Contents(r1.0);
    assert Contents(r1.0) - {k} == Contents(r1.0);
  }

  /** An insert that succeeds, then the removal of the same key: the value
      inserted comes back and the contents are as before. */
  lemma {:induction false} InsertThenRemove(hd: Head, p: Pair<Ptr>, g: Geo, avail: nat)
    requires TreeGeo(g) && ValidHead(hd, g) && WfKey(p.key, g.keylen) && p.val != NULL
    requires p.key !in Contents(hd) && Need(hd, p, g) <= avail
    ensures var r1 := Insert(hd, p, g, avail);
            var r2 := Remove(r1.0, p.key, g);
            r1.1 == 0 && r2.1 == p.val && Contents(r2.0) == Contents(hd)
  {
    var r1 := Insert(hd, p, g, avail);
    assert Contents(hd)[p.key := p.val] - {p.key} == Contents(hd);
  }

  /** An update of a stored key, then a lookup: the new value is found and
      every other key keeps its value. */
  lemma {:induction false} UpdateThenLookup(hd: Head, k: Key, v: Ptr, x: Key, g: Geo)
    requires ValidHead(hd, g) && WfKey(k, g.keylen) && WfKey(x, g.keylen) && v != NULL
    requires k in Contents(hd)
    ensures var r := Update(hd, k, v, g);
            r.1 == 0 && Lookup(r.0, k, g) == v &&
            (x != k ==> Lookup(r.0, x, g) == Lookup(hd, x, g))
  {
  }

  /** `cbtree_init` as written: the `return -ENOMEM` after the test of the
      new pool is not braced together with the message, so it runs whether
      or not the pool was created. The head is the empty tree either way. */
  function InitAsWritten(created: bool): (r: (Head, int))
    ensures r.0.root.None? && r.0.height == 0
    ensures r.1 != 0
  {
    (Head(None, 0), -ENOMEM)
  }

  /** `cbtree_init` as evidently meant: an empty, well-formed tree, and 0
      exactly when the pool was created, `-ENOMEM` otherwise. */
  function Init(created: bool, g: Geo): (r: (Head, int))
    ensures ValidHead(r.0, g) && Contents(r.0) == map[]
    ensures r.1 == 0 <==> created
    ensures r.1 == 0 || r.1 == -ENOMEM
  {
    (Head(None, 0), if created then 0 else -ENOMEM)
  }

  /** Even when the pool is created, `cbtree_init` as written reports
      `-ENOMEM`, where the corrected one reports success. */
  lemma InitFailsAsWritten(g: Geo)
    ensures InitAsWritten(true).1 == -ENOMEM && Init(true, g).1 == 0
  {
  }
}
